=== FILE: README.md ===
# Sniffles core, modelled in Dafny

Sniffles is a CS:GO packet sniffer. It picks UDP datagrams from the game
server's port. Each datagram is ICE-decrypted in 8-byte blocks. The inner
packet is then unwrapped from its length-checked envelope and decoded with
a word-cached, little-endian bit reader (`CBitRead`). The decoder reads
the packet header and then a loop of frames. Each frame is a varint
command and a varint size; four commands are handed to protobuf parsers,
and the others are skipped. Beside the network path there is a demo
packet reader (`CPacket`, `packetcmdinfo_t`), a small string library
(`String`, `string_t`), and a `'|'`-delimited configuration blob.

This project models that core as pure Dafny functions over immutable
values.

- **Bit reader.** The `CBitRead` state (`m_pData`, `m_pDataIn`,
  `m_nInBufWord`, `m_nBitsAvail`, `m_nDataBits`, the overflow flag) is a
  `BitRead.Reader` record. Every reader operation returns the next reader.
- **Stream spec.** Each reader operation is proved to refine a simple
  specification: `BitStream.Take` on a cursor into the byte stream, read
  LSB-first. The `*Agree` lemmas state, for each decoder, that the real
  reader (`Src.Real`) and the stream (`Src.Ideal`) yield the same values
  and stay in correspondence.
- **Round trips.** Each decoder is paired with the layout its writer emits
  (`*Fields`), and a round-trip lemma reads that layout back.
- **Packet framing.** `ReadPacket`'s frame loop has a fuel bound.
  `Datagram` holds the block-decryption framing and the unwrap check; the
  cipher is a parameter.
- **`CPacket`.** A value with a position. Each read returns the values
  that the C++ code writes through reference parameters.
- **`String`.** Its text and its `_length`/`_size` bookkeeping.
- **`string_t`.** Its pointer identity is an address that the caller
  supplies.
- **Configuration.** A byte sequence with a `Layout` view: the fields, each
  ended by `'|'`, and the bytes after the last delimiter.

Integer widths follow the source's 32-bit Windows target:
- `size_t` and pointers are 32 bits.
- `unsigned long` is 4 bytes.
- `int` arithmetic that can overflow is wrapped explicitly (`BitOps.Int32`,
  `Uint32`, `Shl32`).

Four places where the code does something other than what it evidently
intends are recorded under "## Findings". Each is modelled twice: once as
written, and once corrected.

The frame loop tests only `GetNumBytesRead() < size` and never the
reader's overflow flag (sniffles.cpp:27). The model follows the code.

## Model

| member | source | states |
|---|---|---|
| BitRead.MaskTableEntry | Sniffles/packetbitbuf.cpp:28-62 | every entry k of the 33-entry mask table is the mask of the low k bits, 2^k - 1 |
| BitRead.GrabNextDWord | Sniffles/packetbitbuf.cpp:81-106 | the buffer, the pad byte and the bit count are untouched; overflow becomes set exactly when the word pointer is past the end, or at the end and the caller asked for immediate overflow; the loaded word fits 32 bits |
| BitRead.FetchNext | Sniffles/packetbitbuf.cpp:108-112 | a refill never latches overflow at the buffer end itself, only past it |
| BitRead.ReadOneBit | Sniffles/packetbitbuf.cpp:114-126 | a one-bit value; overflow is sticky, and it is newly latched only when the word pointer has passed the end |
| BitRead.ReadUBitLong | Sniffles/packetbitbuf.cpp:156-185 | a value below 2^32; overflow is sticky, and it is newly latched only when the word pointer has reached the end |
| BitRead.Seek | Sniffles/packetbitbuf.cpp:265-316 | success exactly for positions 0..m_nDataBits; overflow afterwards is the old flag or a failed seek |
| BitRead.StartReading | Sniffles/packetbitbuf.cpp:319-342 | `nBits == -1` means the whole buffer; overflow is set exactly when the start bit lies outside 0..m_nDataBits |
| BitRead.GetNumBitsRead | Sniffles/packetbitbuf.cpp:64-74 | the position never exceeds m_nDataBits |
| BitRead.GetNumBytesRead | Sniffles/packetbitbuf.cpp:76-79 | the bit count rounded up to whole bytes (8n - 8 < bits <= 8n) |
| BitReadProofs.ReadUBitLongInside | Sniffles/packetbitbuf.cpp:156-185 | a field inside the buffer reads the next n stream bits, LSB-first; the reader then tracks position p + n with no overflow |
| BitReadProofs.ReadUBitLongPastEnd | Sniffles/packetbitbuf.cpp:171-184 | a field running past the buffer end reads 0 and leaves the reader dead (overflowed with an empty word) |
| BitReadProofs.ReadUBitLongStale | Sniffles/packetbitbuf.cpp:158-184 | after overflow, fields still served from the cached word read correctly, and a field needing a merge reads 0 |
| BitReadProofs.ReadDead | Sniffles/packetbitbuf.cpp:171-184 | a dead reader reads 0 and stays dead |
| BitReadProofs.ReadUBitLongRefines | Sniffles/packetbitbuf.cpp:156-185 | on every reader that models a cursor, ReadUBitLong is exactly `Take` of n bits on that cursor, and the next reader models the next cursor |
| BitReadProofs.ReadOneBitRefines | Sniffles/packetbitbuf.cpp:114-126 | ReadOneBit is a one-bit `Take` on the modelled cursor |
| BitReadProofs.ReadOneBitStarved | Sniffles/packetbitbuf.cpp:114-126 | with no bits cached, ReadOneBit never refills and never latches overflow; it shifts out whatever the word holds |
| BitReadProofs.SeekTracks | Sniffles/packetbitbuf.cpp:265-316 | a seek inside 0..m_nDataBits puts the reader at that bit; a seek outside puts it at m_nDataBits; the only exception is the end of a buffer of fewer than 4 bytes, which leaves it starved |
| BitReadProofs.StartReadingModels | Sniffles/packetbitbuf.cpp:319-342 | after StartReading the reader models the stream cursor at the start bit, or sits overflowed at m_nDataBits |
| BitReadProofs.NumBitsReadTracks | Sniffles/packetbitbuf.cpp:64-74 | on a reader at position p, GetNumBitsRead is p capped at m_nDataBits |
| BitReadProofs.NumBitsReadExhausted | Sniffles/packetbitbuf.cpp:64-74 | a dead or starved reader reports all of m_nDataBits as read |
| BitStream.Take | Sniffles/packetbitbuf.cpp:156-185 | the stream model of a field read: below 2^n; a live result lies n bits on and within the buffer; a dead cursor reads 0 |
| BitStream.TakeTwice | Sniffles/packetbitbuf.cpp:171-184 | reading a bits and then b bits is reading a + b bits, with the second part shifted above the first |
| BitSource.UBits | Sniffles/packetbitbuf.cpp:156-185 | on both sources: same buffer, value below 2^32, and below 2^n on the stream; overflow is sticky |
| BitSource.SBits | Sniffles/packetbitbuf.cpp:187-192 | the signed read consumes exactly what the unsigned read does, and gives an int32 |
| BitSource.IdealUBits | Sniffles/packetbitbuf.cpp:156-185 | on the stream, a field inside the buffer is the next n bits |
| BitSource.IdealSBits | Sniffles/packetbitbuf.cpp:187-192 | on the stream, ReadSBitLong is the sign extension of the next n bits from bit n - 1 |
| BitSource.IdealPastEnd | Sniffles/packetbitbuf.cpp:171-184 | a field that does not fit reads 0, signed or not, and kills the cursor |
| BitSource.UBitsAgree | Sniffles/packetbitbuf.cpp:156-185 | the real reader and the stream read the same unsigned field, and stay in correspondence |
| BitSource.SBitsAgree | Sniffles/packetbitbuf.cpp:187-192 | the same, for the signed read |
| BitSource.UBitsProgress | Sniffles/packetbitbuf.cpp:156-185 | a read of at least 2 bits that yields non-zero strictly advances the reader |
| Fields.ReadChar | Sniffles/packetbitbuf.cpp:245-248 | ReadChar is the 8-bit signed read, and consumes 8 bits |
| Fields.CharIsSigned | Sniffles/packetbitbuf.cpp:187-192 | the shift-left, arithmetic-shift-right sign extension of 8 bits is the conversion to `char` |
| Fields.ReadByte | Sniffles/packetbitbuf.cpp:250-253 | ReadByte is the 8-bit unsigned read |
| Fields.ReadShort | Sniffles/packetbitbuf.cpp:255-258 | ReadShort is the 16-bit signed read |
| Fields.ShortIsSigned | Sniffles/packetbitbuf.cpp:187-192 | the 16-bit sign extension is the conversion to `short` |
| Fields.ReadWord | Sniffles/packetbitbuf.cpp:260-263 | ReadWord is the 16-bit unsigned read |
| Fields.WrappersAligned | Sniffles/packetbitbuf.cpp:245-263 | at a byte boundary the four wrappers read the byte, or the little-endian 16-bit pair, as `char`, `unsigned char`, `short` or `unsigned short` |
| Fields.ReadUBitVar | Sniffles/packetbitbuf.cpp:220-240 | same buffer; a value below 2^32; overflow is sticky |
| Fields.UBitVarRoundTrip | Sniffles/packetbitbuf.cpp:220-240 | every uint32, written in its shortest 6-bit-head form, reads back, and the reader moves past exactly those bits |
| Fields.UBitVarAgree | Sniffles/packetbitbuf.cpp:220-240 | the real reader decodes what the stream holds |
| Fields.ReadVarUBit | Sniffles/packetbitbuf.cpp:202-218 | same buffer; a value below 2^32; overflow is sticky |
| Fields.VarUBitRoundTrip | Sniffles/packetbitbuf.cpp:202-218 | every value below 4096, written in its shortest 7-bit-head form, reads back |
| Fields.VarUBitAgree | Sniffles/packetbitbuf.cpp:202-218 | the real reader decodes what the stream holds |
| VarInt.ReadVarInt32 | Sniffles/packetbitbuf.cpp:392-410 | same buffer; the value is truncated to 32 bits; overflow is sticky |
| VarInt.ReadVarInt64 | Sniffles/packetbitbuf.cpp:412-430 | same buffer; the value is truncated to 64 bits; overflow is sticky |
| VarInt.ZigZagDecode32 | Sniffles/packetbitbuf.cpp:1791-1795 | an int32 for every uint32 code; non-negative exactly for the even codes |
| VarInt.ZigZagRoundTrip | Sniffles/packetbitbuf.cpp:1791-1795 | decode inverts encode, and encode inverts decode |
| VarInt.ZigZagInjective | Sniffles/packetbitbuf.cpp:1791-1795 | distinct values have distinct codes |
| VarInt.ReadSignedVarInt32 | Sniffles/sniffles.cpp:22 | the result is the int32 whose ZigZag code is the varint read, and it consumes the same bits |
| VarInt.VarInt32RoundTrip | Sniffles/packetbitbuf.cpp:392-410 | every uint32 written 7 bits per byte (at most 5 bytes) reads back, and the reader ends just after its last byte |
| VarInt.VarInt64RoundTrip | Sniffles/packetbitbuf.cpp:412-430 | every uint64 written 7 bits per byte (at most 10 bytes) reads back |
| VarInt.SignedVarInt32RoundTrip | Sniffles/sniffles.cpp:22 | every int32, ZigZag-encoded and written as a varint, reads back unchanged |
| VarInt.VarInt32Capped | Sniffles/packetbitbuf.cpp:381-410 | five bytes that all have the continuation bit stop the loop at the cap, 40 bits on and without overflow |
| VarInt.VarIntLoopBounded | Sniffles/packetbitbuf.cpp:392-430 | the loop reads whole bytes and never more than the cap allows |
| VarInt.VarInt32Agree | Sniffles/packetbitbuf.cpp:392-410 | the real reader decodes what the stream holds |
| VarInt.VarInt64Agree | Sniffles/packetbitbuf.cpp:412-430 | the real reader decodes what the stream holds |
| VarInt.SignedVarInt32Agree | Sniffles/sniffles.cpp:22 | the real reader decodes what the stream holds |
| StringRead.ReadString | Sniffles/packetbitbuf.cpp:344-379 | at most maxLen - 1 characters are stored, none of them a stop character; an overflowed reader means failure |
| StringRead.ReadStringRoundTrip | Sniffles/packetbitbuf.cpp:344-379 | a terminated string reads back cut to maxLen - 1; the call succeeds exactly when nothing was cut; the reader ends just after the terminator |
| StringRead.ReadStringUnterminated | Sniffles/packetbitbuf.cpp:344-379 | a string running to the buffer end gives the characters that fit, fails, and kills the reader |
| StringRead.ReadStringAgree | Sniffles/packetbitbuf.cpp:344-379 | the real reader gives the same result, characters and reader state as the stream |
| BulkRead.ReadBits | Sniffles/packetbitbuf.cpp:432-468 | stores ceil(nBits / 8) bytes whatever the output alignment; same buffer; overflow is sticky |
| BulkRead.ChopLength | Sniffles/packetbitbuf.cpp:432-468 | n bits are stored as exactly ceil(n / 8) bytes |
| BulkRead.ReadBitsReads | Sniffles/packetbitbuf.cpp:432-468 | on the stream the three loops together store each next whole byte and then the leftover bits, and move past exactly nBits |
| BulkRead.AlignLoopAligns | Sniffles/packetbitbuf.cpp:439-444 | the first loop stops with the output pointer 4-aligned or fewer than 8 bits left, after storing at most 3 bytes |
| BulkRead.LeBytesRoundTrip | Sniffles/packetbitbuf.cpp:447-452 | a word stored little-endian through the `unsigned long` pointer loads back as the same value |
| BulkRead.ReadBytes | Sniffles/packetbitbuf.cpp:470-474 | exactly nBytes bytes are stored; success exactly when the reader has not overflowed |
| BulkRead.ReadBytesAligned | Sniffles/packetbitbuf.cpp:470-474 | whole bytes from a byte boundary succeed and are the buffer's bytes |
| BulkRead.ReadBitsAgree | Sniffles/packetbitbuf.cpp:432-468 | the real reader stores the same bytes as the stream |
| BulkRead.ReadBytesAgree | Sniffles/packetbitbuf.cpp:470-474 | the real reader gives the same bytes and success as the stream |
| Coords.ReadBitCoord | Sniffles/packetbitbuf.cpp:529-567 | a 5-bit fraction; on the stream the integer is at most 2^14 and the fraction below 2^5 |
| Coords.ReadBitCoordRoundTrip | Sniffles/packetbitbuf.cpp:529-567 | every coordinate in the writer's flag/sign/integer-minus-one/fraction layout reads back |
| Coords.ReadBitCoordAgree | Sniffles/packetbitbuf.cpp:529-567 | the real reader decodes what the stream holds |
| Coords.ReadBitCoordMP | Sniffles/packetbitbuf.cpp:569-634 | an integral coordinate has no fraction; otherwise the fraction is 3 or 5 bits according to the precision |
| Coords.ReadBitCoordMPRoundTrip | Sniffles/packetbitbuf.cpp:569-634 | every coordinate in the in-bounds-bit layout, integral or fractional, reads back |
| Coords.ReadBitCoordMPAgree | Sniffles/packetbitbuf.cpp:569-634 | the real reader decodes what the stream holds |
| Coords.ReadBitCellCoord | Sniffles/packetbitbuf.cpp:636-660 | no sign; the integer is exactly the `bits`-wide unsigned field; the fraction width follows the type |
| Coords.ReadBitCellCoordRoundTrip | Sniffles/packetbitbuf.cpp:636-660 | every cell coordinate in its layout reads back |
| Coords.ReadBitCellCoordAgree | Sniffles/packetbitbuf.cpp:636-660 | the real reader decodes what the stream holds |
| Coords.ReadBitNormal | Sniffles/packetbitbuf.cpp:682-698 | no integer part; an 11-bit fraction of one |
| Coords.ReadBitNormalRoundTrip | Sniffles/packetbitbuf.cpp:682-698 | a sign and an 11-bit fraction read back |
| Coords.ReadBitNormalAgree | Sniffles/packetbitbuf.cpp:682-698 | the real reader decodes what the stream holds |
| Framing.SeekRelative | Sniffles/sniffles.cpp:76 | a relative seek reads the same buffer |
| Framing.SeekRelativeAgree | Sniffles/sniffles.cpp:76 | on the real reader a relative seek lands where it lands on the stream, except when seeking backwards from a dead cursor |
| Framing.ReadEnvelope | Sniffles/sniffles.cpp:17-22 | the two sequence numbers and the flags are int32 values |
| Framing.EnvelopeRoundTrip | Sniffles/sniffles.cpp:17-22 | the header a sender writes (two int32, varint flags, a 16-bit field, a ZigZag varint) reads back, and the reader ends just after it |
| Framing.EnvelopeAgree | Sniffles/sniffles.cpp:17-22 | the real reader decodes what the stream holds |
| Framing.NextFrame | Sniffles/sniffles.cpp:29-33 | a frame's command and size are int32 values |
| Framing.NextFrameAgree | Sniffles/sniffles.cpp:29-76 | the real reader reads the same frame as the stream, and lands where the stream does |
| Framing.FrameLoop | Sniffles/sniffles.cpp:27-77 | a loop that ends by its own condition has read at least `size` bytes; it reads one frame per pass |
| Framing.FrameLoopAgree | Sniffles/sniffles.cpp:27-77 | the loop on the real reader reads the frames the stream holds, and ends alike |
| Framing.FrameLoopFinishes | Sniffles/sniffles.cpp:27-77 | with a frame of fuel per byte, the loop ends by its condition unless some frame skips backwards or wraps |
| Framing.ReadPacket | Sniffles/sniffles.cpp:7-81 | returns `size`; below 8 bytes nothing is decoded; frames are read only when the flags are 0 or their low byte is at least 0xE1 |
| Framing.ReadPacketReadsStream | Sniffles/sniffles.cpp:7-81 | the envelope and frames ReadPacket reports are those of the byte stream from bit 0 |
| Framing.ReadPacketEnvelope | Sniffles/sniffles.cpp:12-22 | a packet that starts with a written header yields exactly that header |
| Framing.ReadPacketFinishes | Sniffles/sniffles.cpp:27-77 | given a frame of fuel per byte, ReadPacket finishes unless a frame skips backwards or wraps |
| Framing.Offers | Sniffles/sniffles.cpp:35-74 | only frames with one of the four parsed commands pass, in the order read |
| Framing.OffersExactly | Sniffles/sniffles.cpp:35-74 | a frame is handed to a parser exactly when it was read and its command is tick, signon state, server info or packet entities |
| Framing.DispatchesExactly | Sniffles/sniffles.cpp:35-74 | what ReadPacket hands to parsers is exactly the read frames that have a parsed command |
| Framing.Message | Sniffles/sniffles.cpp:32-33 | a parser gets the `Size` bytes that start at the byte count after the size varint, when they lie inside the buffer |
| CheckedLoop.NextFrameStalls | Sniffles/sniffles.cpp:29-76 | after a one-byte command and the size 0xFFFFFFFA, the skip of Size * 8 = -48 bits lands back at the frame's first bit |
| CheckedLoop.FrameLoopStalls | Sniffles/sniffles.cpp:27-77 | from such a frame every pass reads the same frame, and only the fuel stops the loop |
| CheckedLoop.ReadPacketStalls | Sniffles/sniffles.cpp:27-77 | a packet whose first frame is that stall frame is never finished, whatever the fuel: it re-reads the same frame on every pass |
| CheckedLoop.CheckedFrameLoop | Sniffles/sniffles.cpp:27-77 | the corrected loop only ever reads forward frames |
| CheckedLoop.CheckedLoopAgrees | Sniffles/sniffles.cpp:27-77 | where every frame is forward, the corrected loop is the loop as written |
| CheckedLoop.CheckedLoopFinishes | Sniffles/sniffles.cpp:27-77 | given a frame of fuel per byte, the corrected loop always ends |
| CheckedLoop.CheckedLoopAgree | Sniffles/sniffles.cpp:27-77 | the corrected loop on the real reader reads what it reads on the stream |
| CheckedLoop.CheckedReadPacket | Sniffles/sniffles.cpp:7-81 | ReadPacket's outcome, with only forward frames |
| CheckedLoop.CheckedReadsStream | Sniffles/sniffles.cpp:7-81 | the corrected ReadPacket decodes the stream over its buffer |
| CheckedLoop.CheckedReadPacketFinishes | Sniffles/sniffles.cpp:27-77 | given a frame of fuel per byte, the corrected ReadPacket always finishes |
| CheckedLoop.CheckedReadPacketAgrees | Sniffles/sniffles.cpp:7-81 | on every packet whose frames are all forward, the correction changes nothing |
| Datagram.Decrypt | Sniffles/sniffles.cpp:111-131 | the output has the input's length, and the trailing bytes after the whole blocks are copied |
| Datagram.DecryptRemainder | Sniffles/sniffles.cpp:119-131 | exactly `size mod 8` trailing bytes are copied unchanged |
| Datagram.DecryptBlocks | Sniffles/sniffles.cpp:121-128 | each whole 8-byte output block is the cipher applied to the same input block |
| Datagram.BigEndianRoundTrip | Sniffles/sniffles.cpp:137 | the byte-swapped load and the big-endian store are inverse |
| Datagram.Unwrap | Sniffles/sniffles.cpp:133-151 | an accepted datagram has an offset of at least 1 with offset + 5 inside it, and the inner packet is everything after the length field |
| Datagram.UnwrapNoWrap | Sniffles/sniffles.cpp:140 | for datagrams under 2^32 bytes, the uint32 sum check is the exact equation |
| Datagram.UnwrapWrap | Sniffles/sniffles.cpp:133-151 | unwrapping a wrapped non-empty packet gives it back |
| Datagram.UnwrapAccepts | Sniffles/sniffles.cpp:133-151 | everything accepted is the wrapping of its inner packet, whose length is the header's length |
| Packet.Le32IsWordAt | Sniffles/packet.h:229-238 | the packet's 4-byte little-endian load is the bit reader's word load |
| Packet.Int32RoundTrip | Sniffles/packet.h:229-238 | an int32 stored little-endian loads back as itself |
| Packet.Open | Sniffles/packet.h:212-227 | success exactly for non-null, non-empty data, which becomes the buffer at position 0; on failure the packet is unchanged |
| Packet.ReadSequenceInfo | Sniffles/packet.h:229-238 | an empty packet leaves everything as it was; otherwise the position moves by 8 |
| Packet.OpenThenSequence | Sniffles/packet.h:212-238 | a freshly opened packet yields the two sequence numbers it starts with |
| Packet.ReadCmdHeader | Sniffles/packet.h:249-274 | a zero command byte reads as dem_stop and moves by 1; otherwise a non-zero command, a tick and a slot, moving by 6 |
| Packet.CmdHeaderRoundTrip | Sniffles/packet.h:249-274 | a written header reads back as written, and a zero command reads as dem_stop |
| Packet.ReadRawData | Sniffles/packet.h:289-317 | a too-small buffer gives -1 with only the length read; a copy gives its own length and moves past it; the buffer is never changed |
| Packet.RawDataRoundTrip | Sniffles/packet.h:289-317 | a written block is copied whole into a buffer that can take it, skipped with no buffer, and refused with -1 by a smaller one |
| Packet.ReadUserCmd | Sniffles/packet.h:276-287 | an empty packet returns 0 and leaves the size; the packet's bytes are never changed |
| Packet.UserCmdRoundTrip | Sniffles/packet.h:276-317 | a written user command reads back with its sequence number and block |
| Packet.GetViewOrigin | Sniffles/packet.h:150-157 | the resampled origin exactly when flag bit 0 is set, else the original |
| Packet.GetViewAngles | Sniffles/packet.h:159-166 | the resampled angles exactly when flag bit 1 is set, else the original |
| Packet.GetLocalViewAngles | Sniffles/packet.h:167-174 | the resampled local angles exactly when flag bit 1 is set, else the original |
| Packet.UsesBit | Sniffles/packet.h:150-174 | each flag mask is a single bit, and the AND with it is set exactly when that bit is set |
| Packet.NewSplit | Sniffles/packet.h:121-132 | a new split has flags FPACKET_NORMAL and all six vectors zero, so every getter gives the zero view, and a Reset leaves it unchanged |
| Packet.ResetSplit | Sniffles/packet.h:176-182 | flags cleared; the original view is kept |
| Packet.ResetGetters | Sniffles/packet.h:150-182 | after Reset every getter gives the original view |
| Packet.ResetCmdInfo | Sniffles/packet.h:197-201 | every split of the command info is reset: flags zero, and each getter gives that split's original view |
| Str.Empty | Sniffles/str.h:62-67 | a valid string with no buffer, whose C string is empty |
| Str.FromCStr | Sniffles/str.h:69-83 | a valid copy of the C string, with length n and size n + 1 |
| Str.CStr | Sniffles/str.h:273 | a NUL-free text of `_length` characters |
| Str.Buffer | Sniffles/str.h:227-238 | the text followed by its terminator, or nothing without a buffer |
| Str.Plus | Sniffles/str.h:93-133 | a valid new string whose text is the left text followed by the right, with length and size adding up |
| Str.PlusString | Sniffles/str.h:93-133 | the same, appending the other string's text |
| Str.PlusAssign | Sniffles/str.h:152-204 | the receiver becomes the concatenation, and the operator returns a second String with the same length, size and buffer |
| Str.PlusAssignString | Sniffles/str.h:152-204 | the same, appending the other string's text |
| Str.PlusAssociates | Sniffles/str.h:93-133 | appending b then c is appending b + c |
| Str.At | Sniffles/str.h:227-238 | an index in range gives that character, the length gives NUL, and any other index gives the first byte of the buffer |
| Str.AtPlus | Sniffles/str.h:227-238 | indexing a sum gives the left text, then the right text, then the terminator |
| Str.Find | Sniffles/str.h:240-270 | npos exactly when the pattern occurs nowhere; otherwise the first position where it occurs |
| Str.FindString | Sniffles/str.h:240-254 | the same, for another String's text |
| Str.FindAsWritten | Sniffles/str.h:240-270 | as written: the first match, or npos, when the pattern fits; a longer pattern wraps `n - m` and reads one byte past the terminator (the first byte of a null buffer) |
| Str.FindPastEnd | Sniffles/str.h:240-254 | searching "a" for "ab" as written reads index 2, while the intended search answers npos |
| Str.NewStringT | Sniffles/str.h:32 | a null pointer, whose C string is empty |
| Str.StringTFrom | Sniffles/str.h:42-46 | a fresh buffer holding the C string |
| Str.StringTCopy | Sniffles/str.h:36-40 | a fresh buffer holding a copy of the other's text |
| Str.ToCStr | Sniffles/str.h:53 | a null pointer reads as the empty string |
| Str.CopyIsDistinct | Sniffles/str.h:36-51 | a copy has the same text but compares unequal to its source, and exactly one of the two is less |
| Str.LessIsStrictOrder | Sniffles/str.h:49-51 | `<` is a strict order, and `==` holds exactly when neither is less |
| Config.IndexOfPipeFirst | Sniffles/cfg.h:50-58 | memchr finds nothing exactly when there is no delimiter, and otherwise finds the first one |
| Config.ParseSpec | Sniffles/cfg.h:14-75 | a parsed buffer has delimiter-free fields and joins back to the same bytes |
| Config.ParseJoin | Sniffles/cfg.h:14-75 | a layout with delimiter-free fields is what its own buffer parses to |
| Config.FieldStart | Sniffles/cfg.h:18-39 | get_config_value's position lies within the buffer |
| Config.FieldStartAt | Sniffles/cfg.h:18-39 | on a layout's buffer the scan for option k lands on field k's start, or one past the last delimiter, and finds nothing beyond that |
| Config.FieldStartAfterPipe | Sniffles/cfg.h:27-31 | for a positive option the value starts just after a delimiter |
| Config.FieldSpan | Sniffles/cfg.h:50-60 | a field's span starts no later than it ends, and ends inside the buffer |
| Config.FieldSpanEndsAtPipe | Sniffles/cfg.h:58-60 | a field's span ends at a delimiter |
| Config.FieldSpanIn | Sniffles/cfg.h:50-63 | on a layout's buffer, field k's span is exactly field k |
| Config.SetValue | Sniffles/cfg.h:41-75 | a field with a delimiter after it is replaced; the size changes by the value's length less the old field's |
| Config.SetValueJoin | Sniffles/cfg.h:41-75 | replacing field k of a layout's buffer gives the buffer of the layout with field k replaced, which parses back to it |
| Config.SetValueRoundTrip | Sniffles/cfg.h:41-75 | on any buffer, setting an existing field to a delimiter-free value changes that field of the parsed layout and nothing else |
| Config.SetValueMissing | Sniffles/cfg.h:50-58 | an option past the last field has nothing to replace |
| Config.CopyForward | Sniffles/cfg.h:71 | a front-to-back byte copy changes only the destination, each byte taking the source byte as it is at that moment |
| Config.CopyBackward | Sniffles/cfg.h:71 | the same copy done back to front |
| Config.SetValueAsWritten | Sniffles/cfg.h:41-75 | as written, in either copy direction: the bytes before the field and the value itself are right, but after a value that grows by g bytes the next bytes repeat the value's last g bytes, so a delimiter-free growing value never gives the intended result; front to back, a value no longer than the field does give it |
| Config.TailCorruption | Sniffles/cfg.h:67-71 | in the buffer holding the fields `a` and `b`, growing field 0 to `xyz` gives six bytes starting `xyzy` as written, in either copy direction, where the intended result has the delimiter after `xyz` |
| Config.GetOptionAsWritten | Sniffles/cfg.h:89-111 | rejects exactly the options above OPTCOUNT; otherwise reads the field |
| Config.GetOption | Sniffles/cfg.h:89-111 | rejects exactly the options outside 0..OPTCOUNT - 1; otherwise reads the field |
| Config.GuardsAgree | Sniffles/cfg.h:89-111 | the two guards differ at OPTCOUNT and at the negative options, and nowhere else |
| Config.GetOptionReadsField | Sniffles/cfg.h:89-98 | on a buffer with all OPTCOUNT fields, each option reads the first bytes of its own field |
| Config.SetOptionAsWritten | Sniffles/cfg.h:77-87 | the written guard ignores exactly the options above OPTCOUNT; any other option goes to set_config_value as written, in either copy direction: undefined when the field has no delimiter, otherwise the prefix and value are right, but a value that grows its field repeats its own last bytes over the tail and so never agrees with the corrected SetOption; front to back, a value no longer than its field agrees with it |
| Config.SetOption | Sniffles/cfg.h:77-87 | ignores exactly the options outside 0..OPTCOUNT - 1; otherwise it is set_config_value |
| Config.SetOptionUpdates | Sniffles/cfg.h:77-87 | with the corrected guard, a full configuration is always updated in the field asked for, and in no other |
| Config.DefaultLayout | Sniffles/cfg.h:14 | the default is 19 bytes: DEVICE = 2 and PORT = 27015 as little-endian ints, the 7-byte name, and the trailing NUL after the last delimiter |
| Config.GuardAdmitsCount | Sniffles/cfg.h:77-111 | on the default configuration, option OPTCOUNT passes the written guards in either copy direction; its read runs off the buffer and its write is undefined; the corrected guards reject it |

## Left out

- BitRead: `ReadBit` (packetbitbuf.cpp:128-154), `ReadBitAngle`, `ReadBitAngles`, `ReadBitVec3Coord`, `ReadBitVec3Normal` and `ReadBitFloat` are not modelled. They either repeat `ReadOneBit` or combine the modelled coordinate readers, and the float arithmetic has no exact counterpart here.
- Coords: the coordinate readers return the `Coord` record (sign, integer part, fraction and fraction width), not the `float` the source computes from it. Float rounding is out of scope.
- Coords: `COORD_INTEGER_BITS` (14), `COORD_FRACTIONAL_BITS` (5), `COORD_INTEGER_BITS_MP` (11), `COORD_FRACTIONAL_BITS_MP_LOWPRECISION` (3) and `NORMAL_FRACTIONAL_BITS` (11) are the Source engine's values. The header that defines them is not part of this model.
- VarInt: `kMaxVarint32Bytes` (5) and `kMaxVarintBytes` (10) are likewise taken from the engine's bitbuf header. `ReadSignedVarInt32` follows the commented reference at packetbitbuf.cpp:1791-1795.
- Coords.ReadBitCellCoord: requires `bits < 32` for a non-integral type. The source keeps that integer in an `int` (packetbitbuf.cpp:650), so a 32-bit field with the top bit set would turn negative. Below 32 bits the field always fits the `int`'s positive range. It also requires `bits >= 1`, although the source would read a 0-bit field as 0; no visible caller passes 0.
- BulkRead.ReadBits: the word loop stores through an `unsigned long *`, which is taken to be 4 bytes, as on the source's Windows target.
- BulkRead.ReadBytes: requires `8 * nBytes < 2^31`, the range where the source's `nBytes << 3` does not overflow an `int`.
- Str: `size_t` and pointers are taken as 32 bits wide. Strings are kept below 2^31 - 1 characters, where `_length + 1` fits the `int` `_size`.
- Str: the `int` overloads of `operator+` and `operator+=` (str.h:135-150, 206-225) are not modelled, because they format the number through `sprintf`.
- Str.Plus, Str.PlusString: require the left string to have a buffer. The source calls `strlen(_string)` on it (str.h:97), which crashes for the null buffer of an empty `String`.
- Str.PlusAssign, Str.PlusAssignString: require the receiver to have a buffer, since `strlen(_string)` (str.h:156) crashes on a null one. Object identity is not modelled: the operator returns a second heap `String` sharing the receiver's new buffer (str.h:167), so a chained `(s += a) += b` updates only that copy. The receiver's old buffer, which leaks, is not modelled either.
- Str.At: requires a buffer. An out-of-range index reads `_string[0]` (str.h:236), which crashes on a null buffer.
- BitRead.ReadUBitLong: requires a width of at least 1. The 33-entry mask table has `s_nMaskTable[0] == 0` (packetbitbuf.cpp:28-29, 160), so the source would return 0 for a 0-bit read; every visible call passes at least 1 bit.
- BitRead.StartReading: takes a buffer, never a null `pData`. The source's null-buffer reader is not modelled: `GetNumBitsRead` returns 0 for it (packetbitbuf.cpp:66-67), `Seek` skips the loads (packetbitbuf.cpp:284, 305-313) and `StartReading` skips the seek (packetbitbuf.cpp:339). It also requires fewer than `MaxBufferBytes` (2^27) bytes, which keeps `nBytes << 3` inside an `int`; packet buffers are at most `NET_MAX_PAYLOAD` bytes.
- Str.StringTFrom: buffer addresses come from `malloc`. They are parameters here, and a failed allocation is not modelled.
- Framing.NextFrame: the signed overflow of `Size * 8` is modelled as a 32-bit two's-complement wrap, which is what the compiled code does. C leaves it undefined.
- Framing.ReadPacket: requires the packet plus the zero tail to be exactly `NET_MAX_PAYLOAD` bytes. The source's `memcpy` into the fixed buffer needs `size <= NET_MAX_PAYLOAD` and never checks it.
- Framing.FrameLoop: a `fuel` count bounds the passes, and `done` reports whether the loop condition ended it. Unbounded runs (see "## Findings") show up as `done == false` for every fuel.
- Framing: the protobuf `ParseFromArray` calls and the `MsgPrintf` output are not modelled. `Framing.Message` gives the bytes each parser would be offered.
- Datagram.Decrypt: the ICE cipher is a parameter, any length-preserving block function. The key schedule and the cipher itself are not modelled.
- Datagram.Unwrap: requires at least one byte. The source reads `pDataOut[0]` even from a 0-byte allocation.
- Datagram: the pcap/libtins capture, the IP/UDP filtering and the console output of `packet_loop_handler` are not modelled.
- StringRead.ReadString: requires `maxLen >= 1`; the source's `maxLen - 1` loop bound is meaningless below that. The optional `pOutNumChars` is the length of the returned characters.
- Packet: `ReadCmdInfo` (packet.h:240-247) copies a raw struct image and is not modelled. The source's `assert` on the command range and its `fprintf` diagnostics are not modelled either.
- Packet: reads require the bytes they load to exist, since the source does no bounds checks and a read past the end is undefined.
- Config.SetValueAsWritten: the direction of the overlapping `memcpy` at cfg.h:71 is a parameter, because C leaves it undefined. The model also assumes that `realloc` (cfg.h:67) keeps the block in place, as the source's use of the old `v` and `delimiter` pointers requires.
- Config: `check_config_file` (cfg.h:126-163) and `save_config` (cfg.h:170-187) do file I/O and are not modelled. When no file exists, `check_config_file` points `g_config` at the static `g_default_config` (cfg.h:141-142). A later `set_config_value` then calls `realloc` on memory that was never allocated (cfg.h:67). This is not modelled.
- Config.GetOption: the memory wrapper `memory_t` is not part of this model. A read yields the `sizeof(T)` bytes at the field's start, or reports that they run off the buffer.

## Findings

| source | as written | input that shows it | evidently intended | confidence | as-written member | corrected member |
|---|---|---|---|---|---|---|
| Sniffles/sniffles.cpp:30,76 | `Size` is a varint kept as `int`, and the loop skips `Size * 8` bits with no sign or overflow check | a frame with a one-byte command followed by the size bytes `FA FF FF FF 0F` (Size = -6) | a negative or wrapping size ends the loop instead of seeking backwards | not executed | CheckedLoop.ReadPacketStalls | CheckedLoop.CheckedReadPacketFinishes |
| Sniffles/cfg.h:67-71 | the value is copied over the old field (line 70) before the tail, starting at the old delimiter, is copied behind it (line 71); when the value grows, line 70 overwrites bytes line 71 still has to read | the buffer holding the fields `a` and `b`, setting field 0 to `xyz` | the tail is moved first, so the delimiter follows `xyz` and field `b` is kept | not executed | Config.TailCorruption | Config.SetValueRoundTrip |
| Sniffles/cfg.h:80,92,103 | the guards reject `opt > OPTCOUNT`, so `OPTCOUNT` itself passes, as does `INVALID_OPT` | option 3 (`OPTCOUNT`) on the default configuration: the scan stops at the trailing NUL, and no delimiter follows | only the options 0..OPTCOUNT - 1 pass | not executed | Config.GuardAdmitsCount | Config.SetOptionUpdates |
| Sniffles/str.h:244,260 | `n - m` is computed in `size_t`, so a pattern longer than the text wraps the bound, and the scan reads past the terminator | text "a", pattern "ab" | npos for a pattern longer than the text | not executed | Str.FindPastEnd | Str.Find |

=== FILE: bitops.dfy ===
/**
 Unbounded-integer models of the C operators the bit reader uses: powers of
 two, `&`, `|`, `<<` and `>>` on unsigned words, the 32-bit wrap-around of
 `uint32` and the conversions to two's-complement signed types.

 Shifts and "low k bits" are defined by recursion on the shift count, halving
 or doubling once per step, so every proof about them is an induction whose
 steps only divide by the constant 2.
 */
module BitOps {

  const TWO31: int := 0x8000_0000
  const TWO32: int := 0x1_0000_0000
  const TWO64: int := 0x1_0000_0000_0000_0000

  function Pow2(k: nat): (r: nat)
    ensures r >= 1
  {
    if k == 0 then 1 else 2 * Pow2(k - 1)
  }

  lemma {:induction false} Pow2Add(a: nat, b: nat)
    ensures Pow2(a + b) == Pow2(a) * Pow2(b)
  {
    if a > 0 {
      Pow2Add(a - 1, b);
      assert Pow2(a + b) == 2 * Pow2(a - 1 + b);
    }
  }

  lemma {:induction false} Pow2Mono(a: nat, b: nat)
    requires a <= b
    ensures Pow2(a) <= Pow2(b)
  {
    if a < b {
      Pow2Mono(a, b - 1);
    }
  }

  /** The concrete powers that appear as literals in the source. */
  lemma Pow2Values()
    ensures Pow2(1) == 2 && Pow2(2) == 4 && Pow2(3) == 8 && Pow2(4) == 16
    ensures Pow2(5) == 32 && Pow2(6) == 64 && Pow2(7) == 128 && Pow2(8) == 256
    ensures Pow2(11) == 2048 && Pow2(14) == 0x4000
    ensures Pow2(15) == 0x8000 && Pow2(16) == 0x1_0000 && Pow2(24) == 0x100_0000
    ensures Pow2(28) == 0x1000_0000 && Pow2(31) == TWO31 && Pow2(32) == TWO32
    ensures Pow2(63) == TWO64 / 2 && Pow2(64) == TWO64
  {
    assert Pow2(1) == 2;
    assert Pow2(2) == 4;
    assert Pow2(3) == 8;
    assert Pow2(4) == 16;
    assert Pow2(5) == 32;
    assert Pow2(6) == 64;
    assert Pow2(7) == 128;
    assert Pow2(8) == 256;
    Pow2Add(8, 3);
    Pow2Add(8, 6);
    Pow2Add(8, 7);
    Pow2Add(8, 8);
    Pow2Add(16, 8);
    Pow2Add(24, 4);
    Pow2Add(28, 3);
    Pow2Add(31, 1);
    Pow2Add(32, 31);
    Pow2Add(32, 32);
  }

  /** `x mod 2^k`: the low k bits of x. */
  function Low(x: nat, k: nat): nat
  {
    if k == 0 then 0 else x % 2 + 2 * Low(x / 2, k - 1)
  }

  /** `x >> k` on an unsigned value. */
  function Shr(x: nat, k: nat): nat
  {
    if k == 0 then x else Shr(x / 2, k - 1)
  }

  /** `x << k` without any width limit, i.e. `x * 2^k`. */
  function Shl(x: int, k: nat): (r: int)
    ensures x >= 0 ==> r >= 0
  {
    if k == 0 then x else 2 * Shl(x, k - 1)
  }

  /** Arithmetic `x >> k` on a signed value: floor division by 2^k. */
  function Asr(x: int, k: nat): int
    decreases k, x
  {
    if k == 0 then x else Asr(x / 2, k - 1)
  }

  lemma {:induction false} LowBound(x: nat, k: nat)
    ensures Low(x, k) < Pow2(k)
  {
    if k > 0 {
      LowBound(x / 2, k - 1);
    }
  }

  /** A value below 2^k is its own low k bits and has nothing above them. */
  lemma {:induction false} Small(x: nat, k: nat)
    requires x < Pow2(k)
    ensures Low(x, k) == x
    ensures Shr(x, k) == 0
  {
    if k > 0 {
      Small(x / 2, k - 1);
    }
  }

  lemma {:induction false} ShlNonneg(x: nat, k: nat)
    ensures Shl(x, k) >= 0
  {
    if k > 0 {
      ShlNonneg(x, k - 1);
    }
  }

  lemma {:induction false} ShlIsMul(x: int, k: nat)
    ensures Shl(x, k) == x * Pow2(k)
  {
    if k > 0 {
      ShlIsMul(x, k - 1);
      assert 2 * (x * Pow2(k - 1)) == x * (2 * Pow2(k - 1));
    }
  }

  lemma {:induction false} ShlAdd(x: int, a: nat, b: nat)
    ensures Shl(Shl(x, a), b) == Shl(x, a + b)
  {
    if b > 0 {
      ShlAdd(x, a, b - 1);
    }
  }

  lemma {:induction false} ShlLinear(x: int, y: int, k: nat)
    ensures Shl(x + y, k) == Shl(x, k) + Shl(y, k)
    ensures Shl(x - y, k) == Shl(x, k) - Shl(y, k)
  {
    if k > 0 {
      ShlLinear(x, y, k - 1);
    }
  }

  lemma {:induction false} ShlMono(x: int, y: int, k: nat)
    requires x <= y
    ensures Shl(x, k) <= Shl(y, k)
  {
    if k > 0 {
      ShlMono(x, y, k - 1);
    }
  }

  lemma {:induction false} ShlPow2(a: nat, b: nat)
    ensures Shl(Pow2(a), b) == Pow2(a + b)
  {
    ShlIsMul(Pow2(a), b);
    Pow2Add(a, b);
  }

  /** x < 2^j shifted left by k stays below 2^(j+k). */
  lemma {:induction false} ShlBound(x: nat, j: nat, k: nat)
    requires x < Pow2(j)
    ensures 0 <= Shl(x, k) < Pow2(j + k)
  {
    ShlNonneg(x, k);
    ShlMono(x, Pow2(j) - 1, k);
    ShlLinear(Pow2(j), 1, k);
    ShlPow2(j, k);
    ShlPow2(0, k);
  }

  /** Low and high parts of `lo + (hi << k)` with lo below 2^k. */
  lemma {:induction false} Split(lo: nat, hi: nat, k: nat)
    requires lo < Pow2(k)
    ensures Low(lo + Shl(hi, k), k) == lo
    ensures Shr(lo + Shl(hi, k), k) == hi
  {
    ShlNonneg(hi, k);
    if k > 0 {
      var x := lo + Shl(hi, k);
      assert x % 2 == lo % 2 && x / 2 == lo / 2 + Shl(hi, k - 1);
      Split(lo / 2, hi, k - 1);
    }
  }

  /** Every value is its low k bits plus the rest shifted back up. */
  lemma {:induction false} Decompose(x: nat, k: nat)
    ensures x == Low(x, k) + Shl(Shr(x, k), k)
  {
    if k > 0 {
      Decompose(x / 2, k - 1);
    }
  }

  lemma {:induction false} ShrSucc(x: nat, k: nat)
    ensures Shr(x, k + 1) == Shr(x, k) / 2
  {
    if k > 0 {
      ShrSucc(x / 2, k - 1);
    }
  }

  lemma {:induction false} ShrAdd(x: nat, a: nat, b: nat)
    ensures Shr(Shr(x, a), b) == Shr(x, a + b)
  {
    if a > 0 {
      ShrAdd(x / 2, a - 1, b);
    }
  }

  lemma {:induction false} ShrLe(x: nat, k: nat)
    ensures Shr(x, k) <= x
  {
    if k > 0 {
      ShrLe(x / 2, k - 1);
    }
  }

  /** The bitwise AND of two naturals (the C operator `&`). */
  function And(a: nat, b: nat): nat
    decreases a
  {
    if a == 0 || b == 0 then 0
    else 2 * And(a / 2, b / 2) + (if a % 2 == 1 && b % 2 == 1 then 1 else 0)
  }

  /** The bitwise OR of two naturals (the C operator `|`). */
  function Or(a: nat, b: nat): nat
    decreases a + b
  {
    if a == 0 then b
    else if b == 0 then a
    else 2 * Or(a / 2, b / 2) + (if a % 2 == 1 || b % 2 == 1 then 1 else 0)
  }

  /** `x & (2^k - 1)` keeps the low k bits. */
  lemma {:induction false} AndLowMask(a: nat, k: nat)
    ensures And(a, Pow2(k) - 1) == Low(a, k)
  {
    if k > 0 && a > 0 {
      var m := Pow2(k) - 1;
      assert m % 2 == 1 && m / 2 == Pow2(k - 1) - 1;
      AndLowMask(a / 2, k - 1);
    } else if k > 0 {
      Small(0, k);
    }
  }

  /** `a & (1 << k)` is set exactly when bit k of a is. */
  lemma {:induction false} AndBit(a: nat, k: nat)
    ensures And(a, Pow2(k)) != 0 <==> Shr(a, k) % 2 == 1
    decreases k
  {
    if k == 0 {
      assert Pow2(0) == 1;
      if a != 0 {
        assert And(a / 2, 0) == 0;
      }
    } else {
      assert Pow2(k) % 2 == 0 && Pow2(k) / 2 == Pow2(k - 1);
      AndBit(a / 2, k - 1);
      if a != 0 && And(a, Pow2(k)) != 0 {
        assert And(a / 2, Pow2(k - 1)) != 0;
      }
    }
  }

  /** Bits of the mask above those of a small operand do not matter. */
  lemma {:induction false} AndHighIrrelevant(a: nat, b: nat, k: nat)
    requires a < Pow2(k)
    ensures And(a, b) == And(a, Low(b, k))
  {
    if a != 0 && b != 0 {
      assert k > 0;
      AndHighIrrelevant(a / 2, b / 2, k - 1);
      var l := Low(b, k);
      assert l % 2 == b % 2 && l / 2 == Low(b / 2, k - 1);
      if l == 0 {
        assert And(a / 2, 0) == 0;
      }
    } else {
      Small(0, k);
    }
  }

  lemma {:induction false} OrComm(a: nat, b: nat)
    ensures Or(a, b) == Or(b, a)
    decreases a + b
  {
    if a != 0 && b != 0 {
      OrComm(a / 2, b / 2);
    }
  }

  /** OR of operands with disjoint bit ranges is addition. */
  lemma {:induction false} OrDisjoint(a: nat, b: nat, k: nat)
    requires a < Pow2(k)
    ensures Or(a, Shl(b, k)) == a + Shl(b, k)
  {
    if k > 0 && a != 0 && b != 0 {
      ShlMono(1, b, k - 1);
      ShlIsMul(1, k - 1);
      var x := Shl(b, k);
      assert x != 0 && x % 2 == 0 && x / 2 == Shl(b, k - 1);
      OrDisjoint(a / 2, b, k - 1);
    } else if b == 0 {
      ShlIsMul(0, k);
    }
  }

  /** OR of two values below 2^k stays below 2^k. */
  lemma {:induction false} OrBound(a: nat, b: nat, k: nat)
    requires a < Pow2(k) && b < Pow2(k)
    ensures Or(a, b) < Pow2(k)
    decreases a + b
  {
    if a != 0 && b != 0 {
      OrBound(a / 2, b / 2, k - 1);
    }
  }

  /** AND with a value below 2^k stays below 2^k. */
  lemma {:induction false} AndBound(a: nat, b: nat, k: nat)
    requires a < Pow2(k)
    ensures And(a, b) < Pow2(k)
    decreases a
  {
    if a != 0 && b != 0 {
      AndBound(a / 2, b / 2, k - 1);
    }
  }

  /** Truncating a shifted value to k+j bits truncates the value to j bits. */
  lemma {:induction false} LowShl(x: nat, k: nat, j: nat)
    ensures Low(Shl(x, k), k + j) == Shl(Low(x, j), k)
    decreases k
  {
    if k > 0 {
      LowShl(x, k - 1, j);
      ShlNonneg(x, k - 1);
      var y := Shl(x, k - 1);
      assert Shl(x, k) == 2 * y;
      assert Low(2 * y, k + j) == 2 * Low(y, k - 1 + j);
    }
  }

  /** `x << k` on a 32-bit unsigned word: bits shifted past bit 31 are lost. */
  function Shl32(x: nat, k: nat): nat
  {
    ShlNonneg(x, k);
    Low(Shl(x, k), 32)
  }

  /** A shift that keeps within 32 bits loses nothing. */
  lemma {:induction false} Shl32Fits(x: nat, j: nat, k: nat)
    requires x < Pow2(j) && j + k <= 32
    ensures Shl32(x, k) == Shl(x, k)
  {
    ShlBound(x, j, k);
    Pow2Mono(j + k, 32);
    ShlNonneg(x, k);
    Small(Shl(x, k), 32);
  }

  /** Conversion of an integer to a 32-bit two's-complement `int32`. */
  function Int32(x: int): (r: int)
    ensures -TWO31 <= r < TWO31
    ensures (r - x) % TWO32 == 0
  {
    var m := x % TWO32;
    if m >= TWO31 then m - TWO32 else m
  }

  /** Conversion of an integer to a 32-bit unsigned `uint32`. */
  function Uint32(x: int): (r: nat)
    ensures r < TWO32
    ensures (r - x) % TWO32 == 0
  {
    x % TWO32
  }

  /** Conversion of an integer to an 8-bit two's-complement `char`. */
  function Int8(x: int): (r: int)
    ensures -128 <= r < 128
    ensures (r - x) % 256 == 0
  {
    var m := x % 256;
    if m >= 128 then m - 256 else m
  }

  /** Conversion of an integer to a 16-bit two's-complement `short`. */
  function Int16(x: int): (r: int)
    ensures -0x8000 <= r < 0x8000
    ensures (r - x) % 0x1_0000 == 0
  {
    var m := x % 0x1_0000;
    if m >= 0x8000 then m - 0x1_0000 else m
  }

  /** Sign extension of an n-bit field. */
  function SignExtend(v: nat, n: nat): int
    requires 1 <= n
  {
    if v < Pow2(n - 1) then v else v - Pow2(n)
  }

  /**
   `(v << (32 - n)) >> (32 - n)` on an `int` holding v: the left shift wraps
   in 32 bits and the right shift is arithmetic.
   */
  function ShlAsr32(v: int, n: nat): int
    requires 1 <= n <= 32
  {
    Asr(Int32(Shl(Int32(v), 32 - n)), 32 - n)
  }

  lemma {:induction false} AsrRange(x: int, k: nat)
    requires -TWO31 <= x < TWO31
    ensures -TWO31 <= Asr(x, k) < TWO31
    decreases k
  {
    if k > 0 {
      AsrRange(x / 2, k - 1);
    }
  }

  lemma {:induction false} AsrShl(c: int, k: nat)
    ensures Asr(Shl(c, k), k) == c
  {
    if k > 0 {
      assert Asr(Shl(c, k), k) == Asr(Shl(c, k - 1), k - 1) by {
        assert Shl(c, k) / 2 == Shl(c, k - 1);
      }
      AsrShl(c, k - 1);
    }
  }

  lemma Pow2Word()
    ensures Pow2(31) == TWO31 && Pow2(32) == TWO32
  {
    Pow2Values();
  }

  lemma {:induction false} Int32Id(x: int)
    requires -TWO31 <= x < TWO31
    ensures Int32(x) == x
  {
  }

  lemma {:induction false} Int32Wrap(x: int)
    requires TWO31 <= x < TWO32
    ensures Int32(x) == x - TWO32
  {
  }

  /** An n-bit field of 32 - n zero bits followed by v, read back as signed. */
  lemma {:induction false} ShlAsrPositive(v: nat, n: nat)
    requires 1 <= n < 32 && v < Pow2(n - 1)
    ensures Asr(Int32(Shl(v, 32 - n)), 32 - n) == v
  {
    Pow2Word();
    ShlBound(v, n - 1, 32 - n);
    Int32Id(Shl(v, 32 - n));
    AsrShl(v, 32 - n);
  }

  lemma {:induction false} ShlAsrNegative(v: nat, n: nat)
    requires 1 <= n < 32 && Pow2(n - 1) <= v < Pow2(n)
    ensures Asr(Int32(Shl(v, 32 - n)), 32 - n) == v - Pow2(n)
  {
    var s := 32 - n;
    Pow2Word();
    ShlPow2(n - 1, s);
    ShlPow2(n, s);
    ShlMono(Pow2(n - 1), v, s);
    ShlBound(v, n, s);
    ShlLinear(v, Pow2(n), s);
    Int32Wrap(Shl(v, s));
    AsrShl(v - Pow2(n), s);
  }

  lemma {:induction false} ShlAsr32IsSignExtend(v: nat, n: nat)
    requires 1 <= n <= 32 && v < Pow2(n)
    ensures ShlAsr32(v, n) == SignExtend(v, n)
  {
    Pow2Word();
    if n == 32 {
      if v < TWO31 {
        Int32Id(v);
      } else {
        Int32Wrap(v);
      }
    } else {
      Pow2Mono(n, 31);
      Int32Id(v);
      if v < Pow2(n - 1) {
        ShlAsrPositive(v, n);
      } else {
        ShlAsrNegative(v, n);
      }
    }
  }

  /** Values congruent modulo 2^32 convert to the same `int32`. */
  lemma {:induction false} Int32Congruent(x: int, y: int)
    requires (x - y) % TWO32 == 0
    ensures Int32(x) == Int32(y)
  {
    var k := (x - y) / TWO32;
    assert x == y + TWO32 * k;
  }

  /** Shifting preserves congruence modulo 2^32. */
  lemma {:induction false} ShlCongruent(x: int, y: int, s: nat)
    requires (x - y) % TWO32 == 0
    ensures (Shl(x, s) - Shl(y, s)) % TWO32 == 0
  {
    var k := (x - y) / TWO32;
    assert x - y == TWO32 * k;
    ShlIsMul(x, s);
    ShlIsMul(y, s);
    ScaleDifference(x, y, k, Pow2(s));
    MultipleOfWord(k * Pow2(s), Shl(x, s) - Shl(y, s));
  }

  /** Scaling x - y = 2^32 k by p keeps it a multiple of 2^32. */
  lemma {:induction false} ScaleDifference(x: int, y: int, k: int, p: int)
    requires x - y == TWO32 * k
    ensures x * p - y * p == (k * p) * TWO32
  {
    assert x * p - y * p == (x - y) * p;
  }

  /** Shifting left by 32 - n drops every bit of v above bit n modulo 2^32. */
  lemma {:induction false} ShiftOutHigh(v: nat, n: nat)
    requires 1 <= n <= 32
    ensures (Shl(v, 32 - n) - Shl(Low(v, n), 32 - n)) % TWO32 == 0
  {
    var s := 32 - n;
    var h := Shr(v, n);
    var l := Low(v, n);
    Decompose(v, n);
    ShlLinear(l, Shl(h, n), s);
    ShlAdd(h, n, s);
    ShlIsMul(h, 32);
    Pow2Word();
    MultipleOfWord(h, Shl(v, s) - Shl(l, s));
  }

  lemma {:induction false} MultipleOfWord(h: int, x: int)
    requires x == h * TWO32
    ensures x % TWO32 == 0
  {
  }

  lemma {:induction false} CongruentChain(a: int, x: int, y: int, b: int)
    requires (a - x) % TWO32 == 0 && (x - y) % TWO32 == 0 && (b - y) % TWO32 == 0
    ensures (a - b) % TWO32 == 0
  {
    var i := (a - x) / TWO32;
    var j := (x - y) / TWO32;
    var m := (b - y) / TWO32;
    assert a - b == TWO32 * (i + j - m);
  }

  /** The bits of v above bit n are shifted out before the sign extension. */
  lemma {:induction false} ShlAsr32Low(v: nat, n: nat)
    requires 1 <= n <= 32
    ensures ShlAsr32(v, n) == SignExtend(Low(v, n), n)
  {
    var s := 32 - n;
    var l := Low(v, n);
    LowBound(v, n);
    ShiftOutHigh(v, n);
    ShlCongruent(Int32(v), v, s);
    ShlCongruent(Int32(l), l, s);
    CongruentChain(Shl(Int32(v), s), Shl(v, s), Shl(l, s), Shl(Int32(l), s));
    Int32Congruent(Shl(Int32(v), s), Shl(Int32(l), s));
    ShlAsr32IsSignExtend(l, n);
  }

  /** For a literal width, the low bits are the remainder. */
  lemma {:induction false} LowMod(x: nat, k: nat, m: nat)
    requires m == Pow2(k) && (k == 8 || k == 16)
    ensures Low(x, k) == x % m
  {
    Pow2Values();
    Decompose(x, k);
    LowBound(x, k);
    ShlIsMul(Shr(x, k), k);
  }

  lemma {:induction false} ShrOfZero(k: nat)
    ensures Shr(0, k) == 0
  {
    if k > 0 {
      ShrOfZero(k - 1);
    }
  }

  /** A shifted mask selects the shifted-down bits: `a & (m << k)`. */
  lemma {:induction false} AndShl(a: nat, m: nat, k: nat)
    ensures And(a, Shl(m, k)) == Shl(And(Shr(a, k), m), k)
  {
    if k > 0 {
      var y := Shl(m, k);
      assert y == 2 * Shl(m, k - 1);
      ShlIsMul(m, k - 1);
      if a == 0 {
        ShrOfZero(k);
        ShlIsMul(0, k);
      } else if y == 0 {
        assert m == 0;
        ShlIsMul(0, k);
      } else {
        AndShl(a / 2, m, k - 1);
        assert And(a, y) == 2 * And(a / 2, Shl(m, k - 1));
      }
    }
  }

  /** Shifting right by k divides the range by 2^k. */
  lemma {:induction false} ShrBound(x: nat, j: nat, k: nat)
    requires x < Pow2(j + k)
    ensures Shr(x, k) < Pow2(j)
  {
    if k > 0 {
      assert Pow2(j + k) == 2 * Pow2(j + (k - 1));
      ShrBound(x / 2, j, k - 1);
    }
  }

  /** Shifting a non-zero value right by at least one bit makes it smaller. */
  lemma {:induction false} ShrLess(x: nat, k: nat)
    requires x >= 1 && k >= 1
    ensures Shr(x, k) < x
  {
    ShrLe(x / 2, k - 1);
  }

  /** A k-bit value with a j-bit value stacked above it fits in k + j bits. */
  lemma {:induction false} ConcatBound(lo: nat, hi: nat, k: nat, j: nat)
    requires lo < Pow2(k) && hi < Pow2(j)
    ensures lo + Shl(hi, k) < Pow2(k + j)
  {
    var a := Pow2(k);
    var b := Pow2(j);
    ShlIsMul(hi, k);
    Pow2Add(k, j);
    MulLe(hi, b - 1, a);
    MulPred(b, a);
  }

  lemma {:induction false} MulPred(b: nat, a: nat)
    requires b > 0
    ensures (b - 1) * a == a * b - a
  {
  }

  lemma {:induction false} MulLe(x: nat, y: nat, z: nat)
    requires x <= y
    ensures x * z <= y * z
  {
  }
}

=== FILE: bitread.dfy ===
/**
 The word-cached bit reader `CBitRead` (Sniffles/packetbitbuf.cpp) as an
 immutable state record. Each operation returns the value it reads together
 with the reader after it.

 Pointers become byte offsets from the start of the buffer: `m_pDataIn` is
 `dataIn`, `m_pBufferEnd` is `|data|`, and incrementing the `uint32` pointer
 adds 4. The buffer holds `m_nDataBytes` bytes; `pastEnd` is the one byte
 beyond it that `Seek` loads when the buffer is empty.
 */
module BitRead {
  import opened BitOps
  import opened BitStream

  /** Buffers are kept small enough that every bit count fits an `int`. */
  const MaxBufferBytes: nat := 0x800_0000

  datatype Reader = Reader(
    data: seq<byte>,      // m_pData[0 .. m_nDataBytes)
    pastEnd: byte,        // the byte at m_pData + m_nDataBytes
    dataBits: int,        // m_nDataBits
    overflow: bool,       // m_bOverflow
    word: nat,            // m_nInBufWord
    avail: int,           // m_nBitsAvail
    dataIn: nat)          // m_pDataIn - m_pData, in bytes

  datatype Step<T> = Step(value: T, next: Reader)

  /** `s_nMaskTable`: entry k is (1 << k) - 1, for k = 0 .. 32. */
  const MaskTable: seq<nat> := [
    0, 1, 3, 7, 0xf, 0x1f,
    0x3f, 0x7f, 0xff, 0x1ff, 0x3ff, 0x7ff,
    0xfff, 0x1fff, 0x3fff, 0x7fff, 0xffff, 0x1ffff,
    0x3ffff, 0x7ffff, 0xfffff, 0x1fffff, 0x3fffff, 0x7fffff,
    0xffffff, 0x1ffffff, 0x3ffffff, 0x7ffffff, 0xfffffff, 0x1fffffff,
    0x3fffffff, 0x7fffffff, 0xffffffff
  ]

  /** Each entry of the table is twice the previous one plus one. */
  lemma MaskTableSteps()
    ensures forall k :: 0 <= k < 32 ==> MaskTable[k + 1] == 2 * MaskTable[k] + 1
  {
  }

  lemma {:induction false} MaskTableEntry(k: nat)
    requires k <= 32
    ensures MaskTable[k] == Pow2(k) - 1
  {
    if k > 0 {
      MaskTableSteps();
      MaskTableEntry(k - 1);
    }
  }

  /** The number of bytes of the partial word at the head of the buffer. */
  function HeadBytes(r: Reader): nat
  {
    |r.data| % 4
  }

  /** The buffer and bit count that `StartReading` accepts. */
  ghost predicate Configured(r: Reader)
  {
    |r.data| < MaxBufferBytes && 0 <= r.dataBits <= 8 * |r.data|
  }

  /**
   The representation invariant every reader state satisfies once
   `StartReading` has run. `dataIn` is either a word boundary inside the
   buffer (counted from the head bytes), one word past its end, or 1 for an
   empty buffer; an exhausted cache only occurs with no words left.
   */
  ghost predicate Good(r: Reader)
  {
    Configured(r) &&
    r.word < TWO32 &&
    r.avail <= 32 &&
    ((r.dataIn <= |r.data| && (|r.data| - r.dataIn) % 4 == 0) ||
     r.dataIn == |r.data| + 4 ||
     (|r.data| == 0 && r.dataIn == 1)) &&
    (r.avail < 1 ==> r.dataIn >= |r.data|) &&
    (|r.data| == 0 && r.dataIn == 1 ==> r.avail <= 0)
  }

  /**
   `GrabNextDWord`: load the next little-endian word, or at the buffer end
   step `dataIn` past it (latching overflow only when asked to), or beyond
   that latch overflow and clear the word.
   */
  function GrabNextDWord(r: Reader, overflowImmediately: bool): (r': Reader)
    requires r.dataIn < |r.data| ==> r.dataIn + 4 <= |r.data|
    ensures r'.data == r.data && r'.pastEnd == r.pastEnd && r'.dataBits == r.dataBits
    ensures r'.overflow <==> r.overflow || r.dataIn > |r.data| || (r.dataIn == |r.data| && overflowImmediately)
    ensures r'.word < TWO32
  {
    if r.dataIn == |r.data| then
      r.(avail := 1, word := 0, dataIn := r.dataIn + 4, overflow := r.overflow || overflowImmediately)
    else if r.dataIn > |r.data| then
      r.(overflow := true, word := 0)
    else
      LittleEndianBound(r.data[r.dataIn..r.dataIn + 4]);
      Pow2Word();
      r.(word := WordAt(r.data, r.dataIn), dataIn := r.dataIn + 4)
  }

  /** Stepping one word forward keeps `dataIn` on a word boundary. */
  lemma {:induction false} AlignStep(e: int, o: int)
    requires (e - o) % 4 == 0
    ensures (e - (o + 4)) % 4 == 0
  {
    assert e - (o + 4) == 4 * ((e - o) / 4 - 1);
  }

  /** `FetchNext`: refill the cache with a whole word. */
  function FetchNext(r: Reader): (r': Reader)
    requires r.dataIn < |r.data| ==> r.dataIn + 4 <= |r.data|
    ensures r'.data == r.data && r'.pastEnd == r.pastEnd && r'.dataBits == r.dataBits
    ensures r'.overflow <==> r.overflow || r.dataIn > |r.data|
  {
    GrabNextDWord(r.(avail := 32), false)
  }

  lemma {:induction false} FetchNextGood(r: Reader)
    requires Good(r.(avail := 32))
    ensures Good(FetchNext(r))
  {
    AlignStep(|r.data|, r.dataIn);
  }

  /** `ReadOneBit`: the low bit of the cache. */
  function ReadOneBit(r: Reader): (s: Step<nat>)
    requires Good(r)
    ensures Good(s.next)
    ensures s.value < 2
    ensures s.next.data == r.data && s.next.pastEnd == r.pastEnd && s.next.dataBits == r.dataBits
    ensures r.overflow ==> s.next.overflow
    ensures s.next.overflow && !r.overflow ==> r.dataIn > |r.data|
  {
    AndLowMask(r.word, 1);
    Pow2Values();
    LowBound(r.word, 1);
    var ret := And(r.word, 1);
    if r.avail - 1 == 0 then
      FetchNextGood(r);
      Step(ret, FetchNext(r.(avail := 0)))
    else
      Pow2Word();
      Small(0, 0);
      assert Shr(r.word, 1) <= r.word by {
        ShrLe(r.word, 1);
      }
      Step(ret, r.(avail := r.avail - 1, word := Shr(r.word, 1)))
  }

  /** `ReadUBitLong`: an unsigned field of 1 to 32 bits. */
  function ReadUBitLong(r: Reader, n: nat): (s: Step<nat>)
    requires Good(r) && 1 <= n <= 32
    ensures Good(s.next)
    ensures s.value < TWO32
    ensures s.next.data == r.data && s.next.pastEnd == r.pastEnd && s.next.dataBits == r.dataBits
    ensures r.overflow ==> s.next.overflow
    ensures s.next.overflow && !r.overflow ==> r.dataIn >= |r.data|
  {
    if r.avail >= n then ReadCached(r, n) else ReadMerged(r, n)
  }

  /** The branch of `ReadUBitLong` where the cache holds the whole field. */
  function ReadCached(r: Reader, n: nat): (s: Step<nat>)
    requires Good(r) && 1 <= n <= r.avail
    ensures Good(s.next)
    ensures s.value < TWO32
    ensures s.next.data == r.data && s.next.pastEnd == r.pastEnd && s.next.dataBits == r.dataBits
    ensures r.overflow ==> s.next.overflow
    ensures s.next.overflow && !r.overflow ==> r.dataIn > |r.data|
  {
    MaskTableEntry(n);
    AndLowMask(r.word, n);
    LowBound(r.word, n);
    Pow2Mono(n, 32);
    Pow2Word();
    var ret := And(r.word, MaskTable[n]);
    if r.avail - n != 0 then
      ShrLe(r.word, n);
      Step(ret, r.(avail := r.avail - n, word := Shr(r.word, n)))
    else
      FetchNextGood(r);
      Step(ret, FetchNext(r.(avail := 0)))
  }

  /**
   The branch of `ReadUBitLong` that merges the rest of the cache with the
   low bits of the next word, giving up with 0 once overflow is latched.
   */
  function ReadMerged(r: Reader, n: nat): (s: Step<nat>)
    requires Good(r) && r.avail < n <= 32
    ensures Good(s.next)
    ensures s.value < TWO32
    ensures s.next.data == r.data && s.next.pastEnd == r.pastEnd && s.next.dataBits == r.dataBits
    ensures r.overflow ==> s.next.overflow
    ensures s.next.overflow && !r.overflow ==> r.dataIn >= |r.data|
  {
    var ret0 := r.word;
    var m := n - r.avail;
    var g := GrabNextDWord(r, true);
    if g.overflow then
      Step(0, g)
    else
      var low := And(g.word, MaskTable[m]);
      MergedBound(ret0, g.word, m, r.avail);
      assert r.dataIn + 4 <= |r.data| && 1 <= m < 32;
      MergedGood(r, g.word, m);
      Step(Or(ret0, Shl32(low, r.avail)), g.(avail := 32 - m, word := Shr(g.word, m)))
  }

  /** A merge inside the buffer leaves the reader one word further on, still well formed. */
  lemma {:induction false} MergedGood(r: Reader, w: nat, m: nat)
    requires Good(r) && r.dataIn + 4 <= |r.data| && 1 <= m < 32 && w < TWO32
    ensures Good(r.(word := Shr(w, m), dataIn := r.dataIn + 4, avail := 32 - m))
  {
    ShrLe(w, m);
    AlignStep(|r.data|, r.dataIn);
  }

  lemma {:induction false} MergedBound(w0: nat, w: nat, m: nat, a: nat)
    requires w0 < TWO32 && m <= 32
    ensures Or(w0, Shl32(And(w, MaskTable[m]), a)) < TWO32
  {
    Pow2Word();
    LowBound(Shl(And(w, MaskTable[m]), a), 32);
    OrBound(w0, Shl32(And(w, MaskTable[m]), a), 32);
  }

  /**
   `Seek`: position the reader at bit p. A position outside
   0 .. m_nDataBits latches overflow, reports failure and goes to
   m_nDataBits instead. Positions inside the head bytes (or anywhere in a
   buffer of fewer than four bytes) load the head bytes as a partial word;
   others load the word that holds them.
   */
  function Seek(r: Reader, p: int): (s: Step<bool>)
    requires Configured(r)
    ensures Good(s.next)
    ensures s.value <==> 0 <= p <= r.dataBits
    ensures s.next.overflow <==> r.overflow || !s.value
    ensures s.next.data == r.data && s.next.pastEnd == r.pastEnd && s.next.dataBits == r.dataBits
  {
    var ok := 0 <= p <= r.dataBits;
    var q: nat := if ok then p else r.dataBits;
    var r0 := r.(overflow := r.overflow || !ok);
    var e := |r.data|;
    var h := e % 4;
    if e < 4 || (h != 0 && q / 8 < h) then
      Step(ok, SeekHead(r0, q))
    else
      Step(ok, SeekWord(r0, q))
  }

  /** The partial-word branch of `Seek`. */
  function SeekHead(r: Reader, q: nat): (r': Reader)
    requires Configured(r) && q <= r.dataBits
    requires |r.data| < 4 || q < 8 * HeadBytes(r)
    ensures Good(r')
    ensures r'.data == r.data && r'.pastEnd == r.pastEnd && r'.dataBits == r.dataBits
    ensures r'.overflow == r.overflow
  {
    var h := HeadBytes(r);
    var w := HeadWord(r);
    Pow2Word();
    HeadWordBound(r);
    HeadAlign(|r.data|);
    ShrLe(w, q % 32);
    r.(word := Shr(w, q % 32), dataIn := if h > 0 then h else 1, avail := 8 * h - q % 32)
  }

  /** The head bytes end on a word boundary of the buffer. */
  lemma {:induction false} HeadAlign(e: nat)
    ensures (e - e % 4) % 4 == 0
  {
    assert e - e % 4 == 4 * (e / 4);
  }

  /**
   The head bytes as the source assembles them: byte 0, then bytes 1 and 2
   shifted into place when the head is that long. An empty buffer
   contributes the byte just past it.
   */
  function HeadWord(r: Reader): nat
  {
    var h := HeadBytes(r);
    var b0 := if |r.data| > 0 then r.data[0] else r.pastEnd;
    var w1 := if h > 1 then Or(b0, Shl32(r.data[1], 8)) else b0;
    if h > 2 then Or(w1, Shl32(r.data[2], 16)) else w1
  }

  lemma {:induction false} HeadWordBound(r: Reader)
    ensures HeadWord(r) < TWO32
  {
    Pow2Word();
    Pow2Values();
    Pow2Mono(8, 32);
    var h := HeadBytes(r);
    var b0 := if |r.data| > 0 then r.data[0] else r.pastEnd;
    if h > 1 {
      LowBound(Shl(r.data[1], 8), 32);
      OrBound(b0, Shl32(r.data[1], 8), 32);
      if h > 2 {
        LowBound(Shl(r.data[2], 16), 32);
        OrBound(Or(b0, Shl32(r.data[1], 8)), Shl32(r.data[2], 16), 32);
      }
    }
  }

  /** The whole-word branch of `Seek`. */
  function SeekWord(r: Reader, q: nat): (r': Reader)
    requires Configured(r) && q <= r.dataBits
    requires |r.data| >= 4 && 8 * HeadBytes(r) <= q
    ensures Good(r')
    ensures r'.data == r.data && r'.pastEnd == r.pastEnd && r'.dataBits == r.dataBits
    ensures r'.overflow == r.overflow
  {
    var h := HeadBytes(r);
    var adj: nat := q - 8 * h;
    SeekWordOffset(|r.data|, h, adj);
    LoadWordAt(r, 4 * (adj / 32) + h, adj % 32)
  }

  /**
   Point the reader at the word boundary o, load the word there, and drop
   its low k bits; the cache count is capped in case the load hit the end.
   */
  function LoadWordAt(r: Reader, o: nat, k: nat): (r': Reader)
    requires Configured(r) && o <= |r.data| && (|r.data| - o) % 4 == 0 && k < 32
    ensures Good(r')
    ensures r'.data == r.data && r'.pastEnd == r.pastEnd && r'.dataBits == r.dataBits
    ensures r'.overflow == r.overflow
  {
    if o < |r.data| then
      assert |r.data| - o == 4 * ((|r.data| - o) / 4);
      AlignStep(|r.data|, o);
      var g := GrabNextDWord(r.(dataIn := o, avail := 32), false);
      ShrLe(g.word, k);
      g.(word := Shr(g.word, k), avail := if g.avail < 32 - k then g.avail else 32 - k)
    else
      var g := GrabNextDWord(r.(dataIn := o, avail := 32), false);
      ShrLe(g.word, k);
      g.(word := Shr(g.word, k), avail := if g.avail < 32 - k then g.avail else 32 - k)
  }

  lemma {:induction false} SeekWordOffset(e: nat, h: nat, adj: nat)
    requires h == e % 4 && h * 8 + adj <= 8 * e
    ensures 4 * (adj / 32) + h <= e
    ensures (e - (4 * (adj / 32) + h)) % 4 == 0
    ensures 4 * (adj / 32) + h == e <==> adj == 8 * (e - h)
  {
    var k := (e - h) / 4;
    assert e == 4 * k + h;
    assert adj <= 32 * k;
    assert adj / 32 <= k;
    if adj / 32 == k {
      assert adj == 32 * k;
    }
  }

  /**
   `StartReading`: attach the reader to a buffer. nBits == -1 means the whole
   buffer; overflow is cleared and the reader seeks to startBit.
   */
  function StartReading(data: seq<byte>, pastEnd: byte, startBit: int, nBits: int): (r: Reader)
    requires |data| < MaxBufferBytes
    requires nBits == -1 || 0 <= nBits <= 8 * |data|
    ensures Good(r)
    ensures r.data == data && r.pastEnd == pastEnd
    ensures r.dataBits == if nBits == -1 then 8 * |data| else nBits
    ensures r.overflow <==> !(0 <= startBit <= r.dataBits)
  {
    var dataBits := if nBits == -1 then 8 * |data| else nBits;
    Seek(Reader(data, pastEnd, dataBits, false, 0, 0, 0), startBit).next
  }

  /**
   `GetNumBitsRead`: the position reconstructed from the word pointer and the
   cache count, capped at m_nDataBits.
   */
  function GetNumBitsRead(r: Reader): (n: int)
    ensures n <= r.dataBits
  {
    var curOfs := (r.dataIn / 4 - 1) * 32 + (32 - r.avail);
    var adjust := 8 * (|r.data| % 4);
    if curOfs + adjust < r.dataBits then curOfs + adjust else r.dataBits
  }

  /** `GetNumBytesRead`: the bit count rounded up to whole bytes. */
  function GetNumBytesRead(r: Reader): (n: int)
    ensures 8 * n >= GetNumBitsRead(r)
    ensures 8 * n < GetNumBitsRead(r) + 8
  {
    (GetNumBitsRead(r) + 7) / 8
  }
}

=== FILE: bitreadproofs.dfy ===
/**
 The refinement between the word-cached reader and the abstract bit stream.

 A reader in `Sync` with position p holds in its cache exactly the stream
 bits from p up to the next word boundary; `AtEnd` is the state after the
 last word has been consumed. Both are "tracking" position p. A `Dead`
 reader has latched overflow past the end of the buffer and reads only 0.
 `Starved` is the state `Seek` leaves at the very end of a buffer of fewer
 than four bytes: its cache count is zero or negative.
 */
module BitReadProofs {
  import opened BitOps
  import opened BitStream
  import opened BitRead

  ghost predicate Sync(r: Reader, p: nat)
  {
    Good(r) && r.dataIn <= |r.data| &&
    1 <= r.avail <= 8 * r.dataIn && p == 8 * r.dataIn - r.avail &&
    r.word == Bits(r.data, p, r.avail)
  }

  ghost predicate AtEnd(r: Reader)
  {
    Good(r) && r.dataIn == |r.data| + 4 && r.avail == 1 && r.word == 0
  }

  ghost predicate Tracks(r: Reader, p: nat)
  {
    Sync(r, p) || (AtEnd(r) && p == 8 * |r.data|)
  }

  ghost predicate Dead(r: Reader)
  {
    Good(r) && r.overflow && r.dataIn > |r.data| && r.word == 0
  }

  ghost predicate Starved(r: Reader)
  {
    Good(r) && r.avail <= 0
  }

  /** The reader r behaves as the abstract cursor c. */
  ghost predicate Models(r: Reader, c: Cursor)
  {
    match c
    case Live(p) => !r.overflow && Tracks(r, p)
    case Dead => Dead(r)
  }

  lemma {:induction false} ShrZero(k: nat)
    ensures Shr(0, k) == 0
  {
    Small(0, k);
  }

  /** A refill at word boundary q starts tracking q again. */
  lemma {:induction false} FetchNextTracks(r: Reader, q: nat)
    requires Good(r) && r.dataIn <= |r.data| && q == 8 * r.dataIn
    ensures Tracks(FetchNext(r.(avail := 0)), q)
    ensures FetchNext(r.(avail := 0)).overflow == r.overflow
  {
    FetchNextGood(r.(avail := 0));
    if r.dataIn < |r.data| {
      WordBits(r.data, r.dataIn);
    }
  }

  /** Shifting a cached field right by k leaves the field k bits further on. */
  lemma {:induction false} ShrBits(d: seq<byte>, w: nat, p: nat, a: nat, k: nat)
    requires w == Bits(d, p, a) && k <= a
    ensures Shr(w, k) == Bits(d, p + k, a - k)
  {
    BitsShr(d, p, k, a - k);
    BitsEq(d, p, k + (a - k), p, a);
  }

  /** Masking a cached field to its low k bits leaves its first k bits. */
  lemma {:induction false} MaskBits(d: seq<byte>, w: nat, p: nat, a: nat, k: nat, mask: nat)
    requires w == Bits(d, p, a) && k <= a && mask == Pow2(k) - 1
    ensures And(w, mask) == Bits(d, p, k)
  {
    AndLowMask(w, k);
    BitsLow(d, p, k, a - k);
    BitsEq(d, p, k + (a - k), p, a);
  }

  /** The merge of two fields that do not overlap is their sum. */
  lemma {:induction false} MergeValue(w0: nat, w: nat, mask: nat, low: nat, a: nat, m: nat)
    requires And(w, mask) == low && low < Pow2(m) && w0 < Pow2(a) && a + m <= 32
    ensures Or(w0, Shl32(And(w, mask), a)) == w0 + Shl(low, a)
  {
    Shl32Fits(low, m, a);
    OrDisjoint(w0, low, a);
  }

  /** A field split where the cache runs out: the cached bits, then the next word's. */
  lemma {:induction false} MergeSplit(d: seq<byte>, p: nat, a: nat, m: nat, q: nat, n: nat)
    requires p + a == q && n == a + m
    ensures Bits(d, p, n) == Bits(d, p, a) + Shl(Bits(d, q, m), a)
  {
    BitsSplit(d, p, a, m);
    BitsEq(d, p + a, m, q, m);
    BitsEq(d, p, a + m, p, n);
  }

  /** The arithmetic of the merge: the rest of the cache, then the low bits of the next word. */
  lemma {:induction false} MergeBits(d: seq<byte>, w0: nat, w: nat, p: nat, a: nat, m: nat, q: nat, mask: nat, n: nat)
    requires w0 == Bits(d, p, a) && w == Bits(d, q, 32) && p + a == q
    requires 1 <= m && n == a + m <= 32 && mask == Pow2(m) - 1
    ensures Or(w0, Shl32(And(w, mask), a)) == Bits(d, p, n)
  {
    var low := Bits(d, q, m);
    MaskBits(d, w, q, 32, m, mask);
    BitsBound(d, q, m);
    BitsBound(d, p, a);
    MergeValue(w0, w, mask, low, a, m);
    MergeSplit(d, p, a, m, q, n);
  }

  lemma {:induction false} CachedValue(r: Reader, p: nat, n: nat)
    requires Sync(r, p) && 1 <= n <= r.avail
    ensures ReadCached(r, n).value == Bits(r.data, p, n)
  {
    MaskTableEntry(n);
    MaskBits(r.data, r.word, p, r.avail, n, MaskTable[n]);
  }

  lemma {:induction false} CachedShift(r: Reader, p: nat, n: nat)
    requires Sync(r, p) && 1 <= n < r.avail
    ensures Sync(ReadCached(r, n).next, p + n)
    ensures ReadCached(r, n).next.overflow == r.overflow
  {
    ShrBits(r.data, r.word, p, r.avail, n);
    ShrLe(r.word, n);
  }

  lemma {:induction false} CachedRefill(r: Reader, p: nat, n: nat)
    requires Sync(r, p) && 1 <= n == r.avail
    ensures Tracks(ReadCached(r, n).next, p + n)
    ensures ReadCached(r, n).next.overflow == r.overflow
  {
    FetchNextTracks(r, 8 * r.dataIn);
    assert p + n == 8 * r.dataIn;
  }

  /** A field served from the cache is the next n stream bits. */
  lemma {:induction false} ReadCachedTracks(r: Reader, p: nat, n: nat)
    requires Sync(r, p) && 1 <= n <= r.avail
    ensures ReadCached(r, n).value == Bits(r.data, p, n)
    ensures Tracks(ReadCached(r, n).next, p + n)
    ensures ReadCached(r, n).next.overflow == r.overflow
  {
    CachedValue(r, p, n);
    if n < r.avail {
      CachedShift(r, p, n);
    } else {
      CachedRefill(r, p, n);
    }
  }

  /** A merge inside the buffer loads the next word without overflow. */
  lemma {:induction false} MergedGrab(r: Reader)
    requires Good(r) && !r.overflow && r.dataIn + 4 <= |r.data|
    ensures GrabNextDWord(r, true) == r.(word := WordAt(r.data, r.dataIn), dataIn := r.dataIn + 4)
  {
  }

  /** After a merge the reader is synchronised one word further on. */
  lemma {:induction false} MergedSync(r: Reader, p: nat, n: nat, w: nat)
    requires Sync(r, p) && r.avail < n <= 32 && r.dataIn + 4 <= |r.data|
    requires w == Bits(r.data, 8 * r.dataIn, 32)
    ensures Sync(r.(word := Shr(w, n - r.avail), dataIn := r.dataIn + 4, avail := 32 - (n - r.avail)), p + n)
  {
    var m := n - r.avail;
    assert p + n == 8 * r.dataIn + m;
    ShrBits(r.data, w, 8 * r.dataIn, 32, m);
    BitsEq(r.data, 8 * r.dataIn + m, 32 - m, p + n, 32 - (n - r.avail));
    BitsBound(r.data, 8 * r.dataIn, 32);
    Pow2Word();
    MergedGood(r, w, m);
  }

  lemma {:induction false} MergedValue(r: Reader, p: nat, n: nat)
    requires Sync(r, p) && r.avail < n <= 32 && !r.overflow && r.dataIn + 4 <= |r.data|
    ensures ReadMerged(r, n).value == Bits(r.data, p, n)
  {
    var m := n - r.avail;
    WordBits(r.data, r.dataIn);
    MaskTableEntry(m);
    MergeBits(r.data, r.word, WordAt(r.data, r.dataIn), p, r.avail, m, 8 * r.dataIn, MaskTable[m], n);
    MergedGrab(r);
  }

  lemma {:induction false} MergedNext(r: Reader, p: nat, n: nat)
    requires Sync(r, p) && r.avail < n <= 32 && !r.overflow && r.dataIn + 4 <= |r.data|
    ensures Sync(ReadMerged(r, n).next, p + n)
    ensures !ReadMerged(r, n).next.overflow
  {
    WordBits(r.data, r.dataIn);
    MergedGrab(r);
    MergedSync(r, p, n, WordAt(r.data, r.dataIn));
  }

  /** A field that straddles two words, inside the buffer, is still the next n bits. */
  lemma {:induction false} ReadMergedTracks(r: Reader, p: nat, n: nat)
    requires Sync(r, p) && r.avail < n <= 32 && !r.overflow && p + n <= 8 * |r.data|
    ensures ReadMerged(r, n).value == Bits(r.data, p, n)
    ensures Sync(ReadMerged(r, n).next, p + n)
    ensures !ReadMerged(r, n).next.overflow
  {
    assert r.dataIn + 4 <= |r.data|;
    MergedValue(r, p, n);
    MergedNext(r, p, n);
  }

  /** A straddling field that runs past the buffer end kills the reader. */
  lemma {:induction false} ReadMergedPastEnd(r: Reader, p: nat, n: nat)
    requires Sync(r, p) && r.avail < n <= 32 && p + n > 8 * |r.data|
    ensures ReadMerged(r, n).value == 0
    ensures Dead(ReadMerged(r, n).next)
  {
    assert r.dataIn == |r.data|;
  }

  /** Once overflow is latched, a straddling field reads as 0 even inside the buffer. */
  lemma {:induction false} ReadMergedStale(r: Reader, n: nat)
    requires Good(r) && 1 <= n <= 32 && r.avail < n && r.overflow
    ensures ReadUBitLong(r, n).value == 0
    ensures ReadUBitLong(r, n).next.overflow
  {
  }

  lemma {:induction false} ReadAtEnd(r: Reader, n: nat)
    requires AtEnd(r) && 1 <= n <= 32
    ensures ReadUBitLong(r, n).value == 0
    ensures Dead(ReadUBitLong(r, n).next)
  {
    MaskTableEntry(n);
  }

  /** A dead reader reads 0 and stays dead. */
  lemma {:induction false} ReadDead(r: Reader, n: nat)
    requires Dead(r) && 1 <= n <= 32
    ensures ReadUBitLong(r, n).value == 0
    ensures Dead(ReadUBitLong(r, n).next)
  {
    ShrZero(n);
  }

  /** A starved reader has no word left to merge: any field kills it. */
  lemma {:induction false} ReadStarved(r: Reader, n: nat)
    requires Starved(r) && 1 <= n <= 32
    ensures ReadUBitLong(r, n).value == 0
    ensures Dead(ReadUBitLong(r, n).next)
  {
  }

  /**
   `ReadUBitLong` on a reader that tracks p without overflow, for a field
   inside the buffer: the next n stream bits, and the reader advances by n.
   */
  lemma {:induction false} ReadUBitLongInside(r: Reader, p: nat, n: nat)
    requires Tracks(r, p) && !r.overflow && 1 <= n <= 32 && p + n <= 8 * |r.data|
    ensures ReadUBitLong(r, n).value == Bits(r.data, p, n)
    ensures Tracks(ReadUBitLong(r, n).next, p + n)
    ensures !ReadUBitLong(r, n).next.overflow
  {
    if r.avail >= n {
      ReadCachedTracks(r, p, n);
    } else {
      ReadMergedTracks(r, p, n);
    }
  }

  /** A field that runs past the buffer end reads 0 and leaves the reader dead. */
  lemma {:induction false} ReadUBitLongPastEnd(r: Reader, p: nat, n: nat)
    requires Tracks(r, p) && !r.overflow && 1 <= n <= 32 && p + n > 8 * |r.data|
    ensures ReadUBitLong(r, n).value == 0
    ensures Dead(ReadUBitLong(r, n).next)
  {
    if AtEnd(r) && p == 8 * |r.data| {
      ReadAtEnd(r, n);
    } else {
      ReadMergedPastEnd(r, p, n);
    }
  }

  /**
   After a `Seek` back into the buffer with overflow latched, fields served
   from the cache are still read correctly; a field needing a word merge
   reads 0.
   */
  lemma {:induction false} ReadUBitLongStale(r: Reader, p: nat, n: nat)
    requires Sync(r, p) && r.overflow && 1 <= n <= 32
    ensures var s := ReadUBitLong(r, n);
            s.next.overflow &&
            (n <= r.avail ==> s.value == Bits(r.data, p, n) && Tracks(s.next, p + n)) &&
            (n > r.avail ==> s.value == 0)
  {
    if n <= r.avail {
      ReadCachedTracks(r, p, n);
    }
  }

  /** A field inside the buffer: the reader and `Take` agree on value and cursor. */
  lemma {:induction false} LiveInside(r: Reader, p: nat, n: nat)
    requires Models(r, Live(p)) && 1 <= n <= 32 && p + n <= 8 * |r.data|
    ensures Take(r.data, Live(p), n) == Got(Bits(r.data, p, n), Live(p + n))
    ensures ReadUBitLong(r, n).value == Bits(r.data, p, n)
    ensures Models(ReadUBitLong(r, n).next, Live(p + n))
  {
    ReadUBitLongInside(r, p, n);
  }

  /** A field past the buffer end: both read 0 and die. */
  lemma {:induction false} LiveOutside(r: Reader, p: nat, n: nat)
    requires Models(r, Live(p)) && 1 <= n <= 32 && p + n > 8 * |r.data|
    ensures Take(r.data, Live(p), n) == Got(0, Cursor.Dead)
    ensures ReadUBitLong(r, n).value == 0
    ensures Models(ReadUBitLong(r, n).next, Cursor.Dead)
  {
    ReadUBitLongPastEnd(r, p, n);
  }

  /** `ReadUBitLong` is `Take` on the cursor the reader models. */
  lemma {:induction false} ReadUBitLongRefines(r: Reader, c: Cursor, n: nat)
    requires Models(r, c) && 1 <= n <= 32
    ensures ReadUBitLong(r, n).value == Take(r.data, c, n).value
    ensures Models(ReadUBitLong(r, n).next, Take(r.data, c, n).next)
  {
    match c
    case Live(p) =>
      if p + n <= 8 * |r.data| {
        LiveInside(r, p, n);
      } else {
        LiveOutside(r, p, n);
      }
    case Dead => ReadDead(r, n);
  }

  /** The low bit of a cached field is its first stream bit. */
  lemma {:induction false} OneBitValue(d: seq<byte>, w: nat, p: nat, a: nat)
    requires w == Bits(d, p, a) && 1 <= a
    ensures And(w, 1) == Bits(d, p, 1)
  {
    AndLowMask(w, 1);
    BitsLow(d, p, 1, a - 1);
    BitsEq(d, p, 1 + (a - 1), p, a);
  }

  /** One bit from a synchronised cache that still holds more. */
  lemma {:induction false} OneBitShift(r: Reader, p: nat)
    requires Sync(r, p) && r.avail > 1
    ensures ReadOneBit(r).value == Bits(r.data, p, 1)
    ensures Sync(ReadOneBit(r).next, p + 1)
    ensures ReadOneBit(r).next.overflow == r.overflow
  {
    OneBitValue(r.data, r.word, p, r.avail);
    ShrBits(r.data, r.word, p, r.avail, 1);
    ShrLe(r.word, 1);
  }

  /** The last cached bit, after which the reader refills. */
  lemma {:induction false} OneBitRefill(r: Reader, p: nat)
    requires Sync(r, p) && r.avail == 1
    ensures ReadOneBit(r).value == Bits(r.data, p, 1)
    ensures Tracks(ReadOneBit(r).next, p + 1)
    ensures ReadOneBit(r).next.overflow == r.overflow
  {
    OneBitValue(r.data, r.word, p, r.avail);
    FetchNextTracks(r, 8 * r.dataIn);
  }

  /** `ReadOneBit` at the buffer end reads 0 and kills the reader. */
  lemma {:induction false} OneBitAtEnd(r: Reader)
    requires AtEnd(r)
    ensures ReadOneBit(r).value == 0
    ensures Dead(ReadOneBit(r).next)
  {
    AndLowMask(r.word, 1);
  }

  /** `ReadOneBit` on a dead reader reads 0 and stays dead. */
  lemma {:induction false} OneBitDead(r: Reader)
    requires Dead(r)
    ensures ReadOneBit(r).value == 0
    ensures Dead(ReadOneBit(r).next)
  {
    AndLowMask(r.word, 1);
    ShrZero(1);
  }

  /** `ReadOneBit` is a one-bit `Take` on the cursor the reader models. */
  lemma {:induction false} ReadOneBitRefines(r: Reader, c: Cursor)
    requires Models(r, c)
    ensures ReadOneBit(r).value == Take(r.data, c, 1).value
    ensures Models(ReadOneBit(r).next, Take(r.data, c, 1).next)
  {
    match c
    case Live(p) =>
      if !Sync(r, p) {
        OneBitAtEnd(r);
      } else if r.avail > 1 {
        OneBitShift(r, p);
      } else {
        OneBitRefill(r, p);
      }
    case Dead =>
      OneBitDead(r);
  }

  /**
   A starved reader's `ReadOneBit` never refills and never overflows: it
   keeps shifting whatever the cache holds.
   */
  lemma {:induction false} ReadOneBitStarved(r: Reader)
    requires Starved(r)
    ensures ReadOneBit(r).value == r.word % 2
    ensures Starved(ReadOneBit(r).next)
    ensures ReadOneBit(r).next.overflow == r.overflow
    ensures ReadOneBit(r).next.avail == r.avail - 1
  {
    AndLowMask(r.word, 1);
  }

  /** Two head bytes, merged as the partial-word branch merges them, are the first 16 stream bits. */
  lemma {:induction false} HeadTwo(d: seq<byte>)
    requires |d| >= 2
    ensures Or(d[0], Shl32(d[1], 8)) == Bits(d, 0, 16)
  {
    Pow2Values();
    ByteBits(d, 0);
    ByteBits(d, 1);
    BitsSplit(d, 0, 8, 8);
    Shl32Fits(d[1], 8, 8);
    OrDisjoint(d[0], d[1], 8);
  }

  /** Three head bytes are the first 24 stream bits. */
  lemma {:induction false} HeadThree(d: seq<byte>)
    requires |d| >= 3
    ensures Or(Or(d[0], Shl32(d[1], 8)), Shl32(d[2], 16)) == Bits(d, 0, 24)
  {
    Pow2Values();
    HeadTwo(d);
    ByteBits(d, 2);
    BitsSplit(d, 0, 16, 8);
    BitsBound(d, 0, 16);
    Shl32Fits(d[2], 8, 16);
    OrDisjoint(Bits(d, 0, 16), d[2], 16);
  }

  /** The head bytes, assembled by the partial-word branch, are the first stream bits. */
  lemma {:induction false} HeadWordBits(r: Reader)
    requires |r.data| > 0 && HeadBytes(r) > 0
    ensures HeadWord(r) == Bits(r.data, 0, 8 * HeadBytes(r))
  {
    var h := HeadBytes(r);
    var d := r.data;
    if h == 1 {
      assert HeadWord(r) == d[0];
      ByteBits(d, 0);
      BitsEq(d, 0, 8, 0, 8 * h);
    } else if h == 2 {
      assert HeadWord(r) == Or(d[0], Shl32(d[1], 8));
      HeadTwo(d);
      BitsEq(d, 0, 16, 0, 8 * h);
    } else {
      assert HeadWord(r) == Or(Or(d[0], Shl32(d[1], 8)), Shl32(d[2], 16));
      HeadThree(d);
      BitsEq(d, 0, 24, 0, 8 * h);
    }
  }

  /** Seeking inside the head bytes synchronises the reader there. */
  lemma {:induction false} SeekHeadSync(r: Reader, q: nat)
    requires Configured(r) && q <= r.dataBits
    requires 0 < HeadBytes(r) && q < 8 * HeadBytes(r)
    ensures Sync(SeekHead(r, q), q)
  {
    var h := HeadBytes(r);
    assert q % 32 == q;
    HeadWordBits(r);
    assert SeekHead(r, q) == r.(word := Shr(HeadWord(r), q), dataIn := h, avail := 8 * h - q);
    ShrBits(r.data, HeadWord(r), 0, 8 * h, q);
  }

  lemma {:induction false} SeekHeadTracks(r: Reader, q: nat)
    requires Configured(r) && q <= r.dataBits
    requires |r.data| < 4 || q < 8 * HeadBytes(r)
    ensures var r' := SeekHead(r, q);
            Tracks(r', q) || (Starved(r') && |r.data| < 4 && q == 8 * |r.data|)
  {
    var h := HeadBytes(r);
    if 0 < h && q < 8 * h {
      SeekHeadSync(r, q);
    } else {
      assert |r.data| < 4 && h == |r.data|;
      assert q == 8 * h && q % 32 == q;
    }
  }

  /** Loading a whole word inside the buffer synchronises the reader k bits into it. */
  lemma {:induction false} LoadWordSync(r: Reader, o: nat, k: nat)
    requires Configured(r) && o + 4 <= |r.data| && (|r.data| - o) % 4 == 0 && k < 32
    ensures Sync(LoadWordAt(r, o, k), 8 * o + k)
  {
    var w := WordAt(r.data, o);
    assert LoadWordAt(r, o, k) == r.(word := Shr(w, k), dataIn := o + 4, avail := 32 - k);
    WordBits(r.data, o);
    ShrBits(r.data, w, 8 * o, 32, k);
  }

  lemma {:induction false} SeekWordTracks(r: Reader, q: nat)
    requires Configured(r) && q <= r.dataBits
    requires |r.data| >= 4 && 8 * HeadBytes(r) <= q
    ensures Tracks(SeekWord(r, q), q)
  {
    var h := HeadBytes(r);
    var adj: nat := q - 8 * h;
    var o := 4 * (adj / 32) + h;
    SeekWordOffset(|r.data|, h, adj);
    assert SeekWord(r, q) == LoadWordAt(r, o, adj % 32);
    if o < |r.data| {
      assert |r.data| - o == 4 * ((|r.data| - o) / 4);
      LoadWordSync(r, o, adj % 32);
      assert 8 * o + adj % 32 == q;
    } else {
      ShrZero(adj % 32);
    }
  }

  /**
   `Seek` to a position inside 0 .. m_nDataBits tracks it; outside, it
   tracks m_nDataBits. The one exception is the end of a buffer of fewer
   than four bytes, where the reader is left starved.
   */
  lemma {:induction false} SeekTracks(r: Reader, p: int)
    requires Configured(r)
    ensures var s := Seek(r, p);
            var q := if s.value then p else r.dataBits;
            q >= 0 &&
            (Tracks(s.next, q) || (Starved(s.next) && |r.data| < 4 && q == 8 * |r.data|))
  {
    var ok := 0 <= p <= r.dataBits;
    var q: nat := if ok then p else r.dataBits;
    var r0 := r.(overflow := r.overflow || !ok);
    var e := |r.data|;
    var h := e % 4;
    if e < 4 || (h != 0 && q / 8 < h) {
      SeekHeadTracks(r0, q);
    } else {
      SeekWordTracks(r0, q);
    }
  }

  /**
   After `StartReading` the reader models the stream at startBit, or at
   m_nDataBits with overflow set for a start outside the data; a buffer of
   fewer than four bytes started at its end is starved instead.
   */
  lemma {:induction false} StartReadingModels(data: seq<byte>, pastEnd: byte, startBit: int, nBits: int)
    requires |data| < MaxBufferBytes
    requires nBits == -1 || 0 <= nBits <= 8 * |data|
    ensures var r := StartReading(data, pastEnd, startBit, nBits);
            (0 <= startBit <= r.dataBits ==>
               Models(r, Live(startBit)) || (Starved(r) && |data| < 4 && startBit == 8 * |data|)) &&
            (!(0 <= startBit <= r.dataBits) ==>
               r.overflow && (Tracks(r, r.dataBits) || (Starved(r) && r.dataBits == 8 * |data|)))
  {
    var dataBits := if nBits == -1 then 8 * |data| else nBits;
    SeekTracks(Reader(data, pastEnd, dataBits, false, 0, 0, 0), startBit);
  }

  /** `GetNumBitsRead` on a tracking reader is its position, capped at m_nDataBits. */
  lemma {:induction false} NumBitsReadTracks(r: Reader, p: nat)
    requires Tracks(r, p)
    ensures GetNumBitsRead(r) == if p < r.dataBits then p else r.dataBits
  {
    var e := |r.data|;
    var h := e % 4;
    if Sync(r, p) {
      var k := (r.dataIn - h) / 4;
      assert r.dataIn == 4 * k + h;
      assert r.dataIn / 4 == k;
    } else {
      var k := (e - h) / 4;
      assert r.dataIn == 4 * (k + 1) + h;
      assert r.dataIn / 4 == k + 1;
    }
  }

  /** A dead or starved reader reports the whole of m_nDataBits as read. */
  lemma {:induction false} NumBitsReadExhausted(r: Reader)
    requires Dead(r) || Starved(r)
    ensures GetNumBitsRead(r) == r.dataBits
  {
    var e := |r.data|;
    var h := e % 4;
    var k := (e - h) / 4;
    assert e == 4 * k + h;
    if r.dataIn == e + 4 {
      assert r.dataIn / 4 == k + 1;
    } else if r.dataIn == e {
      assert r.dataIn / 4 == k;
    } else {
      assert e == 0 && r.dataIn == 1;
    }
  }
}

=== FILE: bitsource.dfy ===
/**
 A bit source is either the real word-cached reader or the abstract stream
 cursor it refines. Every field reader above `ReadUBitLong` and
 `ReadOneBit` is written once over a source: run on a `Real` source it is
 the `CBitRead` member function, run on an `Ideal` source it is the meaning
 of that function on the bit stream. `Corr` relates a real and an ideal
 source that behave alike, and each reader comes with a lemma that it
 preserves `Corr` and yields equal values on both.
 */
module BitSource {
  import opened BitOps
  import opened BitStream
  import opened BitRead
  import opened BitReadProofs

  datatype Src = Real(r: Reader) | Ideal(data: seq<byte>, c: Cursor)

  /** A value read from a source, with the source after it. */
  datatype Out<T> = Out(value: T, rest: Src)

  ghost predicate Valid(s: Src)
  {
    s.Real? ==> Good(s.r)
  }

  function Data(s: Src): seq<byte>
  {
    if s.Real? then s.r.data else s.data
  }

  /** The overflow flag of a real reader; a dead cursor of an ideal one. */
  predicate Overflowed(s: Src)
  {
    if s.Real? then s.r.overflow else s.c.Dead?
  }

  /** s' reads the same buffer as s, through the same kind of source. */
  ghost predicate SameBuffer(s: Src, s': Src)
  {
    s'.Real? == s.Real? && Valid(s') && Data(s') == Data(s) &&
    (s.Real? ==> s'.r.pastEnd == s.r.pastEnd && s'.r.dataBits == s.r.dataBits)
  }

  /** The real source a and the ideal source b behave alike. */
  ghost predicate Corr(a: Src, b: Src)
  {
    a.Real? && b.Ideal? && a.r.data == b.data && Models(a.r, b.c)
  }

  lemma {:induction false} CorrOverflow(a: Src, b: Src)
    requires Corr(a, b)
    ensures Valid(a) && Overflowed(a) == Overflowed(b)
  {
  }

  /** `ReadUBitLong`: an unsigned field of 1 to 32 bits. */
  function UBits(s: Src, n: nat): (o: Out<nat>)
    requires Valid(s) && 1 <= n <= 32
    ensures SameBuffer(s, o.rest)
    ensures o.value < TWO32
    ensures s.Ideal? ==> o.value < Pow2(n)
    ensures Overflowed(s) ==> Overflowed(o.rest)
  {
    match s
    case Real(r) =>
      var t := ReadUBitLong(r, n);
      Out(t.value, Real(t.next))
    case Ideal(d, c) =>
      var g := Take(d, c, n);
      TakeWord(d, c, n);
      Out(g.value, Ideal(d, g.next))
  }

  /** `ReadOneBit`: a single bit. */
  function OneBit(s: Src): (o: Out<nat>)
    requires Valid(s)
    ensures SameBuffer(s, o.rest)
    ensures o.value < 2
    ensures Overflowed(s) ==> Overflowed(o.rest)
  {
    match s
    case Real(r) =>
      var t := ReadOneBit(r);
      Out(t.value, Real(t.next))
    case Ideal(d, c) =>
      var g := Take(d, c, 1);
      TakeWord(d, c, 1);
      Out(g.value, Ideal(d, g.next))
  }

  /** A field taken from the stream fits its width, hence a 32-bit word. */
  lemma TakeWord(d: seq<byte>, c: Cursor, n: nat)
    requires n <= 32
    ensures Take(d, c, n).value < TWO32
    ensures n == 1 ==> Take(d, c, n).value < 2
  {
    Pow2Mono(n, 32);
    Pow2Word();
    assert Pow2(1) == 2;
  }

  /** `ReadSBitLong`: a field of 1 to 32 bits, sign-extended from its top bit. */
  function SBits(s: Src, n: nat): (o: Out<int>)
    requires Valid(s) && 1 <= n <= 32
    ensures SameBuffer(s, o.rest)
    ensures -TWO31 <= o.value < TWO31
    ensures o.rest == UBits(s, n).rest
    ensures Overflowed(s) ==> Overflowed(o.rest)
  {
    var u := UBits(s, n);
    AsrRange(Int32(Shl(Int32(u.value), 32 - n)), 32 - n);
    Out(ShlAsr32(u.value, n), u.rest)
  }

  /** On the stream, an unsigned field inside the buffer is the next n bits. */
  lemma {:induction false} IdealUBits(d: seq<byte>, p: nat, n: nat)
    requires 1 <= n <= 32 && p + n <= 8 * |d|
    ensures UBits(Ideal(d, Live(p)), n) == Out(Bits(d, p, n), Ideal(d, Live(p + n)))
  {
  }

  /** On the stream, a signed field is the sign extension of the next n bits. */
  lemma {:induction false} IdealSBits(d: seq<byte>, p: nat, n: nat)
    requires 1 <= n <= 32 && p + n <= 8 * |d|
    ensures SBits(Ideal(d, Live(p)), n).value == SignExtend(Bits(d, p, n), n)
    ensures SBits(Ideal(d, Live(p)), n).rest == Ideal(d, Live(p + n))
  {
    var v := Bits(d, p, n);
    IdealUBits(d, p, n);
    BitsBound(d, p, n);
    ShlAsr32IsSignExtend(v, n);
    assert SBits(Ideal(d, Live(p)), n) == Out(ShlAsr32(v, n), Ideal(d, Live(p + n)));
  }

  /** A field that does not fit reads 0 (or, signed, 0 as well) and kills the cursor. */
  lemma {:induction false} IdealPastEnd(d: seq<byte>, p: nat, n: nat)
    requires 1 <= n <= 32 && p + n > 8 * |d|
    ensures UBits(Ideal(d, Live(p)), n) == Out(0, Ideal(d, Cursor.Dead))
    ensures SBits(Ideal(d, Live(p)), n) == Out(0, Ideal(d, Cursor.Dead))
  {
    Pow2Values();
    ShlAsr32IsSignExtend(0, n);
  }

  lemma {:induction false} UBitsAgree(a: Src, b: Src, n: nat)
    requires Corr(a, b) && 1 <= n <= 32
    ensures UBits(a, n).value == UBits(b, n).value
    ensures Corr(UBits(a, n).rest, UBits(b, n).rest)
  {
    ReadUBitLongRefines(a.r, b.c, n);
  }

  lemma {:induction false} OneBitAgree(a: Src, b: Src)
    requires Corr(a, b)
    ensures OneBit(a).value == OneBit(b).value
    ensures Corr(OneBit(a).rest, OneBit(b).rest)
  {
    ReadOneBitRefines(a.r, b.c);
  }

  lemma {:induction false} SBitsAgree(a: Src, b: Src, n: nat)
    requires Corr(a, b) && 1 <= n <= 32
    ensures SBits(a, n).value == SBits(b, n).value
    ensures Corr(SBits(a, n).rest, SBits(b, n).rest)
  {
    UBitsAgree(a, b, n);
  }

  /**
   A bound on the bits a source can still yield before it reads only 0:
   the cache count, the unread whole words, and a margin for a final
   non-zero word held past the buffer end.
   */
  ghost function Measure(s: Src): nat
  {
    match s
    case Real(r) =>
      var e := |r.data|;
      (if r.avail > 0 then r.avail else 0) +
      (if r.dataIn <= e then 8 * (e - r.dataIn) else 0) +
      (if r.dataIn > e && r.word != 0 then 64 else 0)
    case Ideal(d, c) =>
      if c.Live? && c.pos <= 8 * |d| then 8 * |d| - c.pos + 1 else 0
  }

  /** A read of at least two bits that yields a non-zero value lowers the measure. */
  lemma {:induction false} UBitsProgress(s: Src, n: nat)
    requires Valid(s) && 2 <= n <= 32 && UBits(s, n).value != 0
    ensures Measure(UBits(s, n).rest) < Measure(s)
  {
    match s
    case Real(r) =>
      if r.avail >= n {
        if r.avail - n != 0 {
          CachedProgress(r, n);
        } else {
          RefillProgress(r, n);
        }
      } else {
        MergedProgress(r, n);
      }
    case Ideal(d, c) =>
  }

  lemma {:induction false} CachedProgress(r: Reader, n: nat)
    requires Good(r) && 1 <= n < r.avail
    ensures Measure(Real(ReadCached(r, n).next)) < Measure(Real(r))
  {
    ShrLe(r.word, n);
    assert ReadCached(r, n).next == r.(avail := r.avail - n, word := Shr(r.word, n));
    if Shr(r.word, n) != 0 {
      assert r.word != 0;
    }
  }

  lemma {:induction false} RefillProgress(r: Reader, n: nat)
    requires Good(r) && 2 <= n == r.avail && ReadCached(r, n).value != 0
    ensures Measure(Real(ReadCached(r, n).next)) < Measure(Real(r))
  {
    var e := |r.data|;
    var g := FetchNext(r.(avail := 0));
    assert ReadCached(r, n).next == g;
    if r.dataIn > e {
      assert r.word != 0;
    }
  }

  lemma {:induction false} MergedProgress(r: Reader, n: nat)
    requires Good(r) && r.avail < n <= 32 && ReadMerged(r, n).value != 0
    ensures Measure(Real(ReadMerged(r, n).next)) < Measure(Real(r))
  {
    var m := n - r.avail;
    var g := GrabNextDWord(r, true);
    assert !g.overflow;
    assert r.dataIn + 4 <= |r.data|;
    assert ReadMerged(r, n).next == g.(avail := 32 - m, word := Shr(g.word, m));
  }

  /** A fixed-width field as a writer lays it down: its width and its value. */
  datatype Field = Field(width: nat, value: nat)

  function Width(fs: seq<Field>): nat
  {
    if |fs| == 0 then 0 else fs[0].width + Width(fs[1..])
  }

  lemma {:induction false} WidthPair(fs: seq<Field>)
    requires |fs| == 2
    ensures Width(fs) == fs[0].width + fs[1].width
  {
    var t := fs[1..];
    assert t[1..] == [];
    assert Width(t) == t[0].width + Width(t[1..]);
  }

  lemma {:induction false} WidthAppend(a: seq<Field>, b: seq<Field>)
    ensures Width(a + b) == Width(a) + Width(b)
    decreases |a|
  {
    if |a| > 0 {
      assert (a + b)[1..] == a[1..] + b;
      WidthAppend(a[1..], b);
    } else {
      assert a + b == b;
    }
  }

  /** Every value fits its width, so a writer can emit the fields. */
  predicate Fits(fs: seq<Field>)
  {
    forall i :: 0 <= i < |fs| ==> fs[i].value < Pow2(fs[i].width)
  }

  /** The stream holds the fields fs, in order, from bit p, inside the buffer. */
  ghost predicate Holds(d: seq<byte>, p: nat, fs: seq<Field>)
    decreases |fs|
  {
    if |fs| == 0 then p <= 8 * |d|
    else
      p + fs[0].width <= 8 * |d| && Bits(d, p, fs[0].width) == fs[0].value &&
      Holds(d, p + fs[0].width, fs[1..])
  }

  /** A stream holding fields has room for all of them. */
  lemma {:induction false} HoldsRoom(d: seq<byte>, p: nat, fs: seq<Field>)
    requires Holds(d, p, fs)
    ensures p + Width(fs) <= 8 * |d|
    decreases |fs|
  {
    if |fs| > 0 {
      HoldsRoom(d, p + fs[0].width, fs[1..]);
    }
  }

  /** Reading the first field of a stream that holds fs. */
  lemma {:induction false} HoldsHead(d: seq<byte>, p: nat, fs: seq<Field>, n: nat)
    requires Holds(d, p, fs) && |fs| > 0 && n == fs[0].width && 1 <= n <= 32
    ensures UBits(Ideal(d, Live(p)), n) == Out(fs[0].value, Ideal(d, Live(p + n)))
    ensures Holds(d, p + n, fs[1..])
  {
    IdealUBits(d, p, n);
  }

  /** A stream holding a + b holds a, and b right after it. */
  lemma {:induction false} HoldsAppend(d: seq<byte>, p: nat, a: seq<Field>, b: seq<Field>)
    requires Holds(d, p, a + b)
    ensures Holds(d, p, a) && Holds(d, p + Width(a), b)
    decreases |a|
  {
    if |a| == 0 {
      assert a + b == b;
      HoldsRoom(d, p, b);
    } else {
      assert (a + b)[0] == a[0] && (a + b)[1..] == a[1..] + b;
      HoldsAppend(d, p + a[0].width, a[1..], b);
    }
  }

  /** `HoldsAppend` with the position of b named. */
  lemma {:induction false} HoldsSplit(d: seq<byte>, p: nat, a: seq<Field>, b: seq<Field>, q: nat)
    requires Holds(d, p, a + b) && q == p + Width(a)
    ensures Holds(d, p, a) && Holds(d, q, b)
  {
    HoldsAppend(d, p, a, b);
  }

  /** Bytes appended to the buffer do not disturb the fields it holds. */
  lemma {:induction false} HoldsPrefix(d: seq<byte>, more: seq<byte>, p: nat, fs: seq<Field>)
    requires Holds(d, p, fs)
    ensures Holds(d + more, p, fs)
    decreases |fs|
  {
    if |fs| > 0 {
      BitsPrefix(d, more, p, fs[0].width);
      HoldsPrefix(d, more, p + fs[0].width, fs[1..]);
    }
  }

  /** A run of bytes as eight-bit fields. */
  function ByteFields(bs: seq<byte>): (fs: seq<Field>)
    ensures |fs| == |bs|
    ensures forall i :: 0 <= i < |bs| ==> fs[i] == Field(8, bs[i])
  {
    seq(|bs|, i requires 0 <= i < |bs| => Field(8, bs[i]))
  }

  /** A byte-aligned stretch of the buffer holds its own bytes. */
  lemma {:induction false} AlignedBytesHold(d: seq<byte>, j: nat, k: nat)
    requires j <= k <= |d|
    ensures Holds(d, 8 * j, ByteFields(d[j..k]))
    decreases k - j
  {
    var fs := ByteFields(d[j..k]);
    if j < k {
      ByteBits(d, j);
      assert fs[1..] == ByteFields(d[j + 1..k]);
      AlignedBytesHold(d, j + 1, k);
      assert 8 * j + 8 == 8 * (j + 1);
    }
  }

  /** Appending nothing leaves a sequence as it is. */
  lemma AppendEmpty<T>(x: seq<T>)
    ensures x + [] == x
  {
  }
}

=== FILE: bitstream.dfy ===
/**
 The abstract view of a bit stream over a byte buffer. Stream bit i is bit
 i % 8 of byte i / 8 (the little-endian convention of the target platform),
 and an n-bit field read at position p has stream bit p as its least
 significant bit.
 */
module BitStream {
  import opened BitOps

  type byte = x: nat | x < 256

  /** Stream bit i of the buffer; positions past the end read as 0. */
  function StreamBit(data: seq<byte>, i: nat): (b: nat)
    ensures b < 2
  {
    BitFrom(data, 0, i)
  }

  /** Bit i of the stream that starts at byte j. */
  function BitFrom(data: seq<byte>, j: nat, i: nat): (b: nat)
    ensures b < 2
    decreases |data| - j
  {
    if j >= |data| then 0
    else if i < 8 then Shr(data[j], i) % 2
    else BitFrom(data, j + 1, i - 8)
  }

  lemma {:induction false} BitFromAt(data: seq<byte>, j0: nat, j: nat, o: nat)
    requires j0 <= j < |data| && o < 8
    ensures BitFrom(data, j0, 8 * (j - j0) + o) == Shr(data[j], o) % 2
    decreases j - j0
  {
    if j0 < j {
      BitFromAt(data, j0 + 1, j, o);
      assert 8 * (j - j0) + o - 8 == 8 * (j - (j0 + 1)) + o;
    }
  }

  /** The n stream bits from position p, least significant first. */
  function Bits(data: seq<byte>, p: nat, n: nat): nat
    decreases n, p
  {
    if n == 0 then 0 else StreamBit(data, p) + 2 * Bits(data, p + 1, n - 1)
  }

  /** Little-endian value of a byte sequence. */
  function LittleEndian(s: seq<byte>): nat
  {
    if |s| == 0 then 0 else s[0] + Shl(LittleEndian(s[1..]), 8)
  }

  /** The `uint32` a little-endian load sees at byte offset o. */
  function WordAt(data: seq<byte>, o: nat): nat
    requires o + 4 <= |data|
  {
    LittleEndian(data[o..o + 4])
  }

  /** Equal positions and widths give equal fields. */
  lemma {:induction false} BitsEq(data: seq<byte>, p: nat, n: nat, p': nat, n': nat)
    requires p == p' && n == n'
    ensures Bits(data, p, n) == Bits(data, p', n')
  {
  }

  lemma {:induction false} BitsBound(data: seq<byte>, p: nat, n: nat)
    ensures Bits(data, p, n) < Pow2(n)
    decreases n
  {
    if n > 0 {
      BitsBound(data, p + 1, n - 1);
    }
  }

  /** An (a+b)-bit field is its first a bits plus the next b bits shifted up. */
  lemma {:induction false} BitsSplit(data: seq<byte>, p: nat, a: nat, b: nat)
    ensures Bits(data, p, a + b) == Bits(data, p, a) + Shl(Bits(data, p + a, b), a)
    decreases a
  {
    if a > 0 {
      BitsSplit(data, p + 1, a - 1, b);
      assert Bits(data, p, a + b) == StreamBit(data, p) + 2 * Bits(data, p + 1, a - 1 + b);
    }
  }

  /** The low a bits of an (a+b)-bit field are its first a bits. */
  lemma {:induction false} BitsLow(data: seq<byte>, p: nat, a: nat, b: nat)
    ensures Low(Bits(data, p, a + b), a) == Bits(data, p, a)
  {
    BitsSplit(data, p, a, b);
    BitsBound(data, p, a);
    Split(Bits(data, p, a), Bits(data, p + a, b), a);
  }

  /** Shifting an (a+b)-bit field right by a leaves its last b bits. */
  lemma {:induction false} BitsShr(data: seq<byte>, p: nat, a: nat, b: nat)
    ensures Shr(Bits(data, p, a + b), a) == Bits(data, p + a, b)
  {
    BitsSplit(data, p, a, b);
    BitsBound(data, p, a);
    Split(Bits(data, p, a), Bits(data, p + a, b), a);
  }

  /** Inside byte j, the bits from offset o up are that byte shifted right by o. */
  lemma {:induction false} ByteTail(data: seq<byte>, j: nat, o: nat)
    requires j < |data| && o <= 8
    ensures Bits(data, 8 * j + o, 8 - o) == Shr(data[j], o)
    decreases 8 - o
  {
    if o == 8 {
      Pow2Values();
      Small(data[j], 8);
    } else {
      ByteTail(data, j, o + 1);
      ShrSucc(data[j], o);
      BitFromAt(data, 0, j, o);
      assert StreamBit(data, 8 * j + o) == Shr(data[j], o) % 2;
    }
  }

  /** The eight stream bits of byte j are the byte itself. */
  lemma {:induction false} ByteBits(data: seq<byte>, j: nat)
    requires j < |data|
    ensures Bits(data, 8 * j, 8) == data[j]
  {
    ByteTail(data, j, 0);
  }

  /** m whole bytes from byte j read as their little-endian value. */
  lemma {:induction false} BytesBits(data: seq<byte>, j: nat, m: nat)
    requires j + m <= |data|
    ensures Bits(data, 8 * j, 8 * m) == LittleEndian(data[j..j + m])
    decreases m
  {
    if m > 0 {
      BytesBits(data, j + 1, m - 1);
      BitsSplit(data, 8 * j, 8, 8 * (m - 1));
      ByteBits(data, j);
      assert data[j..j + m][1..] == data[j + 1..j + m];
    }
  }

  /** A little-endian word load is the 32 stream bits at its byte offset. */
  lemma {:induction false} WordBits(data: seq<byte>, o: nat)
    requires o + 4 <= |data|
    ensures WordAt(data, o) == Bits(data, 8 * o, 32)
  {
    BytesBits(data, o, 4);
  }

  lemma {:induction false} LittleEndianBound(s: seq<byte>)
    ensures LittleEndian(s) < Pow2(8 * |s|)
  {
    BytesBits(s, 0, |s|);
    BitsBound(s, 0, 8 * |s|);
    assert s[0..|s|] == s;
  }

  /** Bytes appended to a buffer do not change the stream bits inside it. */
  lemma {:induction false} BitFromPrefix(data: seq<byte>, more: seq<byte>, j: nat, i: nat)
    requires 8 * j + i < 8 * |data|
    ensures BitFrom(data + more, j, i) == BitFrom(data, j, i)
    decreases |data| - j
  {
    if i >= 8 {
      BitFromPrefix(data, more, j + 1, i - 8);
    }
  }

  lemma {:induction false} BitsPrefix(data: seq<byte>, more: seq<byte>, p: nat, n: nat)
    requires p + n <= 8 * |data|
    ensures Bits(data + more, p, n) == Bits(data, p, n)
    decreases n
  {
    if n > 0 {
      BitFromPrefix(data, more, 0, p);
      BitsPrefix(data, more, p + 1, n - 1);
    }
  }

  /**
   A reader seen from outside: either it is live at a bit position, or it
   has overflowed, after which every field it yields is 0.
   */
  datatype Cursor = Live(pos: nat) | Dead

  /** A value produced at a cursor, with the cursor after it. */
  datatype Got<T> = Got(value: T, next: Cursor)

  /**
   Taking an n-bit field: the next n stream bits when they lie inside the
   buffer, and otherwise 0 with the cursor dead.
   */
  function Take(data: seq<byte>, c: Cursor, n: nat): (g: Got<nat>)
    ensures g.value < Pow2(n)
    ensures g.next.Live? ==> c.Live? && g.next.pos == c.pos + n <= 8 * |data|
    ensures c.Dead? ==> g == Got(0, Dead)
  {
    match c
    case Dead => Got(0, Dead)
    case Live(p) =>
      BitsBound(data, p, n);
      if p + n <= 8 * |data| then Got(Bits(data, p, n), Live(p + n)) else Got(0, Dead)
  }

  /** Taking a then b bits is taking a+b bits split at a. */
  lemma {:induction false} TakeTwice(data: seq<byte>, c: Cursor, a: nat, b: nat)
    ensures var g1 := Take(data, c, a);
            var g2 := Take(data, g1.next, b);
            var g := Take(data, c, a + b);
            g2.next == g.next && (g.next.Live? ==> g.value == g1.value + Shl(g2.value, a))
  {
    if c.Live? {
      BitsSplit(data, c.pos, a, b);
    }
  }
}

=== FILE: bulk.dfy ===
/**
 `CBitRead::ReadBits` and `CBitRead::ReadBytes` (Sniffles/packetbitbuf.cpp):
 a bulk copy of bits into a byte buffer. The copy first stores single bytes
 until the output address is a multiple of four, then whole 32-bit words
 (stored little-endian, as on the x86 targets the program is built for),
 then single bytes again, and finally the leftover bits into one last byte.

 The only thing the copy looks at in the output address is `pOut & 3`; it
 is the parameter `align`. The main lemma shows that the alignment makes
 no difference to what is stored.
 */
module BulkRead {
  import opened BitOps
  import opened BitStream
  import opened BitSource

  /** The state between the loops of `ReadBits`: bytes stored so far, bits still to copy, the reader. */
  datatype Copy = Copy(bytes: seq<byte>, left: nat, rest: Src)

  /** `*pOut = (unsigned char)v`: the truncating store of one byte. */
  function ToByte(v: nat): (b: byte)
    ensures v < 256 ==> b == v
  {
    LowByte(v);
    Low(v, 8)
  }

  lemma {:induction false} LowByte(v: nat)
    ensures Low(v, 8) < 256
    ensures v < 256 ==> Low(v, 8) == v
  {
    Pow2Values();
    LowBound(v, 8);
    if v < 256 {
      Small(v, 8);
    }
  }

  /** The m bytes of a little-endian store of w, lowest first. */
  function LeBytes(w: nat, m: nat): (bs: seq<byte>)
    ensures |bs| == m
    decreases m, w
  {
    if m == 0 then [] else [ToByte(w)] + LeBytes(Shr(w, 8), m - 1)
  }

  // ---- The loops -------------------------------------------------------------

  /** The first loop: single bytes while the output address is not a multiple of four. */
  function AlignLoop(s: Src, align: nat, left: nat): (c: Copy)
    requires Valid(s) && align < 4
    ensures SameBuffer(s, c.rest)
    ensures Overflowed(s) ==> Overflowed(c.rest)
    ensures c.left + 8 * |c.bytes| == left
    decreases left
  {
    if align != 0 && left >= 8 then
      var u := UBits(s, 8);
      var c := AlignLoop(u.rest, (align + 1) % 4, left - 8);
      Copy([ToByte(u.value)] + c.bytes, c.left, c.rest)
    else Copy([], left, s)
  }

  /** The second loop: whole 32-bit words. */
  function WordLoop(s: Src, left: nat): (c: Copy)
    requires Valid(s)
    ensures SameBuffer(s, c.rest)
    ensures Overflowed(s) ==> Overflowed(c.rest)
    ensures c.left < 32 && c.left + 8 * |c.bytes| == left
    decreases left
  {
    if left >= 32 then
      var u := UBits(s, 32);
      var c := WordLoop(u.rest, left - 32);
      Copy(LeBytes(u.value, 4) + c.bytes, c.left, c.rest)
    else Copy([], left, s)
  }

  /** The third loop: the remaining whole bytes. */
  function ByteLoop(s: Src, left: nat): (c: Copy)
    requires Valid(s)
    ensures SameBuffer(s, c.rest)
    ensures Overflowed(s) ==> Overflowed(c.rest)
    ensures c.left < 8 && c.left + 8 * |c.bytes| == left
    decreases left
  {
    if left >= 8 then
      var u := UBits(s, 8);
      var c := ByteLoop(u.rest, left - 8);
      Copy([ToByte(u.value)] + c.bytes, c.left, c.rest)
    else Copy([], left, s)
  }

  /** `ReadBits(pOut, nBits)` with `pOut & 3 == align`: it stores `ceil(nBits / 8)` bytes. */
  function ReadBits(s: Src, nBits: nat, align: nat): (o: Out<seq<byte>>)
    requires Valid(s) && align < 4
    ensures SameBuffer(s, o.rest)
    ensures Overflowed(s) ==> Overflowed(o.rest)
    ensures 8 * |o.value| - 8 < nBits <= 8 * |o.value|
  {
    var a := AlignLoop(s, align, nBits);
    var w := WordLoop(a.rest, a.left);
    var b := ByteLoop(w.rest, w.left);
    var stored := a.bytes + w.bytes + b.bytes;
    if b.left == 0 then Out(stored, b.rest)
    else
      var u := UBits(b.rest, b.left);
      Out(stored + [ToByte(u.value)], u.rest)
  }

  /** The result of `ReadBytes`: its return value, the bytes stored and the reader. */
  datatype Fill = Fill(ok: bool, bytes: seq<byte>, rest: Src)

  /**
   `ReadBytes(pOut, nBytes)`: `ReadBits(pOut, nBytes << 3)`, then success
   exactly when the reader has not overflowed. The shift is an `int` shift,
   so the byte count must leave it in range.
   */
  function ReadBytes(s: Src, nBytes: nat, align: nat): (f: Fill)
    requires Valid(s) && align < 4 && 8 * nBytes < TWO31
    ensures SameBuffer(s, f.rest)
    ensures |f.bytes| == nBytes
    ensures f.ok <==> !Overflowed(f.rest)
    ensures Overflowed(s) ==> !f.ok
  {
    var o := ReadBits(s, 8 * nBytes, align);
    Fill(!Overflowed(o.rest), o.value, o.rest)
  }

  /**
   After the first loop either fewer than eight bits are left or the output
   address has reached a multiple of four, and the loop stored at most three bytes.
   */
  lemma AlignLoopAligns(s: Src, align: nat, left: nat)
    requires Valid(s) && align < 4
    ensures AlignLoop(s, align, left).left < 8 || (align + |AlignLoop(s, align, left).bytes|) % 4 == 0
    ensures align == 0 ==> AlignLoop(s, align, left).bytes == []
    ensures align != 0 ==> |AlignLoop(s, align, left).bytes| <= 4 - align
  {
    AlignLoopCount(s, align, left);
    AlignCountAligns(align, left);
  }

  /** The number of bytes the first loop stores; it does not depend on the bits read. */
  function AlignCount(align: nat, left: nat): nat
    requires align < 4
    decreases left
  {
    if align != 0 && left >= 8 then 1 + AlignCount((align + 1) % 4, left - 8) else 0
  }

  lemma {:induction false} AlignLoopCount(s: Src, align: nat, left: nat)
    requires Valid(s) && align < 4
    ensures |AlignLoop(s, align, left).bytes| == AlignCount(align, left)
    decreases left
  {
    if align != 0 && left >= 8 {
      AlignLoopCount(UBits(s, 8).rest, (align + 1) % 4, left - 8);
    }
  }

  lemma {:induction false} AlignCountAligns(align: nat, left: nat)
    requires align < 4
    ensures left - 8 * AlignCount(align, left) < 8 || (align + AlignCount(align, left)) % 4 == 0
    ensures align == 0 ==> AlignCount(align, left) == 0
    ensures align != 0 ==> AlignCount(align, left) <= 4 - align
    decreases left
  {
    if align != 0 && left >= 8 {
      var next := if align == 3 then 0 else align + 1;
      assert (align + 1) % 4 == next;
      AlignCountAligns(next, left - 8);
    }
  }

  // ---- Little-endian words ---------------------------------------------------

  /** Storing the low 8m bits of w little-endian and loading them back gives w. */
  lemma {:induction false} LeBytesRoundTrip(w: nat, m: nat)
    requires w < Pow2(8 * m)
    ensures LittleEndian(LeBytes(w, m)) == w
    decreases m
  {
    if m == 0 {
      assert Pow2(0) == 1;
    } else {
      var bs := LeBytes(w, m);
      Pow2Add(8, 8 * (m - 1));
      ShrBound(w, 8 * (m - 1), 8);
      LeBytesRoundTrip(Shr(w, 8), m - 1);
      assert bs[1..] == LeBytes(Shr(w, 8), m - 1);
      LowBound(w, 8);
      Pow2Values();
      Decompose(w, 8);
    }
  }

  /** Loading bytes little-endian and storing the value back gives the same bytes. */
  lemma {:induction false} LittleEndianRoundTrip(bs: seq<byte>)
    ensures LeBytes(LittleEndian(bs), |bs|) == bs
    decreases |bs|
  {
    if |bs| > 0 {
      var t := bs[1..];
      LittleEndianRoundTrip(t);
      Pow2Values();
      Split(bs[0], LittleEndian(t), 8);
      assert bs == [bs[0]] + t;
    }
  }

  // ---- On the stream ---------------------------------------------------------

  /**
   The bytes the copy stores for n stream bits at p: each whole byte in
   turn, then one byte holding the leftover bits.
   */
  function Chop(d: seq<byte>, p: nat, n: nat): (bs: seq<byte>)
    decreases n, p
  {
    if n == 0 then []
    else
      var k := if n < 8 then n else 8;
      BitsByte(d, p, k);
      [Bits(d, p, k)] + (if n < 8 then [] else Chop(d, p + 8, n - 8))
  }

  /** n bits chop into exactly ceil(n / 8) bytes. */
  lemma {:induction false} ChopLength(d: seq<byte>, p: nat, n: nat)
    ensures 8 * |Chop(d, p, n)| - 8 < n <= 8 * |Chop(d, p, n)|
    decreases n
  {
    if n >= 8 {
      ChopLength(d, p + 8, n - 8);
    }
  }

  lemma {:induction false} BitsByte(d: seq<byte>, p: nat, k: nat)
    requires k <= 8
    ensures Bits(d, p, k) < 256
  {
    BitsBound(d, p, k);
    Pow2Mono(k, 8);
    Pow2Values();
  }

  /** A chop of n >= 8 bits at p starts with that byte; the m = n - 8 bits from q = p + 8 follow. */
  lemma {:induction false} ChopStep(d: seq<byte>, p: nat, n: nat, q: nat, m: nat)
    requires n >= 8 && q == p + 8 && m == n - 8
    ensures Chop(d, p, n) == [Bits(d, p, 8)] + Chop(d, q, m)
  {
  }

  /** Chopping a = 8k bits and then the rest is chopping the lot (m = a + n bits; the rest starts at q). */
  lemma {:induction false} ChopSplit(d: seq<byte>, p: nat, k: nat, a: nat, n: nat, m: nat, q: nat)
    requires a == 8 * k && m == a + n && q == p + a
    ensures Chop(d, p, m) == Chop(d, p, a) + Chop(d, q, n)
    decreases k
  {
    if k > 0 {
      ChopSplit(d, p + 8, k - 1, a - 8, n, m - 8, q);
      ChopSplitStep(d, p, a, n, m, q);
    } else {
      EmptyAppend(Chop(d, q, n));
    }
  }

  /** One byte more in front of a split chop. */
  lemma {:induction false} ChopSplitStep(d: seq<byte>, p: nat, a: nat, n: nat, m: nat, q: nat)
    requires a >= 8 && m == a + n
    requires Chop(d, p + 8, m - 8) == Chop(d, p + 8, a - 8) + Chop(d, q, n)
    ensures Chop(d, p, m) == Chop(d, p, a) + Chop(d, q, n)
  {
    ChopStep(d, p, m, p + 8, m - 8);
    ChopStep(d, p, a, p + 8, a - 8);
    Regroup(Chop(d, p, m), [Bits(d, p, 8)], Chop(d, p + 8, m - 8), Chop(d, p, a), Chop(d, p + 8, a - 8), Chop(d, q, n));
  }

  /** A chop of n >= 32 bits starts with the little-endian store of the first word; the m = n - 32 bits from q follow. */
  lemma {:induction false} ChopWord(d: seq<byte>, p: nat, n: nat, q: nat, m: nat)
    requires n >= 32 && q == p + 32 && m == n - 32
    ensures Chop(d, p, n) == LeBytes(Bits(d, p, 32), 4) + Chop(d, q, m)
  {
    ChopSplit(d, p, 4, 32, m, n, q);
    LeBytesChop(d, p, 4);
  }

  /** A little-endian store of the 8m bits at p is their chop. */
  lemma {:induction false} LeBytesChop(d: seq<byte>, p: nat, m: nat)
    ensures LeBytes(Bits(d, p, 8 * m), m) == Chop(d, p, 8 * m)
    decreases m
  {
    if m > 0 {
      var w := Bits(d, p, 8 * m);
      BitsLow(d, p, 8, 8 * (m - 1));
      BitsShr(d, p, 8, 8 * (m - 1));
      BitsByte(d, p, 8);
      LeBytesChop(d, p + 8, m - 1);
      ChopStep(d, p, 8 * m, p + 8, 8 * (m - 1));
      assert ToByte(w) == Bits(d, p, 8);
      assert LeBytes(w, m) == [Bits(d, p, 8)] + LeBytes(Shr(w, 8), m - 1);
      assert Shr(w, 8) == Bits(d, p + 8, 8 * (m - 1));
      Glue(LeBytes(w, m), [Bits(d, p, 8)], LeBytes(Shr(w, 8), m - 1), Chop(d, p, 8 * m), Chop(d, p + 8, 8 * (m - 1)));
    }
  }

  /** The m whole bytes from byte j (bit p = 8j, n = 8m bits) chop into the buffer's own bytes. */
  lemma {:induction false} ChopBytes(d: seq<byte>, j: nat, m: nat, p: nat, n: nat)
    requires j + m <= |d| && p == 8 * j && n == 8 * m
    ensures Chop(d, p, n) == d[j..j + m]
    decreases m
  {
    if m > 0 {
      ChopBytes(d, j + 1, m - 1, p + 8, n - 8);
      ChopBytesMore(d, j, m, p, n);
    } else {
      assert d[j..j + m] == [];
    }
  }

  /** One more whole byte in front of chopped bytes. */
  lemma {:induction false} ChopBytesMore(d: seq<byte>, j: nat, m: nat, p: nat, n: nat)
    requires 0 < m && j + m <= |d| && p == 8 * j && n == 8 * m
    requires Chop(d, p + 8, n - 8) == d[j + 1..j + m]
    ensures Chop(d, p, n) == d[j..j + m]
  {
    ChopStep(d, p, n, p + 8, n - 8);
    ChopBytesStep(d, j, m, Chop(d, p, n), Chop(d, p + 8, n - 8));
  }

  /** A chop c that is byte j's bits, then the chop t of bytes j+1 .. j+m, is bytes j .. j+m. */
  lemma {:induction false} ChopBytesStep(d: seq<byte>, j: nat, m: nat, c: seq<byte>, t: seq<byte>)
    requires 0 < m && j + m <= |d|
    requires c == [Bits(d, 8 * j, 8)] + t && t == d[j + 1..j + m]
    ensures c == d[j..j + m]
  {
    ByteBits(d, j);
    SliceCons(d, j, j + m, d[j]);
  }

  lemma SliceCons<T>(d: seq<T>, i: nat, k: nat, b: T)
    requires i < k <= |d| && b == d[i]
    ensures d[i..k] == [b] + d[i + 1..k]
  {
  }

  /*
   Each loop, run on the stream from p, stores the chop of the bits it
   consumes and leaves the stream just past them.
   */

  lemma AlignLoopReads(d: seq<byte>, p: nat, s: Src, align: nat, left: nat)
    requires s == Ideal(d, Live(p)) && align < 4 && p + left <= 8 * |d|
    ensures AlignLoop(s, align, left).bytes == Chop(d, p, 8 * |AlignLoop(s, align, left).bytes|)
    ensures AlignLoop(s, align, left).rest == Ideal(d, Live(p + 8 * |AlignLoop(s, align, left).bytes|))
  {
    AlignLoopIdeal(d, p, s, align, left);
    AlignBytesChop(d, p, align, left);
  }

  /** The bytes the first loop stores from bit p of the stream. */
  function AlignBytes(d: seq<byte>, p: nat, align: nat, left: nat): (bs: seq<byte>)
    requires align < 4
    ensures 8 * |bs| <= left
    decreases left
  {
    if align != 0 && left >= 8 then [ToByte(Bits(d, p, 8))] + AlignBytes(d, p + 8, (align + 1) % 4, left - 8) else []
  }

  lemma {:induction false} AlignLoopIdeal(d: seq<byte>, p: nat, s: Src, align: nat, left: nat)
    requires s == Ideal(d, Live(p)) && align < 4 && p + left <= 8 * |d|
    ensures AlignLoop(s, align, left).bytes == AlignBytes(d, p, align, left)
    ensures AlignLoop(s, align, left).rest == Ideal(d, Live(p + 8 * |AlignBytes(d, p, align, left)|))
    decreases left
  {
    if align != 0 && left >= 8 {
      IdealUBits(d, p, 8);
      AlignLoopIdeal(d, p + 8, UBits(s, 8).rest, (align + 1) % 4, left - 8);
    }
  }

  lemma {:induction false} AlignBytesChop(d: seq<byte>, p: nat, align: nat, left: nat)
    requires align < 4
    ensures AlignBytes(d, p, align, left) == Chop(d, p, 8 * |AlignBytes(d, p, align, left)|)
    decreases left
  {
    if align != 0 && left >= 8 {
      var w := AlignBytes(d, p + 8, (align + 1) % 4, left - 8);
      ByteToByte(d, p);
      assert AlignBytes(d, p, align, left) == [Bits(d, p, 8)] + w;
      AlignBytesChop(d, p + 8, (align + 1) % 4, left - 8);
      ChopStep(d, p, 8 * |AlignBytes(d, p, align, left)|, p + 8, 8 * |w|);
      Glue(AlignBytes(d, p, align, left), [Bits(d, p, 8)], w, Chop(d, p, 8 * |AlignBytes(d, p, align, left)|), Chop(d, p + 8, 8 * |w|));
    }
  }

  lemma ByteToByte(d: seq<byte>, p: nat)
    ensures ToByte(Bits(d, p, 8)) == Bits(d, p, 8)
  {
    BitsByte(d, p, 8);
  }

  lemma WordLoopReads(d: seq<byte>, p: nat, s: Src, left: nat)
    requires s == Ideal(d, Live(p)) && p + left <= 8 * |d|
    ensures WordLoop(s, left).bytes == Chop(d, p, 8 * |WordLoop(s, left).bytes|)
    ensures WordLoop(s, left).rest == Ideal(d, Live(p + 8 * |WordLoop(s, left).bytes|))
  {
    WordLoopIdeal(d, p, s, left);
    WordsChop(d, p, left);
  }

  /** The words the second loop stores from bit p of the stream. */
  function Words(d: seq<byte>, p: nat, left: nat): (bs: seq<byte>)
    ensures 8 * |bs| <= left
    decreases left
  {
    if left >= 32 then LeBytes(Bits(d, p, 32), 4) + Words(d, p + 32, left - 32) else []
  }

  lemma {:induction false} WordLoopIdeal(d: seq<byte>, p: nat, s: Src, left: nat)
    requires s == Ideal(d, Live(p)) && p + left <= 8 * |d|
    ensures WordLoop(s, left).bytes == Words(d, p, left)
    ensures WordLoop(s, left).rest == Ideal(d, Live(p + 8 * |Words(d, p, left)|))
    decreases left
  {
    if left >= 32 {
      IdealUBits(d, p, 32);
      WordLoopIdeal(d, p + 32, UBits(s, 32).rest, left - 32);
    }
  }

  lemma {:induction false} WordsChop(d: seq<byte>, p: nat, left: nat)
    ensures Words(d, p, left) == Chop(d, p, 8 * |Words(d, p, left)|)
    decreases left
  {
    if left >= 32 {
      var w := Words(d, p + 32, left - 32);
      var h := LeBytes(Bits(d, p, 32), 4);
      assert Words(d, p, left) == h + w;
      assert |Words(d, p, left)| == 4 + |w|;
      WordsChop(d, p + 32, left - 32);
      ChopWord(d, p, 8 * |Words(d, p, left)|, p + 32, 8 * |w|);
      Glue(Words(d, p, left), h, w, Chop(d, p, 8 * |Words(d, p, left)|), Chop(d, p + 32, 8 * |w|));
    }
  }

  lemma ByteLoopReads(d: seq<byte>, p: nat, s: Src, left: nat)
    requires s == Ideal(d, Live(p)) && p + left <= 8 * |d|
    ensures ByteLoop(s, left).bytes == Chop(d, p, 8 * |ByteLoop(s, left).bytes|)
    ensures ByteLoop(s, left).rest == Ideal(d, Live(p + 8 * |ByteLoop(s, left).bytes|))
  {
    ByteLoopIdeal(d, p, s, left);
    SinglesChop(d, p, left);
  }

  /** The bytes the third loop stores from bit p of the stream. */
  function Singles(d: seq<byte>, p: nat, left: nat): (bs: seq<byte>)
    ensures 8 * |bs| <= left
    decreases left
  {
    if left >= 8 then [ToByte(Bits(d, p, 8))] + Singles(d, p + 8, left - 8) else []
  }

  lemma {:induction false} ByteLoopIdeal(d: seq<byte>, p: nat, s: Src, left: nat)
    requires s == Ideal(d, Live(p)) && p + left <= 8 * |d|
    ensures ByteLoop(s, left).bytes == Singles(d, p, left)
    ensures ByteLoop(s, left).rest == Ideal(d, Live(p + 8 * |Singles(d, p, left)|))
    decreases left
  {
    if left >= 8 {
      IdealUBits(d, p, 8);
      ByteLoopIdeal(d, p + 8, UBits(s, 8).rest, left - 8);
    }
  }

  lemma {:induction false} SinglesChop(d: seq<byte>, p: nat, left: nat)
    ensures Singles(d, p, left) == Chop(d, p, 8 * |Singles(d, p, left)|)
    decreases left
  {
    if left >= 8 {
      SinglesChop(d, p + 8, left - 8);
      SinglesChopStep(d, p, left, Singles(d, p + 8, left - 8));
    }
  }

  lemma {:induction false} SinglesChopStep(d: seq<byte>, p: nat, left: nat, w: seq<byte>)
    requires left >= 8 && w == Singles(d, p + 8, left - 8) && w == Chop(d, p + 8, 8 * |w|)
    ensures Singles(d, p, left) == Chop(d, p, 8 * |Singles(d, p, left)|)
  {
    var s := Singles(d, p, left);
    var n := 8 * |s|;
    ByteToByte(d, p);
    assert s == [Bits(d, p, 8)] + w;
    ChopStep(d, p, n, p + 8, 8 * |w|);
    Glue(s, [Bits(d, p, 8)], w, Chop(d, p, n), Chop(d, p + 8, 8 * |w|));
  }

  /**
   On the stream, `ReadBits` stores the chop of the next nBits bits and
   moves past them, whatever the alignment of the output.
   */
  lemma {:induction false} ReadBitsReads(d: seq<byte>, p: nat, nBits: nat, align: nat)
    requires align < 4 && p + nBits <= 8 * |d|
    ensures ReadBits(Ideal(d, Live(p)), nBits, align) == Out(Chop(d, p, nBits), Ideal(d, Live(p + nBits)))
  {
    var s := Ideal(d, Live(p));
    var a := AlignLoop(s, align, nBits);
    AlignLoopReads(d, p, s, align, nBits);
    var q := p + 8 * |a.bytes|;
    var w := WordLoop(a.rest, a.left);
    WordLoopReads(d, q, a.rest, a.left);
    var r := q + 8 * |w.bytes|;
    var b := ByteLoop(w.rest, w.left);
    ByteLoopReads(d, r, w.rest, w.left);
    var e := r + 8 * |b.bytes|;
    ChopSplit(d, p, |a.bytes|, 8 * |a.bytes|, a.left, nBits, q);
    ChopSplit(d, q, |w.bytes|, 8 * |w.bytes|, w.left, a.left, r);
    ChopSplit(d, r, |b.bytes|, 8 * |b.bytes|, b.left, w.left, e);
    var ct := Chop(d, e, b.left);
    Chain(Chop(d, p, nBits), a.bytes, Chop(d, q, a.left), w.bytes, Chop(d, r, w.left), b.bytes, ct);
    ReadBitsParts(s, nBits, align, a, w, b);
    Finish(d, p, nBits, e, b.left, a.bytes + w.bytes + b.bytes, b.rest, ReadBits(s, nBits, align));
  }

  /** `ReadBits` taken apart into its three loops and the leftover bits. */
  lemma ReadBitsParts(s: Src, nBits: nat, align: nat, a: Copy, w: Copy, b: Copy)
    requires Valid(s) && align < 4
    requires a == AlignLoop(s, align, nBits) && Valid(a.rest)
    requires w == WordLoop(a.rest, a.left) && Valid(w.rest)
    requires b == ByteLoop(w.rest, w.left) && Valid(b.rest)
    ensures b.left == 0 ==> ReadBits(s, nBits, align) == Out(a.bytes + w.bytes + b.bytes, b.rest)
    ensures b.left != 0 ==>
              ReadBits(s, nBits, align) == Out(a.bytes + w.bytes + b.bytes + [ToByte(UBits(b.rest, b.left).value)], UBits(b.rest, b.left).rest)
  {
  }

  /** The leftover bits close the chop: the store and the stream position come out as claimed. */
  lemma Finish(d: seq<byte>, p: nat, nBits: nat, e: nat, t: nat, x: seq<byte>, rest: Src, o: Out<seq<byte>>)
    requires e + t == p + nBits <= 8 * |d| && t < 8
    requires Chop(d, p, nBits) == x + Chop(d, e, t)
    requires rest == Ideal(d, Live(e))
    requires t == 0 ==> o == Out(x, rest)
    requires t != 0 ==> o == Out(x + [ToByte(UBits(rest, t).value)], UBits(rest, t).rest)
    ensures o == Out(Chop(d, p, nBits), Ideal(d, Live(p + nBits)))
  {
    if t == 0 {
      AppendEmpty(x);
    } else {
      TailStep(d, e, t);
    }
  }

  /** Two sequences with the same head and equal tails are equal. */
  lemma Glue<T>(x: seq<T>, h: seq<T>, t: seq<T>, y: seq<T>, t': seq<T>)
    requires x == h + t && t == t' && y == h + t'
    ensures x == y
  {
  }

  /** x is h then y, y splits into u and v, and z is h then u: x is z then v. */
  lemma Regroup<T>(x: seq<T>, h: seq<T>, y: seq<T>, z: seq<T>, u: seq<T>, v: seq<T>)
    requires x == h + y && y == u + v && z == h + u
    ensures x == z + v
  {
    assert h + (u + v) == h + u + v;
  }

  /** Three prefixes peeled off in turn. */
  lemma Chain<T>(c0: seq<T>, x: seq<T>, c1: seq<T>, y: seq<T>, c2: seq<T>, z: seq<T>, t: seq<T>)
    requires c0 == x + c1 && c1 == y + c2 && c2 == z + t
    ensures c0 == x + y + z + t
  {
  }

  lemma EmptyAppend<T>(x: seq<T>)
    ensures [] + x == x
  {
  }

  lemma Assoc3<T>(x: seq<T>, y: seq<T>, z: seq<T>)
    ensures x + (y + z) == x + y + z
  {
  }

  /** The leftover bits go into one last byte. */
  lemma {:induction false} TailStep(d: seq<byte>, e: nat, t: nat)
    requires 0 < t < 8 && e + t <= 8 * |d|
    ensures UBits(Ideal(d, Live(e)), t) == Out(Bits(d, e, t), Ideal(d, Live(e + t)))
    ensures [ToByte(Bits(d, e, t))] == Chop(d, e, t)
  {
    IdealUBits(d, e, t);
    BitsByte(d, e, t);
  }

  /** Whole bytes from a byte boundary: `ReadBytes` succeeds and stores the buffer's bytes. */
  lemma {:induction false} ReadBytesAligned(d: seq<byte>, j: nat, m: nat, align: nat)
    requires align < 4 && j + m <= |d| && 8 * m < TWO31
    ensures ReadBytes(Ideal(d, Live(8 * j)), m, align) == Fill(true, d[j..j + m], Ideal(d, Live(8 * (j + m))))
  {
    ReadBitsReads(d, 8 * j, 8 * m, align);
    ChopBytes(d, j, m, 8 * j, 8 * m);
  }

  // ---- The real reader -------------------------------------------------------

  lemma {:induction false} AlignLoopAgree(a: Src, b: Src, align: nat, left: nat)
    requires Corr(a, b) && align < 4
    ensures AlignLoop(a, align, left).bytes == AlignLoop(b, align, left).bytes
    ensures AlignLoop(a, align, left).left == AlignLoop(b, align, left).left
    ensures Corr(AlignLoop(a, align, left).rest, AlignLoop(b, align, left).rest)
    decreases left
  {
    if align != 0 && left >= 8 {
      UBitsAgree(a, b, 8);
      AlignLoopAgree(UBits(a, 8).rest, UBits(b, 8).rest, (align + 1) % 4, left - 8);
    }
  }

  lemma {:induction false} WordLoopAgree(a: Src, b: Src, left: nat)
    requires Corr(a, b)
    ensures WordLoop(a, left).bytes == WordLoop(b, left).bytes
    ensures WordLoop(a, left).left == WordLoop(b, left).left
    ensures Corr(WordLoop(a, left).rest, WordLoop(b, left).rest)
    decreases left
  {
    if left >= 32 {
      UBitsAgree(a, b, 32);
      WordLoopAgree(UBits(a, 32).rest, UBits(b, 32).rest, left - 32);
    }
  }

  lemma {:induction false} ByteLoopAgree(a: Src, b: Src, left: nat)
    requires Corr(a, b)
    ensures ByteLoop(a, left).bytes == ByteLoop(b, left).bytes
    ensures ByteLoop(a, left).left == ByteLoop(b, left).left
    ensures Corr(ByteLoop(a, left).rest, ByteLoop(b, left).rest)
    decreases left
  {
    if left >= 8 {
      UBitsAgree(a, b, 8);
      ByteLoopAgree(UBits(a, 8).rest, UBits(b, 8).rest, left - 8);
    }
  }

  /** The real reader stores the same bytes as the stream it models. */
  lemma {:induction false} ReadBitsAgree(a: Src, b: Src, nBits: nat, align: nat)
    requires Corr(a, b) && align < 4
    ensures ReadBits(a, nBits, align).value == ReadBits(b, nBits, align).value
    ensures Corr(ReadBits(a, nBits, align).rest, ReadBits(b, nBits, align).rest)
  {
    AlignLoopAgree(a, b, align, nBits);
    var aa := AlignLoop(a, align, nBits);
    var ab := AlignLoop(b, align, nBits);
    WordLoopAgree(aa.rest, ab.rest, aa.left);
    var wa := WordLoop(aa.rest, aa.left);
    var wb := WordLoop(ab.rest, ab.left);
    ByteLoopAgree(wa.rest, wb.rest, wa.left);
    var ba := ByteLoop(wa.rest, wa.left);
    var bb := ByteLoop(wb.rest, wb.left);
    if ba.left != 0 {
      UBitsAgree(ba.rest, bb.rest, ba.left);
    }
  }

  lemma {:induction false} ReadBytesAgree(a: Src, b: Src, nBytes: nat, align: nat)
    requires Corr(a, b) && align < 4 && 8 * nBytes < TWO31
    ensures ReadBytes(a, nBytes, align).ok == ReadBytes(b, nBytes, align).ok
    ensures ReadBytes(a, nBytes, align).bytes == ReadBytes(b, nBytes, align).bytes
    ensures Corr(ReadBytes(a, nBytes, align).rest, ReadBytes(b, nBytes, align).rest)
  {
    ReadBitsAgree(a, b, 8 * nBytes, align);
    var oa := ReadBits(a, 8 * nBytes, align);
    var ob := ReadBits(b, 8 * nBytes, align);
    CorrOverflow(oa.rest, ob.rest);
  }
}

=== FILE: checkedloop.dfy ===
/**
 The frame loop of `ReadPacket` (Sniffles/sniffles.cpp) trusts the size of
 each frame: `SeekRelative(Size * 8)` with `Size` a varint kept as an `int`.
 A size of `0xFFFF_FFFA` is -6 as an `int`, and skipping -48 bits from just
 after such a frame lands back on its first byte when the command takes one
 byte: the loop reads the same frame forever.

 `CheckedFrameLoop` is the loop with the check the source leaves out: a
 frame whose size is negative, or whose `Size * 8` wraps, ends the loop.
 */
module CheckedLoop {
  import opened BitOps
  import opened BitStream
  import opened BitRead
  import opened BitSource
  import opened VarInt
  import opened Wrappers
  import opened Datagram
  import opened Framing

  // ---- The stall, as written ---------------------------------------------------

  /** The size field that reads as -6: `FA FF FF FF 0F`. */
  const STALL_SIZE: nat := 0xFFFF_FFFA

  /** The bytes of the size field `0xFFFF_FFFA`. */
  function StallSizeFields(): seq<Field>
  {
    [Field(8, 0xFA), Field(8, 0xFF), Field(8, 0xFF), Field(8, 0xFF), Field(8, 0x0F)]
  }

  /** A one-byte command followed by the size field `FA FF FF FF 0F`. */
  function StallFields(cmd: nat): (fs: seq<Field>)
    requires cmd < 128
  {
    [Field(8, cmd)] + StallSizeFields()
  }

  lemma {:induction false} StallWidth(cmd: nat)
    requires cmd < 128
    ensures |StallFields(cmd)| == 6 && Width(StallFields(cmd)) == 48
  {
    var fs := StallFields(cmd);
    assert Width(fs[5..]) == 8;
    assert Width(fs[4..]) == 16;
    assert Width(fs[3..]) == 24;
    assert Width(fs[2..]) == 32;
    assert Width(fs[1..]) == 40;
  }

  /** Seven low bits and the rest: the split a varint writer makes. */
  lemma {:induction false} Group7(lo: nat, hi: nat)
    requires lo < 128
    ensures Low(lo + 128 * hi, 7) == lo && Shr(lo + 128 * hi, 7) == hi
  {
    Pow2Values();
    ShlIsMul(hi, 7);
    Split(lo, hi, 7);
  }

  /** The writer's bytes for `0xFFFF_FFFA`. */
  lemma {:induction false} StallBytes()
    ensures VarIntFields(STALL_SIZE) == StallSizeFields()
  {
    Group7(0x7A, 0x1FF_FFFF);
    Group7(0x7F, 0x3_FFFF);
    Group7(0x7F, 0x7FF);
    Group7(0x7F, 0xF);
    assert VarIntFields(0xF) == [Field(8, 0x0F)];
    assert VarIntFields(0x7FF) == [Field(8, 0xFF)] + VarIntFields(0xF);
    assert VarIntFields(0x3_FFFF) == [Field(8, 0xFF)] + VarIntFields(0x7FF);
    assert VarIntFields(0x1FF_FFFF) == [Field(8, 0xFF)] + VarIntFields(0x3_FFFF);
  }

  /** The size field reads as `0xFFFF_FFFA` and takes five bytes. */
  lemma {:induction false} StallSizeReads(d: seq<byte>, q: nat)
    requires Holds(d, q, StallSizeFields())
    ensures ReadVarInt32(Ideal(d, Live(q))) == Out(STALL_SIZE, Ideal(d, Live(q + 40)))
  {
    StallBytes();
    VarInt32RoundTrip(d, q, STALL_SIZE);
  }

  /** A one-byte command reads as itself. */
  lemma {:induction false} CommandReads(d: seq<byte>, p: nat, cmd: nat)
    requires cmd < 128 && Holds(d, p, [Field(8, cmd)])
    ensures ReadVarInt32(Ideal(d, Live(p))) == Out(cmd, Ideal(d, Live(p + 8)))
  {
    assert VarIntFields(cmd) == [Field(8, cmd)];
    VarInt32RoundTrip(d, p, cmd);
  }

  /** The frame such bytes make: size -6, its message starting 6 bytes on. */
  function StallFrame(cmd: nat, p: nat): (f: Frame)
    ensures f.size == -6 && !Forward(f)
  {
    Frame(cmd, (p + 48 + 7) / 8, -6)
  }

  /** After reading the stall frame, the skip lands where the frame began. */
  lemma {:induction false} NextFrameStalls(d: seq<byte>, p: nat, cmd: nat)
    requires cmd < 128 && |d| < MaxBufferBytes && Holds(d, p, StallFields(cmd))
    ensures NextFrame(Ideal(d, Live(p))) == Out(StallFrame(cmd, p), Ideal(d, Live(p)))
  {
    var one := [Field(8, cmd)];
    assert Width(one) == 8;
    HoldsAppend(d, p, one, StallSizeFields());
    StallWidth(cmd);
    HoldsRoom(d, p, StallFields(cmd));
    CommandReads(d, p, cmd);
    StallSizeReads(d, p + 8);
    StallSkip(d, p);
    var s2 := Ideal(d, Live(p + 48));
    NextFrameOf(Ideal(d, Live(p)), Ideal(d, Live(p + 8)), s2, cmd, STALL_SIZE, Ideal(d, Live(p)));
    Int32Id(cmd);
    assert BytesRead(s2) == (p + 48 + 7) / 8;
    assert Frame(Int32(cmd), BytesRead(s2), Int32(STALL_SIZE)) == StallFrame(cmd, p);
  }

  /** `NextFrame` from the reads it makes. */
  lemma {:induction false} NextFrameOf(s: Src, s1: Src, s2: Src, cmd: nat, len: nat, s3: Src)
    requires Valid(s) && Valid(s1) && Valid(s2)
    requires ReadVarInt32(s) == Out(cmd, s1) && ReadVarInt32(s1) == Out(len, s2)
    requires SeekRelative(s2, Int32(8 * Int32(len))) == s3
    ensures NextFrame(s) == Out(Frame(Int32(cmd), BytesRead(s2), Int32(len)), s3)
  {
  }

  /** `Int32(0xFFFF_FFFA)` is -6, and the skip of -48 bits from p + 48 lands on p. */
  lemma {:induction false} StallSkip(d: seq<byte>, p: nat)
    requires |d| < MaxBufferBytes && p + 48 <= 8 * |d|
    ensures Int32(STALL_SIZE) == -6 && Int32(8 * Int32(STALL_SIZE)) == -48
    ensures SeekRelative(Ideal(d, Live(p + 48)), Int32(8 * Int32(STALL_SIZE))) == Ideal(d, Live(p))
  {
    Pow2Word();
    assert Int32(STALL_SIZE) == -6;
    Int32Id(-48);
    Int32Id(p);
  }

  /** A loop that has read frame f n times over and is back at s, without its condition ending it. */
  predicate Stalled(o: Frames, s: Src, n: nat, f: Frame)
  {
    !o.done && |o.frames| == n && o.rest == s && forall i :: 0 <= i < |o.frames| ==> o.frames[i] == f
  }

  /**
   From a stall frame the loop never ends by its condition: every pass reads
   the same frame, and only the fuel stops it.
   */
  lemma {:induction false} FrameLoopStalls(d: seq<byte>, p: nat, cmd: nat, size: int, fuel: nat)
    requires cmd < 128 && |d| < MaxBufferBytes && Holds(d, p, StallFields(cmd))
    requires BytesRead(Ideal(d, Live(p))) < size
    ensures Stalled(FrameLoop(Ideal(d, Live(p)), size, fuel), Ideal(d, Live(p)), fuel, StallFrame(cmd, p))
    decreases fuel
  {
    var s := Ideal(d, Live(p));
    var f := StallFrame(cmd, p);
    if fuel == 0 {
      assert FrameLoop(s, size, fuel) == Frames([], s, false);
    } else {
      NextFrameStalls(d, p, cmd);
      FrameLoopStalls(d, p, cmd, size, fuel - 1);
      StallStep(s, size, fuel, f);
    }
  }

  /** One pass of the stall: the same frame in front of what the rest of the loop reads. */
  lemma {:induction false} StallStep(s: Src, size: int, fuel: nat, f: Frame)
    requires Valid(s) && BytesRead(s) < size && fuel > 0 && NextFrame(s) == Out(f, s)
    requires Stalled(FrameLoop(s, size, fuel - 1), s, fuel - 1, f)
    ensures Stalled(FrameLoop(s, size, fuel), s, fuel, f)
  {
    var t := FrameLoop(s, size, fuel - 1);
    var o := Frames([f] + t.frames, t.rest, t.done);
    assert FrameLoop(s, size, fuel) == o;
    assert forall i :: 1 <= i < |o.frames| ==> o.frames[i] == t.frames[i - 1];
  }

  /**
   A packet whose envelope lets the frames through and whose first frame is
   a stall frame is never finished by `ReadPacket`, however many passes it
   is given: the frames it dispatches are that frame, again and again.
   */
  lemma {:induction false} ReadPacketStalls(packet: seq<byte>, tail: seq<byte>, fuel: nat, e: Envelope, cmd: nat)
    requires |packet| + |tail| == NET_MAX_PAYLOAD && EnvelopeOk(e) && FrameGuard(e.flags) && cmd < 128
    requires Holds(packet, 0, EnvelopeFields(e) + StallFields(cmd))
    ensures |packet| >= 8
    ensures var o := ReadPacket(packet, tail, fuel);
      o.envelope == Some(e) && !o.done && |o.frames| == fuel &&
      forall i :: 0 <= i < |o.frames| ==> o.frames[i] == StallFrame(cmd, EnvelopeBits(e))
  {
    var p := EnvelopeBits(e);
    StallLayout(packet, e, cmd);
    var d := packet + tail;
    HoldsPrefix(packet, tail, p, StallFields(cmd));
    FramesAfterEnvelope(packet, tail, fuel, e);
    FrameLoopStalls(d, p, cmd, |packet|, fuel);
    var s := Ideal(d, Live(p));
    StalledPacket(packet, tail, fuel, FrameLoop(s, |packet|, fuel), s, StallFrame(cmd, p));
  }

  /** With the frames let through, `ReadPacket` runs the loop from the envelope's end. */
  lemma {:induction false} FramesAfterEnvelope(packet: seq<byte>, tail: seq<byte>, fuel: nat, e: Envelope)
    requires |packet| >= 8 && |packet| + |tail| == NET_MAX_PAYLOAD
    requires EnvelopeOk(e) && FrameGuard(e.flags) && Holds(packet, 0, EnvelopeFields(e))
    ensures var o := ReadPacket(packet, tail, fuel);
      var l := FrameLoop(Ideal(packet + tail, Live(EnvelopeBits(e))), |packet|, fuel);
      o.envelope == Some(e) && o.frames == l.frames && o.done == l.done
  {
    EnvelopeAtStart(packet, tail, e);
    ReadPacketReadsStream(packet, tail, fuel);
  }

  lemma {:induction false} StalledPacket(packet: seq<byte>, tail: seq<byte>, fuel: nat, l: Frames, s: Src, f: Frame)
    requires |packet| + |tail| == NET_MAX_PAYLOAD
    requires ReadPacket(packet, tail, fuel).frames == l.frames && ReadPacket(packet, tail, fuel).done == l.done
    requires Stalled(l, s, fuel, f)
    ensures var o := ReadPacket(packet, tail, fuel);
      !o.done && |o.frames| == fuel && forall i :: 0 <= i < |o.frames| ==> o.frames[i] == f
  {
  }

  /** Where the stall frame sits: right after the envelope, six bytes before the packet's end or earlier. */
  lemma {:induction false} StallLayout(packet: seq<byte>, e: Envelope, cmd: nat)
    requires EnvelopeOk(e) && cmd < 128
    requires Holds(packet, 0, EnvelopeFields(e) + StallFields(cmd))
    ensures Holds(packet, 0, EnvelopeFields(e))
    ensures Holds(packet, EnvelopeBits(e), StallFields(cmd))
    ensures EnvelopeBits(e) % 8 == 0 && EnvelopeBits(e) + 48 <= 8 * |packet|
    ensures |packet| >= 8 && (EnvelopeBits(e) + 7) / 8 < |packet|
  {
    var p := EnvelopeBits(e);
    EnvelopeWidth(e);
    HoldsSplit(packet, 0, EnvelopeFields(e), StallFields(cmd), p);
    EnvelopeAligned(e);
    StallRoom(packet, p, cmd);
  }

  /** The envelope ends on a byte boundary, ten bytes in or later. */
  lemma {:induction false} EnvelopeAligned(e: Envelope)
    requires EnvelopeOk(e)
    ensures EnvelopeBits(e) % 8 == 0 && EnvelopeBits(e) >= 80
  {
    var a := |VarIntFields(Uint32(e.flags))|;
    var b := |VarIntFields(ZigZagEncode32(e.unk1))|;
    assert EnvelopeBits(e) == 8 * (10 + a + b);
  }

  /** A stall frame held at a whole-byte position p past the first two bytes leaves at least six bytes from p to the end. */
  lemma {:induction false} StallRoom(packet: seq<byte>, p: nat, cmd: nat)
    requires cmd < 128 && p % 8 == 0 && p >= 16 && Holds(packet, p, StallFields(cmd))
    ensures p + 48 <= 8 * |packet|
    ensures |packet| >= 8 && (p + 7) / 8 < |packet|
  {
    StallWidth(cmd);
    HoldsRoom(packet, p, StallFields(cmd));
  }

  /** The envelope's layout takes exactly `EnvelopeBits` bits. */
  lemma {:induction false} EnvelopeWidth(e: Envelope)
    requires EnvelopeOk(e)
    ensures Width(EnvelopeFields(e)) == EnvelopeBits(e)
  {
    var fv := VarIntFields(Uint32(e.flags));
    var zv := VarIntFields(ZigZagEncode32(e.unk1));
    var sh := [Field(16, e.unk0 % 0x1_0000)];
    assert Width(sh) == 16;
    WidthAppend(sh, zv);
    WidthAppend(fv, sh + zv);
    var w2 := [Field(32, Uint32(e.seqOut))];
    assert Width(w2) == 32;
    WidthAppend(w2, fv + (sh + zv));
    var w1 := [Field(32, Uint32(e.seqIn))];
    assert Width(w1) == 32;
    WidthAppend(w1, w2 + (fv + (sh + zv)));
  }

  // ---- The loop with the size check ----------------------------------------------

  /**
   The frame loop as evidently intended: a frame whose size is negative or
   whose `Size * 8` wraps is not dispatched, and ends the loop where that
   frame began. Every frame it dispatches is forward.
   */
  function CheckedFrameLoop(s: Src, size: int, fuel: nat): (o: Frames)
    requires Valid(s)
    ensures SameBuffer(s, o.rest)
    ensures AllForward(o.frames)
    ensures |o.frames| <= fuel
    decreases fuel
  {
    if BytesRead(s) >= size then Frames([], s, true)
    else if fuel == 0 then Frames([], s, false)
    else
      var f := NextFrame(s);
      if !Forward(f.value) then Frames([], s, true)
      else
        var t := CheckedFrameLoop(f.rest, size, fuel - 1);
        AllForwardCons(f.value, t.frames);
        Frames([f.value] + t.frames, t.rest, t.done)
  }

  /** `ReadPacket` with the checked loop. */
  function CheckedReadPacket(packet: seq<byte>, tail: seq<byte>, fuel: nat): (o: Decoded)
    requires |packet| >= 8 ==> |packet| + |tail| == NET_MAX_PAYLOAD
    ensures o.returned == |packet|
    ensures o.envelope.None? <==> |packet| < 8
    ensures o.envelope.None? ==> o.frames == []
    ensures o.envelope.Some? && !FrameGuard(o.envelope.value.flags) ==> o.frames == [] && o.done
    ensures AllForward(o.frames) && |o.frames| <= fuel
  {
    if |packet| < 8 then Decoded(|packet|, None, [], true)
    else
      var env := ReadEnvelope(Real(OpenReader(packet + tail)));
      if !FrameGuard(env.value.flags) then Decoded(|packet|, Some(env.value), [], true)
      else
        var l := CheckedFrameLoop(env.rest, |packet|, fuel);
        Decoded(|packet|, Some(env.value), l.frames, l.done)
  }

  /** Where every frame is forward, the checked loop is the loop as written. */
  lemma {:induction false} CheckedLoopAgrees(s: Src, size: int, fuel: nat)
    requires Valid(s)
    ensures AllForward(FrameLoop(s, size, fuel).frames) ==> CheckedFrameLoop(s, size, fuel) == FrameLoop(s, size, fuel)
    decreases fuel
  {
    if BytesRead(s) < size && fuel > 0 {
      var f := NextFrame(s);
      CheckedLoopAgrees(f.rest, size, fuel - 1);
      AgreesStep(s, size, fuel);
    }
  }

  lemma {:induction false} AgreesStep(s: Src, size: int, fuel: nat)
    requires Valid(s) && BytesRead(s) < size && fuel > 0
    requires var r := NextFrame(s).rest;
      AllForward(FrameLoop(r, size, fuel - 1).frames) ==>
        CheckedFrameLoop(r, size, fuel - 1) == FrameLoop(r, size, fuel - 1)
    ensures AllForward(FrameLoop(s, size, fuel).frames) ==> CheckedFrameLoop(s, size, fuel) == FrameLoop(s, size, fuel)
  {
    var f := NextFrame(s);
    var t := FrameLoop(f.rest, size, fuel - 1);
    assert FrameLoop(s, size, fuel) == Frames([f.value] + t.frames, t.rest, t.done);
    AllForwardCons(f.value, t.frames);
  }

  /**
   With fuel for a frame per byte still to read, the checked loop always
   ends: by its condition, or at the first frame that is not forward.
   */
  lemma {:induction false} CheckedLoopFinishes(s: Src, size: int, fuel: nat)
    requires s.Ideal? && |s.data| < MaxBufferBytes && size <= |s.data| && fuel >= size - BytesRead(s)
    ensures CheckedFrameLoop(s, size, fuel).done
    decreases fuel
  {
    if BytesRead(s) >= size {
      CheckedStop(s, size, fuel);
    } else {
      FinishesMeasure(s, size, fuel);
      var f := NextFrame(s);
      if Forward(f.value) {
        CheckedLoopFinishes(f.rest, size, fuel - 1);
      }
      CheckedStep(s, size, fuel);
    }
  }

  lemma {:induction false} CheckedStop(s: Src, size: int, fuel: nat)
    requires Valid(s) && BytesRead(s) >= size
    ensures CheckedFrameLoop(s, size, fuel) == Frames([], s, true)
  {
  }

  /** A pass of the checked loop: it ends at a frame that is not forward, and otherwise ends as the rest does. */
  lemma {:induction false} CheckedStep(s: Src, size: int, fuel: nat)
    requires Valid(s) && BytesRead(s) < size && fuel > 0
    ensures var f := NextFrame(s);
      CheckedFrameLoop(s, size, fuel).done ==
        (!Forward(f.value) || CheckedFrameLoop(f.rest, size, fuel - 1).done)
  {
  }

  /** The checked loop on a real reader reads what it reads on the stream. */
  lemma {:induction false} CheckedLoopAgree(a: Src, b: Src, size: int, fuel: nat)
    requires Corr(a, b) && Whole(a)
    ensures CheckedFrameLoop(a, size, fuel).frames == CheckedFrameLoop(b, size, fuel).frames
    ensures CheckedFrameLoop(a, size, fuel).done == CheckedFrameLoop(b, size, fuel).done
    decreases fuel
  {
    CorrOverflow(a, b);
    BytesReadAgree(a, b);
    if BytesRead(b) >= size || fuel == 0 {
      CheckedPairStop(a, b, size, fuel);
    } else {
      NextFrameAgree(a, b);
      var fa, fb := NextFrame(a), NextFrame(b);
      if Forward(fb.value) {
        CheckedLoopAgree(fa.rest, fb.rest, size, fuel - 1);
      }
      CheckedPair(a, b, size, fuel);
    }
  }

  lemma {:induction false} CheckedPairStop(a: Src, b: Src, size: int, fuel: nat)
    requires Valid(a) && Valid(b) && BytesRead(a) == BytesRead(b) && (BytesRead(b) >= size || fuel == 0)
    ensures CheckedFrameLoop(a, size, fuel).frames == [] == CheckedFrameLoop(b, size, fuel).frames
    ensures CheckedFrameLoop(a, size, fuel).done == CheckedFrameLoop(b, size, fuel).done
  {
  }

  lemma {:induction false} CheckedPair(a: Src, b: Src, size: int, fuel: nat)
    requires Valid(a) && Valid(b) && BytesRead(a) == BytesRead(b) && BytesRead(b) < size && fuel > 0
    requires NextFrame(a).value == NextFrame(b).value
    requires Forward(NextFrame(b).value) ==>
      CheckedFrameLoop(NextFrame(a).rest, size, fuel - 1).frames == CheckedFrameLoop(NextFrame(b).rest, size, fuel - 1).frames &&
      CheckedFrameLoop(NextFrame(a).rest, size, fuel - 1).done == CheckedFrameLoop(NextFrame(b).rest, size, fuel - 1).done
    ensures CheckedFrameLoop(a, size, fuel).frames == CheckedFrameLoop(b, size, fuel).frames
    ensures CheckedFrameLoop(a, size, fuel).done == CheckedFrameLoop(b, size, fuel).done
  {
  }

  /** The checked `ReadPacket` decodes the stream over its buffer. */
  lemma {:induction false} CheckedReadsStream(packet: seq<byte>, tail: seq<byte>, fuel: nat)
    requires |packet| >= 8 && |packet| + |tail| == NET_MAX_PAYLOAD
    ensures var env := ReadEnvelope(Ideal(packet + tail, Live(0)));
      var o := CheckedReadPacket(packet, tail, fuel);
      o.envelope == Some(env.value) &&
      (FrameGuard(env.value.flags) ==>
         o.frames == CheckedFrameLoop(env.rest, |packet|, fuel).frames &&
         o.done == CheckedFrameLoop(env.rest, |packet|, fuel).done)
  {
    var buffer := packet + tail;
    OpenReaderModels(buffer);
    var a := Real(OpenReader(buffer));
    var b := Ideal(buffer, Live(0));
    EnvelopeAgree(a, b);
    CheckedLoopAgree(ReadEnvelope(a).rest, ReadEnvelope(b).rest, |packet|, fuel);
  }

  /** With fuel for a frame per byte, the checked `ReadPacket` always finishes. */
  lemma {:induction false} CheckedReadPacketFinishes(packet: seq<byte>, tail: seq<byte>, fuel: nat)
    requires |packet| >= 8 && |packet| + |tail| == NET_MAX_PAYLOAD && fuel >= |packet|
    ensures CheckedReadPacket(packet, tail, fuel).done
  {
    CheckedReadsStream(packet, tail, fuel);
    var env := ReadEnvelope(Ideal(packet + tail, Live(0)));
    if FrameGuard(env.value.flags) {
      CheckedLoopFinishes(env.rest, |packet|, fuel);
    }
  }

  /** On every packet whose frames are all forward, the check changes nothing. */
  lemma {:induction false} CheckedReadPacketAgrees(packet: seq<byte>, tail: seq<byte>, fuel: nat)
    requires |packet| >= 8 ==> |packet| + |tail| == NET_MAX_PAYLOAD
    ensures AllForward(ReadPacket(packet, tail, fuel).frames) ==> CheckedReadPacket(packet, tail, fuel) == ReadPacket(packet, tail, fuel)
  {
    if |packet| >= 8 {
      var env := ReadEnvelope(Real(OpenReader(packet + tail)));
      if FrameGuard(env.value.flags) {
        OpenReaderModels(packet + tail);
        CheckedLoopAgrees(env.rest, |packet|, fuel);
      }
    }
  }
}

=== FILE: config.dfy ===
/**
 The configuration store of Sniffles/cfg.h: a byte buffer of fields, each
 ended by `'|'`, looked up and replaced by option number.

 `get_config_value` and `set_config_value` find a field by scanning for
 delimiters with `memchr`; when a delimiter is missing, `memchr` returns
 null and the source goes on with a wild pointer. The model reports those
 paths as `None`. The file I/O around the store is not modelled.
 */
module Config {
  import opened BitOps
  import opened BitStream
  import opened Wrappers
  import opened Packet

  /** `'|'`. */
  const PIPE: byte := 0x7C

  /** `ConfigOptions`: DEVICE, PORT, the third field, and their count. */
  const INVALID_OPT: int := -1
  const DEVICE: int := 0
  const PORT: int := 1
  const NAME: int := 2
  const OPTCOUNT: int := 3

  predicate PipeFree(s: seq<byte>)
  {
    forall i :: 0 <= i < |s| ==> s[i] != PIPE
  }

  // ---- Layout: what a buffer means --------------------------------------------------

  /** A buffer read as its `'|'`-ended fields and the bytes after the last delimiter. */
  datatype Layout = Layout(fields: seq<seq<byte>>, rest: seq<byte>)

  predicate Clean(l: Layout)
  {
    PipeFree(l.rest) && forall k :: 0 <= k < |l.fields| ==> PipeFree(l.fields[k])
  }

  /** The buffer of a layout: every field followed by `'|'`, then the rest. */
  function Join(l: Layout): seq<byte>
    decreases |l.fields|
  {
    if |l.fields| == 0 then l.rest
    else l.fields[0] + [PIPE] + Join(Layout(l.fields[1..], l.rest))
  }

  /** `memchr(s, '|', |s|)`, as an index into s. */
  function IndexOfPipe(s: seq<byte>): (r: Option<nat>)
    ensures r.Some? ==> r.value < |s| && s[r.value] == PIPE
  {
    if |s| == 0 then None
    else if s[0] == PIPE then Some(0)
    else
      var r := IndexOfPipe(s[1..]);
      if r.Some? then Some(r.value + 1) else None
  }

  /** `memchr` finds the first delimiter, and finds none exactly when there is none. */
  lemma {:induction false} IndexOfPipeFirst(s: seq<byte>)
    ensures IndexOfPipe(s).None? <==> PipeFree(s)
    ensures IndexOfPipe(s).Some? ==> PipeFree(s[.. IndexOfPipe(s).value])
    decreases |s|
  {
    if |s| > 0 && s[0] != PIPE {
      var t := s[1..];
      IndexOfPipeFirst(t);
      var r := IndexOfPipe(t);
      if r.Some? {
        assert s[.. r.value + 1] == [s[0]] + t[.. r.value];
      } else {
        assert forall i :: 1 <= i < |s| ==> s[i] == t[i - 1];
      }
    }
  }

  /** The first delimiter after a delimiter-free prefix ends it. */
  lemma {:induction false} PipeFirst(f: seq<byte>, after: seq<byte>)
    requires PipeFree(f)
    ensures IndexOfPipe(f + [PIPE] + after) == Some(|f|)
    decreases |f|
  {
    var s := f + [PIPE] + after;
    if |f| > 0 {
      assert s[0] == f[0];
      assert s[1..] == f[1..] + [PIPE] + after;
      PipeFirst(f[1..], after);
    }
  }

  /** The layout of a buffer: split at each delimiter. */
  function Parse(b: seq<byte>): Layout
    decreases |b|
  {
    match IndexOfPipe(b)
    case None => Layout([], b)
    case Some(d) =>
      var l := Parse(b[d + 1 ..]);
      Layout([b[.. d]] + l.fields, l.rest)
  }

  /** A parsed layout holds no delimiter and joins back to the buffer. */
  lemma {:induction false} ParseSpec(b: seq<byte>)
    ensures Clean(Parse(b)) && Join(Parse(b)) == b
    decreases |b|
  {
    IndexOfPipeFirst(b);
    match IndexOfPipe(b)
    case None =>
    case Some(d) =>
      var l := Parse(b[d + 1 ..]);
      ParseSpec(b[d + 1 ..]);
      var r := Layout([b[.. d]] + l.fields, l.rest);
      assert Parse(b) == r;
      assert r.fields[1..] == l.fields;
      assert r.fields[0] == b[.. d];
      Rejoin(b, d, Join(Layout(r.fields[1..], r.rest)));
      assert Clean(r) by {
        forall k | 0 <= k < |r.fields| ensures PipeFree(r.fields[k]) {
          if k > 0 {
            assert r.fields[k] == l.fields[k - 1];
          }
        }
      }
  }

  lemma {:induction false} Rejoin(b: seq<byte>, d: nat, tail: seq<byte>)
    requires d < |b| && b[d] == PIPE && tail == b[d + 1 ..]
    ensures b[.. d] + [PIPE] + tail == b
  {
  }

  /** A clean layout is what its own buffer parses to. */
  lemma {:induction false} ParseJoin(l: Layout)
    requires Clean(l)
    ensures Parse(Join(l)) == l
    decreases |l.fields|
  {
    if |l.fields| > 0 {
      var tail := Layout(l.fields[1..], l.rest);
      var f := l.fields[0];
      var jt := Join(tail);
      var b := Join(l);
      assert b == f + [PIPE] + jt;
      assert Clean(tail) by {
        forall k | 0 <= k < |tail.fields| ensures PipeFree(tail.fields[k]) {
          assert tail.fields[k] == l.fields[k + 1];
        }
      }
      assert PipeFree(f);
      PipeFirst(f, jt);
      Unjoin(f, jt, b);
      ParseJoin(tail);
      assert [f] + tail.fields == l.fields;
    } else {
      IndexOfPipeFirst(l.rest);
    }
  }

  lemma {:induction false} Unjoin(f: seq<byte>, tail: seq<byte>, b: seq<byte>)
    requires b == f + [PIPE] + tail
    ensures b[.. |f|] == f && b[|f| + 1 ..] == tail
  {
  }

  /** Where field k starts: one past the delimiter of each field before it. */
  function Offset(fields: seq<seq<byte>>, k: nat): nat
    requires k <= |fields|
  {
    if k == 0 then 0 else Offset(fields, k - 1) + |fields[k - 1]| + 1
  }

  /** The layout of the fields from k on. */
  function Drop(l: Layout, k: nat): Layout
    requires k <= |l.fields|
  {
    Layout(l.fields[k..], l.rest)
  }

  /** A layout with fields left starts with the first of them and its delimiter. */
  lemma {:induction false} JoinDrop(l: Layout, k: nat)
    requires k < |l.fields|
    ensures Join(Drop(l, k)) == l.fields[k] + [PIPE] + Join(Drop(l, k + 1))
  {
    assert Drop(l, k).fields[1..] == Drop(l, k + 1).fields;
  }

  /** From the start of field k on, the buffer is the layout of the later fields. */
  lemma {:induction false} JoinFrom(l: Layout, k: nat)
    requires k <= |l.fields|
    ensures Offset(l.fields, k) <= |Join(l)|
    ensures Join(l)[Offset(l.fields, k) ..] == Join(Drop(l, k))
    decreases k
  {
    if k > 0 {
      JoinFrom(l, k - 1);
      JoinDrop(l, k - 1);
      var o := Offset(l.fields, k - 1);
      SuffixStep(Join(l), o, l.fields[k - 1], Join(Drop(l, k)));
    } else {
      assert l.fields[0..] == l.fields;
    }
  }

  lemma {:induction false} SuffixStep(b: seq<byte>, o: nat, f: seq<byte>, tail: seq<byte>)
    requires o <= |b| && b[o..] == f + [PIPE] + tail
    ensures o + |f| + 1 <= |b| && b[o + |f| + 1 ..] == tail
  {
    assert b[o + |f| + 1 ..] == b[o..][|f| + 1 ..];
  }

  // ---- get_config_value ------------------------------------------------------------

  /**
   `get_config_value(opt)`: opt times, step one past the next `'|'`; the
   result is the start of field opt. A non-positive opt leaves it at 0.
   */
  function FieldStart(b: seq<byte>, opt: int): (r: Option<nat>)
    ensures r.Some? ==> r.value <= |b|
    decreases opt
  {
    if opt <= 0 then Some(0)
    else
      match FieldStart(b, opt - 1)
      case None => None
      case Some(v) => Next(b, v)
  }

  /** One step of the scan: one past the next delimiter at or after v. */
  function Next(b: seq<byte>, v: nat): (r: Option<nat>)
    requires v <= |b|
    ensures r.Some? ==> v < r.value <= |b|
  {
    match EndOf(b, v)
    case None => None
    case Some(e) => Some(e + 1)
  }

  /** The next delimiter at or after v: the end of the field starting at v. */
  function EndOf(b: seq<byte>, v: nat): (r: Option<nat>)
    requires v <= |b|
    ensures r.Some? ==> v <= r.value < |b|
  {
    match IndexOfPipe(b[v..])
    case None => None
    case Some(d) => Some(v + d)
  }

  /** What `EndOf` finds is a delimiter. */
  lemma {:induction false} EndOfPipe(b: seq<byte>, v: nat)
    requires v <= |b| && EndOf(b, v).Some?
    ensures b[EndOf(b, v).value] == PIPE
  {
    var d := IndexOfPipe(b[v..]).value;
    assert b[v..][d] == b[v + d];
  }

  /** From field k's start, the next delimiter is the one that ends field k. */
  lemma {:induction false} FieldEnd(l: Layout, b: seq<byte>, k: nat)
    requires Clean(l) && b == Join(l) && k < |l.fields|
    ensures Offset(l.fields, k) <= |b|
    ensures EndOf(b, Offset(l.fields, k)) == Some(Offset(l.fields, k) + |l.fields[k]|)
  {
    JoinFrom(l, k);
    JoinDrop(l, k);
    assert PipeFree(l.fields[k]);
    PipeFirst(l.fields[k], Join(Drop(l, k + 1)));
  }

  /** Past the last delimiter there is none. */
  lemma {:induction false} NoEnd(l: Layout, b: seq<byte>)
    requires Clean(l) && b == Join(l)
    ensures Offset(l.fields, |l.fields|) <= |b|
    ensures EndOf(b, Offset(l.fields, |l.fields|)) == None
  {
    JoinFrom(l, |l.fields|);
    assert Drop(l, |l.fields|).fields == [];
    IndexOfPipeFirst(l.rest);
  }

  /** From field j's start, one step of the scan reaches field j + 1's. */
  predicate StepsTo(b: seq<byte>, fields: seq<seq<byte>>, j: nat)
    requires j < |fields|
  {
    Offset(fields, j) <= |b| && Next(b, Offset(fields, j)) == Some(Offset(fields, j + 1))
  }

  /** Where every field before k steps to the next, the scan lands on field k's start. */
  lemma {:induction false} ScanLands(b: seq<byte>, fields: seq<seq<byte>>, k: nat)
    requires k <= |fields|
    requires forall j :: 0 <= j < k ==> StepsTo(b, fields, j)
    ensures FieldStart(b, k) == Some(Offset(fields, k))
    decreases k
  {
    if k > 0 {
      ScanLands(b, fields, k - 1);
      assert StepsTo(b, fields, k - 1);
    }
  }

  /** Once the scan has found no delimiter, it finds none for any later option. */
  lemma {:induction false} ScanStops(b: seq<byte>, k0: nat, k: nat)
    requires k0 <= k && FieldStart(b, k0) == None
    ensures FieldStart(b, k) == None
    decreases k - k0
  {
    if k > k0 {
      ScanStops(b, k0, k - 1);
    }
  }

  /** On a clean layout's buffer the scan lands on each field's start and one past the last. */
  lemma {:induction false} FieldStartIn(l: Layout, k: nat)
    requires Clean(l) && k <= |l.fields|
    ensures FieldStart(Join(l), k) == Some(Offset(l.fields, k))
  {
    var b := Join(l);
    forall j | 0 <= j < k
      ensures StepsTo(b, l.fields, j)
    {
      FieldEnd(l, b, j);
    }
    ScanLands(b, l.fields, k);
  }

  /** Past that, the scan finds no delimiter. */
  lemma {:induction false} FieldStartPast(l: Layout, k: nat)
    requires Clean(l) && k > |l.fields|
    ensures FieldStart(Join(l), k) == None
  {
    var b := Join(l);
    var n := |l.fields|;
    FieldStartIn(l, n);
    NoEnd(l, b);
    assert FieldStart(b, n + 1) == Next(b, Offset(l.fields, n));
    ScanStops(b, n + 1, k);
  }

  /** On a clean layout's buffer the scan lands on each field's start, one past the end, then nowhere. */
  lemma {:induction false} FieldStartAt(l: Layout, k: nat)
    requires Clean(l)
    ensures k <= |l.fields| ==> FieldStart(Join(l), k) == Some(Offset(l.fields, k))
    ensures k > |l.fields| ==> FieldStart(Join(l), k) == None
  {
    if k <= |l.fields| {
      FieldStartIn(l, k);
    } else {
      FieldStartPast(l, k);
    }
  }

  /**
   `get_config_value` finds field k at its place in the buffer's layout for
   every field, just past the last delimiter for one more, and nowhere after
   that.
   */
  lemma {:induction false} FieldStartIsOffset(b: seq<byte>, k: nat)
    ensures k <= |Parse(b).fields| ==> FieldStart(b, k) == Some(Offset(Parse(b).fields, k))
    ensures k > |Parse(b).fields| ==> FieldStart(b, k) == None
  {
    ParseSpec(b);
    FieldStartAt(Parse(b), k);
  }

  /** `get_config_value` with a positive option returns a position just after a `'|'`. */
  lemma {:induction false} FieldStartAfterPipe(b: seq<byte>, k: nat)
    requires k > 0 && FieldStart(b, k).Some?
    ensures FieldStart(b, k).value > 0 && b[FieldStart(b, k).value - 1] == PIPE
  {
    EndOfPipe(b, FieldStart(b, k - 1).value);
  }

  // ---- set_config_value ------------------------------------------------------------

  /** Where field opt lies: from its start up to (not including) the delimiter that ends it. */
  datatype Span = Span(start: nat, end: nat)

  function FieldSpan(b: seq<byte>, opt: int): (r: Option<Span>)
    ensures r.Some? ==> r.value.start <= r.value.end < |b|
  {
    match FieldStart(b, opt)
    case None => None
    case Some(v) =>
      match EndOf(b, v)
      case None => None
      case Some(e) => Some(Span(v, e))
  }

  /** A field's span ends at a delimiter. */
  lemma {:induction false} FieldSpanEndsAtPipe(b: seq<byte>, opt: int)
    requires FieldSpan(b, opt).Some?
    ensures b[FieldSpan(b, opt).value.end] == PIPE
  {
    EndOfPipe(b, FieldStart(b, opt).value);
  }

  /** On a clean layout's buffer, field k's span is exactly field k. */
  lemma {:induction false} FieldSpanIn(l: Layout, b: seq<byte>, k: nat)
    requires Clean(l) && b == Join(l) && k < |l.fields|
    ensures FieldSpan(b, k) == Some(Span(Offset(l.fields, k), Offset(l.fields, k) + |l.fields[k]|))
  {
    FieldStartIn(l, k);
    FieldEnd(l, b, k);
    SpanOf(b, k, Offset(l.fields, k), Offset(l.fields, k) + |l.fields[k]|);
  }

  lemma {:induction false} SpanOf(b: seq<byte>, k: int, v: nat, e: nat)
    requires FieldStart(b, k) == Some(v) && v <= |b| && EndOf(b, v) == Some(e)
    ensures FieldSpan(b, k) == Some(Span(v, e))
  {
  }

  /** There is no span past the fields. */
  lemma {:induction false} FieldSpanPast(l: Layout, b: seq<byte>, k: nat)
    requires Clean(l) && b == Join(l) && k >= |l.fields|
    ensures FieldSpan(b, k) == None
  {
    if k == |l.fields| {
      FieldStartIn(l, k);
      NoEnd(l, b);
    } else {
      FieldStartPast(l, k);
    }
  }

  /**
   `set_config_value` as evidently intended: field opt becomes value; the
   bytes before it and its delimiter with everything after stay, so the new
   size is old size - old field length + value size, as the source computes.
   */
  function SetValue(b: seq<byte>, opt: int, value: seq<byte>): (r: Option<seq<byte>>)
    ensures r.Some? <==> FieldSpan(b, opt).Some?
    ensures r.Some? ==> |r.value| == |b| - (FieldSpan(b, opt).value.end - FieldSpan(b, opt).value.start) + |value|
  {
    match FieldSpan(b, opt)
    case None => None
    case Some(sp) => Some(b[.. sp.start] + value + b[sp.end ..])
  }

  /** Replacing the bytes of field k in a layout's buffer is replacing field k. */
  lemma {:induction false} SpliceJoin(l: Layout, k: nat, value: seq<byte>)
    requires k < |l.fields|
    ensures var o := Offset(l.fields, k);
      o + |l.fields[k]| <= |Join(l)| &&
      Join(l)[.. o] + value + Join(l)[o + |l.fields[k]| ..] == Join(Layout(l.fields[k := value], l.rest))
    decreases k
  {
    var t := Layout(l.fields[1..], l.rest);
    if k == 0 {
      var l2 := Layout(l.fields[k := value], l.rest);
      assert Join(l) == l.fields[0] + [PIPE] + Join(t);
      assert Join(l2) == value + [PIPE] + Join(Layout(l2.fields[1..], l2.rest));
      assert l2.fields[1..] == t.fields;
      SpliceHead(l.fields[0], Join(t), value);
    } else {
      SpliceJoin(t, k - 1, value);
      SpliceStep(l, k, value);
    }
  }

  /** The step of SpliceJoin: a splice in the fields after the first is a splice in the whole buffer, one field further on. */
  lemma {:induction false} SpliceStep(l: Layout, k: nat, value: seq<byte>)
    requires 0 < k < |l.fields|
    requires var t := Layout(l.fields[1..], l.rest); var o := Offset(t.fields, k - 1);
      o + |t.fields[k - 1]| <= |Join(t)| &&
      Join(t)[.. o] + value + Join(t)[o + |t.fields[k - 1]| ..] == Join(Layout(t.fields[k - 1 := value], t.rest))
    ensures var o := Offset(l.fields, k);
      o + |l.fields[k]| <= |Join(l)| &&
      Join(l)[.. o] + value + Join(l)[o + |l.fields[k]| ..] == Join(Layout(l.fields[k := value], l.rest))
  {
    var t := Layout(l.fields[1..], l.rest);
    var f := l.fields[0];
    var l2 := Layout(l.fields[k := value], l.rest);
    var t2 := Layout(t.fields[k - 1 := value], t.rest);
    assert Join(l) == f + [PIPE] + Join(t);
    assert l2.fields[1..] == t2.fields;
    assert Join(l2) == f + [PIPE] + Join(t2);
    OffsetCons(l.fields, k);
    SpliceTail(f, Join(t), Offset(t.fields, k - 1), |l.fields[k]|, value, Join(t2));
  }

  lemma {:induction false} SpliceHead(f: seq<byte>, tail: seq<byte>, value: seq<byte>)
    ensures (f + [PIPE] + tail)[.. 0] + value + (f + [PIPE] + tail)[|f| ..] == value + [PIPE] + tail
  {
    assert (f + [PIPE] + tail)[|f| ..] == [PIPE] + tail;
  }

  lemma {:induction false} SpliceTail(f: seq<byte>, tail: seq<byte>, o: nat, n: nat, value: seq<byte>, tail2: seq<byte>)
    requires o + n <= |tail| && tail[.. o] + value + tail[o + n ..] == tail2
    ensures var b := f + [PIPE] + tail; var p := |f| + 1 + o;
      p + n <= |b| && b[.. p] + value + b[p + n ..] == f + [PIPE] + tail2
  {
    var h := f + [PIPE];
    var b := h + tail;
    var p := |h| + o;
    assert b[.. p] == h + tail[.. o];
    assert b[p + n ..] == tail[o + n ..];
    assert (h + tail[.. o]) + value + tail[o + n ..] == h + (tail[.. o] + value + tail[o + n ..]);
  }

  lemma {:induction false} OffsetCons(fields: seq<seq<byte>>, k: nat)
    requires 0 < k <= |fields|
    ensures Offset(fields, k) == |fields[0]| + 1 + Offset(fields[1..], k - 1)
    decreases k
  {
    if k > 1 {
      OffsetCons(fields, k - 1);
    }
  }

  /**
   The round trip on layouts: setting field opt of a clean layout's buffer
   to a delimiter-free value gives the buffer of the layout with value as
   field opt, which parses back to it: every other field and the rest stay.
   */
  lemma {:induction false} SetValueJoin(l: Layout, opt: nat, value: seq<byte>)
    requires Clean(l) && PipeFree(value) && opt < |l.fields|
    ensures SetValue(Join(l), opt, value) == Some(Join(Layout(l.fields[opt := value], l.rest)))
    ensures Parse(Join(Layout(l.fields[opt := value], l.rest))) == Layout(l.fields[opt := value], l.rest)
  {
    var l2 := Layout(l.fields[opt := value], l.rest);
    SetValueSplice(l, opt, value);
    CleanUpdate(l, opt, value);
    ParseJoin(l2);
  }

  /** Setting field opt of a clean layout's buffer is splicing value in as field opt. */
  lemma {:induction false} SetValueSplice(l: Layout, opt: nat, value: seq<byte>)
    requires Clean(l) && opt < |l.fields|
    ensures SetValue(Join(l), opt, value) == Some(Join(Layout(l.fields[opt := value], l.rest)))
  {
    var b := Join(l);
    var o := Offset(l.fields, opt);
    FieldSpanIn(l, b, opt);
    SpliceJoin(l, opt, value);
    assert SetValue(b, opt, value) == Some(b[.. o] + value + b[o + |l.fields[opt]| ..]);
  }

  lemma {:induction false} CleanUpdate(l: Layout, opt: nat, value: seq<byte>)
    requires Clean(l) && PipeFree(value) && opt < |l.fields|
    ensures Clean(Layout(l.fields[opt := value], l.rest))
  {
    var l2 := Layout(l.fields[opt := value], l.rest);
    forall k | 0 <= k < |l2.fields| ensures PipeFree(l2.fields[k]) {
      if k != opt {
        assert l2.fields[k] == l.fields[k];
      }
    }
  }

  /**
   The round trip: setting field opt of a buffer to a delimiter-free value
   gives a buffer whose layout has value as field opt and every other field,
   and the rest, as they were.
   */
  lemma {:induction false} SetValueRoundTrip(b: seq<byte>, opt: nat, value: seq<byte>)
    requires PipeFree(value) && opt < |Parse(b).fields|
    ensures SetValue(b, opt, value).Some?
    ensures Parse(SetValue(b, opt, value).value) == Layout(Parse(b).fields[opt := value], Parse(b).rest)
  {
    ParseSpec(b);
    SetValueJoin(Parse(b), opt, value);
  }

  /** Every option past the last field has nothing to replace. */
  lemma {:induction false} SetValueMissing(b: seq<byte>, opt: nat, value: seq<byte>)
    requires opt >= |Parse(b).fields|
    ensures SetValue(b, opt, value) == None
  {
    var l := Parse(b);
    ParseSpec(b);
    FieldSpanPast(l, b, opt);
  }

  // ---- set_config_value as written ---------------------------------------------------

  /**
   Copying n bytes from src to dst within one buffer, one byte at a time
   from the front. A byte whose source position the copy has not yet
   written gets the old byte; one whose source it has already written gets
   that new byte.
   */
  method CopyForward(mem: seq<byte>, src: nat, dst: nat, n: nat) returns (m: seq<byte>)
    requires src + n <= |mem| && dst + n <= |mem|
    ensures |m| == |mem|
    ensures forall k :: 0 <= k < |m| && !(dst <= k < dst + n) ==> m[k] == mem[k]
    ensures forall k :: dst <= k < dst + n ==>
      m[k] == (if dst <= k - dst + src < k then m[k - dst + src] else mem[k - dst + src])
  {
    m := mem;
    var t := 0;
    while t < n
      invariant 0 <= t <= n && |m| == |mem|
      invariant forall k :: 0 <= k < |m| && !(dst <= k < dst + t) ==> m[k] == mem[k]
      invariant forall k :: dst <= k < dst + t ==>
        m[k] == (if dst <= k - dst + src < k then m[k - dst + src] else mem[k - dst + src])
    {
      m := m[dst + t := m[src + t]];
      t := t + 1;
    }
  }

  /** The same copy from the back: the last byte first. */
  method CopyBackward(mem: seq<byte>, src: nat, dst: nat, n: nat) returns (m: seq<byte>)
    requires src + n <= |mem| && dst + n <= |mem|
    ensures |m| == |mem|
    ensures forall k :: 0 <= k < |m| && !(dst <= k < dst + n) ==> m[k] == mem[k]
    ensures forall k :: dst <= k < dst + n ==>
      m[k] == (if k < k - dst + src < dst + n then m[k - dst + src] else mem[k - dst + src])
  {
    m := mem;
    var t := n;
    while t > 0
      invariant 0 <= t <= n && |m| == |mem|
      invariant forall k :: 0 <= k < |m| && !(dst + t <= k < dst + n) ==> m[k] == mem[k]
      invariant forall k :: dst + t <= k < dst + n ==>
        m[k] == (if k < k - dst + src < dst + n then m[k - dst + src] else mem[k - dst + src])
    {
      t := t - 1;
      m := m[dst + t := m[src + t]];
    }
  }

  /** Which way the overlapping `memcpy` of the tail runs: the source does not say, and C leaves it undefined. */
  datatype CopyOrder = FrontToBack | BackToFront

  /**
   The buffer after `realloc` (kept in place, grown with zero bytes when
   the value is longer) and after `memcpy(v, value, size)`: the value sits
   at the field's start over whatever was there.
   */
  function Staged(b: seq<byte>, sp: Span, value: seq<byte>): (w: seq<byte>)
    requires sp.start <= sp.end < |b|
    ensures |w| == Max(|b|, |b| - (sp.end - sp.start) + |value|)
    ensures w[.. sp.start] == b[.. sp.start] && w[sp.start .. sp.start + |value|] == value
    ensures forall k :: sp.start + |value| <= k < |b| ==> w[k] == b[k]
  {
    var room := Max(|b|, |b| - (sp.end - sp.start) + |value|);
    var mem := b + seq(room - |b|, _ => 0);
    var w := mem[.. sp.start] + value + mem[sp.start + |value| ..];
    assert forall k :: sp.start + |value| <= k < |b| ==> w[k] == mem[k] == b[k];
    w
  }

  function Max(a: int, b: int): int
  {
    if a < b then b else a
  }

  /**
   `set_config_value` as written, with the buffer kept in place by
   `realloc` (the source writes through `v` and `delimiter`, taken before
   the call, so a moved buffer would be written after it was freed). The
   value goes to the field's start (line 70), then the delimiter and
   everything after are copied to just past it (line 71).

   When the new value is longer than the old one by `grow` bytes, the first
   `grow` bytes the tail copy reads lie before its destination, where line
   70 has just put the end of the value, and nothing in the copy writes them
   again; so whichever way the copy runs, the bytes after the value start
   with the value's own last bytes instead of the delimiter. A shorter or
   equal value comes out as intended when the copy runs front to back.
   */
  method SetValueAsWritten(b: seq<byte>, opt: int, value: seq<byte>, order: CopyOrder) returns (r: Option<seq<byte>>)
    ensures r.Some? <==> FieldSpan(b, opt).Some?
    ensures r.Some? ==> var sp := FieldSpan(b, opt).value;
      |r.value| == |b| - (sp.end - sp.start) + |value| &&
      r.value[.. sp.start] == b[.. sp.start] && r.value[sp.start .. sp.start + |value|] == value
    ensures r.Some? ==> var sp := FieldSpan(b, opt).value; var grow := |value| - (sp.end - sp.start);
      grow > 0 ==> forall k :: sp.start + |value| <= k < sp.start + |value| + Min(grow, |b| - sp.end) ==>
        r.value[k] == value[k - sp.start - grow]
    ensures r.Some? && PipeFree(value) && |value| > FieldSpan(b, opt).value.end - FieldSpan(b, opt).value.start ==>
      r != SetValue(b, opt, value)
    ensures r.Some? && order == FrontToBack && |value| <= FieldSpan(b, opt).value.end - FieldSpan(b, opt).value.start ==>
      r == SetValue(b, opt, value)
  {
    var span := FieldSpan(b, opt);
    if span.None? {
      return None;
    }
    var sp := span.value;
    var out := Rewrite(b, sp, value, order);
    r := Some(out);
    if |value| > sp.end - sp.start {
      if PipeFree(value) {
        GrowDiffers(b, opt, sp, value, out);
      }
    } else if order == FrontToBack {
      assert SetValue(b, opt, value) == Some(b[.. sp.start] + value + b[sp.end ..]);
    }
  }

  /** Lines 67-71 on a field at sp: stage the value, then copy the delimiter and the rest behind it. */
  method Rewrite(b: seq<byte>, sp: Span, value: seq<byte>, order: CopyOrder) returns (out: seq<byte>)
    requires sp.start <= sp.end < |b|
    ensures |out| == |b| - (sp.end - sp.start) + |value|
    ensures out[.. sp.start] == b[.. sp.start] && out[sp.start .. sp.start + |value|] == value
    ensures var grow := |value| - (sp.end - sp.start);
      grow > 0 ==> forall k :: sp.start + |value| <= k < sp.start + |value| + Min(grow, |b| - sp.end) ==>
        out[k] == value[k - sp.start - grow]
    ensures order == FrontToBack && |value| <= sp.end - sp.start ==> out == b[.. sp.start] + value + b[sp.end ..]
  {
    var w := Staged(b, sp, value);
    var m;
    if order == FrontToBack {
      m := CopyForward(w, sp.end, sp.start + |value|, |b| - sp.end);
    } else {
      m := CopyBackward(w, sp.end, sp.start + |value|, |b| - sp.end);
    }
    var newSize := |b| - (sp.end - sp.start) + |value|;
    out := m[.. newSize];
    CopiedHead(b, sp, value, w, m, newSize);
    if |value| > sp.end - sp.start {
      CopiedGrow(b, sp, value, w, m, newSize);
    } else if order == FrontToBack {
      CopiedShrink(b, sp, value, w, m, newSize);
    }
  }

  function Min(a: int, b: int): int
  {
    if a < b then a else b
  }

  /** Both copies leave the bytes before the destination alone. */
  lemma {:induction false} CopiedHead(b: seq<byte>, sp: Span, value: seq<byte>, w: seq<byte>, m: seq<byte>, size: nat)
    requires sp.start <= sp.end < |b| && size == |b| - (sp.end - sp.start) + |value|
    requires |w| == |m| >= size && w[.. sp.start] == b[.. sp.start] && w[sp.start .. sp.start + |value|] == value
    requires forall k :: 0 <= k < |m| && !(sp.start + |value| <= k < sp.start + |value| + (|b| - sp.end)) ==> m[k] == w[k]
    ensures m[.. size][.. sp.start] == b[.. sp.start] && m[.. size][sp.start .. sp.start + |value|] == value
  {
    assert forall k :: 0 <= k < sp.start + |value| ==> m[k] == w[k];
    assert m[.. size][.. sp.start] == w[.. sp.start];
    assert m[.. size][sp.start .. sp.start + |value|] == w[sp.start .. sp.start + |value|];
  }

  /**
   A growing value: the first `grow` source positions of the tail copy lie
   before its destination, so in either direction they are read as line 70
   left them.
   */
  lemma {:induction false} CopiedGrow(b: seq<byte>, sp: Span, value: seq<byte>, w: seq<byte>, m: seq<byte>, size: nat)
    requires sp.start <= sp.end < |b| && size == |b| - (sp.end - sp.start) + |value| && |value| > sp.end - sp.start
    requires |w| == |m| == size && w[sp.start .. sp.start + |value|] == value
    requires forall k :: sp.start + |value| <= k < sp.start + |value| + (|b| - sp.end) ==>
      (k - (sp.start + |value|) + sp.end < sp.start + |value| ==> m[k] == w[k - (sp.start + |value|) + sp.end])
    ensures var grow := |value| - (sp.end - sp.start);
      forall k :: sp.start + |value| <= k < sp.start + |value| + Min(grow, |b| - sp.end) ==>
        m[.. size][k] == value[k - sp.start - grow]
  {
    var dst := sp.start + |value|;
    var grow := |value| - (sp.end - sp.start);
    forall k | dst <= k < dst + Min(grow, |b| - sp.end)
      ensures m[.. size][k] == value[k - sp.start - grow]
    {
      var p := k - dst + sp.end;
      assert w[p] == w[sp.start .. dst][p - sp.start];
    }
  }

  /** A value no longer than the old field, copied front to back: the intended splice. */
  lemma {:induction false} CopiedShrink(b: seq<byte>, sp: Span, value: seq<byte>, w: seq<byte>, m: seq<byte>, size: nat)
    requires sp.start <= sp.end < |b| && size == |b| - (sp.end - sp.start) + |value| && |value| <= sp.end - sp.start
    requires |w| == |m| == |b| && w[.. sp.start] == b[.. sp.start] && w[sp.start .. sp.start + |value|] == value
    requires forall k :: sp.start + |value| <= k < |b| ==> w[k] == b[k]
    requires forall k :: 0 <= k < |m| && !(sp.start + |value| <= k < sp.start + |value| + (|b| - sp.end)) ==> m[k] == w[k]
    requires forall k :: sp.start + |value| <= k < sp.start + |value| + (|b| - sp.end) ==> m[k] == w[k - (sp.start + |value|) + sp.end]
    ensures m[.. size] == b[.. sp.start] + value + b[sp.end ..]
  {
    var dst := sp.start + |value|;
    var spliced := b[.. sp.start] + value + b[sp.end ..];
    forall k | 0 <= k < size ensures m[k] == spliced[k] {
      if k >= dst {
        assert m[k] == w[k - dst + sp.end] == b[k - dst + sp.end];
      } else if k >= sp.start {
        assert m[k] == w[k] == w[sp.start .. dst][k - sp.start];
      } else {
        assert m[k] == w[k] == w[.. sp.start][k];
      }
    }
  }

  /** Where the intended splice has the delimiter, a growing delimiter-free value leaves one of its own bytes. */
  lemma {:induction false} GrowDiffers(b: seq<byte>, opt: int, sp: Span, value: seq<byte>, r: seq<byte>)
    requires FieldSpan(b, opt) == Some(sp) && PipeFree(value) && |value| > sp.end - sp.start
    requires |r| == |b| - (sp.end - sp.start) + |value|
    requires var grow := |value| - (sp.end - sp.start);
      forall k :: sp.start + |value| <= k < sp.start + |value| + Min(grow, |b| - sp.end) ==>
        r[k] == value[k - sp.start - grow]
    ensures Some(r) != SetValue(b, opt, value)
  {
    var k := sp.start + |value|;
    assert r[k] == value[sp.end - sp.start];
    var s := b[.. sp.start] + value + b[sp.end ..];
    FieldSpanEndsAtPipe(b, opt);
    assert s[sp.start + |value|] == b[sp.end] == PIPE;
  }

  /**
   The corruption written out: in `a|b|`, setting field 0 to `xyz` leaves
   `y` where the delimiter belongs, copied in either direction; the intended
   result is `xyz|b|`.
   */
  method TailCorruption(order: CopyOrder) returns (written: Option<seq<byte>>, intended: Option<seq<byte>>)
    ensures written.Some? && |written.value| == 6 && written.value[.. 4] == [0x78, 0x79, 0x7A, 0x79]
    ensures intended == Some([0x78, 0x79, 0x7A, PIPE, 0x62, PIPE])
  {
    var b: seq<byte> := [0x61, PIPE, 0x62, PIPE];
    var value: seq<byte> := [0x78, 0x79, 0x7A];
    assert b[0..] == b;
    assert IndexOfPipe(b) == Some(0 + 1);
    assert FieldSpan(b, 0) == Some(Span(0, 1));
    written := SetValueAsWritten(b, 0, value, order);
    intended := SetValue(b, 0, value);
    assert b[1 ..] == [PIPE, 0x62, PIPE];
    assert b[.. 0] + value + b[1 ..] == [0x78, 0x79, 0x7A, PIPE, 0x62, PIPE];
    var r := written.value;
    assert r[3] == value[1];
    assert r[.. 3] == value;
  }

  // ---- The option guards ------------------------------------------------------------

  /** What `get_config_option` yields: nothing for a rejected option, the bytes read, or a read off the buffer. */
  datatype Lookup = Rejected | Bytes(bytes: seq<byte>) | Overrun

  /** `memory_t<T>(value, sizeof(T))`: width bytes copied from the field's start. */
  function ReadField(b: seq<byte>, opt: int, width: nat): (r: Lookup)
    ensures !r.Rejected?
    ensures r.Bytes? <==> FieldStart(b, opt).Some? && FieldStart(b, opt).value + width <= |b|
    ensures r.Bytes? ==> r.bytes == b[FieldStart(b, opt).value .. FieldStart(b, opt).value + width]
  {
    match FieldStart(b, opt)
    case None => Overrun
    case Some(v) => if v + width <= |b| then Bytes(b[v .. v + width]) else Overrun
  }

  /**
   `get_config_option` as written: only `opt > OPTCOUNT` is turned away
   (both overloads; the count of the second is unused). `INVALID_OPT` and
   every other negative option read field 0.
   */
  function GetOptionAsWritten(b: seq<byte>, opt: int, width: nat): (r: Lookup)
    ensures r.Rejected? <==> opt > OPTCOUNT
    ensures !r.Rejected? ==> r == ReadField(b, opt, width)
  {
    if opt > OPTCOUNT then Rejected else ReadField(b, opt, width)
  }

  /** `get_config_option` with the guard the options call for: the `OPTCOUNT` fields are numbered from 0. */
  function GetOption(b: seq<byte>, opt: int, width: nat): (r: Lookup)
    ensures r.Rejected? <==> opt < 0 || opt >= OPTCOUNT
    ensures !r.Rejected? ==> r == ReadField(b, opt, width)
  {
    if opt < 0 || opt >= OPTCOUNT then Rejected else ReadField(b, opt, width)
  }

  /** The two guards differ at `opt == OPTCOUNT` and at the negative options, and nowhere else. */
  lemma {:induction false} GuardsAgree(b: seq<byte>, opt: int, width: nat)
    ensures 0 <= opt < OPTCOUNT || opt > OPTCOUNT ==> GetOption(b, opt, width) == GetOptionAsWritten(b, opt, width)
    ensures opt == OPTCOUNT || opt < 0 ==> GetOption(b, opt, width) == Rejected && !GetOptionAsWritten(b, opt, width).Rejected?
  {
  }

  /**
   On a buffer with at least `OPTCOUNT` fields, the corrected guard lets
   through only options whose field exists, and a field holding at least
   width bytes is read from its own bytes.
   */
  lemma {:induction false} GetOptionReadsField(b: seq<byte>, opt: int, width: nat)
    requires |Parse(b).fields| >= OPTCOUNT && 0 <= opt < OPTCOUNT && width <= |Parse(b).fields[opt]|
    ensures GetOption(b, opt, width) == Bytes(Parse(b).fields[opt][.. width])
  {
    ParseSpec(b);
    ReadsField(Parse(b), opt, width);
  }

  lemma {:induction false} ReadsField(l: Layout, k: nat, width: nat)
    requires Clean(l) && k < |l.fields| && width <= |l.fields[k]|
    ensures ReadField(Join(l), k, width) == Bytes(l.fields[k][.. width])
  {
    FieldStartAt(l, k);
    JoinFrom(l, k);
    JoinDrop(l, k);
    var o := Offset(l.fields, k);
    FieldPrefix(Join(l), o, l.fields[k], Join(Drop(l, k + 1)), width);
  }

  lemma {:induction false} FieldPrefix(b: seq<byte>, o: nat, f: seq<byte>, tail: seq<byte>, width: nat)
    requires o <= |b| && b[o..] == f + [PIPE] + tail && width <= |f|
    ensures o + width <= |b| && b[o .. o + width] == f[.. width]
  {
    assert b[o .. o + width] == b[o..][.. width];
  }

  /** `set_config_option`: what a guarded store does to the buffer. */
  datatype Update = Unchanged | Updated(config: seq<byte>) | Undefined

  /**
   `set_config_option` as written: the `opt > OPTCOUNT` guard (line 80), then
   `set_config_value` as written (line 86), whose overlapping tail copy runs
   in the given order. A value that grows its field corrupts the tail here
   too, so such a store never agrees with the corrected `SetOption`; a value
   no longer than its field, copied front to back, does.
   */
  method SetOptionAsWritten(b: seq<byte>, opt: int, value: seq<byte>, order: CopyOrder) returns (r: Update)
    ensures r.Unchanged? <==> opt > OPTCOUNT
    ensures r.Undefined? <==> opt <= OPTCOUNT && FieldSpan(b, opt).None?
    ensures r.Updated? ==> var sp := FieldSpan(b, opt).value;
      |r.config| == |b| - (sp.end - sp.start) + |value| &&
      r.config[.. sp.start] == b[.. sp.start] && r.config[sp.start .. sp.start + |value|] == value
    ensures r.Updated? ==> var sp := FieldSpan(b, opt).value; var grow := |value| - (sp.end - sp.start);
      grow > 0 ==> forall k :: sp.start + |value| <= k < sp.start + |value| + Min(grow, |b| - sp.end) ==>
        r.config[k] == value[k - sp.start - grow]
    ensures r.Updated? && PipeFree(value) && |value| > FieldSpan(b, opt).value.end - FieldSpan(b, opt).value.start ==>
      r != SetOption(b, opt, value)
    ensures (0 <= opt < OPTCOUNT && FieldSpan(b, opt).Some? && order == FrontToBack &&
             |value| <= FieldSpan(b, opt).value.end - FieldSpan(b, opt).value.start) ==>
      r == SetOption(b, opt, value)
  {
    if opt > OPTCOUNT {
      return Unchanged;
    }
    var written := SetValueAsWritten(b, opt, value, order);
    match written {
      case None => r := Undefined;
      case Some(c) => r := Updated(c);
    }
  }

  /** `set_config_option` as intended: options outside 0 .. OPTCOUNT - 1 turned away, then the intended splice. */
  function SetOption(b: seq<byte>, opt: int, value: seq<byte>): (r: Update)
    ensures r.Unchanged? <==> opt < 0 || opt >= OPTCOUNT
    ensures r.Updated? <==> 0 <= opt < OPTCOUNT && SetValue(b, opt, value).Some?
    ensures r.Updated? ==> Some(r.config) == SetValue(b, opt, value)
  {
    if opt < 0 || opt >= OPTCOUNT then Unchanged
    else match SetValue(b, opt, value)
      case None => Undefined
      case Some(c) => Updated(c)
  }

  /** With the corrected guard, a buffer of `OPTCOUNT` fields is always updated in the field asked for. */
  lemma {:induction false} SetOptionUpdates(b: seq<byte>, opt: nat, value: seq<byte>)
    requires |Parse(b).fields| >= OPTCOUNT && opt < OPTCOUNT && PipeFree(value)
    ensures SetOption(b, opt, value).Updated?
    ensures Parse(SetOption(b, opt, value).config) == Layout(Parse(b).fields[opt := value], Parse(b).rest)
  {
    SetValueRoundTrip(b, opt, value);
  }

  // ---- g_default_config ------------------------------------------------------------

  /** The text of the third default field. */
  const DEFAULT_NAME: seq<byte> := [0x67, 0x61, 0x79, 0x70, 0x75, 0x73, 0x73]

  /**
   `g_default_config`, with the NUL that ends the literal: `sizeof` counts
   it. The source installs this static array itself as the configuration
   when no file exists, so a later `set_config_value` hands it to `realloc`,
   which only heap blocks may be given; the model treats it as any buffer.
   */
  const DEFAULT_CONFIG: seq<byte> :=
    [0x02, 0x00, 0x00, 0x00, PIPE, 0x87, 0x69, 0x00, 0x00, PIPE] + DEFAULT_NAME + [PIPE, 0x00]

  /** The default layout: DEVICE and PORT as little-endian `int`s, the 7-byte name, and the NUL after them. */
  const DEFAULT_LAYOUT: Layout := Layout([[0x02, 0x00, 0x00, 0x00], [0x87, 0x69, 0x00, 0x00], DEFAULT_NAME], [0x00])

  lemma {:induction false} JoinCons(f: seq<byte>, fs: seq<seq<byte>>, rest: seq<byte>)
    ensures Join(Layout([f] + fs, rest)) == f + [PIPE] + Join(Layout(fs, rest))
  {
    assert ([f] + fs)[1..] == fs;
  }

  lemma {:induction false} DefaultJoin()
    ensures Join(DEFAULT_LAYOUT) == DEFAULT_CONFIG
  {
    var f0: seq<byte> := [0x02, 0x00, 0x00, 0x00];
    var f1: seq<byte> := [0x87, 0x69, 0x00, 0x00];
    var rest: seq<byte> := [0x00];
    JoinCons(DEFAULT_NAME, [], rest);
    JoinCons(f1, [DEFAULT_NAME], rest);
    JoinCons(f0, [f1, DEFAULT_NAME], rest);
    assert [f0, f1, DEFAULT_NAME] == [f0] + [f1, DEFAULT_NAME];
    assert [f1, DEFAULT_NAME] == [f1] + [DEFAULT_NAME];
    assert [DEFAULT_NAME] == [DEFAULT_NAME] + [];
  }

  lemma {:induction false} DefaultClean()
    ensures Clean(DEFAULT_LAYOUT)
  {
  }

  /**
   The default configuration: 19 bytes, three fields (DEVICE = 2 and
   PORT = 0x6987 = 27015 as little-endian `int`s, and a 7-byte string) and
   the NUL after the last delimiter.
   */
  lemma {:induction false} DefaultLayout()
    ensures |DEFAULT_CONFIG| == 19
    ensures Parse(DEFAULT_CONFIG) == DEFAULT_LAYOUT
    ensures ReadInt32At(DEFAULT_LAYOUT.fields[DEVICE], 0) == 2
    ensures ReadInt32At(DEFAULT_LAYOUT.fields[PORT], 0) == 27015
  {
    DefaultJoin();
    DefaultClean();
    ParseJoin(DEFAULT_LAYOUT);
    DefaultInts();
  }

  lemma {:induction false} DefaultInts()
    ensures ReadInt32At(DEFAULT_LAYOUT.fields[DEVICE], 0) == 2
    ensures ReadInt32At(DEFAULT_LAYOUT.fields[PORT], 0) == 27015
  {
    assert Le32([0x87, 0x69, 0x00, 0x00], 0) == 0x6987;
  }

  /**
   The guard let through at its edge, on the default configuration: field
   `OPTCOUNT` starts at the trailing NUL, so reading an `int` there runs
   three bytes off the buffer, and storing one finds no delimiter to stop
   at. The corrected guard turns the option away.
   */
  method GuardAdmitsCount(order: CopyOrder) returns (read: Lookup, stored: Update)
    ensures read == Overrun && read == GetOptionAsWritten(DEFAULT_CONFIG, OPTCOUNT, 4)
    ensures stored == Undefined
    ensures GetOption(DEFAULT_CONFIG, OPTCOUNT, 4) == Rejected
    ensures SetOption(DEFAULT_CONFIG, OPTCOUNT, [0, 0, 0, 0]) == Unchanged
  {
    DefaultCountField();
    assert SetValue(DEFAULT_CONFIG, OPTCOUNT, [0, 0, 0, 0]) == None;
    read := GetOptionAsWritten(DEFAULT_CONFIG, OPTCOUNT, 4);
    stored := SetOptionAsWritten(DEFAULT_CONFIG, OPTCOUNT, [0, 0, 0, 0], order);
  }

  /** On the default configuration, the scan for field `OPTCOUNT` stops at the trailing NUL, and no delimiter follows. */
  lemma {:induction false} DefaultCountField()
    ensures FieldStart(DEFAULT_CONFIG, OPTCOUNT) == Some(18)
    ensures FieldSpan(DEFAULT_CONFIG, OPTCOUNT) == None
  {
    DefaultJoin();
    DefaultClean();
    DefaultOffset();
    FieldStartIn(DEFAULT_LAYOUT, 3);
    FieldSpanPast(DEFAULT_LAYOUT, DEFAULT_CONFIG, 3);
  }

  lemma {:induction false} DefaultOffset()
    ensures Offset(DEFAULT_LAYOUT.fields, 3) == 18
  {
    var fs := DEFAULT_LAYOUT.fields;
    assert Offset(fs, 1) == 5;
    assert Offset(fs, 2) == 10;
  }
}

=== FILE: coords.dfy ===
/**
 The coordinate and normal readers of `CBitRead` (Sniffles/packetbitbuf.cpp).
 The program turns the fields into a `float`; this model stops at the
 integer fields the float is computed from, `±(whole + frac / 2^fracBits)`,
 and at the bits consumed. For the fixed widths (at most 14 integer and 11
 fraction bits) that value fits a float's 24-bit significand exactly; the
 width of `ReadBitCellCoord` is the caller's, and past 24 bits the float
 rounds where the fields stay exact.

 Each reader has a layout (the fields a writer lays down for a given
 coordinate) and a round-trip lemma reading the coordinate back from it,
 and an `Agree` lemma carrying that meaning over to the real reader.
 */
module Coords {
  import opened BitOps
  import opened BitStream
  import opened BitSource

  const COORD_INTEGER_BITS: nat := 14
  const COORD_FRACTIONAL_BITS: nat := 5
  const COORD_INTEGER_BITS_MP: nat := 11
  const COORD_FRACTIONAL_BITS_MP_LOWPRECISION: nat := 3
  const NORMAL_FRACTIONAL_BITS: nat := 11

  /** `EBitCoordType`: `kCW_None`, `kCW_LowPrecision`, `kCW_Integral`. */
  datatype CoordType = Plain | LowPrecision | Integral

  /** The fields a coordinate's value is computed from: `±(whole + frac / 2^fracBits)`. */
  datatype Coord = Coord(negative: bool, whole: nat, frac: nat, fracBits: nat)

  function Flag(b: bool): (f: nat)
    ensures f < 2 && (f == 1 <==> b)
  {
    if b then 1 else 0
  }

  /** The fraction width of a non-integral coordinate of type t. */
  function FracBits(t: CoordType): (n: nat)
    ensures 1 <= n <= 5
  {
    if t == LowPrecision then COORD_FRACTIONAL_BITS_MP_LOWPRECISION else COORD_FRACTIONAL_BITS
  }

  /** The integer width `ReadBitCoordMP` uses, chosen by the in-bounds bit. */
  function IntBits(inBounds: bool): (n: nat)
    ensures n == 11 || n == 14
  {
    if inBounds then COORD_INTEGER_BITS_MP else COORD_INTEGER_BITS
  }

  /** An n-bit field that is present only when its flag is set; absent, it reads 0. */
  function OptBits(s: Src, present: bool, n: nat): (o: Out<nat>)
    requires Valid(s) && 1 <= n <= 32
    ensures SameBuffer(s, o.rest)
    ensures Overflowed(s) ==> Overflowed(o.rest)
    ensures !present ==> o.value == 0 && o.rest == s
    ensures s.Ideal? ==> o.value < Pow2(n)
  {
    if present then UBits(s, n) else Out(0, s)
  }

  // ---- The readers ------------------------------------------------------------

  /**
   `ReadBitCoord`: an integer flag and a fraction flag; if either is set, a
   sign bit, then the integer (stored as value - 1) and the fraction, each
   present only when its flag is set. Both flags clear is zero.
   */
  function ReadBitCoord(s: Src): (o: Out<Coord>)
    requires Valid(s)
    ensures SameBuffer(s, o.rest)
    ensures Overflowed(s) ==> Overflowed(o.rest)
    ensures o.value.fracBits == COORD_FRACTIONAL_BITS
    ensures s.Ideal? ==> o.value.whole <= Pow2(COORD_INTEGER_BITS) && o.value.frac < Pow2(COORD_FRACTIONAL_BITS)
  {
    var i := OneBit(s);
    var f := OneBit(i.rest);
    if i.value == 0 && f.value == 0 then Out(Coord(false, 0, 0, COORD_FRACTIONAL_BITS), f.rest)
    else
      var sign := OneBit(f.rest);
      var ip := OptBits(sign.rest, i.value != 0, COORD_INTEGER_BITS);
      var fp := OptBits(ip.rest, f.value != 0, COORD_FRACTIONAL_BITS);
      Out(Coord(sign.value != 0, if i.value != 0 then ip.value + 1 else 0, fp.value, COORD_FRACTIONAL_BITS), fp.rest)
  }

  /**
   `ReadBitCoordMP`: an in-bounds bit first, which picks the 11-bit or the
   14-bit integer. An integral coordinate has an integer flag and, when it
   is set, a sign bit and the integer; otherwise the integer flag and the
   sign bit are always read, the integer is present only with its flag, and
   a 3-bit (low precision) or 5-bit fraction always follows.
   */
  function ReadBitCoordMP(s: Src, t: CoordType): (o: Out<Coord>)
    requires Valid(s)
    ensures SameBuffer(s, o.rest)
    ensures Overflowed(s) ==> Overflowed(o.rest)
    ensures o.value.fracBits == if t == Integral then 0 else FracBits(t)
    ensures t == Integral ==> o.value.frac == 0
    ensures s.Ideal? && t != Integral ==> o.value.frac < Pow2(FracBits(t))
  {
    var inb := OneBit(s);
    var i := OneBit(inb.rest);
    if t == Integral then IntegralRest(i.rest, IntBits(inb.value != 0), i.value != 0)
    else FractionalRest(i.rest, IntBits(inb.value != 0), i.value != 0, FracBits(t))
  }

  /** An integral `ReadBitCoordMP` after its two flags: a sign and the integer, when the integer flag is set. */
  function IntegralRest(s: Src, ib: nat, hasInt: bool): (o: Out<Coord>)
    requires Valid(s) && 1 <= ib <= 32
    ensures SameBuffer(s, o.rest)
    ensures Overflowed(s) ==> Overflowed(o.rest)
    ensures o.value.fracBits == 0 && o.value.frac == 0
    ensures o.value.whole == 0 <==> !hasInt
    ensures s.Ideal? ==> o.value.whole <= Pow2(ib)
  {
    if hasInt then
      var sign := OneBit(s);
      var w := UBits(sign.rest, ib);
      Out(Coord(sign.value != 0, w.value + 1, 0, 0), w.rest)
    else Out(Coord(false, 0, 0, 0), s)
  }

  /** A non-integral `ReadBitCoordMP` after its two flags: a sign, the optional integer, the fraction. */
  function FractionalRest(s: Src, ib: nat, hasInt: bool, fb: nat): (o: Out<Coord>)
    requires Valid(s) && 1 <= ib <= 32 && 1 <= fb <= 32
    ensures SameBuffer(s, o.rest)
    ensures Overflowed(s) ==> Overflowed(o.rest)
    ensures o.value.fracBits == fb
    ensures o.value.whole == 0 <==> !hasInt
    ensures s.Ideal? ==> o.value.whole <= Pow2(ib) && o.value.frac < Pow2(fb)
  {
    var sign := OneBit(s);
    var ip := OptBits(sign.rest, hasInt, ib);
    var fp := UBits(ip.rest, fb);
    Out(Coord(sign.value != 0, if hasInt then ip.value + 1 else 0, fp.value, fb), fp.rest)
  }

  /**
   `ReadBitCellCoord(bits, type)`: a bits-wide integer and, unless the
   coordinate is integral, a 3-bit or 5-bit fraction. There is no sign.
   A non-integral coordinate keeps its integer in an `int` (line 650), so
   a 32-bit one with the top bit set would turn negative; the model takes
   at most 31 bits there.
   */
  function ReadBitCellCoord(s: Src, bits: nat, t: CoordType): (o: Out<Coord>)
    requires Valid(s) && 1 <= bits <= 32 && (t == Integral || bits < 32)
    ensures SameBuffer(s, o.rest)
    ensures Overflowed(s) ==> Overflowed(o.rest)
    ensures !o.value.negative
    ensures o.value.fracBits == if t == Integral then 0 else FracBits(t)
    ensures o.value.whole == UBits(s, bits).value
  {
    var w := UBits(s, bits);
    if t == Integral then Out(Coord(false, w.value, 0, 0), w.rest)
    else
      var fp := UBits(w.rest, FracBits(t));
      Out(Coord(false, w.value, fp.value, FracBits(t)), fp.rest)
  }

  /** `ReadBitNormal`: a sign bit and an 11-bit fraction of one. */
  function ReadBitNormal(s: Src): (o: Out<Coord>)
    requires Valid(s)
    ensures SameBuffer(s, o.rest)
    ensures Overflowed(s) ==> Overflowed(o.rest)
    ensures o.value.whole == 0 && o.value.fracBits == NORMAL_FRACTIONAL_BITS
    ensures s.Ideal? ==> o.value.frac < Pow2(NORMAL_FRACTIONAL_BITS)
  {
    var sign := OneBit(s);
    var f := UBits(sign.rest, NORMAL_FRACTIONAL_BITS);
    Out(Coord(sign.value != 0, 0, f.value, NORMAL_FRACTIONAL_BITS), f.rest)
  }

  // ---- Layouts ----------------------------------------------------------------

  /** A field that a writer lays down only when the flag is set. */
  function OptField(present: bool, n: nat, v: nat): (fs: seq<Field>)
    ensures |fs| == Flag(present)
  {
    if present then [Field(n, v)] else []
  }

  /** The coordinates a writer lays down: the integer in 0 .. 2^14, a 5-bit fraction, no negative zero. */
  predicate CoordOk(c: Coord)
  {
    c.fracBits == COORD_FRACTIONAL_BITS && c.whole <= Pow2(COORD_INTEGER_BITS) &&
    c.frac < Pow2(COORD_FRACTIONAL_BITS) && (c.whole == 0 && c.frac == 0 ==> !c.negative)
  }

  /** What a writer lays down for c: the two flags, then (unless c is zero) the sign, the integer - 1, the fraction. */
  function CoordFields(c: Coord): seq<Field>
  {
    if c.whole == 0 && c.frac == 0 then [Field(1, 0)] + [Field(1, 0)]
    else
      [Field(1, Flag(c.whole != 0))] + ([Field(1, Flag(c.frac != 0))] + ([Field(1, Flag(c.negative))] +
      (OptField(c.whole != 0, COORD_INTEGER_BITS, if c.whole == 0 then 0 else c.whole - 1) +
       OptField(c.frac != 0, COORD_FRACTIONAL_BITS, c.frac))))
  }

  /** The bits `CoordFields(c)` takes: 2 for zero, else 3, plus 14 with an integer, plus 5 with a fraction. */
  function CoordWidth(c: Coord): nat
  {
    if c.whole == 0 && c.frac == 0 then 2
    else 3 + (if c.whole != 0 then COORD_INTEGER_BITS else 0) + (if c.frac != 0 then COORD_FRACTIONAL_BITS else 0)
  }

  /** The coordinates `ReadBitCoordMP` can produce with in-bounds bit inb. */
  predicate CoordMPOk(c: Coord, t: CoordType, inb: bool)
  {
    (c.whole != 0 ==> c.whole - 1 < Pow2(IntBits(inb))) &&
    if t == Integral then c.fracBits == 0 && c.frac == 0 && (c.whole == 0 ==> !c.negative)
    else c.fracBits == FracBits(t) && c.frac < Pow2(FracBits(t))
  }

  function CoordMPFields(c: Coord, t: CoordType, inb: bool): seq<Field>
  {
    var whole := OptField(c.whole != 0, IntBits(inb), if c.whole == 0 then 0 else c.whole - 1);
    [Field(1, Flag(inb))] + ([Field(1, Flag(c.whole != 0))] +
      if t == Integral then (if c.whole != 0 then [Field(1, Flag(c.negative))] + whole else [])
      else [Field(1, Flag(c.negative))] + (whole + [Field(FracBits(t), c.frac)]))
  }

  function CoordMPWidth(c: Coord, t: CoordType, inb: bool): nat
  {
    var iw := if c.whole != 0 then IntBits(inb) else 0;
    if t == Integral then 2 + (if c.whole != 0 then 1 + iw else 0)
    else 3 + iw + FracBits(t)
  }

  /** The coordinates `ReadBitCellCoord` can produce: no sign, and no fraction when integral. */
  predicate CellOk(c: Coord, t: CoordType)
  {
    !c.negative && if t == Integral then c.fracBits == 0 && c.frac == 0 else c.fracBits == FracBits(t)
  }

  function CellFields(c: Coord, bits: nat, t: CoordType): seq<Field>
  {
    [Field(bits, c.whole)] + if t == Integral then [] else [Field(FracBits(t), c.frac)]
  }

  function CellWidth(bits: nat, t: CoordType): nat
  {
    bits + if t == Integral then 0 else FracBits(t)
  }

  /** The values `ReadBitNormal` can produce: a fraction of one with 11 bits. */
  predicate NormalOk(c: Coord)
  {
    c.whole == 0 && c.fracBits == NORMAL_FRACTIONAL_BITS
  }

  function NormalFields(c: Coord): seq<Field>
  {
    [Field(1, Flag(c.negative))] + [Field(NORMAL_FRACTIONAL_BITS, c.frac)]
  }

  // ---- Reading a layout back --------------------------------------------------

  /** On the stream, one bit inside the buffer is the next bit. */
  lemma IdealOneBit(d: seq<byte>, p: nat)
    requires p + 1 <= 8 * |d|
    ensures OneBit(Ideal(d, Live(p))) == Out(Bits(d, p, 1), Ideal(d, Live(p + 1)))
  {
  }

  /** The first field of a layout, read as a single bit. */
  lemma {:induction false} HoldsBit(d: seq<byte>, p: nat, f: Field, fs: seq<Field>)
    requires Holds(d, p, [f] + fs) && f.width == 1
    ensures OneBit(Ideal(d, Live(p))) == Out(f.value, Ideal(d, Live(p + 1)))
    ensures Holds(d, p + 1, fs)
  {
    assert ([f] + fs)[1..] == fs;
    IdealOneBit(d, p);
  }

  /** The first field of a layout, read as a field of its width. */
  lemma {:induction false} HoldsField(d: seq<byte>, p: nat, f: Field, fs: seq<Field>)
    requires Holds(d, p, [f] + fs) && 1 <= f.width <= 32
    ensures UBits(Ideal(d, Live(p)), f.width) == Out(f.value, Ideal(d, Live(p + f.width)))
    ensures Holds(d, p + f.width, fs)
  {
    assert ([f] + fs)[1..] == fs;
    IdealUBits(d, p, f.width);
  }

  /** An optional field at the front of a layout reads back as its value, or as 0 without moving. */
  lemma {:induction false} HoldsOpt(d: seq<byte>, q: nat, b: bool, n: nat, v: nat, fs: seq<Field>)
    requires Holds(d, q, OptField(b, n, v) + fs) && 1 <= n <= 32
    ensures OptBits(Ideal(d, Live(q)), b, n) == Out(if b then v else 0, Ideal(d, Live(q + if b then n else 0)))
    ensures Holds(d, q + (if b then n else 0), fs)
  {
    if b {
      HoldsField(d, q, Field(n, v), fs);
    } else {
      assert OptField(b, n, v) + fs == fs;
    }
  }

  /** `ReadBitCoord` reads back every coordinate it can produce from the writer's layout. */
  lemma {:induction false} ReadBitCoordRoundTrip(d: seq<byte>, p: nat, c: Coord)
    requires CoordOk(c) && Holds(d, p, CoordFields(c))
    ensures ReadBitCoord(Ideal(d, Live(p))) == Out(c, Ideal(d, Live(p + CoordWidth(c))))
  {
    var s := Ideal(d, Live(p));
    if c.whole == 0 && c.frac == 0 {
      HoldsBit(d, p, Field(1, 0), [Field(1, 0)]);
      HoldsBit(d, p + 1, Field(1, 0), []);
    } else {
      var hasInt := c.whole != 0;
      var hasFrac := c.frac != 0;
      var iv := if c.whole == 0 then 0 else c.whole - 1;
      var tail := OptField(hasInt, COORD_INTEGER_BITS, iv) + OptField(hasFrac, COORD_FRACTIONAL_BITS, c.frac);
      HoldsBit(d, p, Field(1, Flag(hasInt)), [Field(1, Flag(hasFrac))] + ([Field(1, Flag(c.negative))] + tail));
      HoldsBit(d, p + 1, Field(1, Flag(hasFrac)), [Field(1, Flag(c.negative))] + tail);
      HoldsBit(d, p + 2, Field(1, Flag(c.negative)), tail);
      HoldsOpt(d, p + 3, hasInt, COORD_INTEGER_BITS, iv, OptField(hasFrac, COORD_FRACTIONAL_BITS, c.frac));
      var q := p + 3 + (if hasInt then COORD_INTEGER_BITS else 0);
      AppendEmpty(OptField(hasFrac, COORD_FRACTIONAL_BITS, c.frac));
      HoldsOpt(d, q, hasFrac, COORD_FRACTIONAL_BITS, c.frac, []);
    }
  }

  /** `ReadBitCoordMP` reads back every coordinate it can produce from the writer's layout. */
  lemma {:induction false} ReadBitCoordMPRoundTrip(d: seq<byte>, p: nat, c: Coord, t: CoordType, inb: bool)
    requires CoordMPOk(c, t, inb) && Holds(d, p, CoordMPFields(c, t, inb))
    ensures ReadBitCoordMP(Ideal(d, Live(p)), t) == Out(c, Ideal(d, Live(p + CoordMPWidth(c, t, inb))))
  {
    if t == Integral {
      IntegralMPRoundTrip(d, p, c, inb);
    } else {
      FractionalMPRoundTrip(d, p, c, t, inb);
    }
  }

  lemma {:induction false} IntegralMPRoundTrip(d: seq<byte>, p: nat, c: Coord, inb: bool)
    requires CoordMPOk(c, Integral, inb) && Holds(d, p, CoordMPFields(c, Integral, inb))
    ensures ReadBitCoordMP(Ideal(d, Live(p)), Integral) == Out(c, Ideal(d, Live(p + CoordMPWidth(c, Integral, inb))))
  {
    var hasInt := c.whole != 0;
    var ib := IntBits(inb);
    var rest := if hasInt then [Field(1, Flag(c.negative))] + OptField(true, ib, c.whole - 1) else [];
    assert CoordMPFields(c, Integral, inb) == [Field(1, Flag(inb))] + ([Field(1, Flag(hasInt))] + rest);
    MPHead(d, p, inb, hasInt, rest);
    IntegralRestRoundTrip(d, p + 2, c, ib);
  }

  lemma {:induction false} FractionalMPRoundTrip(d: seq<byte>, p: nat, c: Coord, t: CoordType, inb: bool)
    requires t != Integral && CoordMPOk(c, t, inb) && Holds(d, p, CoordMPFields(c, t, inb))
    ensures ReadBitCoordMP(Ideal(d, Live(p)), t) == Out(c, Ideal(d, Live(p + CoordMPWidth(c, t, inb))))
  {
    var hasInt := c.whole != 0;
    var ib := IntBits(inb);
    var iv := if c.whole == 0 then 0 else c.whole - 1;
    var rest := [Field(1, Flag(c.negative))] + (OptField(hasInt, ib, iv) + [Field(FracBits(t), c.frac)]);
    assert CoordMPFields(c, t, inb) == [Field(1, Flag(inb))] + ([Field(1, Flag(hasInt))] + rest);
    MPHead(d, p, inb, hasInt, rest);
    assert ReadBitCoordMP(Ideal(d, Live(p)), t) == FractionalRest(Ideal(d, Live(p + 2)), ib, hasInt, FracBits(t));
    FractionalRestRoundTrip(d, p + 2, c, ib, FracBits(t), rest);
  }

  /** The in-bounds bit and the integer flag at the front of a `ReadBitCoordMP` layout. */
  lemma {:induction false} MPHead(d: seq<byte>, p: nat, inb: bool, hasInt: bool, rest: seq<Field>)
    requires Holds(d, p, [Field(1, Flag(inb))] + ([Field(1, Flag(hasInt))] + rest))
    ensures OneBit(Ideal(d, Live(p))) == Out(Flag(inb), Ideal(d, Live(p + 1)))
    ensures OneBit(Ideal(d, Live(p + 1))) == Out(Flag(hasInt), Ideal(d, Live(p + 2)))
    ensures Holds(d, p + 2, rest)
  {
    HoldsBit(d, p, Field(1, Flag(inb)), [Field(1, Flag(hasInt))] + rest);
    HoldsBit(d, p + 1, Field(1, Flag(hasInt)), rest);
  }

  lemma {:induction false} IntegralRestRoundTrip(d: seq<byte>, q: nat, c: Coord, ib: nat)
    requires 1 <= ib <= 32 && c.fracBits == 0 && c.frac == 0 && (c.whole == 0 ==> !c.negative)
    requires c.whole != 0 ==> Holds(d, q, [Field(1, Flag(c.negative))] + OptField(true, ib, c.whole - 1))
    ensures IntegralRest(Ideal(d, Live(q)), ib, c.whole != 0) ==
      Out(c, Ideal(d, Live(q + if c.whole != 0 then 1 + ib else 0)))
  {
    if c.whole != 0 {
      HoldsBit(d, q, Field(1, Flag(c.negative)), [Field(ib, c.whole - 1)]);
      AppendEmpty([Field(ib, c.whole - 1)]);
      HoldsField(d, q + 1, Field(ib, c.whole - 1), []);
    }
  }

  lemma {:induction false} FractionalRestRoundTrip(d: seq<byte>, q: nat, c: Coord, ib: nat, fb: nat, fs: seq<Field>)
    requires 1 <= ib <= 32 && 1 <= fb <= 32 && c.fracBits == fb
    requires fs == [Field(1, Flag(c.negative))] +
      (OptField(c.whole != 0, ib, if c.whole == 0 then 0 else c.whole - 1) + [Field(fb, c.frac)])
    requires Holds(d, q, fs)
    ensures FractionalRest(Ideal(d, Live(q)), ib, c.whole != 0, fb) ==
      Out(c, Ideal(d, Live(q + 1 + (if c.whole != 0 then ib else 0) + fb)))
  {
    var hasInt := c.whole != 0;
    var iv := if c.whole == 0 then 0 else c.whole - 1;
    HoldsBit(d, q, Field(1, Flag(c.negative)), OptField(hasInt, ib, iv) + [Field(fb, c.frac)]);
    HoldsOpt(d, q + 1, hasInt, ib, iv, [Field(fb, c.frac)]);
    var r := q + 1 + (if hasInt then ib else 0);
    AppendEmpty([Field(fb, c.frac)]);
    HoldsField(d, r, Field(fb, c.frac), []);
  }

  /** `ReadBitCellCoord` reads back every cell coordinate from the writer's layout. */
  lemma {:induction false} ReadBitCellCoordRoundTrip(d: seq<byte>, p: nat, c: Coord, bits: nat, t: CoordType)
    requires 1 <= bits <= 32 && (t == Integral || bits < 32) && CellOk(c, t) && Holds(d, p, CellFields(c, bits, t))
    ensures ReadBitCellCoord(Ideal(d, Live(p)), bits, t) == Out(c, Ideal(d, Live(p + CellWidth(bits, t))))
  {
    var tail := if t == Integral then [] else [Field(FracBits(t), c.frac)];
    HoldsField(d, p, Field(bits, c.whole), tail);
    if t != Integral {
      AppendEmpty(tail);
      HoldsField(d, p + bits, Field(FracBits(t), c.frac), []);
    }
  }

  /** `ReadBitNormal` reads back every normal component from the writer's layout. */
  lemma {:induction false} ReadBitNormalRoundTrip(d: seq<byte>, p: nat, c: Coord)
    requires NormalOk(c) && Holds(d, p, NormalFields(c))
    ensures ReadBitNormal(Ideal(d, Live(p))) == Out(c, Ideal(d, Live(p + 1 + NORMAL_FRACTIONAL_BITS)))
  {
    var f := Field(NORMAL_FRACTIONAL_BITS, c.frac);
    HoldsBit(d, p, Field(1, Flag(c.negative)), [f]);
    AppendEmpty([f]);
    HoldsField(d, p + 1, f, []);
  }

  // ---- The real reader agrees with the stream ---------------------------------

  lemma {:induction false} OptBitsAgree(a: Src, b: Src, present: bool, n: nat)
    requires Corr(a, b) && 1 <= n <= 32
    ensures OptBits(a, present, n).value == OptBits(b, present, n).value
    ensures Corr(OptBits(a, present, n).rest, OptBits(b, present, n).rest)
  {
    if present {
      UBitsAgree(a, b, n);
    }
  }

  /** `CBitRead::ReadBitCoord` on a real reader reads what the stream holds. */
  lemma {:induction false} ReadBitCoordAgree(a: Src, b: Src)
    requires Corr(a, b)
    ensures ReadBitCoord(a).value == ReadBitCoord(b).value
    ensures Corr(ReadBitCoord(a).rest, ReadBitCoord(b).rest)
  {
    CorrOverflow(a, b);
    OneBitAgree(a, b);
    var i := OneBit(a);
    OneBitAgree(i.rest, OneBit(b).rest);
    var f := OneBit(i.rest);
    if i.value != 0 || f.value != 0 {
      OneBitAgree(f.rest, OneBit(OneBit(b).rest).rest);
      var sa := OneBit(f.rest);
      var sb := OneBit(OneBit(OneBit(b).rest).rest);
      OptBitsAgree(sa.rest, sb.rest, i.value != 0, COORD_INTEGER_BITS);
      OptBitsAgree(OptBits(sa.rest, i.value != 0, COORD_INTEGER_BITS).rest,
                   OptBits(sb.rest, i.value != 0, COORD_INTEGER_BITS).rest, f.value != 0, COORD_FRACTIONAL_BITS);
    }
  }

  /** `CBitRead::ReadBitCoordMP` on a real reader reads what the stream holds. */
  lemma {:induction false} ReadBitCoordMPAgree(a: Src, b: Src, t: CoordType)
    requires Corr(a, b)
    ensures ReadBitCoordMP(a, t).value == ReadBitCoordMP(b, t).value
    ensures Corr(ReadBitCoordMP(a, t).rest, ReadBitCoordMP(b, t).rest)
  {
    CorrOverflow(a, b);
    OneBitAgree(a, b);
    var ia := OneBit(a);
    var ib := OneBit(b);
    OneBitAgree(ia.rest, ib.rest);
    var n := IntBits(ia.value != 0);
    var xa := OneBit(ia.rest);
    var xb := OneBit(ib.rest);
    if t == Integral {
      IntegralRestAgree(xa.rest, xb.rest, n, xa.value != 0);
    } else {
      FractionalRestAgree(xa.rest, xb.rest, n, xa.value != 0, FracBits(t));
    }
  }

  lemma {:induction false} IntegralRestAgree(a: Src, b: Src, ib: nat, hasInt: bool)
    requires Corr(a, b) && 1 <= ib <= 32
    ensures IntegralRest(a, ib, hasInt).value == IntegralRest(b, ib, hasInt).value
    ensures Corr(IntegralRest(a, ib, hasInt).rest, IntegralRest(b, ib, hasInt).rest)
  {
    CorrOverflow(a, b);
    if hasInt {
      OneBitAgree(a, b);
      UBitsAgree(OneBit(a).rest, OneBit(b).rest, ib);
    }
  }

  lemma {:induction false} FractionalRestAgree(a: Src, b: Src, ib: nat, hasInt: bool, fb: nat)
    requires Corr(a, b) && 1 <= ib <= 32 && 1 <= fb <= 32
    ensures FractionalRest(a, ib, hasInt, fb).value == FractionalRest(b, ib, hasInt, fb).value
    ensures Corr(FractionalRest(a, ib, hasInt, fb).rest, FractionalRest(b, ib, hasInt, fb).rest)
  {
    CorrOverflow(a, b);
    OneBitAgree(a, b);
    var sa := OneBit(a);
    var sb := OneBit(b);
    OptBitsAgree(sa.rest, sb.rest, hasInt, ib);
    UBitsAgree(OptBits(sa.rest, hasInt, ib).rest, OptBits(sb.rest, hasInt, ib).rest, fb);
  }

  /** `CBitRead::ReadBitCellCoord` on a real reader reads what the stream holds. */
  lemma {:induction false} ReadBitCellCoordAgree(a: Src, b: Src, bits: nat, t: CoordType)
    requires Corr(a, b) && 1 <= bits <= 32 && (t == Integral || bits < 32)
    ensures ReadBitCellCoord(a, bits, t).value == ReadBitCellCoord(b, bits, t).value
    ensures Corr(ReadBitCellCoord(a, bits, t).rest, ReadBitCellCoord(b, bits, t).rest)
  {
    CorrOverflow(a, b);
    UBitsAgree(a, b, bits);
    if t != Integral {
      UBitsAgree(UBits(a, bits).rest, UBits(b, bits).rest, FracBits(t));
    }
  }

  /** `CBitRead::ReadBitNormal` on a real reader reads what the stream holds. */
  lemma {:induction false} ReadBitNormalAgree(a: Src, b: Src)
    requires Corr(a, b)
    ensures ReadBitNormal(a).value == ReadBitNormal(b).value
    ensures Corr(ReadBitNormal(a).rest, ReadBitNormal(b).rest)
  {
    CorrOverflow(a, b);
    OneBitAgree(a, b);
    UBitsAgree(OneBit(a).rest, OneBit(b).rest, NORMAL_FRACTIONAL_BITS);
  }
}

=== FILE: datagram.dfy ===
/**
 What `packet_loop_handler` (Sniffles/sniffles.cpp) does to a UDP payload
 before `ReadPacket` sees it: decrypt it block by block, then unwrap the
 inner packet from behind a length header.

 The block cipher (IceKey) is not part of this model: it is a parameter
 that maps each block to a block of the same size.
 */
module Datagram {
  import opened BitOps
  import opened BitStream
  import opened Wrappers

  // ---- Block decryption framing ---------------------------------------------

  /** `IceKey::blockSize()`: the cipher works on 8-byte blocks. */
  const BLOCK_SIZE: nat := 8

  /** A block transformation: whatever it does, it keeps a block's length. */
  type BlockFn = f: seq<byte> -> seq<byte> | forall b :: |f(b)| == |b| witness (b: seq<byte>) => b

  /** Block k of a buffer cut into 8-byte blocks. */
  function Block(d: seq<byte>, k: nat): seq<byte>
    requires 8 * k + 8 <= |d|
  {
    d[8 * k .. 8 * k + 8]
  }

  /** What is left once whole blocks have been taken off the front: fewer than 8 bytes. */
  function Tail(d: seq<byte>): (t: seq<byte>)
    ensures |t| < 8 && |t| <= |d|
    decreases |d|
  {
    if |d| < BLOCK_SIZE then d else Tail(d[BLOCK_SIZE..])
  }

  /**
   The decryption loop: while at least a whole block is left, transform it;
   the remaining bytes are copied as they are. The count of bytes left is an
   `int32` initialised from the payload size, hence `|d| < 2^31`.
   */
  function Decrypt(f: BlockFn, d: seq<byte>): (r: seq<byte>)
    requires |d| < TWO31
    ensures |r| == |d|
    ensures r[|d| - |Tail(d)| ..] == Tail(d)
    decreases |d|
  {
    if |d| < BLOCK_SIZE then d
    else
      var head := f(d[..BLOCK_SIZE]);
      var rest := Decrypt(f, d[BLOCK_SIZE..]);
      KeepTail(head, rest, Tail(d));
      head + rest
  }

  /** Putting a block in front keeps what ends the rest. */
  lemma {:induction false} KeepTail<T>(head: seq<T>, rest: seq<T>, t: seq<T>)
    requires |t| <= |rest| && rest[|rest| - |t| ..] == t
    ensures (head + rest)[|head| + |rest| - |t| ..] == t
  {
    assert (head + rest)[|head| + |rest| - |t| ..] == rest[|rest| - |t| ..];
  }

  /** The tail is the last `|d| % 8` bytes of the buffer. */
  lemma {:induction false} TailIsRemainder(d: seq<byte>)
    ensures |Tail(d)| == |d| % BLOCK_SIZE
    ensures Tail(d) == d[|d| - |Tail(d)| ..]
    decreases |d|
  {
    if |d| >= BLOCK_SIZE {
      var e := d[BLOCK_SIZE..];
      TailIsRemainder(e);
      assert |e| % 8 == |d| % 8;
      assert e[|e| - |Tail(e)| ..] == d[|d| - |Tail(e)| ..];
    }
  }

  /** Decryption copies the trailing `size mod 8` bytes unchanged. */
  lemma {:induction false} DecryptRemainder(f: BlockFn, d: seq<byte>)
    requires |d| < TWO31
    ensures |Tail(d)| == |d| % BLOCK_SIZE
    ensures Decrypt(f, d)[|d| - |Tail(d)| ..] == d[|d| - |Tail(d)| ..]
  {
    TailIsRemainder(d);
  }

  /** Every whole block of the output is the transformation of the same block of the input. */
  lemma {:induction false} DecryptBlocks(f: BlockFn, d: seq<byte>, k: nat)
    requires |d| < TWO31 && 8 * k + 8 <= |d|
    ensures Block(Decrypt(f, d), k) == f(Block(d, k))
    decreases k
  {
    var head := f(d[..8]);
    var rest := Decrypt(f, d[8..]);
    if k == 0 {
      BlockFront(head, rest);
      BlockFront(d[..8], d[8..]);
      assert d[..8] + d[8..] == d;
    } else {
      DecryptBlocks(f, d[8..], k - 1);
      BlockAfter(head, rest, k);
      BlockAfter(d[..8], d[8..], k);
      assert d[..8] + d[8..] == d;
    }
  }

  lemma {:induction false} BlockFront(a: seq<byte>, b: seq<byte>)
    requires |a| == 8
    ensures Block(a + b, 0) == a
  {
  }

  lemma {:induction false} BlockAfter(a: seq<byte>, b: seq<byte>, k: nat)
    requires |a| == 8 && 1 <= k && 8 * k + 8 <= |a + b|
    ensures Block(a + b, k) == Block(b, k - 1)
  {
  }

  // ---- Unwrapping ------------------------------------------------------------

  /** `_byteswap_ulong` of an unaligned little-endian load: the four bytes read big-endian. */
  function BigEndian32(b: seq<byte>): (v: nat)
    requires |b| == 4
    ensures v < TWO32
  {
    ((b[0] as nat * 256 + b[1] as nat) * 256 + b[2] as nat) * 256 + b[3] as nat
  }

  function BigEndianBytes(v: nat): (b: seq<byte>)
    requires v < TWO32
    ensures |b| == 4
  {
    [v / 0x100_0000, v / 0x1_0000 % 256, v / 256 % 256, v % 256]
  }

  lemma {:induction false} BigEndianRoundTrip(v: nat, b: seq<byte>)
    requires v < TWO32 && |b| == 4
    ensures BigEndian32(BigEndianBytes(v)) == v
    ensures BigEndianBytes(BigEndian32(b)) == b
  {
    BigEndianDecode(v);
    BigEndianEncode(b);
  }

  lemma {:induction false} BigEndianDecode(v: nat)
    requires v < TWO32
    ensures BigEndian32(BigEndianBytes(v)) == v
  {
    var hi := v / 0x1_0000;
    var lo := v % 0x1_0000;
    assert v == hi * 0x1_0000 + lo;
    assert v / 0x100_0000 == hi / 256;
    assert v / 0x1_0000 % 256 == hi % 256;
    assert v / 256 % 256 == lo / 256;
    assert v % 256 == lo % 256;
    assert hi == hi / 256 * 256 + hi % 256;
    assert lo == lo / 256 * 256 + lo % 256;
  }

  lemma {:induction false} BigEndianEncode(b: seq<byte>)
    requires |b| == 4
    ensures BigEndianBytes(BigEndian32(b)) == b
  {
    var hi := b[0] as nat * 256 + b[1] as nat;
    var lo := b[2] as nat * 256 + b[3] as nat;
    var v := BigEndian32(b);
    assert v == hi * 0x1_0000 + lo;
    assert v / 0x1_0000 == hi && v % 0x1_0000 == lo;
    assert v / 0x100_0000 == hi / 256 == b[0];
    assert hi % 256 == b[1];
    assert v / 256 == hi * 256 + b[2] as nat;
    assert v / 256 % 256 == b[2];
    assert v % 256 == b[3];
  }

  /**
   The unwrap check: the first byte is an offset o with `0 < o` and
   `o + 5 < size`; the big-endian `uint32` F after o further bytes must
   satisfy `F + o + 5 == size` in `uint32` arithmetic. The inner packet is
   then everything after F.
   */
  function Unwrap(d: seq<byte>): (r: Option<seq<byte>>)
    requires |d| >= 1
    ensures r.Some? ==> 6 <= d[0] + 5 < |d| && r.value == d[d[0] + 5 ..]
  {
    var o := d[0];
    if 0 < o && o + 5 < |d| then
      var f := BigEndian32(d[o + 1 .. o + 5]);
      if Uint32(f + o + 5) == |d| then Some(d[o + 5 ..]) else None
    else None
  }

  /** The packet a server wraps: the offset, o filler bytes, the inner length, the inner packet. */
  function Wrap(filler: seq<byte>, inner: seq<byte>): (d: seq<byte>)
    requires 1 <= |filler| < 256 && |inner| < TWO32
  {
    [|filler|] + filler + BigEndianBytes(|inner|) + inner
  }

  /**
   Under the guard the `uint32` sum cannot wrap into a false match: for a
   datagram of fewer than 2^32 bytes the check is the exact equation.
   */
  lemma {:induction false} UnwrapNoWrap(f: nat, o: nat, size: nat)
    requires f < TWO32 && o + 5 < size < TWO32
    ensures Uint32(f + o + 5) == size <==> f + o + 5 == size
  {
    if f + o + 5 >= TWO32 {
      assert Uint32(f + o + 5) == f + o + 5 - TWO32;
    }
  }

  /** Unwrapping a wrapped packet gives back the inner packet, when it is not empty. */
  lemma {:induction false} UnwrapWrap(filler: seq<byte>, inner: seq<byte>)
    requires 1 <= |filler| < 256 && 1 <= |inner| && |filler| + 5 + |inner| < TWO32
    ensures Unwrap(Wrap(filler, inner)) == Some(inner)
  {
    var d := Wrap(filler, inner);
    var o := |filler|;
    assert d[0] == o;
    assert d[o + 1 .. o + 5] == BigEndianBytes(|inner|);
    BigEndianRoundTrip(|inner|, [0, 0, 0, 0]);
    assert Uint32(|inner| + o + 5) == |d|;
    assert d[o + 5 ..] == inner;
  }

  /**
   Everything `Unwrap` accepts is a wrapped packet: the inner packet has the
   length the header gives, and the datagram is exactly its wrapping.
   */
  lemma {:induction false} UnwrapAccepts(d: seq<byte>)
    requires 1 <= |d| < TWO32 && Unwrap(d).Some?
    ensures var o := d[0];
      1 <= |Unwrap(d).value| && |Unwrap(d).value| == BigEndian32(d[o + 1 .. o + 5]) &&
      d == Wrap(d[1 .. o + 1], Unwrap(d).value)
  {
    var o := d[0];
    var f := BigEndian32(d[o + 1 .. o + 5]);
    UnwrapNoWrap(f, o, |d|);
    BigEndianRoundTrip(0, d[o + 1 .. o + 5]);
    assert d == [d[0]] + d[1 .. o + 1] + d[o + 1 .. o + 5] + d[o + 5 ..];
  }
}

=== FILE: fields.dfy ===
/**
 The fixed-width wrappers and the two small variable-length unsigned
 encodings of `CBitRead` (Sniffles/packetbitbuf.cpp). Each reader is written
 over a `Src`; its `Agree` lemma carries the stream meaning over to the real
 reader, and its round-trip lemma reads back what the matching writer lays
 down.
 */
module Fields {
  import opened BitOps
  import opened BitStream
  import opened BitSource

  /**
   `ReadChar`: `ReadSBitLong(8)`, which is the 8-bit field converted to a
   signed `char`.
   */
  function ReadChar(s: Src): (o: Out<int>)
    requires Valid(s)
    ensures o == SBits(s, 8)
    ensures o.rest == UBits(s, 8).rest
  {
    var u := UBits(s, 8);
    CharIsSigned(u.value);
    Out(Int8(u.value), u.rest)
  }

  /** The sign extension of `ReadSBitLong(8)` is the conversion to `char`. */
  lemma {:induction false} CharIsSigned(v: nat)
    ensures ShlAsr32(v, 8) == Int8(v)
  {
    ShlAsr32Low(v, 8);
    LowMod(v, 8, 256);
    Pow2Values();
  }

  /** `ReadByte`: an unsigned 8-bit field. */
  function ReadByte(s: Src): (o: Out<nat>)
    requires Valid(s)
    ensures o == UBits(s, 8)
  {
    UBits(s, 8)
  }

  /**
   `ReadShort`: `ReadSBitLong(16)`, which is the 16-bit field converted to a
   signed `short`.
   */
  function ReadShort(s: Src): (o: Out<int>)
    requires Valid(s)
    ensures o == SBits(s, 16)
    ensures o.rest == UBits(s, 16).rest
  {
    var u := UBits(s, 16);
    ShortIsSigned(u.value);
    Out(Int16(u.value), u.rest)
  }

  /** The sign extension of `ReadSBitLong(16)` is the conversion to `short`. */
  lemma {:induction false} ShortIsSigned(v: nat)
    ensures ShlAsr32(v, 16) == Int16(v)
  {
    ShlAsr32Low(v, 16);
    LowMod(v, 16, 0x1_0000);
    Pow2Values();
  }

  /** `ReadWord`: an unsigned 16-bit field. */
  function ReadWord(s: Src): (o: Out<nat>)
    requires Valid(s)
    ensures o == UBits(s, 16)
  {
    UBits(s, 16)
  }

  /**
   At a byte boundary the wrappers read the byte, or the two bytes as a
   little-endian 16-bit value, and convert it to the declared C type.
   */
  lemma {:induction false} WrappersAligned(d: seq<byte>, j: nat)
    requires j + 2 <= |d|
    ensures ReadByte(Ideal(d, Live(8 * j))) == Out(d[j], Ideal(d, Live(8 * j + 8)))
    ensures ReadChar(Ideal(d, Live(8 * j))) == Out(Int8(d[j]), Ideal(d, Live(8 * j + 8)))
    ensures ReadWord(Ideal(d, Live(8 * j))) == Out(LittleEndian(d[j..j + 2]), Ideal(d, Live(8 * j + 16)))
    ensures ReadShort(Ideal(d, Live(8 * j))) == Out(Int16(LittleEndian(d[j..j + 2])), Ideal(d, Live(8 * j + 16)))
  {
    IdealUBits(d, 8 * j, 8);
    IdealUBits(d, 8 * j, 16);
    ByteBits(d, j);
    BytesBits(d, j, 2);
  }

  // ---- ReadUBitVar --------------------------------------------------------

  /**
   `ReadUBitVar`: a 6-bit head whose bits 4-5 select how many more bits
   (none, 4, 8 or 28) extend its low nibble.
   */
  function ReadUBitVar(s: Src): (o: Out<nat>)
    requires Valid(s)
    ensures SameBuffer(s, o.rest)
    ensures o.value < TWO32
    ensures Overflowed(s) ==> Overflowed(o.rest)
  {
    var h := UBits(s, 6);
    UBitVarTail(h.value, h.rest)
  }

  /** The rest of `ReadUBitVar` once the head `ret` has been read. */
  function UBitVarTail(ret: nat, s: Src): (o: Out<nat>)
    requires Valid(s) && ret < TWO32
    ensures SameBuffer(s, o.rest)
    ensures o.value < TWO32
    ensures Overflowed(s) ==> Overflowed(o.rest)
    ensures And(ret, 48) == 0 ==> o == Out(ret, s)
  {
    var sel := And(ret, 48);
    if sel == 16 then UBitVarMerge(ret, UBits(s, 4))
    else if sel == 32 then UBitVarMerge(ret, UBits(s, 8))
    else if sel == 48 then UBitVarMerge(ret, UBits(s, 28))
    else Out(ret, s)
  }

  /** `(ret & 15) | (x << 4)` in `unsigned int` arithmetic. */
  function UBitVarMerge(ret: nat, x: Out<nat>): (o: Out<nat>)
    requires x.value < TWO32
    ensures o.rest == x.rest
    ensures o.value < TWO32
  {
    Pow2Word();
    Pow2Values();
    Pow2Mono(4, 32);
    AndLowMask(ret, 4);
    LowBound(ret, 4);
    LowBound(Shl(x.value, 4), 32);
    OrBound(And(ret, 15), Shl32(x.value, 4), 32);
    Out(Or(And(ret, 15), Shl32(x.value, 4)), x.rest)
  }

  /** The fields a writer emits for v: the shortest form that holds it. */
  function UBitVarFields(v: nat): (fs: seq<Field>)
    requires v < TWO32
    ensures Fits(fs) && 1 <= |fs| <= 2 && fs[0].width == 6
  {
    Pow2Values();
    LowBound(v, 4);
    Pow2Word();
    if v < 16 then [Field(6, v)]
    else
      ShrBound(v, 28, 4);
      if v < 256 then
        ShrBound(v, 4, 4);
        [Field(6, Low(v, 4) + 16), Field(4, Shr(v, 4))]
      else if v < 4096 then
        ShrBound(v, 8, 4);
        [Field(6, Low(v, 4) + 32), Field(8, Shr(v, 4))]
      else [Field(6, Low(v, 4) + 48), Field(28, Shr(v, 4))]
  }

  /** Bits 4-5 of a 6-bit head select the extension; bits 0-3 are kept. */
  lemma {:induction false} UBitVarHead(lo: nat, sel: nat)
    requires lo < 16 && sel < 4
    ensures And(lo + Shl(sel, 4), 48) == Shl(sel, 4)
    ensures And(lo + Shl(sel, 4), 15) == lo
  {
    var ret := lo + Shl(sel, 4);
    Pow2Values();
    Split(lo, sel, 4);
    assert Shl(3, 4) == 48;
    AndShl(ret, 3, 4);
    AndLowMask(Shr(ret, 4), 2);
    Small(sel, 2);
    AndLowMask(ret, 4);
  }

  /** The low nibble with the extension above it is v again. */
  lemma {:induction false} UBitVarJoin(v: nat, k: nat)
    requires v < Pow2(4 + k) && 4 + k <= 32
    ensures Or(Low(v, 4), Shl32(Shr(v, 4), 4)) == v
  {
    ShrBound(v, k, 4);
    Shl32Fits(Shr(v, 4), k, 4);
    LowBound(v, 4);
    OrDisjoint(Low(v, 4), Shr(v, 4), 4);
    Decompose(v, 4);
  }

  /** An extended head reads its extension and joins it above the low nibble. */
  lemma {:induction false} UBitVarTailRead(ret: nat, lo: nat, sel: nat, d: seq<byte>, q: nat, w: nat)
    requires lo < 16 && 1 <= sel <= 3 && ret == lo + Shl(sel, 4)
    requires w == (if sel == 1 then 4 else if sel == 2 then 8 else 28) && q + w <= 8 * |d|
    ensures UBitVarTail(ret, Ideal(d, Live(q))) == Out(Or(lo, Shl32(Bits(d, q, w), 4)), Ideal(d, Live(q + w)))
  {
    UBitVarHead(lo, sel);
    ShlIsMul(sel, 4);
    assert Pow2(4) == 16;
    IdealUBits(d, q, w);
  }

  /** `ReadUBitVar` reads back every `uint32` from its writer's fields. */
  lemma {:induction false} UBitVarRoundTrip(d: seq<byte>, p: nat, v: nat)
    requires v < TWO32 && Holds(d, p, UBitVarFields(v))
    ensures ReadUBitVar(Ideal(d, Live(p))) == Out(v, Ideal(d, Live(p + Width(UBitVarFields(v)))))
  {
    if v < 16 {
      UBitVarShort(d, p, v);
    } else {
      UBitVarLong(d, p, v);
    }
  }

  /** A value below 16 is its own 6-bit head. */
  lemma {:induction false} UBitVarShort(d: seq<byte>, p: nat, v: nat)
    requires v < 16 && Holds(d, p, UBitVarFields(v))
    ensures ReadUBitVar(Ideal(d, Live(p))) == Out(v, Ideal(d, Live(p + Width(UBitVarFields(v)))))
  {
    var fs := UBitVarFields(v);
    UBitVarOneField(v);
    HoldsHead(d, p, fs, 6);
  }

  /** The writer's single field for a value below 16, which selects no extension. */
  lemma {:induction false} UBitVarOneField(v: nat)
    requires v < 16
    ensures UBitVarFields(v) == [Field(6, v)] && Width(UBitVarFields(v)) == 6
    ensures And(v, 48) == 0
  {
    Pow2Values();
    Small(v, 4);
    UBitVarHead(v, 0);
    assert Width([Field(6, v)]) == 6;
  }

  /** A larger value is a head and one extension. */
  lemma {:induction false} UBitVarLong(d: seq<byte>, p: nat, v: nat)
    requires 16 <= v < TWO32 && Holds(d, p, UBitVarFields(v))
    ensures ReadUBitVar(Ideal(d, Live(p))) == Out(v, Ideal(d, Live(p + Width(UBitVarFields(v)))))
  {
    var fs := UBitVarFields(v);
    HoldsHead(d, p, fs, 6);
    var rest := Ideal(d, Live(p + 6));
    assert ReadUBitVar(Ideal(d, Live(p))) == UBitVarTail(fs[0].value, rest);
    var w := fs[1].width;
    assert fs[1..][0] == fs[1];
    UBitVarExtended(v, fs[0].value, d, p + 6, w);
    WidthPair(fs);
  }

  /** An extended head `h` reads its extension `v >> 4` and gives back v. */
  lemma {:induction false} UBitVarExtended(v: nat, h: nat, d: seq<byte>, q: nat, w: nat)
    requires 16 <= v < TWO32
    requires h == Low(v, 4) + (if v < 256 then 16 else if v < 4096 then 32 else 48)
    requires w == (if v < 256 then 4 else if v < 4096 then 8 else 28)
    requires q + w <= 8 * |d| && Bits(d, q, w) == Shr(v, 4)
    ensures h < TWO32 && UBitVarTail(h, Ideal(d, Live(q))) == Out(v, Ideal(d, Live(q + w)))
  {
    LowBound(v, 4);
    assert Pow2(4) == 16;
    if v < 256 {
      UBitVarTailRead(h, Low(v, 4), 1, d, q, 4);
      assert Pow2(8) == 256;
      UBitVarJoin(v, 4);
    } else if v < 4096 {
      UBitVarTailRead(h, Low(v, 4), 2, d, q, 8);
      assert Pow2(12) == 4096;
      UBitVarJoin(v, 8);
    } else {
      UBitVarTailRead(h, Low(v, 4), 3, d, q, 28);
      Pow2Word();
      UBitVarJoin(v, 28);
    }
  }

  lemma {:induction false} UBitVarTailAgree(ret: nat, a: Src, b: Src)
    requires Corr(a, b) && ret < TWO32
    ensures UBitVarTail(ret, a).value == UBitVarTail(ret, b).value
    ensures Corr(UBitVarTail(ret, a).rest, UBitVarTail(ret, b).rest)
  {
    var sel := And(ret, 48);
    if sel == 16 {
      UBitsAgree(a, b, 4);
    } else if sel == 32 {
      UBitsAgree(a, b, 8);
    } else if sel == 48 {
      UBitsAgree(a, b, 28);
    }
  }

  lemma {:induction false} UBitVarAgree(a: Src, b: Src)
    requires Corr(a, b)
    ensures ReadUBitVar(a).value == ReadUBitVar(b).value
    ensures Corr(ReadUBitVar(a).rest, ReadUBitVar(b).rest)
  {
    UBitsAgree(a, b, 6);
    UBitVarTailAgree(UBits(a, 6).value, UBits(a, 6).rest, UBits(b, 6).rest);
  }

  // ---- ReadVarUBit --------------------------------------------------------

  /**
   `ReadVarUBit`: a 7-bit head whose bits 5-6 select how many more bits
   (none, 2, 4 or 7) extend its low five bits.
   */
  function ReadVarUBit(s: Src): (o: Out<nat>)
    requires Valid(s)
    ensures SameBuffer(s, o.rest)
    ensures o.value < TWO32
    ensures Overflowed(s) ==> Overflowed(o.rest)
  {
    var h := UBits(s, 7);
    VarUBitTail(h.value, h.rest)
  }

  /** The rest of `ReadVarUBit` once the head `ret` has been read. */
  function VarUBitTail(ret: nat, s: Src): (o: Out<nat>)
    requires Valid(s) && ret < TWO32
    ensures SameBuffer(s, o.rest)
    ensures o.value < TWO32
    ensures Overflowed(s) ==> Overflowed(o.rest)
    ensures And(ret, 0x60) == 0 ==> o == Out(ret, s)
  {
    var sel := And(ret, 0x60);
    if sel == 32 then VarUBitMerge(ret, UBits(s, 2))
    else if sel == 64 then VarUBitMerge(ret, UBits(s, 4))
    else if sel == 96 then VarUBitMerge(ret, UBits(s, 7))
    else Out(ret, s)
  }

  /** `32 * x | ret & 0xFFFFFF9F` in `unsigned int` arithmetic. */
  function VarUBitMerge(ret: nat, x: Out<nat>): (o: Out<nat>)
    requires ret < TWO32
    ensures o.rest == x.rest
    ensures o.value < TWO32
  {
    Pow2Word();
    AndBound(ret, 0xFFFF_FF9F, 32);
    OrBound(Uint32(32 * x.value), And(ret, 0xFFFF_FF9F), 32);
    Out(Or(Uint32(32 * x.value), And(ret, 0xFFFF_FF9F)), x.rest)
  }

  /** The fields a writer emits for v below 4096: the shortest form that holds it. */
  function VarUBitFields(v: nat): (fs: seq<Field>)
    requires v < 4096
    ensures Fits(fs) && 1 <= |fs| <= 2 && fs[0].width == 7
  {
    Pow2Values();
    LowBound(v, 5);
    if v < 32 then [Field(7, v)]
    else if v < 128 then
      ShrBound(v, 2, 5);
      [Field(7, Low(v, 5) + 32), Field(2, Shr(v, 5))]
    else if v < 512 then
      ShrBound(v, 4, 5);
      [Field(7, Low(v, 5) + 64), Field(4, Shr(v, 5))]
    else
      assert Pow2(12) == 4096 by { Pow2Add(7, 5); }
      ShrBound(v, 7, 5);
      [Field(7, Low(v, 5) + 96), Field(7, Shr(v, 5))]
  }

  /** Bits 5-6 of a 7-bit head select the extension; the mask keeps bits 0-4. */
  lemma {:induction false} VarUBitHead(lo: nat, sel: nat)
    requires lo < 32 && sel < 4
    ensures And(lo + Shl(sel, 5), 0x60) == Shl(sel, 5)
    ensures And(lo + Shl(sel, 5), 0xFFFF_FF9F) == lo
  {
    var ret := lo + Shl(sel, 5);
    Pow2Values();
    Split(lo, sel, 5);
    assert Shl(3, 5) == 0x60;
    AndShl(ret, 3, 5);
    AndLowMask(Shr(ret, 5), 2);
    Small(sel, 2);
    ShlBound(sel, 2, 5);
    AndHighIrrelevant(ret, 0xFFFF_FF9F, 7);
    assert Low(0xFFFF_FF9F, 7) == 31;
    AndLowMask(ret, 5);
    Small(lo, 5);
  }

  /** The low five bits with the extension, times 32, above them is v again. */
  lemma {:induction false} VarUBitJoin(v: nat)
    requires v < 4096
    ensures Or(Uint32(32 * Shr(v, 5)), Low(v, 5)) == v
  {
    Pow2Values();
    assert Pow2(12) == 4096 by { Pow2Add(7, 5); }
    ShrBound(v, 7, 5);
    ShlIsMul(Shr(v, 5), 5);
    assert Uint32(32 * Shr(v, 5)) == Shl(Shr(v, 5), 5);
    LowBound(v, 5);
    OrComm(Shl(Shr(v, 5), 5), Low(v, 5));
    OrDisjoint(Low(v, 5), Shr(v, 5), 5);
    Decompose(v, 5);
  }

  /** An extended head reads its extension and joins it above the low five bits. */
  lemma {:induction false} VarUBitTailRead(ret: nat, lo: nat, sel: nat, d: seq<byte>, q: nat, w: nat)
    requires lo < 32 && 1 <= sel <= 3 && ret == lo + Shl(sel, 5)
    requires w == (if sel == 1 then 2 else if sel == 2 then 4 else 7) && q + w <= 8 * |d|
    ensures VarUBitTail(ret, Ideal(d, Live(q))) == Out(Or(Uint32(32 * Bits(d, q, w)), lo), Ideal(d, Live(q + w)))
  {
    VarUBitHead(lo, sel);
    ShlIsMul(sel, 5);
    assert Pow2(5) == 32;
    IdealUBits(d, q, w);
  }

  /** `ReadVarUBit` reads back every value below 4096 from its writer's fields. */
  lemma {:induction false} VarUBitRoundTrip(d: seq<byte>, p: nat, v: nat)
    requires v < 4096 && Holds(d, p, VarUBitFields(v))
    ensures ReadVarUBit(Ideal(d, Live(p))) == Out(v, Ideal(d, Live(p + Width(VarUBitFields(v)))))
  {
    if v < 32 {
      VarUBitShort(d, p, v);
    } else {
      VarUBitLong(d, p, v);
    }
  }

  /** A value below 32 is its own 7-bit head. */
  lemma {:induction false} VarUBitShort(d: seq<byte>, p: nat, v: nat)
    requires v < 32 && Holds(d, p, VarUBitFields(v))
    ensures ReadVarUBit(Ideal(d, Live(p))) == Out(v, Ideal(d, Live(p + Width(VarUBitFields(v)))))
  {
    var fs := VarUBitFields(v);
    VarUBitOneField(v);
    HoldsHead(d, p, fs, 7);
  }

  /** The writer's single field for a value below 32, which selects no extension. */
  lemma {:induction false} VarUBitOneField(v: nat)
    requires v < 32
    ensures VarUBitFields(v) == [Field(7, v)] && Width(VarUBitFields(v)) == 7
    ensures And(v, 0x60) == 0
  {
    Pow2Values();
    Small(v, 5);
    VarUBitHead(v, 0);
    assert Width([Field(7, v)]) == 7;
  }

  /** A larger value is a head with a width selector and one extension. */
  lemma {:induction false} VarUBitLong(d: seq<byte>, p: nat, v: nat)
    requires 32 <= v < 4096 && Holds(d, p, VarUBitFields(v))
    ensures ReadVarUBit(Ideal(d, Live(p))) == Out(v, Ideal(d, Live(p + Width(VarUBitFields(v)))))
  {
    var fs := VarUBitFields(v);
    HoldsHead(d, p, fs, 7);
    var rest := Ideal(d, Live(p + 7));
    assert ReadVarUBit(Ideal(d, Live(p))) == VarUBitTail(fs[0].value, rest);
    Pow2Values();
    var w := fs[1].width;
    var sel := if v < 128 then 1 else if v < 512 then 2 else 3;
    LowBound(v, 5);
    assert fs[0].value == Low(v, 5) + Shl(sel, 5);
    HoldsHead(d, p + 7, fs[1..], w);
    VarUBitTailRead(fs[0].value, Low(v, 5), sel, d, p + 7, w);
    VarUBitJoin(v);
    WidthPair(fs);
  }

  lemma {:induction false} VarUBitTailAgree(ret: nat, a: Src, b: Src)
    requires Corr(a, b) && ret < TWO32
    ensures VarUBitTail(ret, a).value == VarUBitTail(ret, b).value
    ensures Corr(VarUBitTail(ret, a).rest, VarUBitTail(ret, b).rest)
  {
    var sel := And(ret, 0x60);
    if sel == 32 {
      UBitsAgree(a, b, 2);
    } else if sel == 64 {
      UBitsAgree(a, b, 4);
    } else if sel == 96 {
      UBitsAgree(a, b, 7);
    }
  }

  lemma {:induction false} VarUBitAgree(a: Src, b: Src)
    requires Corr(a, b)
    ensures ReadVarUBit(a).value == ReadVarUBit(b).value
    ensures Corr(ReadVarUBit(a).rest, ReadVarUBit(b).rest)
  {
    UBitsAgree(a, b, 7);
    VarUBitTailAgree(UBits(a, 7).value, UBits(a, 7).rest, UBits(b, 7).rest);
  }
}

=== FILE: framing.dfy ===
/**
 `ReadPacket` (Sniffles/sniffles.cpp): the envelope of a decrypted, unwrapped
 packet and the loop over its frames.

 The packet is copied into a stack buffer of `NET_MAX_PAYLOAD` bytes; the
 bytes after it are whatever the stack held, a parameter here. Each frame
 is a command varint and a size varint; the protobuf message after them is
 handed to a parser (not part of this model) for four commands, and the
 reader then skips `Size` bytes whatever the parser made of them.

 `SeekRelative` and the `CBitRead(data, nBytes)` constructor are declared in
 a header that is not part of this model; they are taken as in the Source
 SDK's bit buffer: `Seek(GetNumBitsRead() + offset)` and
 `StartReading(data, nBytes, 0, -1)`.
 */
module Framing {
  import opened BitOps
  import opened BitStream
  import opened BitRead
  import opened BitReadProofs
  import opened BitSource
  import opened VarInt
  import opened Wrappers
  import opened Datagram

  /** Sniffles/net.h: the largest payload, and the size of the decode buffer. */
  const NET_MAX_PAYLOAD: nat := 262140

  /** The command ids of the messages `ReadPacket` parses, from the game's netmessages.proto. */
  const NET_TICK: int := 4
  const NET_SIGNON_STATE: int := 7
  const SVC_SERVER_INFO: int := 8
  const SVC_PACKET_ENTITIES: int := 26

  /** The commands whose message `ReadPacket` hands to a parser; every other frame is only skipped. */
  predicate Offered(cmd: int)
  {
    cmd == NET_TICK || cmd == NET_SIGNON_STATE || cmd == SVC_SERVER_INFO || cmd == SVC_PACKET_ENTITIES
  }

  /** The header every packet starts with. */
  datatype Envelope = Envelope(seqIn: int, seqOut: int, flags: int, unk0: int, unk1: int)

  /** One frame: its command, the byte offset of its message, and the message size. */
  datatype Frame = Frame(cmd: int, offset: int, size: int)

  /** The frames read, the source after them, and whether the loop condition ended the loop. */
  datatype Frames = Frames(frames: seq<Frame>, rest: Src, done: bool)

  /** What `ReadPacket` returns (`size`), the envelope it read, and every frame the loop read. */
  datatype Decoded = Decoded(returned: int, envelope: Option<Envelope>, frames: seq<Frame>, done: bool)

  // ---- The reader operations the loop uses --------------------------------------

  /** `GetNumBytesRead`; on the stream, the cursor rounded up to bytes, and the whole buffer once dead. */
  function BytesRead(s: Src): int
  {
    match s
    case Real(r) => GetNumBytesRead(r)
    case Ideal(d, c) => if c.Live? then (c.pos + 7) / 8 else |d|
  }

  /**
   `SeekRelative(off)`: seek to `GetNumBitsRead() + off`, the sum wrapping
   as an `int`. On the stream a target outside the buffer, or any seek from
   a dead cursor, leaves the cursor dead.
   */
  function SeekRelative(s: Src, off: int): (o: Src)
    requires Valid(s)
    ensures SameBuffer(s, o)
  {
    match s
    case Real(r) => Real(Seek(r, Int32(GetNumBitsRead(r) + off)).next)
    case Ideal(d, c) =>
      var t := Int32((if c.Live? then c.pos else 8 * |d|) + off);
      if c.Live? && 0 <= t <= 8 * |d| then Ideal(d, Live(t)) else Ideal(d, Cursor.Dead)
  }

  // ---- Envelope ------------------------------------------------------------------

  /**
   The envelope, always read in this order: the incoming and outgoing
   sequence numbers (signed 32 bits), the flags (a varint kept as `int32`),
   a signed 16-bit field and a signed (ZigZag) varint.
   */
  function ReadEnvelope(s: Src): (o: Out<Envelope>)
    requires Valid(s)
    ensures SameBuffer(s, o.rest)
    ensures -TWO31 <= o.value.seqIn < TWO31 && -TWO31 <= o.value.seqOut < TWO31
    ensures -TWO31 <= o.value.flags < TWO31
  {
    var seqIn := SBits(s, 32);
    var seqOut := SBits(seqIn.rest, 32);
    var flags := ReadVarInt32(seqOut.rest);
    var unk0 := SBits(flags.rest, 16);
    var unk1 := ReadSignedVarInt32(unk0.rest);
    Out(Envelope(seqIn.value, seqOut.value, Int32(flags.value), unk0.value, unk1.value), unk1.rest)
  }

  /** Frames are decoded only when the flags are 0 or their low byte is at least 0xE1. */
  predicate FrameGuard(flags: int)
  {
    flags == 0 || flags % 256 >= 0xE1
  }

  // ---- The frame loop ------------------------------------------------------------

  /**
   `while (GetNumBytesRead() < size)`: read the command and the size, note
   the frame, skip `Size * 8` bits (wrapping as an `int`). The loop never
   looks at the overflow flag. `fuel` bounds the number of passes; `done`
   says the loop condition, not the fuel, ended it.
   */
  function FrameLoop(s: Src, size: int, fuel: nat): (o: Frames)
    requires Valid(s)
    ensures SameBuffer(s, o.rest)
    ensures o.done ==> BytesRead(o.rest) >= size
    ensures |o.frames| <= fuel && (!o.done ==> |o.frames| == fuel)
    decreases fuel
  {
    if BytesRead(s) >= size then Frames([], s, true)
    else if fuel == 0 then Frames([], s, false)
    else
      var f := NextFrame(s);
      var t := FrameLoop(f.rest, size, fuel - 1);
      Frames([f.value] + t.frames, t.rest, t.done)
  }

  /** One pass of the loop: the command, the size, then the skip past the message. */
  function NextFrame(s: Src): (o: Out<Frame>)
    requires Valid(s)
    ensures SameBuffer(s, o.rest)
    ensures -TWO31 <= o.value.cmd < TWO31 && -TWO31 <= o.value.size < TWO31
  {
    var cmd := ReadVarInt32(s);
    var len := ReadVarInt32(cmd.rest);
    var f := Frame(Int32(cmd.value), BytesRead(len.rest), Int32(len.value));
    Out(f, SeekRelative(len.rest, Int32(8 * f.size)))
  }

  /** The reader `ReadPacket` builds over its buffer: constructed, then `Seek(0)`. */
  function OpenReader(buffer: seq<byte>): (r: Reader)
    requires |buffer| < MaxBufferBytes
    ensures Good(r) && r.data == buffer && r.dataBits == 8 * |buffer| && !r.overflow
  {
    // The byte beyond the buffer is loaded only for an empty buffer; this one is not.
    Seek(StartReading(buffer, 0, 0, -1), 0).next
  }

  /**
   `ReadPacket(packetData, size)`: nothing is decoded below 8 bytes; the
   packet is copied to the front of the buffer (`memcpy` needs
   `size <= NET_MAX_PAYLOAD`, which the source never checks), the envelope
   is read, and the frames follow when the flags allow. It returns `size`.
   */
  function ReadPacket(packet: seq<byte>, tail: seq<byte>, fuel: nat): (o: Decoded)
    requires |packet| >= 8 ==> |packet| + |tail| == NET_MAX_PAYLOAD
    ensures o.returned == |packet|
    ensures o.envelope.None? <==> |packet| < 8
    ensures o.envelope.None? ==> o.frames == []
    ensures o.envelope.Some? && !FrameGuard(o.envelope.value.flags) ==> o.frames == [] && o.done
    ensures |o.frames| <= fuel
  {
    if |packet| < 8 then Decoded(|packet|, None, [], true)
    else
      var env := ReadEnvelope(Real(OpenReader(packet + tail)));
      if !FrameGuard(env.value.flags) then Decoded(|packet|, Some(env.value), [], true)
      else
        var l := FrameLoop(env.rest, |packet|, fuel);
        Decoded(|packet|, Some(env.value), l.frames, l.done)
  }

  // ---- The real reader agrees with the stream ------------------------------------

  /** A real reader over a buffer of at least one word that counts all its bits. */
  ghost predicate Whole(s: Src)
  {
    s.Real? && s.r.dataBits == 8 * |s.r.data| && |s.r.data| >= 4
  }

  /** The opened reader is the stream at bit 0. */
  lemma {:induction false} OpenReaderModels(buffer: seq<byte>)
    requires 4 <= |buffer| < MaxBufferBytes
    ensures Corr(Real(OpenReader(buffer)), Ideal(buffer, Live(0))) && Whole(Real(OpenReader(buffer)))
  {
    var r0 := StartReading(buffer, 0, 0, -1);
    SeekTracks(r0, 0);
  }

  /** Once the whole buffer has been consumed, a tracking reader is at its end. */
  lemma {:induction false} TracksEnd(r: Reader)
    requires Tracks(r, 8 * |r.data|)
    ensures AtEnd(r)
  {
  }

  lemma {:induction false} BytesReadAgree(a: Src, b: Src)
    requires Corr(a, b) && Whole(a)
    ensures BytesRead(a) == BytesRead(b)
  {
    if b.c.Live? {
      NumBitsReadTracks(a.r, b.c.pos);
    } else {
      NumBitsReadExhausted(a.r);
    }
  }

  /**
   `SeekRelative` on a real reader does what it does on the stream, except
   when seeking back from a dead cursor: the real reader keeps its overflow
   flag and lands inside the buffer, which no stream cursor describes.
   */
  lemma {:induction false} SeekRelativeAgree(a: Src, b: Src, off: int)
    requires Corr(a, b) && Whole(a) && -TWO31 <= off < TWO31 && (b.c.Dead? ==> off >= 0)
    ensures Corr(SeekRelative(a, off), SeekRelative(b, off)) && Whole(SeekRelative(a, off))
  {
    var pos := if b.c.Live? then b.c.pos else 8 * |b.data|;
    if b.c.Live? {
      NumBitsReadTracks(a.r, b.c.pos);
    } else {
      NumBitsReadExhausted(a.r);
    }
    var t := Int32(pos + off);
    if b.c.Live? && 0 <= t <= 8 * |b.data| {
      SeekLiveAgree(a, b, off);
    } else {
      if pos + off >= TWO31 {
        assert t == pos + off - TWO32;
      }
      SeekDeadAgree(a, b, off, pos);
    }
  }

  lemma {:induction false} SeekLiveAgree(a: Src, b: Src, off: int)
    requires Corr(a, b) && Whole(a) && b.c.Live? && GetNumBitsRead(a.r) == b.c.pos
    requires 0 <= Int32(b.c.pos + off) <= 8 * |b.data|
    ensures Corr(SeekRelative(a, off), SeekRelative(b, off)) && Whole(SeekRelative(a, off))
  {
    SeekInside(a, Int32(b.c.pos + off));
  }

  lemma {:induction false} SeekDeadAgree(a: Src, b: Src, off: int, pos: int)
    requires Corr(a, b) && Whole(a) && GetNumBitsRead(a.r) == pos
    requires pos == if b.c.Live? then b.c.pos else 8 * |b.data|
    requires !(b.c.Live? && 0 <= Int32(pos + off) <= 8 * |b.data|)
    requires !(0 <= Int32(pos + off) <= 8 * |b.data|) || (b.c.Dead? && Int32(pos + off) == 8 * |b.data|)
    ensures Corr(SeekRelative(a, off), SeekRelative(b, off)) && Whole(SeekRelative(a, off))
  {
    SeekOutside(a, Int32(pos + off));
  }

  /** A seek inside the buffer lands on the stream cursor there. */
  lemma {:induction false} SeekInside(a: Src, t: int)
    requires Whole(a) && Good(a.r) && !a.r.overflow && 0 <= t <= a.r.dataBits
    ensures Corr(Real(Seek(a.r, t).next), Ideal(a.r.data, Live(t))) && Whole(Real(Seek(a.r, t).next))
  {
    SeekTracks(a.r, t);
  }

  /** A seek outside the buffer, or onto its end from a dead reader, leaves the reader dead. */
  lemma {:induction false} SeekOutside(a: Src, t: int)
    requires Whole(a) && Good(a.r)
    requires !(0 <= t <= a.r.dataBits) || (a.r.overflow && t == a.r.dataBits)
    ensures Corr(Real(Seek(a.r, t).next), Ideal(a.r.data, Cursor.Dead)) && Whole(Real(Seek(a.r, t).next))
  {
    SeekTracks(a.r, t);
    TracksEnd(Seek(a.r, t).next);
  }

  lemma {:induction false} EnvelopeAgree(a: Src, b: Src)
    requires Corr(a, b)
    ensures ReadEnvelope(a).value == ReadEnvelope(b).value
    ensures Corr(ReadEnvelope(a).rest, ReadEnvelope(b).rest)
  {
    SBitsAgree(a, b, 32);
    var a1 := SBits(a, 32).rest;
    var b1 := SBits(b, 32).rest;
    SBitsAgree(a1, b1, 32);
    var a2 := SBits(a1, 32).rest;
    var b2 := SBits(b1, 32).rest;
    VarInt32Agree(a2, b2);
    var a3 := ReadVarInt32(a2).rest;
    var b3 := ReadVarInt32(b2).rest;
    SBitsAgree(a3, b3, 16);
    SignedVarInt32Agree(SBits(a3, 16).rest, SBits(b3, 16).rest);
  }

  /** A size read as the cursor died is below 2^28, so skipping it never seeks backwards. */
  lemma {:induction false} DeadSizeForward(d: seq<byte>, c: Cursor)
    ensures var len := ReadVarInt32(Ideal(d, c));
      len.rest.c.Dead? ==> 0 <= Int32(len.value) && Int32(8 * Int32(len.value)) == 8 * len.value
  {
    var len := ReadVarInt32(Ideal(d, c));
    VarInt32Cut(d, c);
    if len.rest.c.Dead? {
      Int32Id(len.value);
      Int32Id(8 * len.value);
    }
  }

  lemma {:induction false} NextFrameAgree(a: Src, b: Src)
    requires Corr(a, b) && Whole(a)
    ensures NextFrame(a).value == NextFrame(b).value
    ensures Corr(NextFrame(a).rest, NextFrame(b).rest) && Whole(NextFrame(a).rest)
  {
    VarInt32Agree(a, b);
    var ca := ReadVarInt32(a).rest;
    var cb := ReadVarInt32(b).rest;
    VarInt32Agree(ca, cb);
    var la := ReadVarInt32(ca);
    var lb := ReadVarInt32(cb);
    BytesReadAgree(la.rest, lb.rest);
    DeadSizeForward(b.data, cb.c);
    SeekRelativeAgree(la.rest, lb.rest, Int32(8 * Int32(lb.value)));
  }

  /** The frame loop on a real reader reads the frames the stream holds. */
  lemma {:induction false} FrameLoopAgree(a: Src, b: Src, size: int, fuel: nat)
    requires Corr(a, b) && Whole(a)
    ensures FrameLoop(a, size, fuel).frames == FrameLoop(b, size, fuel).frames
    ensures FrameLoop(a, size, fuel).done == FrameLoop(b, size, fuel).done
    decreases fuel
  {
    CorrOverflow(a, b);
    BytesReadAgree(a, b);
    if BytesRead(b) >= size || fuel == 0 {
      LoopsStop(a, b, size, fuel);
    } else {
      NextFrameAgree(a, b);
      var fa, fb := NextFrame(a), NextFrame(b);
      FrameLoopAgree(fa.rest, fb.rest, size, fuel - 1);
      LoopsStep(a, b, size, fuel);
    }
  }

  /** Two loops at the same byte count stop together. */
  lemma {:induction false} LoopsStop(a: Src, b: Src, size: int, fuel: nat)
    requires Valid(a) && Valid(b) && BytesRead(a) == BytesRead(b)
    requires BytesRead(b) >= size || fuel == 0
    ensures FrameLoop(a, size, fuel).frames == [] == FrameLoop(b, size, fuel).frames
    ensures FrameLoop(a, size, fuel).done == FrameLoop(b, size, fuel).done
  {
  }

  /** Two loops that read the same frame and then the same frames read the same frames. */
  lemma {:induction false} LoopsStep(a: Src, b: Src, size: int, fuel: nat)
    requires Valid(a) && Valid(b) && BytesRead(a) == BytesRead(b)
    requires BytesRead(b) < size && fuel > 0
    requires NextFrame(a).value == NextFrame(b).value
    requires FrameLoop(NextFrame(a).rest, size, fuel - 1).frames == FrameLoop(NextFrame(b).rest, size, fuel - 1).frames
    requires FrameLoop(NextFrame(a).rest, size, fuel - 1).done == FrameLoop(NextFrame(b).rest, size, fuel - 1).done
    ensures FrameLoop(a, size, fuel).frames == FrameLoop(b, size, fuel).frames
    ensures FrameLoop(a, size, fuel).done == FrameLoop(b, size, fuel).done
  {
  }

  /**
   `ReadPacket` decodes what the stream over its buffer holds: the envelope
   and frames are those of the stream from bit 0.
   */
  lemma {:induction false} ReadPacketReadsStream(packet: seq<byte>, tail: seq<byte>, fuel: nat)
    requires |packet| >= 8 && |packet| + |tail| == NET_MAX_PAYLOAD
    ensures var env := ReadEnvelope(Ideal(packet + tail, Live(0)));
      var o := ReadPacket(packet, tail, fuel);
      o.envelope == Some(env.value) &&
      (FrameGuard(env.value.flags) ==>
         o.frames == FrameLoop(env.rest, |packet|, fuel).frames && o.done == FrameLoop(env.rest, |packet|, fuel).done)
  {
    var buffer := packet + tail;
    OpenReaderModels(buffer);
    var a := Real(OpenReader(buffer));
    var b := Ideal(buffer, Live(0));
    EnvelopeAgree(a, b);
    FrameLoopAgree(ReadEnvelope(a).rest, ReadEnvelope(b).rest, |packet|, fuel);
  }

  // ---- The envelope a sender writes ------------------------------------------------

  /** The values a sender can put in an envelope: the widths of the source's fields. */
  predicate EnvelopeOk(e: Envelope)
  {
    -TWO31 <= e.seqIn < TWO31 && -TWO31 <= e.seqOut < TWO31 && -TWO31 <= e.flags < TWO31 &&
    -0x8000 <= e.unk0 < 0x8000 && -TWO31 <= e.unk1 < TWO31
  }

  /** The fields of an envelope: two 32-bit words, a varint, a 16-bit field and a ZigZag varint. */
  function EnvelopeFields(e: Envelope): seq<Field>
    requires EnvelopeOk(e)
  {
    [Field(32, Uint32(e.seqIn))] +
    ([Field(32, Uint32(e.seqOut))] +
     (VarIntFields(Uint32(e.flags)) +
      ([Field(16, e.unk0 % 0x1_0000)] + VarIntFields(ZigZagEncode32(e.unk1)))))
  }

  /** The number of bits the envelope takes. */
  function EnvelopeBits(e: Envelope): nat
    requires EnvelopeOk(e)
  {
    80 + 8 * |VarIntFields(Uint32(e.flags))| + 8 * |VarIntFields(ZigZagEncode32(e.unk1))|
  }

  lemma {:induction false} SignExtend32(x: int)
    requires -TWO31 <= x < TWO31
    ensures SignExtend(Uint32(x), 32) == x && Int32(Uint32(x)) == x
  {
    Pow2Word();
    if x < 0 {
      assert Uint32(x) == x + TWO32;
    }
  }

  lemma {:induction false} SignExtend16(x: int)
    requires -0x8000 <= x < 0x8000
    ensures SignExtend(x % 0x1_0000, 16) == x
  {
    Pow2Values();
    if x < 0 {
      assert x % 0x1_0000 == x + 0x1_0000;
    }
  }

  /** The envelope's fields one by one, each where the previous one ends. */
  ghost predicate EnvelopeAt(d: seq<byte>, p: nat, e: Envelope)
    requires EnvelopeOk(e)
  {
    var q := p + 64 + 8 * |VarIntFields(Uint32(e.flags))|;
    Holds(d, p, [Field(32, Uint32(e.seqIn))]) && Holds(d, p + 32, [Field(32, Uint32(e.seqOut))]) &&
    Holds(d, p + 64, VarIntFields(Uint32(e.flags))) &&
    Holds(d, q, [Field(16, e.unk0 % 0x1_0000)]) && Holds(d, q + 16, VarIntFields(ZigZagEncode32(e.unk1)))
  }

  /** Holding the envelope's layout is holding each of its fields in turn. */
  lemma {:induction false} EnvelopeFieldsAt(d: seq<byte>, p: nat, e: Envelope)
    requires EnvelopeOk(e) && Holds(d, p, EnvelopeFields(e))
    ensures EnvelopeAt(d, p, e)
  {
    var w1 := [Field(32, Uint32(e.seqIn))];
    var w2 := [Field(32, Uint32(e.seqOut))];
    var fv := VarIntFields(Uint32(e.flags));
    var sh := [Field(16, e.unk0 % 0x1_0000)];
    var zv := VarIntFields(ZigZagEncode32(e.unk1));
    assert Width(w1) == 32 && Width(w2) == 32 && Width(sh) == 16;
    HoldsAppend(d, p, w1, w2 + (fv + (sh + zv)));
    HoldsAppend(d, p + 32, w2, fv + (sh + zv));
    HoldsAppend(d, p + 64, fv, sh + zv);
    HoldsAppend(d, p + 64 + 8 * |fv|, sh, zv);
  }

  /** A single signed field reads back as its value. */
  lemma {:induction false} SignedAt(d: seq<byte>, p: nat, n: nat, v: nat, x: int)
    requires 1 <= n <= 32 && Holds(d, p, [Field(n, v)]) && SignExtend(v, n) == x
    ensures SBits(Ideal(d, Live(p)), n) == Out(x, Ideal(d, Live(p + n)))
  {
    IdealSBits(d, p, n);
  }

  /** A 32-bit signed field reads back as its value. */
  lemma {:induction false} Int32At(d: seq<byte>, p: nat, q: nat, x: int)
    requires -TWO31 <= x < TWO31 && Holds(d, p, [Field(32, Uint32(x))]) && q == p + 32
    ensures SBits(Ideal(d, Live(p)), 32) == Out(x, Ideal(d, Live(q)))
  {
    SignExtend32(x);
    SignedAt(d, p, 32, Uint32(x), x);
  }

  lemma {:induction false} ShortAt(d: seq<byte>, p: nat, q: nat, x: int)
    requires -0x8000 <= x < 0x8000 && Holds(d, p, [Field(16, x % 0x1_0000)]) && q == p + 16
    ensures SBits(Ideal(d, Live(p)), 16) == Out(x, Ideal(d, Live(q)))
  {
    SignExtend16(x);
    SignedAt(d, p, 16, x % 0x1_0000, x);
  }

  /** The flags varint reads back as the flags. */
  lemma {:induction false} FlagsAt(d: seq<byte>, p: nat, q: nat, x: int)
    requires -TWO31 <= x < TWO31 && Holds(d, p, VarIntFields(Uint32(x)))
    requires q == p + 8 * |VarIntFields(Uint32(x))|
    ensures Int32(ReadVarInt32(Ideal(d, Live(p))).value) == x
    ensures ReadVarInt32(Ideal(d, Live(p))).rest == Ideal(d, Live(q))
  {
    VarInt32RoundTrip(d, p, Uint32(x));
    SignExtend32(x);
  }

  lemma {:induction false} UnknownAt(d: seq<byte>, p: nat, q: nat, x: int)
    requires -TWO31 <= x < TWO31 && Holds(d, p, VarIntFields(ZigZagEncode32(x)))
    requires q == p + 8 * |VarIntFields(ZigZagEncode32(x))|
    ensures ReadSignedVarInt32(Ideal(d, Live(p))) == Out(x, Ideal(d, Live(q)))
  {
    SignedVarInt32RoundTrip(d, p, x);
  }

  /** The envelope a sender writes is the envelope `ReadPacket` reads. */
  lemma {:induction false} EnvelopeRoundTrip(d: seq<byte>, p: nat, e: Envelope, q: nat)
    requires EnvelopeOk(e) && EnvelopeAt(d, p, e) && q == p + EnvelopeBits(e)
    ensures ReadEnvelope(Ideal(d, Live(p))) == Out(e, Ideal(d, Live(q)))
  {
    var q1 := p + 32;
    var q2 := p + 64;
    var q3 := q2 + 8 * |VarIntFields(Uint32(e.flags))|;
    var q4 := q3 + 16;
    Int32At(d, p, q1, e.seqIn);
    Int32At(d, q1, q2, e.seqOut);
    FlagsAt(d, q2, q3, e.flags);
    ShortAt(d, q3, q4, e.unk0);
    UnknownAt(d, q4, q, e.unk1);
    EnvelopeReads(d, p, q1, q2, q3, q4, q, e);
  }

  /** The envelope from the reads of its fields. */
  lemma {:induction false} EnvelopeReads(d: seq<byte>, p: nat, q1: nat, q2: nat, q3: nat, q4: nat, q5: nat, e: Envelope)
    requires EnvelopeOk(e) && q5 == p + EnvelopeBits(e)
    requires SBits(Ideal(d, Live(p)), 32) == Out(e.seqIn, Ideal(d, Live(q1)))
    requires SBits(Ideal(d, Live(q1)), 32) == Out(e.seqOut, Ideal(d, Live(q2)))
    requires Int32(ReadVarInt32(Ideal(d, Live(q2))).value) == e.flags
    requires ReadVarInt32(Ideal(d, Live(q2))).rest == Ideal(d, Live(q3))
    requires SBits(Ideal(d, Live(q3)), 16) == Out(e.unk0, Ideal(d, Live(q4)))
    requires ReadSignedVarInt32(Ideal(d, Live(q4))) == Out(e.unk1, Ideal(d, Live(q5)))
    ensures ReadEnvelope(Ideal(d, Live(p))) == Out(e, Ideal(d, Live(q5)))
  {
  }

  /** A packet that starts with an envelope: `ReadPacket` reads exactly that envelope. */
  lemma {:induction false} ReadPacketEnvelope(packet: seq<byte>, tail: seq<byte>, fuel: nat, e: Envelope)
    requires |packet| >= 8 && |packet| + |tail| == NET_MAX_PAYLOAD
    requires EnvelopeOk(e) && Holds(packet, 0, EnvelopeFields(e))
    ensures ReadPacket(packet, tail, fuel).envelope == Some(e)
  {
    EnvelopeAtStart(packet, tail, e);
    ReadPacketReadsStream(packet, tail, fuel);
  }

  /** The buffer `ReadPacket` fills starts with the packet's envelope. */
  lemma {:induction false} EnvelopeAtStart(packet: seq<byte>, tail: seq<byte>, e: Envelope)
    requires EnvelopeOk(e) && Holds(packet, 0, EnvelopeFields(e))
    ensures ReadEnvelope(Ideal(packet + tail, Live(0))) == Out(e, Ideal(packet + tail, Live(EnvelopeBits(e))))
  {
    HoldsPrefix(packet, tail, 0, EnvelopeFields(e));
    EnvelopeFieldsAt(packet + tail, 0, e);
    EnvelopeRoundTrip(packet + tail, 0, e, EnvelopeBits(e));
  }

  // ---- Progress of the frame loop --------------------------------------------------

  /** A size the skip moves forward over: not negative, and `Size * 8` does not wrap. */
  predicate Forward(f: Frame)
  {
    0 <= f.size < 0x1000_0000
  }

  /** A varint read from a live cursor takes at least a byte, or kills the cursor. */
  lemma {:induction false} VarInt32Advances(d: seq<byte>, c: Cursor)
    ensures ReadVarInt32(Ideal(d, c)).rest.Ideal?
    ensures var q := ReadVarInt32(Ideal(d, c)).rest.c;
      q.Live? ==> c.Live? && q.pos >= c.pos + 8
  {
    Pow2Word();
    if c.Live? {
      VarIntLoopBounded(d, c.pos, 0, 0, MaxVarint32Bytes, 32);
    } else {
      VarIntLoopDead(d, 0, 0, MaxVarint32Bytes, 32);
    }
  }

  /** Skipping a forward size from a live cursor never moves it back. */
  lemma {:induction false} SkipForward(d: seq<byte>, q: nat, size: int)
    requires |d| < MaxBufferBytes && q <= 8 * |d| && 0 <= size < 0x1000_0000
    ensures var o := SeekRelative(Ideal(d, Live(q)), Int32(8 * size));
      o.c.Live? ==> o.c.pos >= q
  {
    Int32Id(8 * size);
    if q + 8 * size >= TWO31 {
      assert Int32(q + 8 * size) == q + 8 * size - TWO32;
    } else {
      Int32Id(q + 8 * size);
    }
  }

  /** A frame of a forward size moves a live cursor on by at least two bytes, or kills it. */
  lemma {:induction false} NextFrameAdvances(d: seq<byte>, p: nat)
    requires |d| < MaxBufferBytes
    ensures var f := NextFrame(Ideal(d, Live(p)));
      f.rest.Ideal? &&
      (Forward(f.value) && f.rest.c.Live? ==> f.rest.c.pos >= p + 16)
  {
    var s0 := Ideal(d, Live(p));
    var cmd := ReadVarInt32(s0);
    VarInt32Advances(d, Live(p));
    var len := ReadVarInt32(cmd.rest);
    VarInt32Advances(d, cmd.rest.c);
    var f := NextFrame(s0);
    assert f.rest == SeekRelative(len.rest, Int32(8 * f.value.size));
    if Forward(f.value) && len.rest.c.Live? {
      SkipForward(d, len.rest.c.pos, f.value.size);
    }
  }

  /** Over a dead cursor the loop reads the whole buffer. */
  lemma {:induction false} DeadBytesRead(d: seq<byte>)
    ensures BytesRead(Ideal(d, Cursor.Dead)) == |d|
  {
  }

  /**
   With fuel for one frame per byte, the loop over a buffer at least
   `size` bytes long ends by its condition unless some frame it read has a
   size that skips backwards or wraps.
   */
  lemma {:induction false} FrameLoopFinishes(s: Src, size: int, fuel: nat)
    requires s.Ideal? && |s.data| < MaxBufferBytes && size <= |s.data| && fuel >= size - BytesRead(s)
    ensures AllForward(FrameLoop(s, size, fuel).frames) ==> FrameLoop(s, size, fuel).done
    decreases fuel
  {
    if BytesRead(s) >= size {
      FinishesStop(s, size, fuel);
    } else {
      FinishesMeasure(s, size, fuel);
      var f := NextFrame(s);
      if Forward(f.value) {
        FrameLoopFinishes(f.rest, size, fuel - 1);
      }
      FinishesStep(s, size, fuel);
    }
  }

  lemma {:induction false} FinishesStop(s: Src, size: int, fuel: nat)
    requires Valid(s) && BytesRead(s) >= size
    ensures FrameLoop(s, size, fuel).done && FrameLoop(s, size, fuel).frames == []
  {
  }

  /** A pass that has not ended finishes when the rest of the loop does, or its frame is not forward. */
  lemma {:induction false} FinishesStep(s: Src, size: int, fuel: nat)
    requires Valid(s) && BytesRead(s) < size && fuel > 0
    requires var f := NextFrame(s);
      Forward(f.value) ==>
        (AllForward(FrameLoop(f.rest, size, fuel - 1).frames) ==> FrameLoop(f.rest, size, fuel - 1).done)
    ensures AllForward(FrameLoop(s, size, fuel).frames) ==> FrameLoop(s, size, fuel).done
  {
    var f := NextFrame(s);
    var t := FrameLoop(f.rest, size, fuel - 1);
    assert FrameLoop(s, size, fuel) == Frames([f.value] + t.frames, t.rest, t.done);
    AllForwardCons(f.value, t.frames);
  }

  /** A forward frame uses up at most one unit of fuel per byte it moves on. */
  lemma {:induction false} FinishesMeasure(s: Src, size: int, fuel: nat)
    requires s.Ideal? && |s.data| < MaxBufferBytes && size <= |s.data| && fuel >= size - BytesRead(s)
    requires BytesRead(s) < size
    ensures fuel > 0
    ensures var f := NextFrame(s);
      Forward(f.value) ==>
        f.rest.Ideal? && f.rest.data == s.data && fuel - 1 >= size - BytesRead(f.rest)
  {
    assert s.c.Live?;
    var d, p := s.data, s.c.pos;
    assert s == Ideal(d, Live(p));
    NextFrameAdvances(d, p);
    var f := NextFrame(s);
    if Forward(f.value) {
      MoreBytesRead(d, p, f.rest.c);
    }
  }

  /** Every frame has a forward size. */
  predicate AllForward(fs: seq<Frame>)
  {
    forall i :: 0 <= i < |fs| ==> Forward(fs[i])
  }

  lemma {:induction false} AllForwardCons(f: Frame, fs: seq<Frame>)
    ensures AllForward([f] + fs) <==> Forward(f) && AllForward(fs)
  {
    var g := [f] + fs;
    assert g[0] == f;
    assert forall i :: 0 <= i < |fs| ==> g[i + 1] == fs[i];
    if Forward(f) && AllForward(fs) {
      forall i | 0 <= i < |g|
        ensures Forward(g[i])
      {
        if i > 0 {
          assert g[i] == fs[i - 1];
        }
      }
    }
  }

  /** Two bytes on, or dead: the byte count grows by two, or reaches the buffer's end. */
  lemma {:induction false} MoreBytesRead(d: seq<byte>, p: nat, c: Cursor)
    requires c.Live? ==> c.pos >= p + 16
    ensures BytesRead(Ideal(d, c)) >= BytesRead(Ideal(d, Live(p))) + 2 || BytesRead(Ideal(d, c)) == |d|
  {
  }

  /** `ReadPacket` with fuel for a frame per byte finishes, unless a frame skips backwards or wraps. */
  lemma {:induction false} ReadPacketFinishes(packet: seq<byte>, tail: seq<byte>, fuel: nat)
    requires |packet| >= 8 && |packet| + |tail| == NET_MAX_PAYLOAD && fuel >= |packet|
    ensures AllForward(ReadPacket(packet, tail, fuel).frames) ==> ReadPacket(packet, tail, fuel).done
  {
    ReadPacketReadsStream(packet, tail, fuel);
    var env := ReadEnvelope(Ideal(packet + tail, Live(0)));
    if FrameGuard(env.value.flags) {
      FrameLoopFinishes(env.rest, |packet|, fuel);
    }
  }

  // ---- Dispatch --------------------------------------------------------------------

  /** The frames whose message goes to a parser, in the order read. */
  function Offers(fs: seq<Frame>): (r: seq<Frame>)
    ensures |r| <= |fs|
    ensures forall i :: 0 <= i < |r| ==> Offered(r[i].cmd)
    decreases |fs|
  {
    if |fs| == 0 then []
    else (if Offered(fs[0].cmd) then [fs[0]] else []) + Offers(fs[1..])
  }

  /** The frames `ReadPacket` hands to a parser. */
  function Dispatches(o: Decoded): seq<Frame>
  {
    Offers(o.frames)
  }

  /** A frame is dispatched exactly when the loop read it and its command is one of the four. */
  lemma {:induction false} OffersExactly(fs: seq<Frame>, f: Frame)
    ensures f in Offers(fs) <==> f in fs && Offered(f.cmd)
    decreases |fs|
  {
    if |fs| > 0 {
      OffersExactly(fs[1..], f);
      assert fs == [fs[0]] + fs[1..];
    }
  }

  /**
   The message a frame hands to a parser: `Size` bytes from the byte count
   after the size varint (`parseBuffer`, `bufferSize`), or none when they
   do not lie inside the decode buffer.
   */
  function Message(buffer: seq<byte>, f: Frame): (m: Option<seq<byte>>)
    ensures m.Some? <==> 0 <= f.offset && 0 <= f.size && f.offset + f.size <= |buffer|
    ensures m.Some? ==> |m.value| == f.size && forall k :: 0 <= k < f.size ==> m.value[k] == buffer[f.offset + k]
  {
    if 0 <= f.offset && 0 <= f.size && f.offset + f.size <= |buffer|
    then Some(buffer[f.offset .. f.offset + f.size]) else None
  }

  /** What `ReadPacket` hands to parsers: the frames read with one of the four commands, and only those. */
  lemma {:induction false} DispatchesExactly(o: Decoded, f: Frame)
    ensures f in Dispatches(o) <==> f in o.frames && Offered(f.cmd)
  {
    OffersExactly(o.frames, f);
  }
}

=== FILE: packet.dfy ===
/**
 The demo-style packet reader of Sniffles/packet.h: `CPacket`, a byte
 buffer with a read position, whose reads are little-endian loads at the
 position with no bounds checks; and `packetcmdinfo_t`, whose `Split_t`
 views select original or resampled view vectors by flag bits.

 A `CPacket` is a value here: each read returns the packet with its new
 position, and the values the C++ code writes through reference parameters
 are returned alongside. Where the source leaves a reference untouched the
 caller's value is passed in and comes back unchanged. Since the source
 does not check bounds, every read requires the bytes it loads to exist.
 */
module Packet {
  import opened BitOps
  import opened BitStream
  import opened Wrappers

  // ---- Constants ----------------------------------------------------------------

  /** The demo command that ends a packet, and the last command. */
  const DEM_STOP: nat := 7
  const DEM_LASTCMD: nat := 9

  const FPACKET_NORMAL: nat := 0
  const FPACKET_USE_ORIGIN2: nat := 1
  const FPACKET_USE_ANGLES2: nat := 2
  const FPACKET_NOINTERP: nat := 4

  const MAX_SPLITSCREEN_CLIENTS: nat := 2

  // ---- Little-endian words -----------------------------------------------------------

  /** The `uint32` stored little-endian at byte i. */
  function Le32(b: seq<byte>, i: nat): (v: nat)
    requires i + 4 <= |b|
    ensures v < TWO32
  {
    b[i] as nat + 256 * (b[i + 1] as nat + 256 * (b[i + 2] as nat + 256 * b[i + 3] as nat))
  }

  /** `Le32` is the four-byte case of the stream's little-endian word load. */
  lemma {:induction false} Le32IsWordAt(b: seq<byte>, i: nat)
    requires i + 4 <= |b|
    ensures Le32(b, i) == WordAt(b, i)
  {
    var s := b[i .. i + 4];
    assert s[3..][1..] == [];
    var v3 := LittleEndian(s[3..]);
    ShlIsMul(LittleEndian(s[3..][1..]), 8);
    assert v3 == b[i + 3];
    assert s[2..][1..] == s[3..];
    var v2 := LittleEndian(s[2..]);
    ShlIsMul(v3, 8);
    assert v2 == b[i + 2] + 256 * v3;
    assert s[1..][1..] == s[2..];
    var v1 := LittleEndian(s[1..]);
    ShlIsMul(v2, 8);
    assert v1 == b[i + 1] + 256 * v2;
    ShlIsMul(v1, 8);
    assert LittleEndian(s) == b[i] + 256 * v1;
  }

  /** `*(int32 *)&buffer[i]` on a little-endian machine. */
  function ReadInt32At(b: seq<byte>, i: nat): (v: int)
    requires i + 4 <= |b|
    ensures -TWO31 <= v < TWO31
  {
    Int32(Le32(b, i))
  }

  /** The four bytes a little-endian machine stores for an `int32`. */
  function Int32Bytes(x: int): (b: seq<byte>)
    requires -TWO31 <= x < TWO31
    ensures |b| == 4
  {
    var u := Uint32(x);
    [u % 256, u / 256 % 256, u / 0x1_0000 % 256, u / 0x100_0000]
  }

  lemma {:induction false} Le32Bytes(u: nat)
    requires u < TWO32
    ensures var b := [u % 256, u / 256 % 256, u / 0x1_0000 % 256, u / 0x100_0000];
      (forall j :: 0 <= j < 4 ==> b[j] < 256) && b[0] + 256 * (b[1] + 256 * (b[2] + 256 * b[3])) == u
  {
    var lo := u % 0x1_0000;
    var hi := u / 0x1_0000;
    assert u == lo + 0x1_0000 * hi;
    assert u / 256 % 256 == lo / 256;
    assert u % 256 == lo % 256;
    assert lo == lo % 256 + 256 * (lo / 256);
    assert hi == hi % 256 + 256 * (hi / 256);
    assert u / 0x100_0000 == hi / 256;
  }

  /** An `int32` stored and loaded again is itself. */
  lemma {:induction false} Int32RoundTrip(b: seq<byte>, i: nat, x: int)
    requires -TWO31 <= x < TWO31 && i + 4 <= |b| && b[i .. i + 4] == Int32Bytes(x)
    ensures ReadInt32At(b, i) == x
  {
    Le32Bytes(Uint32(x));
    assert b[i] == Int32Bytes(x)[0] && b[i + 1] == Int32Bytes(x)[1];
    assert b[i + 2] == Int32Bytes(x)[2] && b[i + 3] == Int32Bytes(x)[3];
    assert Le32(b, i) == Uint32(x);
    if x < 0 {
      Int32Wrap(x + TWO32);
    }
  }

  // ---- The packet ------------------------------------------------------------------

  /** `m_packetBuffer` and `m_packetBufferPos`. */
  datatype CPacket = CPacket(buffer: seq<byte>, pos: nat)

  /** `Open(data, dataSize)`: `None` stands for a null `data`; the sequence holds the `dataSize` bytes. */
  function Open(p: CPacket, data: Option<seq<byte>>): (r: (bool, CPacket))
    ensures r.0 <==> data.Some? && |data.value| > 0
    ensures r.0 ==> r.1.buffer == data.value && r.1.pos == 0
    ensures !r.0 ==> r.1 == p
  {
    if data.Some? && |data.value| > 0 then (true, CPacket(data.value, 0)) else (false, p)
  }

  /** The two sequence numbers, and the packet after them. */
  datatype SequenceInfo = SequenceInfo(packet: CPacket, seqIn: int, seqOut: int)

  /** The bytes a read of n bytes at the position loads exist, when the buffer is not empty. */
  predicate CanRead(p: CPacket, n: nat)
  {
    |p.buffer| > 0 ==> p.pos + n <= |p.buffer|
  }

  /** `ReadSequenceInfo(nSeqNrIn, nSeqNrOut)`; seqIn and seqOut are the references' values before the call. */
  function ReadSequenceInfo(p: CPacket, seqIn: int, seqOut: int): (r: SequenceInfo)
    requires CanRead(p, 8)
    ensures |p.buffer| == 0 ==> r == SequenceInfo(p, seqIn, seqOut)
    ensures |p.buffer| > 0 ==> r.packet == p.(pos := p.pos + 8)
  {
    if |p.buffer| == 0 then SequenceInfo(p, seqIn, seqOut)
    else
      var a := ReadInt32At(p.buffer, p.pos);
      var b := ReadInt32At(p.buffer, p.pos + 4);
      SequenceInfo(p.(pos := p.pos + 8), a, b)
  }

  /** The command byte, the tick and the player slot. */
  datatype CmdHeader = CmdHeader(packet: CPacket, cmd: nat, tick: int, playerSlot: nat)

  /**
   What `ReadCmdHeader` loads: one byte, and five more unless that byte is
   zero.
   */
  predicate CanReadCmdHeader(p: CPacket)
  {
    |p.buffer| > 0 ==> p.pos + 1 <= |p.buffer| && (p.buffer[p.pos] != 0 ==> p.pos + 6 <= |p.buffer|)
  }

  /**
   `ReadCmdHeader(cmd, tick, playerSlot)`: a zero command byte becomes
   `dem_stop` and ends the header; otherwise a tick and a slot byte follow.
   The source's `assert` on the command's range is a debug check and is not
   modelled.
   */
  function ReadCmdHeader(p: CPacket, cmd: nat, tick: int, playerSlot: nat): (r: CmdHeader)
    requires CanReadCmdHeader(p)
    ensures |p.buffer| == 0 ==> r == CmdHeader(p, cmd, tick, playerSlot)
    ensures |p.buffer| > 0 && p.buffer[p.pos] == 0 ==>
      r == CmdHeader(p.(pos := p.pos + 1), DEM_STOP, tick, playerSlot)
    ensures |p.buffer| > 0 && p.buffer[p.pos] != 0 ==>
      r.packet == p.(pos := p.pos + 6) && r.cmd == p.buffer[p.pos] && 1 <= r.cmd < 256 && r.playerSlot < 256
  {
    if |p.buffer| == 0 then CmdHeader(p, cmd, tick, playerSlot)
    else
      var c := p.buffer[p.pos];
      if c == 0 then CmdHeader(p.(pos := p.pos + 1), DEM_STOP, tick, playerSlot)
      else CmdHeader(p.(pos := p.pos + 6), c, ReadInt32At(p.buffer, p.pos + 1), p.buffer[p.pos + 5])
  }

  /**
   A raw block: what `ReadRawData` returns, and the bytes it copied into the
   caller's buffer (`None` when it copied nothing).
   */
  datatype RawData = RawData(packet: CPacket, result: int, copied: Option<seq<byte>>)

  /**
   What `ReadRawData` loads: the length, and, when it copies, the block.
   A null caller buffer (`capacity` is `None`) only moves the position.
   */
  predicate CanReadRawData(p: CPacket, capacity: Option<int>)
  {
    |p.buffer| > 0 ==>
      p.pos + 4 <= |p.buffer| &&
      var size := ReadInt32At(p.buffer, p.pos);
      (capacity.Some? && size <= capacity.value ==> 0 <= size && p.pos + 4 + size <= |p.buffer|)
  }

  /**
   `ReadRawData(buffer, length)`: the block's `int32` length, then the block,
   copied when a buffer is given and it is large enough, skipped when no
   buffer is given. A buffer that is too small gives -1 with only the length
   read. The position is a `size_t` (32 bits on the source's target), so a
   negative length skips backwards, modulo 2^32.
   */
  function ReadRawData(p: CPacket, capacity: Option<int>): (r: RawData)
    requires CanReadRawData(p, capacity)
    ensures |p.buffer| == 0 ==> r == RawData(p, 0, None)
    ensures |p.buffer| > 0 && capacity.Some? && capacity.value < ReadInt32At(p.buffer, p.pos) ==>
      r == RawData(p.(pos := p.pos + 4), -1, None)
    ensures r.copied.Some? ==> r.result == |r.copied.value| && r.packet.pos == p.pos + 4 + r.result
    ensures r.packet.buffer == p.buffer
  {
    if |p.buffer| == 0 then RawData(p, 0, None)
    else
      var size := ReadInt32At(p.buffer, p.pos);
      var start := p.pos + 4;
      if capacity.Some? && capacity.value < size then RawData(p.(pos := start), -1, None)
      else if capacity.Some? then
        RawData(p.(pos := start + size), size, Some(p.buffer[start .. start + size]))
      else RawData(p.(pos := Uint32(start + size)), size, None)
  }

  /** The outgoing sequence number, the block's result, and the copy. */
  datatype UserCmd = UserCmd(packet: CPacket, sequence: int, size: int, copied: Option<seq<byte>>)

  predicate CanReadUserCmd(p: CPacket, capacity: Option<int>)
  {
    |p.buffer| > 0 ==> p.pos + 4 <= |p.buffer| && CanReadRawData(p.(pos := p.pos + 4), capacity)
  }

  /**
   `ReadUserCmd(buffer, size)`: an `int32` sequence number, then a raw block
   read with `size` as the buffer's capacity; `size` becomes the block's
   result.
   */
  function ReadUserCmd(p: CPacket, capacity: Option<int>, size: int): (r: UserCmd)
    requires capacity.Some? ==> capacity.value == size
    requires CanReadUserCmd(p, capacity)
    ensures |p.buffer| == 0 ==> r == UserCmd(p, 0, size, None)
    ensures r.packet.buffer == p.buffer
  {
    if |p.buffer| == 0 then UserCmd(p, 0, size, None)
    else
      var sequence := ReadInt32At(p.buffer, p.pos);
      var raw := ReadRawData(p.(pos := p.pos + 4), capacity);
      UserCmd(raw.packet, sequence, raw.result, raw.copied)
  }

  // ---- What a demo writer emits, read back ---------------------------------------------

  /** A command header as a writer emits it. */
  function CmdHeaderBytes(cmd: byte, tick: int, playerSlot: byte): (b: seq<byte>)
    requires -TWO31 <= tick < TWO31
    ensures |b| == (if cmd == 0 then 1 else 6)
  {
    if cmd == 0 then [0] else [cmd] + Int32Bytes(tick) + [playerSlot]
  }

  /** A header written at the position reads back as written; a zero command reads as `dem_stop`. */
  lemma {:induction false} CmdHeaderRoundTrip(p: CPacket, cmd: byte, tick: int, playerSlot: byte, t0: int, s0: nat)
    requires -TWO31 <= tick < TWO31
    requires p.pos + |CmdHeaderBytes(cmd, tick, playerSlot)| <= |p.buffer|
    requires p.buffer[p.pos .. p.pos + |CmdHeaderBytes(cmd, tick, playerSlot)|] == CmdHeaderBytes(cmd, tick, playerSlot)
    ensures CanReadCmdHeader(p)
    ensures var r := ReadCmdHeader(p, 0, t0, s0);
      r.packet == p.(pos := p.pos + |CmdHeaderBytes(cmd, tick, playerSlot)|) &&
      (cmd == 0 ==> r.cmd == DEM_STOP && r.tick == t0 && r.playerSlot == s0) &&
      (cmd != 0 ==> r.cmd == cmd && r.tick == tick && r.playerSlot == playerSlot)
  {
    var w := CmdHeaderBytes(cmd, tick, playerSlot);
    assert p.buffer[p.pos] == w[0];
    if cmd != 0 {
      SliceOfSlice(p.buffer, p.pos, w, 1, 5);
      assert w[1 .. 5] == Int32Bytes(tick);
      Int32RoundTrip(p.buffer, p.pos + 1, tick);
      assert p.buffer[p.pos + 5] == w[5];
    }
  }

  /** Bytes i .. j of a run found at a are bytes a + i .. a + j of the buffer. */
  lemma {:induction false} SliceOfSlice(b: seq<byte>, a: nat, w: seq<byte>, i: nat, j: nat)
    requires a + |w| <= |b| && b[a .. a + |w|] == w && i <= j <= |w|
    ensures b[a + i .. a + j] == w[i .. j]
  {
    forall k | 0 <= k < j - i
      ensures b[a + i .. a + j][k] == w[i .. j][k]
    {
      assert b[a + i + k] == b[a .. a + |w|][i + k];
    }
  }

  /** A raw block as a writer emits it: its length, then its bytes. */
  function RawBytes(block: seq<byte>): (b: seq<byte>)
    requires |block| < TWO31
    ensures |b| == 4 + |block|
  {
    Int32Bytes(|block|) + block
  }

  /**
   A block written at the position reads back: copied whole into a buffer
   that can take it, skipped with no buffer, refused (-1, only the length
   read) by a buffer that is too small.
   */
  lemma {:induction false} RawDataRoundTrip(p: CPacket, block: seq<byte>, capacity: Option<int>)
    requires |block| < TWO31 && p.pos + 4 + |block| <= |p.buffer| < TWO32
    requires p.buffer[p.pos .. p.pos + 4 + |block|] == RawBytes(block)
    ensures CanReadRawData(p, capacity)
    ensures var r := ReadRawData(p, capacity);
      r.packet.buffer == p.buffer &&
      (capacity.Some? && capacity.value < |block| ==> r.result == -1 && r.packet.pos == p.pos + 4 && r.copied.None?) &&
      (capacity.Some? && capacity.value >= |block| ==>
         r.result == |block| && r.packet.pos == p.pos + 4 + |block| && r.copied == Some(block)) &&
      (capacity.None? ==> r.result == |block| && r.packet.pos == p.pos + 4 + |block| && r.copied.None?)
  {
    var w := RawBytes(block);
    assert p.buffer[p.pos .. p.pos + 4] == w[.. 4] == Int32Bytes(|block|);
    Int32RoundTrip(p.buffer, p.pos, |block|);
    assert p.buffer[p.pos + 4 .. p.pos + 4 + |block|] == w[4 ..] == block;
  }

  /** A user command written at the position reads back with its block. */
  lemma {:induction false} UserCmdRoundTrip(p: CPacket, sequence: int, block: seq<byte>, size: int)
    requires -TWO31 <= sequence < TWO31 && |block| <= size < TWO31
    requires p.pos + 8 + |block| <= |p.buffer| < TWO32
    requires p.buffer[p.pos .. p.pos + 8 + |block|] == Int32Bytes(sequence) + RawBytes(block)
    ensures CanReadUserCmd(p, Some(size))
    ensures ReadUserCmd(p, Some(size), size) ==
      UserCmd(p.(pos := p.pos + 8 + |block|), sequence, |block|, Some(block))
  {
    var w := Int32Bytes(sequence) + RawBytes(block);
    assert p.buffer[p.pos .. p.pos + 4] == w[.. 4] == Int32Bytes(sequence);
    Int32RoundTrip(p.buffer, p.pos, sequence);
    var q := p.(pos := p.pos + 4);
    assert q.buffer[q.pos .. q.pos + 4 + |block|] == w[4 ..] == RawBytes(block);
    RawDataRoundTrip(q, block, Some(size));
  }

  /** A freshly opened packet starts with its sequence numbers. */
  lemma {:induction false} OpenThenSequence(p: CPacket, data: seq<byte>, seqIn: int, seqOut: int, a: int, b: int)
    requires -TWO31 <= seqIn < TWO31 && -TWO31 <= seqOut < TWO31
    requires |data| >= 8 && data[.. 8] == Int32Bytes(seqIn) + Int32Bytes(seqOut)
    ensures Open(p, Some(data)).0
    ensures CanRead(Open(p, Some(data)).1, 8)
    ensures ReadSequenceInfo(Open(p, Some(data)).1, a, b) == SequenceInfo(CPacket(data, 8), seqIn, seqOut)
  {
    assert data[0 .. 4] == Int32Bytes(seqIn);
    assert data[4 .. 8] == Int32Bytes(seqOut);
    Int32RoundTrip(data, 0, seqIn);
    Int32RoundTrip(data, 4, seqOut);
  }

  // ---- Split views ------------------------------------------------------------------

  /**
   `Vector` and `QAngle`: three `float`s each. The getters and `Reset` only
   copy them, so each component is kept as the float's 32-bit pattern.
   */
  datatype Triple = Triple(x: nat, y: nat, z: nat)

  /** `Init()`: all components `0.0f`, whose pattern is 0. */
  const ZERO: Triple := Triple(0, 0, 0)

  /** `Split_t`: the flags, the original view, and the resampled view. */
  datatype Split = Split(
    flags: int,
    viewOrigin: Triple, viewAngles: Triple, localViewAngles: Triple,
    viewOrigin2: Triple, viewAngles2: Triple, localViewAngles2: Triple)

  /**
   The constructor: `FPACKET_NORMAL` and every vector `Init()`. A fresh split
   shows the zero view through every getter, and `Reset()` leaves it as it is.
   */
  function NewSplit(): (s: Split)
    ensures s.flags == FPACKET_NORMAL
    ensures s.viewOrigin == ZERO && s.viewAngles == ZERO && s.localViewAngles == ZERO
    ensures s.viewOrigin2 == ZERO && s.viewAngles2 == ZERO && s.localViewAngles2 == ZERO
    ensures GetViewOrigin(s) == ZERO && GetViewAngles(s) == ZERO && GetLocalViewAngles(s) == ZERO
    ensures ResetSplit(s) == s
  {
    Split(FPACKET_NORMAL, ZERO, ZERO, ZERO, ZERO, ZERO, ZERO)
  }

  /** Bit k of the `int32` flags, as two's complement. */
  predicate FlagSet(flags: int, k: nat)
  {
    Uint32(flags) / Pow2(k) % 2 == 1
  }

  /** `flags & mask`, on the flags' two's-complement bits. */
  function FlagsAnd(flags: int, mask: nat): nat
  {
    And(Uint32(flags), mask)
  }

  function GetViewOrigin(s: Split): (v: Triple)
    ensures FlagSet(s.flags, 0) ==> v == s.viewOrigin2
    ensures !FlagSet(s.flags, 0) ==> v == s.viewOrigin
  {
    UsesBit(s.flags, 0);
    if FlagsAnd(s.flags, FPACKET_USE_ORIGIN2) != 0 then s.viewOrigin2 else s.viewOrigin
  }

  function GetViewAngles(s: Split): (v: Triple)
    ensures FlagSet(s.flags, 1) ==> v == s.viewAngles2
    ensures !FlagSet(s.flags, 1) ==> v == s.viewAngles
  {
    UsesBit(s.flags, 1);
    if FlagsAnd(s.flags, FPACKET_USE_ANGLES2) != 0 then s.viewAngles2 else s.viewAngles
  }

  function GetLocalViewAngles(s: Split): (v: Triple)
    ensures FlagSet(s.flags, 1) ==> v == s.localViewAngles2
    ensures !FlagSet(s.flags, 1) ==> v == s.localViewAngles
  {
    UsesBit(s.flags, 1);
    if FlagsAnd(s.flags, FPACKET_USE_ANGLES2) != 0 then s.localViewAngles2 else s.localViewAngles
  }

  /** The masks are single bits: the AND with one is set exactly when that bit of the flags is. */
  lemma {:induction false} UsesBit(flags: int, k: nat)
    requires k <= 1
    ensures FlagsAnd(flags, Pow2(k)) != 0 <==> FlagSet(flags, k)
    ensures Pow2(0) == FPACKET_USE_ORIGIN2 && Pow2(1) == FPACKET_USE_ANGLES2
  {
    Pow2Values();
    AndBit(Uint32(flags), k);
    ShrDiv(Uint32(flags), k);
  }

  lemma {:induction false} ShrDiv(x: nat, k: nat)
    requires k <= 1
    ensures Shr(x, k) == x / Pow2(k)
  {
    assert Pow2(1) == 2;
  }

  /** `Split_t::Reset`: flags cleared, the resampled view set to the original. */
  function ResetSplit(s: Split): (r: Split)
    ensures r.flags == 0
    ensures r.viewOrigin == s.viewOrigin && r.viewAngles == s.viewAngles && r.localViewAngles == s.localViewAngles
  {
    s.(flags := 0, viewOrigin2 := s.viewOrigin, viewAngles2 := s.viewAngles, localViewAngles2 := s.localViewAngles)
  }

  /** After `Reset` every getter gives the original view. */
  lemma {:induction false} ResetGetters(s: Split)
    ensures GetViewOrigin(ResetSplit(s)) == s.viewOrigin
    ensures GetViewAngles(ResetSplit(s)) == s.viewAngles
    ensures GetLocalViewAngles(ResetSplit(s)) == s.localViewAngles
  {
    assert !FlagSet(0, 0) && !FlagSet(0, 1) by { Pow2Values(); }
  }

  /** `packetcmdinfo_t`: one split per splitscreen client. */
  datatype CmdInfo = CmdInfo(u: seq<Split>)

  /** `packetcmdinfo_t::Reset`: every split reset, one after the other. */
  method ResetCmdInfo(info: CmdInfo) returns (r: CmdInfo)
    requires |info.u| == MAX_SPLITSCREEN_CLIENTS
    ensures |r.u| == |info.u|
    ensures forall i :: 0 <= i < |r.u| ==>
      r.u[i].flags == 0 &&
      GetViewOrigin(r.u[i]) == info.u[i].viewOrigin && GetViewAngles(r.u[i]) == info.u[i].viewAngles &&
      GetLocalViewAngles(r.u[i]) == info.u[i].localViewAngles
  {
    var u := info.u;
    var i := 0;
    while i < MAX_SPLITSCREEN_CLIENTS
      invariant 0 <= i <= MAX_SPLITSCREEN_CLIENTS && |u| == |info.u|
      invariant forall j :: 0 <= j < i ==> u[j] == ResetSplit(info.u[j])
      invariant forall j :: i <= j < |u| ==> u[j] == info.u[j]
    {
      ResetGetters(u[i]);
      u := u[i := ResetSplit(u[i])];
      i := i + 1;
    }
    forall j | 0 <= j < |u|
      ensures GetViewOrigin(u[j]) == info.u[j].viewOrigin && GetViewAngles(u[j]) == info.u[j].viewAngles
      ensures GetLocalViewAngles(u[j]) == info.u[j].localViewAngles
    {
      ResetGetters(info.u[j]);
    }
    r := CmdInfo(u);
  }
}

=== FILE: readstring.dfy ===
/**
 `CBitRead::ReadString` (Sniffles/packetbitbuf.cpp): characters are read
 with `ReadChar` until a 0, or a `'\n'` in line mode. At most `maxLen - 1`
 of them are stored (the last slot is the terminating NUL); the rest are
 still consumed but dropped, and the call then reports failure. It also
 reports failure when the reader has overflowed.
 */
module StringRead {
  import opened BitOps
  import opened BitStream
  import opened BitSource
  import opened Fields

  /** The character code of `'\n'`. */
  const Newline: int := 10

  /** The characters that end the string: 0, and `'\n'` in line mode. */
  predicate Stops(c: int, bLine: bool)
  {
    c == 0 || (bLine && c == Newline)
  }

  predicate NoStop(cs: seq<int>, bLine: bool)
  {
    forall i :: 0 <= i < |cs| ==> !Stops(cs[i], bLine)
  }

  /** State of the loop at its end: the stored characters and whether any were dropped. */
  datatype Scan = Scan(chars: seq<int>, tooSmall: bool, rest: Src)

  /** What `ReadString` hands back: its result, the stored characters (their count is `*pOutNumChars`) and the reader. */
  datatype StringResult = StringResult(ok: bool, chars: seq<int>, rest: Src)

  /** A non-terminating character lowers the source's measure, so the loop ends. */
  lemma {:induction false} CharProgress(s: Src)
    requires Valid(s) && ReadChar(s).value != 0
    ensures Measure(ReadChar(s).rest) < Measure(s)
  {
    assert UBits(s, 8).value != 0;
    UBitsProgress(s, 8);
  }

  /** The loop body from the state (stored, tooSmall) on. */
  function StringLoop(s: Src, maxLen: int, bLine: bool, stored: seq<int>, tooSmall: bool): (o: Scan)
    requires Valid(s) && maxLen >= 1 && |stored| <= maxLen - 1 && NoStop(stored, bLine)
    ensures SameBuffer(s, o.rest)
    ensures |stored| <= |o.chars| <= maxLen - 1
    ensures NoStop(o.chars, bLine)
    ensures tooSmall ==> o.tooSmall
    ensures Overflowed(s) ==> Overflowed(o.rest)
    decreases Measure(s)
  {
    var c := ReadChar(s);
    if Stops(c.value, bLine) then Scan(stored, tooSmall, c.rest)
    else
      CharProgress(s);
      if |stored| < maxLen - 1 then StringLoop(c.rest, maxLen, bLine, stored + [c.value], tooSmall)
      else StringLoop(c.rest, maxLen, bLine, stored, true)
  }

  /** `ReadString(pStr, maxLen, bLine, pOutNumChars)`; `maxLen` must leave room for the NUL. */
  function ReadString(s: Src, maxLen: int, bLine: bool): (o: StringResult)
    requires Valid(s) && maxLen >= 1
    ensures SameBuffer(s, o.rest)
    ensures |o.chars| <= maxLen - 1
    ensures NoStop(o.chars, bLine)
    ensures Overflowed(o.rest) ==> !o.ok
  {
    var l := StringLoop(s, maxLen, bLine, [], false);
    StringResult(!Overflowed(l.rest) && !l.tooSmall, l.chars, l.rest)
  }

  // ---- On the stream ---------------------------------------------------------

  /** The `char` values of a run of bytes. */
  function Chars(bs: seq<byte>): (cs: seq<int>)
    ensures |cs| == |bs|
    ensures forall i :: 0 <= i < |bs| ==> cs[i] == Int8(bs[i])
  {
    seq(|bs|, i requires 0 <= i < |bs| => Int8(bs[i]))
  }

  /** The first k characters of cs, or all of them when there are fewer. */
  function Keep(cs: seq<int>, k: nat): (r: seq<int>)
    ensures |r| <= k
  {
    if |cs| <= k then cs else cs[..k]
  }

  /** A byte is a terminator exactly when its `char` is. */
  lemma {:induction false} StopsByte(b: byte, bLine: bool)
    ensures Stops(Int8(b), bLine) <==> Stops(b, bLine)
  {
  }

  /** One more character kept or dropped: the kept prefix of the whole run is unchanged. */
  lemma {:induction false} KeepStep(stored: seq<int>, c: int, cs: seq<int>, k: nat)
    requires |stored| <= k
    ensures |stored| < k ==> Keep(stored + [c] + cs, k) == Keep((stored + [c]) + cs, k)
    ensures |stored| == k ==> Keep(stored + ([c] + cs), k) == Keep(stored + cs, k)
  {
    if |stored| == k {
      assert (stored + ([c] + cs))[..k] == stored;
      assert (stored + cs)[..k] == stored;
    }
  }

  /** The stored characters and the too-small flag after one more character c. */
  function Push(stored: seq<int>, c: int, k: nat): seq<int>
  {
    if |stored| < k then stored + [c] else stored
  }

  /** One non-terminating byte b at p: the loop keeps or drops it and carries on after it. */
  lemma {:induction false} ScanStep(d: seq<byte>, p: nat, b: byte, maxLen: int, bLine: bool, stored: seq<int>, tooSmall: bool)
    requires maxLen >= 1 && |stored| <= maxLen - 1 && NoStop(stored, bLine)
    requires p + 8 <= 8 * |d| && Bits(d, p, 8) == b && !Stops(b, bLine)
    ensures NoStop(Push(stored, Int8(b), maxLen - 1), bLine)
    ensures StringLoop(Ideal(d, Live(p)), maxLen, bLine, stored, tooSmall)
         == StringLoop(Ideal(d, Live(p + 8)), maxLen, bLine, Push(stored, Int8(b), maxLen - 1), tooSmall || |stored| == maxLen - 1)
  {
    IdealUBits(d, p, 8);
    StopsByte(b, bLine);
    assert ReadChar(Ideal(d, Live(p))) == Out(Int8(b), Ideal(d, Live(p + 8)));
  }

  /** Pushing the first character of a run, then keeping the rest, keeps the same prefix. */
  lemma {:induction false} KeepPush(stored: seq<int>, bs: seq<byte>, k: nat)
    requires |stored| <= k && |bs| > 0
    ensures Keep(Push(stored, Int8(bs[0]), k) + Chars(bs[1..]), k) == Keep(stored + Chars(bs), k)
  {
    var c := Int8(bs[0]);
    assert Chars(bs) == [c] + Chars(bs[1..]);
    assert stored + Chars(bs) == (stored + [c]) + Chars(bs[1..]);
    KeepStep(stored, c, Chars(bs[1..]), k);
  }

  /**
   Reading a run of non-terminating bytes: the loop keeps as many as fit,
   marks the call too small if any were dropped, and carries on after them.
   */
  lemma {:induction false} ScanRun(d: seq<byte>, p: nat, bs: seq<byte>, maxLen: int, bLine: bool, stored: seq<int>, tooSmall: bool)
    requires maxLen >= 1 && |stored| <= maxLen - 1 && NoStop(stored, bLine)
    requires Holds(d, p, ByteFields(bs)) && forall i :: 0 <= i < |bs| ==> !Stops(bs[i], bLine)
    ensures NoStop(Keep(stored + Chars(bs), maxLen - 1), bLine)
    ensures StringLoop(Ideal(d, Live(p)), maxLen, bLine, stored, tooSmall)
         == StringLoop(Ideal(d, Live(p + 8 * |bs|)), maxLen, bLine, Keep(stored + Chars(bs), maxLen - 1),
                       tooSmall || |stored| + |bs| > maxLen - 1)
    decreases |bs|
  {
    var k := maxLen - 1;
    if |bs| == 0 {
      assert stored + Chars(bs) == stored;
    } else {
      var fs := ByteFields(bs);
      HoldsHead(d, p, fs, 8);
      assert fs[1..] == ByteFields(bs[1..]);
      ScanStep(d, p, bs[0], maxLen, bLine, stored, tooSmall);
      var stored' := Push(stored, Int8(bs[0]), k);
      var tooSmall' := tooSmall || |stored| == k;
      ScanRun(d, p + 8, bs[1..], maxLen, bLine, stored', tooSmall');
      KeepPush(stored, bs, k);
      var kept := Keep(stored + Chars(bs), k);
      assert kept == Keep(stored' + Chars(bs[1..]), k);
      assert (tooSmall' || |stored'| + |bs| - 1 > k) == (tooSmall || |stored| + |bs| > k);
      assert p + 8 + 8 * |bs[1..]| == p + 8 * |bs|;
      assert NoStop(kept, bLine);
    }
  }

  /** A terminating byte ends the loop just after it. */
  lemma {:induction false} ScanStop(d: seq<byte>, p: nat, t: byte, maxLen: int, bLine: bool, stored: seq<int>, tooSmall: bool)
    requires maxLen >= 1 && |stored| <= maxLen - 1 && NoStop(stored, bLine)
    requires p + 8 <= 8 * |d| && Bits(d, p, 8) == t && Stops(t, bLine)
    ensures StringLoop(Ideal(d, Live(p)), maxLen, bLine, stored, tooSmall) == Scan(stored, tooSmall, Ideal(d, Live(p + 8)))
  {
    IdealUBits(d, p, 8);
    StopsByte(t, bLine);
  }

  /** At the end of the buffer the read returns 0: the loop ends and the cursor is dead. */
  lemma {:induction false} ScanEnd(d: seq<byte>, p: nat, maxLen: int, bLine: bool, stored: seq<int>, tooSmall: bool)
    requires maxLen >= 1 && |stored| <= maxLen - 1 && NoStop(stored, bLine)
    requires p + 8 > 8 * |d|
    ensures StringLoop(Ideal(d, Live(p)), maxLen, bLine, stored, tooSmall) == Scan(stored, tooSmall, Ideal(d, Cursor.Dead))
  {
    IdealPastEnd(d, p, 8);
  }

  /**
   The string bs followed by a terminator t reads back as bs, cut to
   `maxLen - 1` characters; the call succeeds exactly when nothing was cut,
   and the cursor ends just after the terminator.
   */
  lemma {:induction false} ReadStringRoundTrip(d: seq<byte>, p: nat, bs: seq<byte>, t: byte, maxLen: int, bLine: bool)
    requires maxLen >= 1 && Stops(t, bLine) && forall i :: 0 <= i < |bs| ==> !Stops(bs[i], bLine)
    requires Holds(d, p, ByteFields(bs + [t]))
    ensures ReadString(Ideal(d, Live(p)), maxLen, bLine)
         == StringResult(|bs| <= maxLen - 1, Keep(Chars(bs), maxLen - 1), Ideal(d, Live(p + 8 * |bs| + 8)))
  {
    Terminated(d, p, bs, t);
    ScanTerminated(d, p, bs, t, maxLen, bLine);
  }

  /** The loop over a terminated run stores its first `maxLen - 1` characters and stops after the terminator. */
  lemma {:induction false} ScanTerminated(d: seq<byte>, p: nat, bs: seq<byte>, t: byte, maxLen: int, bLine: bool)
    requires maxLen >= 1 && Stops(t, bLine) && forall i :: 0 <= i < |bs| ==> !Stops(bs[i], bLine)
    requires Holds(d, p, ByteFields(bs))
    requires p + 8 * |bs| + 8 <= 8 * |d| && Bits(d, p + 8 * |bs|, 8) == t
    ensures StringLoop(Ideal(d, Live(p)), maxLen, bLine, [], false)
         == Scan(Keep(Chars(bs), maxLen - 1), |bs| > maxLen - 1, Ideal(d, Live(p + 8 * |bs| + 8)))
  {
    var cs: seq<int> := [] + Chars(bs);
    ScanRun(d, p, bs, maxLen, bLine, [], false);
    ScanStop(d, p + 8 * |bs|, t, maxLen, bLine, Keep(cs, maxLen - 1), |bs| > maxLen - 1);
    assert cs == Chars(bs);
  }

  /** A stream holding bs and then t holds bs, and t right after it. */
  lemma {:induction false} Terminated(d: seq<byte>, p: nat, bs: seq<byte>, t: byte)
    requires Holds(d, p, ByteFields(bs + [t]))
    ensures Holds(d, p, ByteFields(bs))
    ensures p + 8 * |bs| + 8 <= 8 * |d| && Bits(d, p + 8 * |bs|, 8) == t
  {
    var fs := ByteFields(bs + [t]);
    HoldsBytesSplit(d, p, fs, |bs|);
    assert fs[..|bs|] == ByteFields(bs);
    assert fs[|bs|..] == [Field(8, t)];
  }

  /**
   A string that runs to the end of the buffer without a terminator: the
   characters that fit are returned and the call fails, the reader being
   past the end.
   */
  lemma {:induction false} ReadStringUnterminated(d: seq<byte>, p: nat, bs: seq<byte>, maxLen: int, bLine: bool)
    requires maxLen >= 1 && forall i :: 0 <= i < |bs| ==> !Stops(bs[i], bLine)
    requires Holds(d, p, ByteFields(bs)) && p + 8 * |bs| + 8 > 8 * |d|
    ensures ReadString(Ideal(d, Live(p)), maxLen, bLine)
         == StringResult(false, Keep(Chars(bs), maxLen - 1), Ideal(d, Cursor.Dead))
  {
    assert [] + Chars(bs) == Chars(bs);
    ScanRun(d, p, bs, maxLen, bLine, [], false);
    var kept := Keep(Chars(bs), maxLen - 1);
    ScanEnd(d, p + 8 * |bs|, maxLen, bLine, kept, |bs| > maxLen - 1);
  }

  /** Fields fs held from p split into the first k and the rest. */
  lemma {:induction false} HoldsBytesSplit(d: seq<byte>, p: nat, fs: seq<Field>, k: nat)
    requires Holds(d, p, fs) && k <= |fs| && forall i :: 0 <= i < |fs| ==> fs[i].width == 8
    ensures Holds(d, p, fs[..k]) && Holds(d, p + 8 * k, fs[k..])
    decreases k
  {
    if k > 0 {
      HoldsBytesSplit(d, p + 8, fs[1..], k - 1);
      assert fs[1..][..k - 1] == fs[..k][1..];
      assert fs[1..][k - 1..] == fs[k..];
      HoldsRoom(d, p + 8 + 8 * (k - 1), fs[k..]);
    } else {
      HoldsRoom(d, p, fs);
      assert fs[..0] == [];
    }
  }

  // ---- Real reader -----------------------------------------------------------

  lemma {:induction false} StringLoopAgree(a: Src, b: Src, maxLen: int, bLine: bool, stored: seq<int>, tooSmall: bool)
    requires Corr(a, b) && maxLen >= 1 && |stored| <= maxLen - 1 && NoStop(stored, bLine)
    ensures StringLoop(a, maxLen, bLine, stored, tooSmall).chars == StringLoop(b, maxLen, bLine, stored, tooSmall).chars
    ensures StringLoop(a, maxLen, bLine, stored, tooSmall).tooSmall == StringLoop(b, maxLen, bLine, stored, tooSmall).tooSmall
    ensures Corr(StringLoop(a, maxLen, bLine, stored, tooSmall).rest, StringLoop(b, maxLen, bLine, stored, tooSmall).rest)
    decreases Measure(b)
  {
    CorrOverflow(a, b);
    UBitsAgree(a, b, 8);
    var x := ReadChar(a);
    var y := ReadChar(b);
    if !Stops(y.value, bLine) {
      CharProgress(b);
      if |stored| < maxLen - 1 {
        StringLoopAgree(x.rest, y.rest, maxLen, bLine, stored + [y.value], tooSmall);
      } else {
        StringLoopAgree(x.rest, y.rest, maxLen, bLine, stored, true);
      }
    }
  }

  /** `ReadString` on the word-cached reader gives what the stream model gives. */
  lemma {:induction false} ReadStringAgree(a: Src, b: Src, maxLen: int, bLine: bool)
    requires Corr(a, b) && maxLen >= 1
    ensures ReadString(a, maxLen, bLine).ok == ReadString(b, maxLen, bLine).ok
    ensures ReadString(a, maxLen, bLine).chars == ReadString(b, maxLen, bLine).chars
    ensures Corr(ReadString(a, maxLen, bLine).rest, ReadString(b, maxLen, bLine).rest)
  {
    StringLoopAgree(a, b, maxLen, bLine, [], false);
    var l := StringLoop(a, maxLen, bLine, [], false);
    var m := StringLoop(b, maxLen, bLine, [], false);
    CorrOverflow(l.rest, m.rest);
  }
}

=== FILE: str.dfy ===
/**
 The string helpers of Sniffles/str.h: `String`, a heap string with a
 length and a buffer size, and `string_t`, a C-string holder that compares
 by buffer identity.

 C strings are `seq<char>` without NUL; a `String`'s buffer is its text
 followed by the terminator. `size_t` is 32 bits wide on the source's
 target, and `_size` is an `int`: the model keeps strings shorter than
 2^31 - 1 characters, where `_length + 1` does not wrap.
 */
module Str {
  import opened BitOps
  import opened Wrappers

  // ---- C strings ----------------------------------------------------------------------

  predicate NulFree(s: seq<char>)
  {
    forall i :: 0 <= i < |s| ==> s[i] != '\0'
  }

  /** The longest C string a `String` can hold without `_size` wrapping. */
  const MAX_LENGTH: nat := 0x7FFF_FFFE

  /** `String::npos`: `size_t(-1)`. */
  const NPOS: nat := 0xFFFF_FFFF

  // ---- String -------------------------------------------------------------------------

  /**
   `_string`, `_length` and `_size`. `None` is the null buffer of a default
   `String`; `text` holds the characters before the terminator.
   */
  datatype String = String(text: Option<seq<char>>, length: nat, size: int)

  /** What every constructor and operator keeps: size is length + 1 over a NUL-free buffer, or all empty. */
  predicate Valid(s: String)
  {
    match s.text
    case None => s.length == 0 && s.size == 0
    case Some(t) => NulFree(t) && s.length == |t| <= MAX_LENGTH && s.size == s.length + 1
  }

  /** `String()`: no buffer. */
  function Empty(): (s: String)
    ensures Valid(s) && s.text.None? && CStr(s) == []
  {
    String(None, 0, 0)
  }

  /** `String(const char*)` and `String(char*)`: a copy of the C string. */
  function FromCStr(c: seq<char>): (s: String)
    requires NulFree(c) && |c| <= MAX_LENGTH
    ensures Valid(s) && CStr(s) == c && s.length == |c| && s.size == |c| + 1
  {
    String(Some(c), |c|, |c| + 1)
  }

  /** `CStr()`: the buffer, or `""` when there is none. */
  function CStr(s: String): (c: seq<char>)
    requires Valid(s)
    ensures NulFree(c) && |c| == s.length
  {
    if s.text.Some? then s.text.value else []
  }

  /** The buffer as the source indexes it: the text and its terminator; nothing when null. */
  function Buffer(s: String): (b: seq<char>)
    requires Valid(s)
    ensures s.text.Some? ==> |b| == s.length + 1 && b[s.length] == '\0' && b[.. s.length] == CStr(s)
    ensures s.text.None? ==> b == []
  {
    if s.text.Some? then s.text.value + ['\0'] else []
  }

  /**
   `operator+(char*)`, `operator+(const char*)`: a new `String` holding the
   receiver's text, then rhs. The receiver is a value and stays as it was.
   `strlen(_string)` needs a buffer, so a default receiver is excluded.
   */
  function Plus(a: String, rhs: seq<char>): (r: String)
    requires Valid(a) && a.text.Some? && NulFree(rhs) && a.length + |rhs| <= MAX_LENGTH
    ensures Valid(r) && r.text.Some?
    ensures CStr(r) == CStr(a) + rhs && r.length == a.length + |rhs| && r.size == r.length + 1
  {
    var t := a.text.value + rhs;
    assert NulFree(t) by {
      forall i | 0 <= i < |t| ensures t[i] != '\0' {
        if i >= |a.text.value| {
          assert t[i] == rhs[i - |a.text.value|];
        }
      }
    }
    String(Some(t), |t|, |t| + 1)
  }

  /** `operator+(String&)`: the right operand's `CStr()`, appended. */
  function PlusString(a: String, b: String): (r: String)
    requires Valid(a) && a.text.Some? && Valid(b) && a.length + b.length <= MAX_LENGTH
    ensures Valid(r) && CStr(r) == CStr(a) + CStr(b) && r.length == a.length + b.length
  {
    Plus(a, CStr(b))
  }

  /**
   `operator+=` (all three string overloads): the receiver takes the new
   buffer, length and size, and the operator returns a second `String` with
   the same length, size and buffer. The pair is (receiver, returned); object
   identity is not tracked by this value model.
   */
  function PlusAssign(a: String, rhs: seq<char>): (r: (String, String))
    requires Valid(a) && a.text.Some? && NulFree(rhs) && a.length + |rhs| <= MAX_LENGTH
    ensures r.0 == r.1 && Valid(r.0)
    ensures CStr(r.0) == CStr(a) + rhs && r.0.length == a.length + |rhs| && r.0.size == r.0.length + 1
  {
    var t := Plus(a, rhs);
    (t, t)
  }

  function PlusAssignString(a: String, b: String): (r: (String, String))
    requires Valid(a) && a.text.Some? && Valid(b) && a.length + b.length <= MAX_LENGTH
    ensures r.0 == r.1 && Valid(r.0) && CStr(r.0) == CStr(a) + CStr(b)
  {
    PlusAssign(a, CStr(b))
  }

  /** Appending twice is appending the two parts at once. */
  lemma {:induction false} PlusAssociates(a: String, b: seq<char>, c: seq<char>)
    requires Valid(a) && a.text.Some? && NulFree(b) && NulFree(c) && a.length + |b| + |c| <= MAX_LENGTH
    ensures NulFree(b + c)
    ensures Plus(Plus(a, b), c) == Plus(a, b + c)
  {
    assert NulFree(b + c) by {
      forall i | 0 <= i < |b + c| ensures (b + c)[i] != '\0' {
        if i >= |b| {
          assert (b + c)[i] == c[i - |b|];
        }
      }
    }
    assert a.text.value + b + c == a.text.value + (b + c);
  }

  /**
   `operator[](index)`: the character at index when `0 <= index < _size`,
   so `index == length` gives the terminator; any other index gives the
   first character. A default `String` has no first character to give.
   */
  function At(s: String, index: int): (c: char)
    requires Valid(s) && s.text.Some?
    ensures 0 <= index < s.length ==> c == CStr(s)[index]
    ensures index == s.length ==> c == '\0'
    ensures (index < 0 || index > s.length) ==> c == (if s.length == 0 then '\0' else CStr(s)[0])
  {
    var b := Buffer(s);
    if 0 <= index < s.size then b[index] else b[0]
  }

  /** Indexing a sum: the left text, then the right text, then the terminator. */
  lemma {:induction false} AtPlus(a: String, rhs: seq<char>, index: int)
    requires Valid(a) && a.text.Some? && NulFree(rhs) && a.length + |rhs| <= MAX_LENGTH
    requires 0 <= index <= a.length + |rhs|
    ensures index < a.length ==> At(Plus(a, rhs), index) == At(a, index)
    ensures a.length <= index < a.length + |rhs| ==> At(Plus(a, rhs), index) == rhs[index - a.length]
    ensures index == a.length + |rhs| ==> At(Plus(a, rhs), index) == '\0'
  {
  }

  // ---- find ---------------------------------------------------------------------------

  /** The pattern p occurs in t at i. */
  predicate MatchAt(t: seq<char>, p: seq<char>, i: nat)
  {
    i + |p| <= |t| && t[i .. i + |p|] == p
  }

  /**
   `find` as evidently intended (both overloads: `String& P` is read through
   `P[j]` with `j < P.length()`, which is `CStr(P)[j]`): the first position
   of the pattern, 0 for an empty pattern, `npos` when there is none. A
   pattern longer than the text has no occurrence.
   */
  method Find(s: String, p: seq<char>) returns (r: nat)
    requires Valid(s) && NulFree(p)
    ensures r == NPOS <==> forall i :: 0 <= i <= s.length ==> !MatchAt(CStr(s), p, i)
    ensures r != NPOS ==> MatchAt(CStr(s), p, r) && forall i :: 0 <= i < r ==> !MatchAt(CStr(s), p, i)
  {
    var t := CStr(s);
    var n, m := |t|, |p|;
    if m > n {
      return NPOS;
    }
    var i := 0;
    while i <= n - m
      invariant 0 <= i <= n - m + 1
      invariant forall k :: 0 <= k < i ==> !MatchAt(t, p, k)
    {
      var j := 0;
      while j < m && t[i + j] == p[j]
        invariant 0 <= j <= m
        invariant t[i .. i + j] == p[.. j]
      {
        assert t[i .. i + j + 1] == t[i .. i + j] + [t[i + j]];
        assert p[.. j + 1] == p[.. j] + [p[j]];
        j := j + 1;
      }
      if j == m {
        assert p[.. j] == p;
        assert MatchAt(t, p, i);
        return i;
      }
      assert i + m > n || t[i .. i + m][j] != p[j];
      i := i + 1;
    }
    return NPOS;
  }

  /** `find(String& P)`: the search for `P.CStr()`. */
  method FindString(s: String, pattern: String) returns (r: nat)
    requires Valid(s) && Valid(pattern)
    ensures r == NPOS <==> forall i :: 0 <= i <= s.length ==> !MatchAt(CStr(s), CStr(pattern), i)
    ensures r != NPOS ==> MatchAt(CStr(s), CStr(pattern), r)
    ensures r != NPOS ==> forall i :: 0 <= i < r ==> !MatchAt(CStr(s), CStr(pattern), i)
  {
    r := Find(s, CStr(pattern));
  }

  /** What the loop of `find` as written ends with: a match, none, or a read of `_string[index]` past the buffer. */
  datatype Scan = Found(at: nat) | NotFound | Overrun(index: nat)

  /**
   `find` as written: the outer loop runs `i` up to `n - m` computed in
   `size_t`, which wraps when the pattern is longer than the text, and each
   read of `_string[i + j]` is checked here against the buffer's end.
   On a pattern no longer than the text this is the intended search; on a
   longer one the loop walks past the terminator and reads `_string[n + 1]`
   (or `_string[0]` of a null buffer).
   */
  method FindAsWritten(s: String, p: seq<char>) returns (r: Scan)
    requires Valid(s) && NulFree(p) && |p| < NPOS
    ensures |p| <= s.length ==> !r.Overrun?
    ensures r.Found? ==> MatchAt(CStr(s), p, r.at) && forall i :: 0 <= i < r.at ==> !MatchAt(CStr(s), p, i)
    ensures r.NotFound? <==> |p| <= s.length && forall i :: 0 <= i <= s.length ==> !MatchAt(CStr(s), p, i)
    ensures |p| > s.length && s.text.Some? ==> r == Overrun(s.length + 1)
    ensures |p| > 0 && s.text.None? ==> r == Overrun(0)
  {
    var t, b := CStr(s), Buffer(s);
    var n, m := |t|, |p|;
    var bound := Uint32(n - m);
    assert m <= n ==> bound == n - m;
    assert m > n ==> bound == TWO32 + n - m >= n + 1;
    var i := 0;
    while i <= bound
      invariant 0 <= i <= bound + 1
      invariant forall k :: 0 <= k < i ==> !MatchAt(t, p, k)
      invariant m <= n ==> i <= n - m + 1
      invariant m > n && s.text.Some? ==> i <= n + 1
      invariant m > 0 && s.text.None? ==> i == 0
      invariant m == 0 ==> i == 0
      decreases bound + 1 - i
    {
      var j := 0;
      while j < m
        invariant 0 <= j <= m
        invariant i + j <= |b| && b[i .. i + j] == p[.. j]
        invariant m > n && s.text.Some? && i <= n ==> i + j <= n
      {
        if i + j >= |b| {
          OverrunAt(s, p, i, j);
          return Overrun(i + j);
        }
        if b[i + j] != p[j] {
          break;
        }
        assert b[i .. i + j + 1] == b[i .. i + j] + [b[i + j]];
        assert p[.. j + 1] == p[.. j] + [p[j]];
        assert b[i + j] == p[j] != '\0';
        j := j + 1;
      }
      if j == m {
        FoundAt(s, p, i);
        return Found(i);
      }
      assert i + m > n || t[i .. i + m][j] == b[i + j] != p[j];
      i := i + 1;
    }
    return NotFound;
  }

  /** The one place a read can pass the buffer: one past the terminator, or the first read of a null buffer. */
  lemma {:induction false} OverrunAt(s: String, p: seq<char>, i: nat, j: nat)
    requires Valid(s) && NulFree(p) && j < |p|
    requires i + j >= |Buffer(s)| && i + j <= |Buffer(s)|
    requires |p| <= s.length ==> i <= s.length - |p| + 1
    requires |p| > s.length && s.text.Some? ==> i <= s.length + 1 && (i <= s.length ==> i + j <= s.length)
    requires |p| > 0 && s.text.None? ==> i == 0
    ensures |p| > s.length
    ensures s.text.Some? ==> i + j == s.length + 1
    ensures s.text.None? ==> i + j == 0
  {
  }

  /** A match in the buffer of a NUL-free pattern lies within the text. */
  lemma {:induction false} FoundAt(s: String, p: seq<char>, i: nat)
    requires Valid(s) && NulFree(p)
    requires i + |p| <= |Buffer(s)| && Buffer(s)[i .. i + |p|] == p[.. |p|]
    requires i == 0 || |p| > 0
    ensures MatchAt(CStr(s), p, i)
  {
    var b := Buffer(s);
    assert p[.. |p|] == p;
    assert forall k :: i <= k < i + |p| ==> b[k] == b[i .. i + |p|][k - i] == p[k - i] != '\0';
    if s.text.Some? {
      assert i + |p| <= s.length;
      assert b[i .. i + |p|] == CStr(s)[i .. i + |p|];
    }
  }

  /**
   A pattern longer than its text, written out: the text "a" and the
   pattern "ab". The search as written reads `_string[2]`, one byte past
   the terminator; the intended search answers `npos`.
   */
  method FindPastEnd() returns (written: Scan, intended: nat)
    ensures written == Overrun(2) && intended == NPOS
  {
    var s := FromCStr("a");
    written := FindAsWritten(s, "ab");
    intended := Find(s, "ab");
  }

  // ---- string_t ---------------------------------------------------------------------

  /**
   `string_t`: `buffer` is the address of `pszValue` (0 for null) and
   `text` what it points to. Addresses come from the allocator, so the
   constructors take them as parameters.
   */
  datatype StringT = StringT(buffer: nat, text: seq<char>)

  /** `string_t()`: a null pointer. */
  function NewStringT(): (s: StringT)
    ensures IsNull(s) && ToCStr(s) == []
  {
    StringT(0, [])
  }

  /** `string_t(const char*)`: a fresh buffer at `address` holding a copy. */
  function StringTFrom(c: seq<char>, address: nat): (s: StringT)
    requires address > 0 && NulFree(c)
    ensures !IsNull(s) && ToCStr(s) == c && s.buffer == address
  {
    StringT(address, c)
  }

  /** `string_t(const string_t&)`: a fresh buffer holding a copy of the other's `ToCStr()`. */
  function StringTCopy(other: StringT, address: nat): (s: StringT)
    requires address > 0
    ensures !IsNull(s) && ToCStr(s) == ToCStr(other) && s.buffer == address
  {
    StringT(address, ToCStr(other))
  }

  /** `operator!`. */
  predicate IsNull(s: StringT)
  {
    s.buffer == 0
  }

  /** `ToCStr()`: the text, or `""` for a null pointer. */
  function ToCStr(s: StringT): (c: seq<char>)
    ensures IsNull(s) ==> c == []
  {
    if s.buffer == 0 then [] else s.text
  }

  /** `operator==`, `operator!=`, `operator<`: on the pointers. */
  predicate Equal(a: StringT, b: StringT)
  {
    a.buffer == b.buffer
  }

  predicate Less(a: StringT, b: StringT)
  {
    a.buffer < b.buffer
  }

  /**
   Comparison is by identity: a copy in a buffer of its own has the same
   text and is still unequal to its source, and of two such strings exactly
   one is less than the other.
   */
  lemma {:induction false} CopyIsDistinct(other: StringT, address: nat)
    requires address > 0 && address != other.buffer
    ensures var c := StringTCopy(other, address);
      ToCStr(c) == ToCStr(other) && !Equal(c, other) && (Less(c, other) != Less(other, c))
  {
  }

  /** `operator<` is a strict order, and `operator==` is exactly neither being less. */
  lemma {:induction false} LessIsStrictOrder(a: StringT, b: StringT, c: StringT)
    ensures !Less(a, a)
    ensures Less(a, b) && Less(b, c) ==> Less(a, c)
    ensures Equal(a, b) <==> !Less(a, b) && !Less(b, a)
  {
  }
}

=== FILE: varint.dfy ===
/**
 The base-128 varints of `CBitRead` (Sniffles/packetbitbuf.cpp), in the
 encoding of the Protocol Buffers guide ("Base 128 Varints"): each byte
 carries seven value bits, least significant group first, and bit 7 says
 whether another byte follows. The readers stop after a fixed number of
 bytes whatever bit 7 says, returning what they have.
 */
module VarInt {
  import opened BitOps
  import opened BitStream
  import opened BitSource

  /** `bitbuf::kMaxVarint32Bytes` and `bitbuf::kMaxVarintBytes`. */
  const MaxVarint32Bytes: nat := 5
  const MaxVarintBytes: nat := 10

  /**
   The loop of `ReadVarInt32` / `ReadVarInt64` from byte `count` on:
   `result |= (b & 0x7F) << (7 * count)` in a `width`-bit unsigned type,
   while bit 7 of the byte b is set and fewer than `maxBytes` bytes were read.
   */
  function VarIntLoop(s: Src, result: nat, count: nat, maxBytes: nat, width: nat): (o: Out<nat>)
    requires Valid(s) && count <= maxBytes && result < Pow2(width)
    ensures SameBuffer(s, o.rest)
    ensures o.value < Pow2(width)
    ensures Overflowed(s) ==> Overflowed(o.rest)
    decreases maxBytes - count, 1
  {
    if count == maxBytes then Out(result, s)
    else VarIntNext(UBits(s, 8), result, count, maxBytes, width)
  }

  /** One pass of the loop body once the byte b has been read. */
  function VarIntNext(b: Out<nat>, result: nat, count: nat, maxBytes: nat, width: nat): (o: Out<nat>)
    requires Valid(b.rest) && count < maxBytes && result < Pow2(width)
    ensures SameBuffer(b.rest, o.rest)
    ensures o.value < Pow2(width)
    ensures Overflowed(b.rest) ==> Overflowed(o.rest)
    decreases maxBytes - count, 0
  {
    var r := VarIntAccumulate(result, b.value, count, width);
    if And(b.value, 0x80) != 0 then VarIntLoop(b.rest, r, count + 1, maxBytes, width)
    else Out(r, b.rest)
  }

  /** `result | ((b & 0x7F) << (7 * count))` truncated to `width` bits. */
  function VarIntAccumulate(result: nat, b: nat, count: nat, width: nat): (r: nat)
    requires result < Pow2(width)
    ensures r < Pow2(width)
  {
    LowBound(Shl(And(b, 0x7F), 7 * count), width);
    OrBound(result, Low(Shl(And(b, 0x7F), 7 * count), width), width);
    Or(result, Low(Shl(And(b, 0x7F), 7 * count), width))
  }

  /** `ReadVarInt32`: at most five bytes into a `uint32`. */
  function ReadVarInt32(s: Src): (o: Out<nat>)
    requires Valid(s)
    ensures SameBuffer(s, o.rest)
    ensures o.value < TWO32
    ensures Overflowed(s) ==> Overflowed(o.rest)
  {
    Pow2Word();
    VarIntLoop(s, 0, 0, MaxVarint32Bytes, 32)
  }

  /** `ReadVarInt64`: at most ten bytes into a `uint64`. */
  function ReadVarInt64(s: Src): (o: Out<nat>)
    requires Valid(s)
    ensures SameBuffer(s, o.rest)
    ensures o.value < TWO64
    ensures Overflowed(s) ==> Overflowed(o.rest)
  {
    Pow2Values();
    VarIntLoop(s, 0, 0, MaxVarintBytes, 64)
  }

  /**
   `bitbuf::ZigZagDecode32`: even codes are the non-negative values, odd
   codes the negative ones.
   */
  function ZigZagDecode32(n: nat): (v: int)
    ensures n < TWO32 ==> -TWO31 <= v < TWO31
    ensures v >= 0 <==> n % 2 == 0
  {
    if n % 2 == 0 then n / 2 else -(n / 2) - 1
  }

  /** `bitbuf::ZigZagEncode32`, the writer's side. */
  function ZigZagEncode32(v: int): (n: nat)
    ensures -TWO31 <= v < TWO31 ==> n < TWO32
  {
    if v >= 0 then 2 * v else -2 * v - 1
  }

  lemma {:induction false} ZigZagRoundTrip(v: int, n: nat)
    ensures ZigZagDecode32(ZigZagEncode32(v)) == v
    ensures ZigZagEncode32(ZigZagDecode32(n)) == n
  {
  }

  /** `ReadSignedVarInt32`: a `ReadVarInt32` code, ZigZag-decoded. */
  function ReadSignedVarInt32(s: Src): (o: Out<int>)
    requires Valid(s)
    ensures o.rest == ReadVarInt32(s).rest
    ensures ZigZagEncode32(o.value) == ReadVarInt32(s).value
    ensures -TWO31 <= o.value < TWO31
  {
    var u := ReadVarInt32(s);
    ZigZagRoundTrip(0, u.value);
    Out(ZigZagDecode32(u.value), u.rest)
  }

  // ---- Writer side and round trip ------------------------------------------

  /** The bytes a writer emits for v: seven bits at a time, bit 7 set on all but the last. */
  function VarIntFields(v: nat): (fs: seq<Field>)
    ensures Fits(fs) && |fs| >= 1
    ensures forall i :: 0 <= i < |fs| ==> fs[i].width == 8
    ensures Width(fs) == 8 * |fs|
    decreases v
  {
    Pow2Values();
    LowBound(v, 7);
    if v < 128 then [Field(8, v)]
    else
      ShrLess(v, 7);
      var tail := VarIntFields(Shr(v, 7));
      var fs := [Field(8, Low(v, 7) + 128)] + tail;
      assert fs[1..] == tail;
      fs
  }

  /** A value below 2^(7m) takes at most m bytes. */
  lemma {:induction false} VarIntLength(v: nat, m: nat)
    requires m >= 1 && v < Pow2(7 * m)
    ensures |VarIntFields(v)| <= m
    decreases v
  {
    Pow2Values();
    if v >= 128 {
      if m == 1 {
        assert false;
      }
      ShrLess(v, 7);
      assert 7 * m == 7 * (m - 1) + 7;
      ShrBound(v, 7 * (m - 1), 7);
      VarIntLength(Shr(v, 7), m - 1);
    }
  }

  /** The byte of a continued group: its low seven bits, and bit 7 set. */
  lemma {:induction false} ContinuedByte(g: nat)
    requires g < 128
    ensures And(g + 128, 0x7F) == g && And(g + 128, 0x80) != 0
  {
    Pow2Values();
    Split(g, 1, 7);
    assert Shl(1, 7) == 128;
    AndLowMask(g + 128, 7);
    AndShl(g + 128, 1, 7);
    assert And(1, 1) == 1;
  }

  /** The last byte: the group itself, with bit 7 clear. */
  lemma {:induction false} FinalByte(g: nat)
    requires g < 128
    ensures And(g, 0x7F) == g && And(g, 0x80) == 0
  {
    Pow2Values();
    AndLowMask(g, 7);
    Small(g, 7);
    AndHighIrrelevant(g, 0x80, 7);
    assert Low(0x80, 7) == 0;
  }

  /** Adding a group above the bits accumulated so far. */
  lemma {:induction false} AccumulateGroup(result: nat, g: nat, count: nat, width: nat, b: nat)
    requires result < Pow2(7 * count) && g < 128 && Shl(g, 7 * count) < Pow2(width)
    requires result < Pow2(width) && And(b, 0x7F) == g
    ensures VarIntAccumulate(result, b, count, width) == result + Shl(g, 7 * count)
    ensures result + Shl(g, 7 * count) < Pow2(7 * count + 7)
  {
    Pow2Values();
    Small(Shl(g, 7 * count), width);
    OrComm(result, Shl(g, 7 * count));
    OrDisjoint(result, g, 7 * count);
    ConcatBound(result, g, 7 * count, 7);
  }

  /** The arithmetic of one continued group: v splits into its low group and the rest. */
  lemma {:induction false} ContinuedGroup(result: nat, v: nat, count: nat, width: nat)
    requires v >= 128 && result < Pow2(7 * count) && result + Shl(v, 7 * count) < Pow2(width)
    ensures var r := result + Shl(Low(v, 7), 7 * count);
            VarIntAccumulate(result, Low(v, 7) + 128, count, width) == r &&
            r < Pow2(7 * (count + 1)) &&
            r + Shl(Shr(v, 7), 7 * (count + 1)) == result + Shl(v, 7 * count)
  {
    var k := 7 * count;
    var g := Low(v, 7);
    GroupSplit(v, k);
    LowBound(v, 7);
    assert Pow2(7) == 128;
    ContinuedByte(g);
    AccumulateGroup(result, g, count, width, g + 128);
    assert 7 * (count + 1) == k + 7;
  }

  /** v shifted by k is its low group shifted by k plus the rest shifted by k + 7. */
  lemma {:induction false} GroupSplit(v: nat, k: nat)
    ensures Shl(v, k) == Shl(Low(v, 7), k) + Shl(Shr(v, 7), k + 7)
    ensures Shl(Low(v, 7), k) <= Shl(v, k)
  {
    Decompose(v, 7);
    ShlLinear(Low(v, 7), Shl(Shr(v, 7), 7), k);
    ShlAdd(Shr(v, 7), 7, k);
    ShlNonneg(Shr(v, 7), k + 7);
  }

  /**
   The bytes of an encoding as the loop sees them: eight-bit fields, bit 7
   set on each but the last.
   */
  ghost predicate ByteRun(fs: seq<Field>)
    decreases |fs|
  {
    |fs| >= 1 && fs[0].width == 8 &&
    if |fs| == 1 then And(fs[0].value, 0x80) == 0
    else And(fs[0].value, 0x80) != 0 && ByteRun(fs[1..])
  }

  /** What the loop accumulates from the bytes fs, starting at byte `count`. */
  function Fold(fs: seq<Field>, result: nat, count: nat, width: nat): (r: nat)
    requires result < Pow2(width)
    ensures r < Pow2(width)
    decreases |fs|
  {
    if |fs| == 0 then result
    else Fold(fs[1..], VarIntAccumulate(result, fs[0].value, count, width), count + 1, width)
  }

  /** Reading a byte run from the stream: the loop consumes exactly those bytes and folds them. */
  lemma {:induction false} LoopReadsRun(d: seq<byte>, p: nat, fs: seq<Field>, result: nat, count: nat, maxBytes: nat, width: nat)
    requires Holds(d, p, fs) && ByteRun(fs)
    requires count + |fs| <= maxBytes && result < Pow2(width)
    ensures VarIntLoop(Ideal(d, Live(p)), result, count, maxBytes, width)
         == Out(Fold(fs, result, count, width), Ideal(d, Live(p + 8 * |fs|)))
    decreases |fs|
  {
    var b := LoopHead(d, p, fs, result, count, maxBytes, width);
    var r := VarIntAccumulate(result, fs[0].value, count, width);
    assert Fold(fs, result, count, width) == Fold(fs[1..], r, count + 1, width);
    if |fs| == 1 {
      assert Fold(fs[1..], r, count + 1, width) == r;
      assert VarIntNext(b, result, count, maxBytes, width) == Out(r, b.rest);
    } else {
      LoopContinues(b, result, r, count, maxBytes, width);
      LoopReadsRun(d, p + 8, fs[1..], r, count + 1, maxBytes, width);
    }
  }

  /** The loop reads the first byte of a stream holding the byte fields fs. */
  lemma {:induction false} LoopHead(d: seq<byte>, p: nat, fs: seq<Field>, result: nat, count: nat, maxBytes: nat, width: nat)
    returns (b: Out<nat>)
    requires Holds(d, p, fs) && |fs| > 0 && fs[0].width == 8
    requires count < maxBytes && result < Pow2(width)
    ensures b == Out(fs[0].value, Ideal(d, Live(p + 8)))
    ensures Holds(d, p + 8, fs[1..])
    ensures VarIntLoop(Ideal(d, Live(p)), result, count, maxBytes, width) == VarIntNext(b, result, count, maxBytes, width)
  {
    HoldsHead(d, p, fs, 8);
    b := Out(fs[0].value, Ideal(d, Live(p + 8)));
  }

  /** After a byte with bit 7 set the loop goes on from the next byte. */
  lemma {:induction false} LoopContinues(b: Out<nat>, result: nat, r: nat, count: nat, maxBytes: nat, width: nat)
    requires Valid(b.rest) && count < maxBytes && result < Pow2(width)
    requires And(b.value, 0x80) != 0 && VarIntAccumulate(result, b.value, count, width) == r
    ensures VarIntNext(b, result, count, maxBytes, width) == VarIntLoop(b.rest, r, count + 1, maxBytes, width)
  {
  }

  /** The writer's bytes for v form a byte run. */
  lemma {:induction false} FieldsRun(v: nat)
    ensures ByteRun(VarIntFields(v))
    decreases v
  {
    var fs := VarIntFields(v);
    LowBound(v, 7);
    Pow2Values();
    if v < 128 {
      FinalByte(v);
    } else {
      ContinuedByte(Low(v, 7));
      ShrLess(v, 7);
      FieldsRun(Shr(v, 7));
      assert fs[1..] == VarIntFields(Shr(v, 7));
    }
  }

  /** Folding the writer's bytes for v above `result` adds v shifted into place. */
  lemma {:induction false} FoldFields(v: nat, result: nat, count: nat, width: nat)
    requires result < Pow2(7 * count) && result + Shl(v, 7 * count) < Pow2(width)
    ensures Fold(VarIntFields(v), result, count, width) == result + Shl(v, 7 * count)
    decreases v
  {
    var fs := VarIntFields(v);
    if v < 128 {
      FinalByte(v);
      ShlNonneg(v, 7 * count);
      AccumulateGroup(result, v, count, width, v);
      assert fs == [Field(8, v)];
      assert Fold(fs, result, count, width) == Fold([], result + Shl(v, 7 * count), count + 1, width);
    } else {
      var u, r := ContinuedSplit(result, v, count, width);
      assert Fold(fs, result, count, width) == Fold(VarIntFields(u), r, count + 1, width);
      FoldFields(u, r, count + 1, width);
    }
  }

  /**
   A continued byte: the loop adds the low group of v, giving r, and goes on
   with the encoding of the rest u.
   */
  lemma {:induction false} ContinuedSplit(result: nat, v: nat, count: nat, width: nat) returns (u: nat, r: nat)
    requires v >= 128 && result < Pow2(7 * count) && result + Shl(v, 7 * count) < Pow2(width)
    ensures u < v && VarIntFields(v)[1..] == VarIntFields(u)
    ensures VarIntAccumulate(result, VarIntFields(v)[0].value, count, width) == r
    ensures r < Pow2(7 * (count + 1)) && r + Shl(u, 7 * (count + 1)) == result + Shl(v, 7 * count)
  {
    u := Shr(v, 7);
    r := result + Shl(Low(v, 7), 7 * count);
    assert VarIntFields(v)[0].value == Low(v, 7) + 128;
    ContinuedGroup(result, v, count, width);
    ShrLess(v, 7);
  }

  /** Reading the encoding of v with `result` already accumulated below it. */
  lemma {:induction false} VarIntLoopReads(d: seq<byte>, p: nat, v: nat, result: nat, count: nat, maxBytes: nat, width: nat)
    requires Holds(d, p, VarIntFields(v))
    requires count + |VarIntFields(v)| <= maxBytes
    requires result < Pow2(7 * count) && result + Shl(v, 7 * count) < Pow2(width)
    ensures VarIntLoop(Ideal(d, Live(p)), result, count, maxBytes, width)
         == Out(result + Shl(v, 7 * count), Ideal(d, Live(p + 8 * |VarIntFields(v)|)))
  {
    FieldsRun(v);
    FoldFields(v, result, count, width);
    LoopReadsRun(d, p, VarIntFields(v), result, count, maxBytes, width);
  }

  /** `ReadVarInt32` reads back every `uint32` from its writer's bytes, at most five of them. */
  lemma {:induction false} VarInt32RoundTrip(d: seq<byte>, p: nat, v: nat)
    requires v < TWO32 && Holds(d, p, VarIntFields(v))
    ensures |VarIntFields(v)| <= MaxVarint32Bytes
    ensures ReadVarInt32(Ideal(d, Live(p))) == Out(v, Ideal(d, Live(p + 8 * |VarIntFields(v)|)))
  {
    Pow2Word();
    assert Pow2(35) >= Pow2(32) by { Pow2Mono(32, 35); }
    VarIntLength(v, 5);
    VarIntLoopReads(d, p, v, 0, 0, MaxVarint32Bytes, 32);
  }

  /** `ReadVarInt64` reads back every `uint64` from its writer's bytes, at most ten of them. */
  lemma {:induction false} VarInt64RoundTrip(d: seq<byte>, p: nat, v: nat)
    requires v < TWO64 && Holds(d, p, VarIntFields(v))
    ensures |VarIntFields(v)| <= MaxVarintBytes
    ensures ReadVarInt64(Ideal(d, Live(p))) == Out(v, Ideal(d, Live(p + 8 * |VarIntFields(v)|)))
  {
    Pow2Values();
    assert Pow2(70) >= Pow2(64) by { Pow2Mono(64, 70); }
    VarIntLength(v, 10);
    VarIntLoopReads(d, p, v, 0, 0, MaxVarintBytes, 64);
  }

  /** A signed value ZigZag-encoded and written as a varint reads back unchanged. */
  lemma {:induction false} SignedVarInt32RoundTrip(d: seq<byte>, p: nat, v: int)
    requires -TWO31 <= v < TWO31 && Holds(d, p, VarIntFields(ZigZagEncode32(v)))
    ensures ReadSignedVarInt32(Ideal(d, Live(p))).value == v
    ensures ReadSignedVarInt32(Ideal(d, Live(p))).rest == Ideal(d, Live(p + 8 * |VarIntFields(ZigZagEncode32(v))|))
  {
    var s := Ideal(d, Live(p));
    VarInt32RoundTrip(d, p, ZigZagEncode32(v));
    ZigZagInjective(ReadSignedVarInt32(s).value, v);
  }

  /** Distinct values have distinct ZigZag codes. */
  lemma {:induction false} ZigZagInjective(a: int, b: int)
    requires ZigZagEncode32(a) == ZigZagEncode32(b)
    ensures a == b
  {
    ZigZagRoundTrip(a, 0);
    ZigZagRoundTrip(b, 0);
  }

  // ---- Bounded consumption --------------------------------------------------

  /**
   On the stream the loop reads whole bytes and never more than the bytes
   left before the cap: a live cursor after it has moved by 8 to
   8 * (maxBytes - count) bits, exactly the cap when every byte read had
   bit 7 set.
   */
  lemma {:induction false} VarIntLoopBounded(d: seq<byte>, p: nat, result: nat, count: nat, maxBytes: nat, width: nat)
    requires count <= maxBytes && result < Pow2(width)
    ensures VarIntLoop(Ideal(d, Live(p)), result, count, maxBytes, width).rest.Ideal?
    ensures WithinCap(VarIntLoop(Ideal(d, Live(p)), result, count, maxBytes, width).rest.c, p, maxBytes - count)
    decreases maxBytes - count
  {
    var s := Ideal(d, Live(p));
    if count < maxBytes {
      var b := UBits(s, 8);
      var r := VarIntAccumulate(result, b.value, count, width);
      assert VarIntLoop(s, result, count, maxBytes, width) == VarIntNext(b, result, count, maxBytes, width);
      if And(b.value, 0x80) != 0 {
        assert VarIntNext(b, result, count, maxBytes, width) == VarIntLoop(b.rest, r, count + 1, maxBytes, width);
        if b.rest.c.Live? {
          assert b.rest.c == Live(p + 8);
          VarIntLoopBounded(d, p + 8, r, count + 1, maxBytes, width);
          WithinCapStep(VarIntLoop(b.rest, r, count + 1, maxBytes, width).rest.c, p, maxBytes - count - 1);
        } else {
          VarIntLoopDead(d, r, count + 1, maxBytes, width);
        }
      } else {
        assert VarIntNext(b, result, count, maxBytes, width).rest == b.rest;
      }
    } else {
      assert VarIntLoop(s, result, count, maxBytes, width).rest == s;
    }
  }

  /**
   A cursor after reading whole bytes from bit p, at most m of them and at
   least one when m > 0; or a dead one.
   */
  ghost predicate WithinCap(c: Cursor, p: nat, m: nat)
  {
    c.Live? ==> p <= c.pos <= p + 8 * m && (c.pos - p) % 8 == 0 && (m > 0 ==> p < c.pos)
  }

  lemma {:induction false} WithinCapStep(c: Cursor, p: nat, m: nat)
    requires WithinCap(c, p + 8, m)
    ensures WithinCap(c, p, m + 1)
  {
  }

  /** Once the cursor is dead the loop reads zero bytes with bit 7 clear and stops. */
  lemma {:induction false} VarIntLoopDead(d: seq<byte>, result: nat, count: nat, maxBytes: nat, width: nat)
    requires count <= maxBytes && result < Pow2(width)
    ensures VarIntLoop(Ideal(d, Cursor.Dead), result, count, maxBytes, width).rest == Ideal(d, Cursor.Dead)
  {
    if count < maxBytes {
      var s := Ideal(d, Cursor.Dead);
      assert UBits(s, 8) == Out(0, s);
      assert And(0, 0x80) == 0;
    }
  }

  /** The m bytes from bit p are inside the buffer and all have bit 7 set. */
  ghost predicate ContinuedFrom(d: seq<byte>, p: nat, m: nat)
    decreases m
  {
    m == 0 || (p + 8 <= 8 * |d| && And(Bits(d, p, 8), 0x80) != 0 && ContinuedFrom(d, p + 8, m - 1))
  }

  /** Five continued bytes: `ReadVarInt32` stops at the cap, 40 bits on, without overflow. */
  lemma {:induction false} VarInt32Capped(d: seq<byte>, p: nat)
    requires ContinuedFrom(d, p, MaxVarint32Bytes)
    ensures ReadVarInt32(Ideal(d, Live(p))).rest == Ideal(d, Live(p + 40))
  {
    Pow2Word();
    VarIntLoopCapped(d, p, 0, 0, 5, 32);
  }

  lemma {:induction false} VarIntLoopCapped(d: seq<byte>, p: nat, result: nat, count: nat, maxBytes: nat, width: nat)
    requires count <= maxBytes && result < Pow2(width)
    requires ContinuedFrom(d, p, maxBytes - count)
    ensures VarIntLoop(Ideal(d, Live(p)), result, count, maxBytes, width).rest == Ideal(d, Live(p + 8 * (maxBytes - count)))
    decreases maxBytes - count
  {
    if count < maxBytes {
      var r := CappedStep(d, p, result, count, maxBytes, width);
      VarIntLoopCapped(d, p + 8, r, count + 1, maxBytes, width);
    }
  }

  /** One continued byte inside the buffer: the loop carries on from the next byte. */
  lemma {:induction false} CappedStep(d: seq<byte>, p: nat, result: nat, count: nat, maxBytes: nat, width: nat)
    returns (r: nat)
    requires count < maxBytes && result < Pow2(width) && p + 8 <= 8 * |d|
    requires And(Bits(d, p, 8), 0x80) != 0
    ensures r < Pow2(width)
    ensures VarIntLoop(Ideal(d, Live(p)), result, count, maxBytes, width)
         == VarIntLoop(Ideal(d, Live(p + 8)), r, count + 1, maxBytes, width)
  {
    var s := Ideal(d, Live(p));
    IdealUBits(d, p, 8);
    var b := UBits(s, 8);
    r := VarIntAccumulate(result, b.value, count, width);
    assert VarIntLoop(s, result, count, maxBytes, width) == VarIntNext(b, result, count, maxBytes, width);
  }

  // ---- A varint cut short by the end of the buffer ---------------------------

  lemma {:induction false} LowLe(x: nat, k: nat)
    ensures Low(x, k) <= x
  {
    if k > 0 {
      LowLe(x / 2, k - 1);
    }
  }

  /** A zero byte adds nothing to the result. */
  lemma {:induction false} AccumulateZero(result: nat, count: nat, width: nat)
    requires result < Pow2(width)
    ensures VarIntAccumulate(result, 0, count, width) == result
  {
    ShlIsMul(0, 7 * count);
    Small(0, width);
  }

  /** After byte `count` the result has at most 7 * (count + 1) bits. */
  lemma {:induction false} AccumulateBound(result: nat, b: nat, count: nat, width: nat)
    requires result < Pow2(width) && result < Pow2(7 * count)
    ensures VarIntAccumulate(result, b, count, width) < Pow2(7 * count + 7)
  {
    var x := And(b, 0x7F);
    Pow2Values();
    AndLowMask(b, 7);
    LowBound(b, 7);
    ShlBound(x, 7, 7 * count);
    LowLe(Shl(x, 7 * count), width);
    Pow2Mono(7 * count, 7 * count + 7);
    OrBound(result, Low(Shl(x, 7 * count), width), 7 * count + 7);
  }

  /**
   When the cursor dies inside a varint, the byte that did not fit reads 0
   and ends the loop: the value holds only the bytes before it, at most
   `maxBytes - 1` of them.
   */
  lemma {:induction false} VarIntLoopCut(d: seq<byte>, c: Cursor, result: nat, count: nat, maxBytes: nat, width: nat)
    requires count < maxBytes && result < Pow2(width) && result < Pow2(7 * count)
    ensures var o := VarIntLoop(Ideal(d, c), result, count, maxBytes, width);
      o.rest.c.Dead? ==> o.value < Pow2(7 * (maxBytes - 1))
    decreases maxBytes - count
  {
    var s := Ideal(d, c);
    var b := UBits(s, 8);
    var r := VarIntAccumulate(result, b.value, count, width);
    assert VarIntLoop(s, result, count, maxBytes, width) == VarIntNext(b, result, count, maxBytes, width);
    if b.rest.c.Dead? {
      assert b.value == 0;
      AccumulateZero(result, count, width);
      assert And(0, 0x80) == 0;
      Pow2Mono(7 * count, 7 * (maxBytes - 1));
    } else if And(b.value, 0x80) != 0 && count + 1 < maxBytes {
      AccumulateBound(result, b.value, count, width);
      VarIntLoopCut(d, b.rest.c, r, count + 1, maxBytes, width);
    }
  }

  /** A `ReadVarInt32` that kills the cursor read at most four bytes: its value is below 2^28. */
  lemma {:induction false} VarInt32Cut(d: seq<byte>, c: Cursor)
    ensures ReadVarInt32(Ideal(d, c)).rest.c.Dead? ==> ReadVarInt32(Ideal(d, c)).value < 0x1000_0000
  {
    Pow2Values();
    VarIntLoopCut(d, c, 0, 0, MaxVarint32Bytes, 32);
  }

  // ---- Real reader -----------------------------------------------------------

  lemma {:induction false} VarIntLoopAgree(a: Src, b: Src, result: nat, count: nat, maxBytes: nat, width: nat)
    requires Corr(a, b) && count <= maxBytes && result < Pow2(width)
    ensures VarIntLoop(a, result, count, maxBytes, width).value == VarIntLoop(b, result, count, maxBytes, width).value
    ensures Corr(VarIntLoop(a, result, count, maxBytes, width).rest, VarIntLoop(b, result, count, maxBytes, width).rest)
    decreases maxBytes - count
  {
    if count < maxBytes {
      UBitsAgree(a, b, 8);
      var x := UBits(a, 8);
      var y := UBits(b, 8);
      var r := VarIntAccumulate(result, x.value, count, width);
      assert VarIntLoop(a, result, count, maxBytes, width) == VarIntNext(x, result, count, maxBytes, width);
      assert VarIntLoop(b, result, count, maxBytes, width) == VarIntNext(y, result, count, maxBytes, width);
      if And(x.value, 0x80) != 0 {
        VarIntLoopAgree(x.rest, y.rest, r, count + 1, maxBytes, width);
      }
    }
  }

  lemma {:induction false} VarInt32Agree(a: Src, b: Src)
    requires Corr(a, b)
    ensures ReadVarInt32(a).value == ReadVarInt32(b).value
    ensures Corr(ReadVarInt32(a).rest, ReadVarInt32(b).rest)
  {
    Pow2Word();
    VarIntLoopAgree(a, b, 0, 0, MaxVarint32Bytes, 32);
  }

  lemma {:induction false} VarInt64Agree(a: Src, b: Src)
    requires Corr(a, b)
    ensures ReadVarInt64(a).value == ReadVarInt64(b).value
    ensures Corr(ReadVarInt64(a).rest, ReadVarInt64(b).rest)
  {
    Pow2Values();
    VarIntLoopAgree(a, b, 0, 0, MaxVarintBytes, 64);
  }

  lemma {:induction false} SignedVarInt32Agree(a: Src, b: Src)
    requires Corr(a, b)
    ensures ReadSignedVarInt32(a).value == ReadSignedVarInt32(b).value
    ensures Corr(ReadSignedVarInt32(a).rest, ReadSignedVarInt32(b).rest)
  {
    VarInt32Agree(a, b);
  }
}

=== FILE: wrappers.dfy ===
/** The optional value the rest of the model returns where the source has a null pointer or no result. */
module Wrappers {
  datatype Option<T> = None | Some(value: T)
}
